=== FILE: README.md ===
# AI Trace Datasets — a Dafny model of its core logic

AI Trace Datasets is a dataset-labelling application made of two generations of one product:

- An image-labelling service (`backend/`, FastAPI) with a React client (`frontend/src/core`). Datasets hold images. Each image carries a set of labels (boolean or category). The service keeps per-dataset image and labelled-image counters, authenticates clients by JWT or by API key, and exports datasets as CSV or Parquet rows.
- A review service (`src/aitrace`, FastAPI) with a Vue client (the router and stores under `frontend/src`). Teams own schemas of typed fields. Datasets on those schemas hold rows, each `pending` or `reviewed`. Rows are imported from and exported to CSV. Accounts have temporary passwords, a last-administrator rule and a one-time first-run setup.

This project models the deterministic logic under the HTTP, database and UI plumbing, as immutable Dafny datatypes and pure functions:

- label value coercion, CSV column inference and bulk-import accounting;
- label defaulting and payload completion on every save path;
- pagination arithmetic on both sides of the wire;
- image-count bookkeeping;
- the category and label editors;
- export row shaping;
- the account, token, role and setup state machines;
- the small client state containers: stores, key and flag lists, the image viewer, and the router guard.

The database is a value: maps keyed by id, or a sequence where the source depends on table order. Everything the code obtains from outside becomes a parameter of the operation, so each operation is a function of its inputs:

- network replies, the clock and fresh ids;
- password hashing and checking, token decoding, image hashing and UUID parsing;
- the image-type sniffer, signed storage URLs, random bytes and the AI title.

A JavaScript object with insertion-ordered keys is modelled as `Records.Rec`, a sequence of key/value pairs with unique keys.

The dataset and schema stores of the Vue client are the same code over different entities. `ListStore` models them once, for any entity with an id, citing the dataset store.

## Model

| member | source | states |
|---|---|---|
| BulkImport.GuessUrlColumn | frontend/src/core/components/BulkImportDialog.tsx:164-174 | the URL column is the first header mentioning url, image or img (case-insensitive), else the first header; none only when there are no headers |
| BulkImport.GuessNameMapping | frontend/src/core/components/BulkImportDialog.tsx:176-181 | name mapping is enabled exactly when some header mentions "name" (case-insensitive), and then uses the first such header; otherwise it is disabled with an empty column |
| BulkImport.GuessLabelColumn | frontend/src/core/components/BulkImportDialog.tsx:188-214 | a label keeps its name; it is either left as it was or enabled on a non-empty header; a header equal to the label name up to case wins over a substring match |
| BulkImport.GuessLabelColumnPicksFirst | frontend/src/core/components/BulkImportDialog.tsx:188-214 | the mapping takes the first header equal to the label name up to case; when that first one is missing or empty, the first header containing the name; when that is also missing or empty, the mapping stays as it was |
| BulkImport.GuessLabelMappings | frontend/src/core/components/BulkImportDialog.tsx:185-216 | matching runs over every label mapping, keeping their number and order |
| BulkImport.ParseValueForLabel | frontend/src/core/components/BulkImportDialog.tsx:278-331 | an unknown label returns the raw value; a boolean label always yields a boolean; a category label always yields one of its values (or "" when it has none); any other type yields `String(value)` |
| BulkImport.ParseBoolean | frontend/src/core/components/BulkImportDialog.tsx:283-305 | booleans pass through, numbers map to non-zero, a string is true exactly when its trimmed lower-case form is one of true/t/yes/y/1, and everything else is false |
| BulkImport.ParseCategory | frontend/src/core/components/BulkImportDialog.tsx:306-328 | the result is always one of the possible values, or "" when there are none; an exact member after trimming is returned as it is |
| BulkImport.ParseCategoryFallback | frontend/src/core/components/BulkImportDialog.tsx:315-327 | when the trimmed text is not a value, the result is the first value equal to it up to case; with no such value it is the first value |
| BulkImport.ParseCategoryIgnoresCase | frontend/src/core/components/BulkImportDialog.tsx:315-324 | with values Cat and Dog, the cell `dog` becomes `Dog` |
| BulkImport.ParseValueIdempotent | frontend/src/core/components/BulkImportDialog.tsx:278-331 | coercing an already-coerced cell again changes nothing, when the category values are stored trimmed |
| BulkImport.BooleanWordsRecognised | frontend/src/core/components/BulkImportDialog.tsx:288-298 | every yes/no word in any letter case, with blanks around it, maps to the intended boolean |
| BulkImport.RowLabels | frontend/src/core/components/BulkImportDialog.tsx:372-386 | with no dataset labels nothing is sent; otherwise each entry comes from an enabled mapping with a column the row has, and carries the coerced cell |
| BulkImport.MappedLabelsInOrder | frontend/src/core/components/BulkImportDialog.tsx:374-385 | there is one entry per sending mapping and no other: the entry of mapping `i` sits right after the entries of the sending mappings before it |
| BulkImport.RowLabelsInOrder | frontend/src/core/components/BulkImportDialog.tsx:372-386 | when the dataset defines labels, the row's entries are exactly the sending mappings' entries, one each, in mapping order |
| BulkImport.RowRequest | frontend/src/core/components/BulkImportDialog.tsx:362-398 | a request is sent exactly when the URL cell is a non-empty string; it carries that URL and the row's label entries; `is_labeled` holds exactly when some label is sent; the name is the name column's cell when the name mapping is on, names a column and that cell is truthy, and null otherwise |
| BulkImport.RowFate | frontend/src/core/components/BulkImportDialog.tsx:364-429 | a row without a request fails; a row is imported exactly when its request got a created image, and is a duplicate exactly when it got a 409 |
| BulkImport.ProcessImages | frontend/src/core/components/BulkImportDialog.tsx:334-461 | with no rows or no URL column nothing is sent; otherwise success + failed + conflicts equals the row count, success and conflicts count the imported and duplicate rows, the image list holds the imported images in row order, requests are sent in row order, and the view is notified exactly when success > 0 |
| Labels.SaveDefault | frontend/src/core/pages/DatasetView.tsx:673-681 | the save default is a boolean exactly for a boolean label, and then `false`; a category gets an admissible value; any other type gets "" |
| Labels.InitDefault | frontend/src/core/components/InlineImageLabeler.tsx:69-81 | the starting value is a boolean exactly for a boolean label; otherwise a string that is "" or one of the possible values |
| Labels.DefaultsAgree | frontend/src/core/components/InlineImageLabeler.tsx:69-107 | for boolean and category labels the form's starting value equals the save default, and both fit the definition |
| Labels.FillValue | frontend/src/core/components/InlineImageLabeler.tsx:100-105 | the saved value is never null; a present non-null value is kept; an undefined or null value becomes the save default |
| Labels.CompleteLabels | frontend/src/core/pages/DatasetView.tsx:673-681 | the payload has one entry per dataset label, in definition order, each filled as `FillValue` says |
| Labels.CompleteLabelsAdmissible | frontend/src/core/components/InlineImageLabeler.tsx:99-107 | when the current values fit their labels, every payload entry fits the label it names |
| Labels.CompleteLabelsIdempotent | frontend/src/core/components/InlineImageLabeler.tsx:99-126 | completing the record built from a completed payload gives the same payload again |
| Labels.NormalizeLabels | frontend/src/core/pages/DatasetView.tsx:353-367 | the normalised labels are a record with unique names |
| Labels.ArrayAndObjectFormsAgree | frontend/src/core/pages/DatasetView.tsx:353-367 | array-form `{name, value}` labels and the same labels as an object normalise to the same record, and the object form normalises to itself |
| Labelers.FillMissingValues | frontend/src/core/components/InlineImageLabeler.tsx:69-81 | filling never overwrites a present value (even null); a defined label that was undefined gets its starting value; other keys stay absent |
| Labelers.FillMissingUnique | frontend/src/core/components/InlineImageLabeler.tsx:69-81 | filling keeps label names unique |
| Labelers.InlineInit | frontend/src/core/components/InlineImageLabeler.tsx:45-85 | while the dataset labels are unknown the values stay as they were; otherwise the result has unique names |
| Labelers.InlineSave | frontend/src/core/components/InlineImageLabeler.tsx:87-107 | nothing is sent exactly when the dataset or image id is missing; otherwise one non-null entry per dataset label, in order |
| Labelers.SavedRecordMatchesPayload | frontend/src/core/components/InlineImageLabeler.tsx:123-126 | the record handed to the parent after a save maps each dataset label to the value that was sent for it |
| Labelers.InitThenSave | frontend/src/core/components/InlineImageLabeler.tsx:45-107 | saving a freshly initialised form sends the same payload as saving the image's own labels |
| Labelers.ChangeValueOnlyThatLabel | frontend/src/core/components/InlineImageLabeler.tsx:152-168 | after a change the changed label reads the new value and every other label reads what it read before |
| Labelers.ChangeValue | frontend/src/core/components/InlineImageLabeler.tsx:152-168 | a change keeps label names unique |
| Labelers.EditorDefault | frontend/src/core/components/ImageLabelEditor.tsx:65 | the editor's default (`false`, else the first possible value unless it is empty, else "") equals the inline labeller's starting value |
| Labelers.EditorInit | frontend/src/core/components/ImageLabelEditor.tsx:52-72 | a closed dialog, or one without current labels, leaves the form as it was |
| Labelers.EditorInitValues | frontend/src/core/components/ImageLabelEditor.tsx:52-72 | an opened editor shows each current value; once the dataset labels are known, each missing label gets its default; nothing else appears |
| Labelers.EditorSubmit | frontend/src/core/components/ImageLabelEditor.tsx:74-91 | nothing is sent exactly when the dataset or image id is missing; otherwise one `{name, value}` per form entry, in order |
| Labelers.EditorPayloadRoundTrip | frontend/src/core/components/ImageLabelEditor.tsx:88-91 | the editor's payload, read back as a record, is the form itself |
| Pagination.FloorDiv | backend/src/ai_trace_datasets/core/routes/datasets_images.py:63 | Python's `//`: the quotient rounds toward negative infinity for either sign of the divisor |
| Pagination.TotalPages | src/aitrace/models/base.py:36-39 | a zero page size raises; for a positive page size the page count is the least number of pages that holds every item, and it is 0 exactly when there are no items |
| Pagination.ListHeaders | backend/src/ai_trace_datasets/core/routes/datasets_images.py:61-66 | `X-Page-Size` is the limit; for a positive limit the current page is the page holding the offset and the page count matches `total_pages`; otherwise both are 1 |
| Pagination.PageOffset | frontend/src/core/pages/DatasetView.tsx:151 | the offset for page p is (p - 1) times the page size, never negative for p >= 1 |
| Pagination.ApplyHeaders | frontend/src/core/pages/DatasetView.tsx:196-217 | missing headers fall back to 0 items, the requested page size, page 1 and one page; at least one page is always stored |
| Pagination.PageRoundTrip | frontend/src/core/pages/DatasetView.tsx:151 | asking for page p and reading the server's headers back lands on page p, keeps the page size, and shows exactly enough pages for the items |
| Pagination.PageNumbers | frontend/src/core/pages/DatasetView.tsx:253-271 | for 1 <= current <= total the buttons are consecutive pages inside 1..total, include the current page, and number min(5, total) |
| Pagination.PrevPage | frontend/src/core/pages/DatasetView.tsx:289 | the previous button never goes below page 1 and steps back one page when it can |
| Pagination.NextPage | frontend/src/core/pages/DatasetView.tsx:317 | the next button never goes past the last page and steps forward one page when it can |
| DatasetView.TabFromPath | frontend/src/core/pages/DatasetView.tsx:96-101 | the tab is "labeled" exactly when the path contains `/labeled`, "queued" exactly when it contains `/queued` but not `/labeled`, "tests" exactly when it contains only `/tests` of the three, else "all" |
| DatasetView.TabPath | frontend/src/core/pages/DatasetView.tsx:106-126 | the path for a chosen tab always starts with `/dataset/<id>` |
| DatasetView.TabRoundTrip | frontend/src/core/pages/DatasetView.tsx:96-126 | for a dataset id written as a UUID, navigating to a tab and reading the tab back from the path gives the chosen tab |
| DatasetView.ImagesQuery | frontend/src/core/pages/DatasetView.tsx:145-173 | `is_labeled` is true exactly on the labeled tab, false exactly on the queued tab and absent otherwise; the search is sent exactly when it is non-empty; limit is the page size and offset is (page - 1) times it |
| DatasetView.QueryKeepsPage | frontend/src/core/pages/DatasetView.tsx:145-217 | fetching the current page and applying the headers the server returns for that query keeps the view on the same page |
| DatasetView.ProcessImagesState | frontend/src/core/pages/DatasetView.tsx:340-376 | loading a page replaces the list; every loaded image gets its comment and name ("" when missing), a cleared edit flag and its labels as a name-to-value record; every other image keeps its four entries |
| DatasetView.LoadedImageState | frontend/src/core/pages/DatasetView.tsx:347-367 | for distinct image ids, the entries recorded for the i-th loaded image are its own comment, name, cleared flag and normalised labels |
| DatasetView.OtherImageState | frontend/src/core/pages/DatasetView.tsx:342-345 | an image id not on the loaded page keeps its comment, name, edit flag and labels |
| DatasetView.ImagesUploaded | frontend/src/core/pages/DatasetView.tsx:499-501 | uploaded images are appended after the current list in their order |
| DatasetView.ImagesUploadedState | frontend/src/core/pages/DatasetView.tsx:509-514 | an uploaded image starts with an empty comment, its name ("" when missing), a cleared edit flag and no label values |
| DatasetView.WithoutImage | frontend/src/core/pages/DatasetView.tsx:643 | the filtered list holds exactly the images whose id differs and is no longer than before |
| DatasetView.ImageRemoved | frontend/src/core/pages/DatasetView.tsx:641-665 | the removed id leaves the list and loses its comment, name, edit flag and labels; every other id keeps its entries; tab and page stay |
| DatasetView.ReplaceImage | frontend/src/core/pages/DatasetView.tsx:720-722 | the list keeps its length; every image with the id becomes the server's answer and every other image stays |
| DatasetView.QueueImage | frontend/src/core/pages/DatasetView.tsx:771-803 | on the labeled tab the queued image leaves the list; on any other tab it is replaced in place by the server's answer; comments and labels stay |
| DatasetView.ChangeTab | frontend/src/core/pages/DatasetView.tsx:106-126 | choosing a tab selects it and goes back to page 1, keeping the page size and the list |
| DatasetView.SearchChanged | frontend/src/core/pages/DatasetView.tsx:470-477 | a settled search change goes back to page 1 once the dataset is loaded and changes nothing before; page size and tab stay |
| DatasetView.SaveImagePayload | frontend/src/core/pages/DatasetView.tsx:668-700 | the save request carries one non-null value for every dataset label in order, the edited name and comment, and `is_labeled: true` exactly when the first listed image with that id is unlabeled |
| DatasetView.SavePayloadValues | frontend/src/core/pages/DatasetView.tsx:673-681 | a label value the image already has is sent unchanged; a missing or null one is replaced by the label's save default |
| AdminPanel.FetchUsers | frontend/src/core/components/AdminPanel.tsx:81-102 | in SaaS mode the list is always emptied without a request; otherwise a fetched list replaces it and a failed fetch keeps the old one |
| AdminPanel.CreateUser | frontend/src/core/components/AdminPanel.tsx:134-156 | in SaaS mode nothing is sent; a successful creation closes the dialog and resets the form to an empty user with role `user`; a failure changes nothing |
| AdminPanel.UpdatePassword | frontend/src/core/components/AdminPanel.tsx:158-181 | in SaaS mode nothing is sent; success closes the dialog and clears its data; a failure changes nothing |
| AdminPanel.DeleteUser | frontend/src/core/components/AdminPanel.tsx:183-207 | nothing is sent without a selected (non-empty) id or in SaaS mode; only a successful delete closes the dialog and clears the selection |
| AdminPanel.ReplaceFlag | frontend/src/core/components/AdminPanel.tsx:214-216 | the flag list keeps its length; every flag with the answer's id becomes the answer and the others stay |
| AdminPanel.ToggleFlag | frontend/src/core/components/AdminPanel.tsx:209-233 | the server is asked for the opposite state of the flag; its answer is put in place by id; a failure leaves the panel unchanged |
| AdminPanel.ToggleFlipsOnlyThatFlag | frontend/src/core/components/AdminPanel.tsx:209-216 | when the server echoes the flipped flag, the toggled flag is flipped and every other flag stays |
| AdminPanel.DeleteKey | frontend/src/core/components/AdminPanel.tsx:274-300 | a successful delete removes exactly the keys with that id and keeps every other key once, in its order; it touches nothing else in the panel; a failure changes nothing |
| AdminPanel.DisplayName | frontend/src/core/components/AdminPanel.tsx:541 | the display name has the name's length and no underscore |
| AdminPanel.DisplayNameIdempotent | frontend/src/core/components/AdminPanel.tsx:541 | prettifying a display name again changes nothing |
| AdminPanel.DisplayNameExample | frontend/src/core/components/AdminPanel.tsx:541 | `ai_name` is shown as `Ai Name` |
| DeveloperKeys.Loaded | frontend/src/core/components/DeveloperKeysDialog.tsx:30-42 | a loaded list replaces the keys and clears the error; a failed load shows the load error and keeps the list |
| DeveloperKeys.Create | frontend/src/core/components/DeveloperKeysDialog.tsx:51-65 | a created key's preview goes to the front of the list and row 0 shows the full key once; a failure shows the create error and keeps list and shown key |
| DeveloperKeys.Delete | frontend/src/core/components/DeveloperKeysDialog.tsx:67-81 | a row that does not exist changes nothing; a successful delete removes exactly that row; a failure keeps the list and shows the delete error |
| DeveloperKeys.CreateThenDeleteRestores | frontend/src/core/components/DeveloperKeysDialog.tsx:51-81 | creating a key and then deleting row 0 gives back the original list |
| DeveloperKeys.CopyValue | frontend/src/core/components/DeveloperKeysDialog.tsx:44-49 | the clipboard gets the full key when one is given, else the row's non-empty preview, else nothing; never an empty string |
| ImageFullView.ZoomIn | frontend/src/core/components/ImageFullView.tsx:30-32 | zooming in adds a quarter to the scale, capped at 3, and keeps the rotation |
| ImageFullView.ZoomOut | frontend/src/core/components/ImageFullView.tsx:34-36 | zooming out removes a quarter, floored at 0.5, and keeps the rotation |
| ImageFullView.Rotate | frontend/src/core/components/ImageFullView.tsx:38-40 | rotating adds a quarter turn modulo 360 and keeps the scale |
| ImageFullView.Reset | frontend/src/core/components/ImageFullView.tsx:42-45 | reset gives scale 1 and no rotation |
| ImageFullView.RunStaysReachable | frontend/src/core/components/ImageFullView.tsx:25-45 | from the opening view, any sequence of controls keeps the scale within 0.5 to 3 and the rotation one of 0, 90, 180, 270 |
| ImageFullView.FourTurnsIsIdentity | frontend/src/core/components/ImageFullView.tsx:38-40 | four rotations return to the starting view |
| ImageFullView.ZoomRoundTrip | frontend/src/core/components/ImageFullView.tsx:30-36 | below the maximum, zooming in then out is the identity; above the minimum, out then in is |
| ImageFullView.ImageSource | frontend/src/core/components/ImageFullView.tsx:28 | the source URL when non-empty, else the render endpoint when both ids are known, else no image |
| CreateDatasetDialog.SchemasLoaded | frontend/src/core/components/CreateDatasetDialog.tsx:51-75 | a non-empty schema list selects its first schema; an empty one changes nothing; a failed fetch shows the load error |
| CreateDatasetDialog.Request | frontend/src/core/components/CreateDatasetDialog.tsx:77-98 | no request exactly when the name is blank or no schema is selected; otherwise trimmed name and description with the selected schema |
| CreateDatasetDialog.RequestIsTrimmed | frontend/src/core/components/CreateDatasetDialog.tsx:91-98 | a sent request has a non-empty name, a schema, and name and description free of surrounding white space |
| CreateDatasetDialog.Create | frontend/src/core/components/CreateDatasetDialog.tsx:77-119 | a blank name or a missing schema only sets the matching error; a created dataset closes the dialog and opens `/dataset/<id>`; a failure keeps the dialog open and shows an error |
| CreateDatasetDialog.OpenChange | frontend/src/core/components/CreateDatasetDialog.tsx:121-130 | closing clears name, description, schema and error; opening only opens |
| CreateDatasetDialog.ReopenedFormSendsNothing | frontend/src/core/components/CreateDatasetDialog.tsx:77-130 | after closing and reopening, the form shows no error and cannot be submitted |
| EnumEditor.Open | frontend/src/core/pages/EnumEditor.tsx:9-16 | the editor opens on the given list with nothing being renamed and no error |
| EnumEditor.Remove | frontend/src/core/pages/EnumEditor.tsx:28-38 | with one value or fewer, removal is refused with its message and nothing is reported; otherwise exactly index idx is dropped, the new list is reported, and any rename is abandoned |
| EnumEditor.Add | frontend/src/core/pages/EnumEditor.tsx:40-56 | a value is added exactly when its trimmed text is non-blank and not yet listed; a blank or existing value gets its own message; an added value is appended trimmed, reported, and the input cleared |
| EnumEditor.StartEdit | frontend/src/core/pages/EnumEditor.tsx:58-62 | starting a rename records the index and text, clears the error and keeps the list |
| EnumEditor.CancelEdit | frontend/src/core/pages/EnumEditor.tsx:64-68 | abandoning a rename keeps the list and input and clears the rename and the error |
| EnumEditor.FinishEdit | frontend/src/core/pages/EnumEditor.tsx:70-87 | a rename is accepted exactly when the trimmed text is non-blank and equals no other entry; a refusal keeps the list and shows an error; an accepted rename replaces only that entry and is reported |
| EnumEditor.RemoveKeepsValid | frontend/src/core/pages/EnumEditor.tsx:28-38 | removing keeps a non-empty list of distinct values non-empty and distinct, one shorter when something is removed |
| EnumEditor.AddKeepsValid | frontend/src/core/pages/EnumEditor.tsx:40-56 | adding keeps a non-empty list of distinct values non-empty and distinct, one longer when the add succeeds |
| EnumEditor.FinishEditKeepsValid | frontend/src/core/pages/EnumEditor.tsx:70-87 | renaming keeps a non-empty list of distinct values non-empty and distinct and of the same length |
| EnumEditor.AddedValuesAreTrimmed | frontend/src/core/pages/EnumEditor.tsx:40-87 | every value the editor adds or renames to is non-blank and already trimmed |
| LabelConfig.ResetForm | frontend/src/core/components/LabelConfig.tsx:68-76 | the form becomes an empty category label, nothing is being edited, and the labels stay |
| LabelConfig.EditLabel | frontend/src/core/components/LabelConfig.tsx:78-89 | an unknown name changes nothing; a known label is loaded into the form and becomes the label being edited |
| LabelConfig.AddValue | frontend/src/core/components/LabelConfig.tsx:105-111 | the trimmed input is appended and the input cleared exactly when it is non-blank and not yet a value; otherwise nothing changes; the rest of the form and the labels stay |
| LabelConfig.AddValueKeepsDistinct | frontend/src/core/components/LabelConfig.tsx:105-111 | adding a value keeps the form's values free of duplicates |
| LabelConfig.RemoveValue | frontend/src/core/components/LabelConfig.tsx:113-116 | exactly index i of the form's values is dropped, an index outside the list changes nothing, and the rest of the form stays |
| LabelConfig.RemoveValueKeepsDistinct | frontend/src/core/components/LabelConfig.tsx:113-116 | removing a value keeps the form's values free of duplicates |
| LabelConfig.SaveRequest | frontend/src/core/components/LabelConfig.tsx:118-138 | nothing is sent without a dataset id; otherwise the request lists every label definition, in the record's order |
| LabelConfig.Submit | frontend/src/core/components/LabelConfig.tsx:171-225 | a blank name or a category without values is rejected; otherwise the labels become the upsert of the submitted label, the form is reset and the new label list is sent |
| LabelConfig.UpsertEffect | frontend/src/core/components/LabelConfig.tsx:194-209 | after a submit the label is stored under its name, a renamed label's old name is gone, and every other name keeps its label |
| LabelConfig.UpsertKeepsUnique | frontend/src/core/components/LabelConfig.tsx:194-209 | a submit keeps label names unique, so the list sent has one entry per name |
| LabelConfig.DeleteLabel | frontend/src/core/components/LabelConfig.tsx:91-103 | the named label is removed and the remaining list is sent; the form is reset only when that label was being edited |
| LabelConfig.DeleteLabelOnlyThatKey | frontend/src/core/components/LabelConfig.tsx:91-103 | deleting a label removes that name and keeps every other name's label |
| NewDataset.EnumValues | frontend/src/core/pages/NewDataset.tsx:133-137 | a field's edited list wins whenever one exists, even an empty one; otherwise the schema's enum list |
| NewDataset.CategoryListReadyMeans | frontend/src/core/pages/NewDataset.tsx:35-42 | a category list passes exactly when it is non-empty, no value is blank after trimming, no trimmed value repeats, and the field was confirmed with Done |
| NewDataset.SetupComplete | frontend/src/core/pages/NewDataset.tsx:30-31 | with no schema selected the category setup counts as complete |
| NewDataset.AllEnumFieldsReady | frontend/src/core/pages/NewDataset.tsx:32-44 | the setup passes exactly when every string field with an enum list passes the category-list check on its edited or original values |
| NewDataset.BadEditBlocksSetup | frontend/src/core/pages/NewDataset.tsx:35-40 | an edited list that is empty, has a blank value or repeats a trimmed value makes the setup incomplete whatever else holds |
| NewDataset.SortedFieldsPartition | frontend/src/core/pages/NewDataset.tsx:120-130 | the stable sort puts every required field (listed in `required` or flagged itself) first and keeps the source order within both groups |
| NewDataset.PartitionIsPermutation | frontend/src/core/pages/NewDataset.tsx:120-130 | the sorted fields are a permutation of the schema's fields |
| NewDataset.PageFields | frontend/src/core/pages/NewDataset.tsx:120-130 | the page shows the required fields in order, then the optional ones in order, and every field exactly as often as the schema has it |
| NewDataset.RenderType | frontend/src/core/pages/NewDataset.tsx:140-148 | `array` shows as `string[]`; `object`, a missing or an empty type shows as `json`; any other type is shown as it is |
| UploadDialog.DefaultSelection | frontend/src/core/components/UploadImagesDialog.tsx:72-77 | a label starts at its first listed value when it lists any, at `false` when it is a boolean without values, and unset exactly otherwise |
| UploadDialog.DefaultSelections | frontend/src/core/components/UploadImagesDialog.tsx:71-79 | the starting selections hold at most one entry per label name |
| UploadDialog.DefaultSelectionsOf | frontend/src/core/components/UploadImagesDialog.tsx:71-79 | with distinct label names, each label starts at its own default and a name that is no label has no selection |
| UploadDialog.EffectiveSelectionsOf | frontend/src/core/components/UploadImagesDialog.tsx:351-359 | a boolean label whose selection is unset or null reads `false`; every other key reads the selection unchanged |
| UploadDialog.MissingLabels | frontend/src/core/components/UploadImagesDialog.tsx:363-366 | the missing labels are exactly the non-boolean labels whose effective selection is unset or falsy |
| UploadDialog.AddPayload | frontend/src/core/components/UploadImagesDialog.tsx:384-387 | the payload has one entry per dataset label, in order, carrying that label's effective selection |
| UploadDialog.NothingMissingAllSet | frontend/src/core/components/UploadImagesDialog.tsx:363-370 | once no label is missing, every dataset label has an effective selection |
| UploadDialog.PayloadValueSet | frontend/src/core/components/UploadImagesDialog.tsx:351-370 | once no label is missing, each label's effective value is non-null, and truthy for a non-boolean label |
| UploadDialog.AddPayloadChecked | frontend/src/core/components/UploadImagesDialog.tsx:384-387 | once no label is missing, the payload has one non-null entry per dataset label carrying its effective selection |
| UploadDialog.AddToDataset | frontend/src/core/components/UploadImagesDialog.tsx:361-415 | a missing label is refused with its message; nothing is sent without an image or a dataset id; otherwise the image is sent with every label and `is_labeled` "true", it is added exactly when the server creates it, and a 409 shows the already-exists message |
| UploadDialog.UploadLabels | frontend/src/core/components/UploadImagesDialog.tsx:250-258 | labels are attached exactly when asked for and some selection exists, one entry per dataset label with its raw selection |
| UploadDialog.UploadResult | frontend/src/core/components/UploadImagesDialog.tsx:226-293 | an image is returned exactly when the dataset id is known and the server created it |
| UploadDialog.FileName | frontend/src/core/components/UploadImagesDialog.tsx:160-168 | the stored name is the URL path's last segment when that contains a dot, else the fallback; a chosen segment has no slash and ends the path |
| UploadDialog.FileNameOfDottedPath | frontend/src/core/components/UploadImagesDialog.tsx:330-337 | a path ending in `/<file>` with a dotted file name yields exactly that file name |
| Router.Normalize | frontend/src/router/index.ts:4-6 | paths are compared without case and with one trailing slash allowed: a final empty segment is dropped and every other segment is lower-cased |
| Router.MetaOf | frontend/src/router/index.ts:6-90 | the meta of a path is the open, signed-in or administrator meta of a declared route, or empty when no route fits |
| Router.TrailingSlashIgnored | frontend/src/router/index.ts:4-6 | a path with a trailing slash has the meta of the same path without it |
| Router.UsersPageAnyCase | frontend/src/router/index.ts:4-82 | `/Users` is administrator-only and `/LOGIN/` is open, as their lower-case spellings are |
| Router.PublicAndAdminPaths | frontend/src/router/index.ts:6-90 | a path is declared open exactly when, ignoring case and a trailing slash, it is `/login` or `/setup`, and administrator-only exactly when it is `/users` |
| Router.PublicPaths | frontend/src/router/index.ts:11-22 | only `/login` and `/setup`, in any letter case and with or without a trailing slash, declare that they need no sign-in |
| Router.AdminPaths | frontend/src/router/index.ts:77-82 | only `/users`, in any letter case and with or without a trailing slash, is declared administrator-only |
| Router.RouteMetas | frontend/src/router/index.ts:6-90 | in the route table only the login and setup routes are open and only the users route is for administrators |
| Router.SingleSegmentRoutes | frontend/src/router/index.ts:6-90 | every one-segment route is a literal, and only the users route's literal is `users` |
| Router.BeforeEach | frontend/src/router/index.ts:92-124 | off the setup page a pending setup redirects to `/setup`; a navigation proceeds only to an open page or with a signed-in user, and to an administrator page only as an administrator; `/login` is chosen only when an unauthenticated user's refresh failed on a protected page |
| Router.GuardOutcomes | frontend/src/router/index.ts:92-124 | once setup is done, a signed-in user is never sent to `/login`, an open page always opens unchanged, and an administrator always proceeds |
| Router.UsersPageIsAdminOnly | frontend/src/router/index.ts:77-124 | a navigation to `/users` proceeds only for an administrator |
| ListStore.Fail | frontend/src/stores/datasetStore.ts:21-26 | a failed call keeps the cached list and current entity, shows the error, ends loading and reports failure |
| ListStore.FetchList | frontend/src/stores/datasetStore.ts:13-27 | a fetched page replaces the list and the total and clears the error; a failure is handled as `Fail` says |
| ListStore.FetchOne | frontend/src/stores/datasetStore.ts:29-41 | a fetched entity becomes the current one; a failure is handled as `Fail` says |
| ListStore.Create | frontend/src/stores/datasetStore.ts:43-56 | a created entity goes to the front of the list and the current entity stays; a failure is handled as `Fail` says |
| ListStore.Update | frontend/src/stores/datasetStore.ts:58-77 | an update keeps the list's length and replaces the current entity exactly when it has that id; a failure is handled as `Fail` says |
| ListStore.UpdateReplacesThatEntry | frontend/src/stores/datasetStore.ts:63-66 | with unique ids, an update replaces exactly the list entry with that id and keeps every other entry |
| ListStore.Delete | frontend/src/stores/datasetStore.ts:79-94 | a delete keeps, in order, exactly the entries with another id and clears the current entity when it has that id; a failure is handled as `Fail` says |
| ListStore.DeleteRemovesOnlyThatId | frontend/src/stores/datasetStore.ts:84 | after a delete no entry has the id and every entry with another id is kept |
| ListStore.CreateThenDeleteRestores | frontend/src/stores/datasetStore.ts:43-94 | deleting an entity just created under a fresh id gives back the original list |
| AuthStore.AdminIsAuthenticated | frontend/src/stores/authStore.ts:11-12 | an administrator is always signed in |
| Common.ErrorText | frontend/src/stores/authStore.ts:23 | the shown error is the server's message when it has a non-empty one, else the fallback text; the dataset and schema stores follow the same rule |
| AuthStore.Login | frontend/src/stores/authStore.ts:15-28 | a successful login signs in the returned user and clears the error; a failure keeps the user and shows the error; loading ends either way |
| AuthStore.Logout | frontend/src/stores/authStore.ts:30-40 | the user is forgotten only when the server confirms the logout; a failure keeps the user and shows the error |
| AuthStore.FetchCurrentUser | frontend/src/stores/authStore.ts:42-52 | a refresh succeeds exactly when the server returns a user, who is then signed in; a failure signs everybody out; the error is untouched |
| AuthStore.ChangePassword | frontend/src/stores/authStore.ts:54-68 | a successful change clears the must-reset mark and the error; a failure keeps the user and shows the error |
| AuthStore.ChangePasswordKeepsRole | frontend/src/stores/authStore.ts:54-68 | a successful password change keeps who is signed in and their role |
| BackendDb.Dataset.NQueued | backend/src/ai_trace_datasets/core/models/dataset.py:29-35 | a dataset's queued count plus its labeled count is its image count |
| BackendDb.QueuedCountAgrees | backend/src/ai_trace_datasets/core/models/images.py:32-38 | when the stored counters agree with the images, the queued count is the number of the dataset's images that are not labeled |
| BackendDb.FindByIdAndOrg | backend/src/ai_trace_datasets/core/repositories/datasets.py:11-26 | an id that does not parse as a UUID is a 400; otherwise the dataset is found exactly when it exists and belongs to the organisation |
| BackendDb.IncreaseImgCount | backend/src/ai_trace_datasets/core/repositories/datasets.py:29-50 | a missing dataset is a 404; otherwise only that dataset's two counters move, by the given deltas, and images and other datasets stay |
| BackendDb.RemoveCounts | backend/src/ai_trace_datasets/core/repositories/datasets.py:29-50 | removing an image lowers its own dataset's image count by one and its labeled count by one when it was labeled; other datasets' counts stay |
| BackendDb.PutSameDatasetCounts | backend/src/ai_trace_datasets/core/services/datasets_images.py:133-150 | replacing an image by one in the same dataset keeps every dataset's image count and moves that dataset's labeled count by the change of the labeled flag |
| DatasetImages.DownloadImage | backend/src/ai_trace_datasets/core/services/datasets_images.py:38-71 | the body is returned exactly for a 200 response whose announced length is at most 10 MiB; another status is raised as it is; an over-long body is 400, a timeout 408 and a client error 500 |
| DatasetImages.StoredName | backend/src/ai_trace_datasets/core/services/datasets_images.py:88-95 | a given name is kept; an empty name with a source URL takes the non-empty title found for it; the result is the name or that title |
| DatasetImages.PersistImage | backend/src/ai_trace_datasets/core/services/datasets_images.py:74-115 | a missing dataset is a 404; otherwise the image is stored under the fresh id with the request's fields, labeled only when asked, and its dataset's image count rises by one and its labeled count by one when labeled |
| DatasetImages.PersistKeepsCounts | backend/src/ai_trace_datasets/core/services/datasets_images.py:96-112 | storing an image keeps every dataset's counters equal to the number of its images and labeled images |
| DatasetImages.InsertKeepsCounts | backend/src/ai_trace_datasets/core/services/datasets_images.py:111-112 | adding a fresh image to a dataset and bumping that dataset's counters accordingly keeps every dataset's counters agreeing with its images |
| DatasetImages.UploadByUrlArgs | backend/src/ai_trace_datasets/core/routes/datasets_images.py:111-136 | an upload by URL stores the URL as source, no comment, a missing name as "", an empty label list as no labels, and the requested flag |
| DatasetImages.UploadByFileArgs | backend/src/ai_trace_datasets/core/routes/datasets_images.py:78-105 | the labels field is parsed only when non-empty and a parse failure is an error; the form's URL, name, flag and comment are passed on |
| DatasetImages.MergeUpdate | backend/src/ai_trace_datasets/core/services/datasets_images.py:133-153 | a non-empty comment, name or label list replaces the old one; a given flag replaces the old flag; id and dataset stay; the updater is recorded |
| DatasetImages.UpdateImage | backend/src/ai_trace_datasets/core/services/datasets_images.py:118-156 | an image not in the dataset is a 404; otherwise it is merged and the labeled count moves by one exactly when the flag flips, in the flip's direction |
| DatasetImages.UpdateKeepsCounts | backend/src/ai_trace_datasets/core/services/datasets_images.py:133-150 | updating an image keeps every dataset's counters equal to the number of its images and labeled images |
| DatasetImages.RemoveImage | backend/src/ai_trace_datasets/core/routes/datasets_images.py:165-178 | an image not in the dataset is a 404; otherwise it is removed, its dataset's image count falls by one and its labeled count by one when it was labeled, and other datasets stay |
| DatasetImages.DeleteImage | backend/src/ai_trace_datasets/core/routes/datasets_images.py:158-178 | the dataset lookup comes first and its error is passed on: an id that is not a UUID is a 400, a missing or foreign dataset a 404; then an image not in the dataset is a 404, and otherwise the image is removed from the caller's own dataset with its counts lowered as above |
| DatasetImages.DeleteImageIsScoped | backend/src/ai_trace_datasets/core/services/organization.py:9-17 | an image of another organisation's dataset is never deleted: the answer is 404 |
| DatasetImages.DeleteKeepsCounts | backend/src/ai_trace_datasets/core/routes/datasets_images.py:164-178 | deleting an image keeps every dataset's counters equal to the number of its images and labeled images |
| DatasetRoutes.CreateDataset | backend/src/ai_trace_datasets/core/routes/datasets.py:45-72 | a new dataset gets the fresh id, the caller's organisation, the given name and description, the single boolean label `match` and zero counters; nothing else changes |
| DatasetRoutes.CreateKeepsCounts | backend/src/ai_trace_datasets/core/routes/datasets.py:50-69 | a new dataset has no images, so its zero counters keep every dataset's counters in agreement |
| DatasetRoutes.Lookup | backend/src/ai_trace_datasets/core/routes/datasets.py:94-106 | an id that is not a UUID is a 400; a dataset that is missing or belongs to another organisation is a 404; otherwise the stored dataset |
| DatasetRoutes.UpdateDataset | backend/src/ai_trace_datasets/core/routes/datasets.py:114-137 | the lookup's error is passed on; otherwise exactly the fields the request sets are overwritten, and id, owner, counters and images stay |
| DatasetRoutes.UpdateDatasetKeepsCounts | backend/src/ai_trace_datasets/core/routes/datasets.py:127-135 | updating a dataset's fields keeps every dataset's counters in agreement |
| DatasetRoutes.DeleteDataset | backend/src/ai_trace_datasets/core/routes/datasets.py:143-162 | the lookup's error is passed on; otherwise the dataset and exactly its images are removed and every other dataset and image stays |
| DatasetRoutes.DeleteDatasetKeepsCounts | backend/src/ai_trace_datasets/core/routes/datasets.py:155-161 | after deleting a dataset no image points at it and the remaining counters still agree |
| DatasetExport.ExportUrl | backend/src/ai_trace_datasets/core/services/dataset_export.py:23-25 | an image exports its source URL when that is non-empty, else a signed URL of its stored file |
| DatasetExport.FixedCells | backend/src/ai_trace_datasets/core/services/dataset_export.py:26-35 | the fixed part of a row has exactly the eight fixed columns, in order |
| DatasetExport.ExportRow | backend/src/ai_trace_datasets/core/services/dataset_export.py:22-41 | a row has each column once, the fixed columns first; its columns are the fixed ones and the label names; a label column holds the image's value for that label or none; a fixed column no label overrides holds its fixed cell |
| DatasetExport.ExportDatasetRows | backend/src/ai_trace_datasets/core/services/dataset_export.py:10-57 | csv and parquet are accepted and nothing else; the result has one row per image, in order, each as `ExportRow` says |
| DatasetExport.SortNewestFirstCorrect | backend/src/ai_trace_datasets/core/routes/datasets.py:183 | ordering by creation time descending yields the same images, newest first |
| DatasetExport.ExportQueryCorrect | backend/src/ai_trace_datasets/core/routes/datasets.py:180-185 | the export query returns exactly the dataset's images, only the labeled ones when asked, each as often as stored, newest first |
| DatasetExport.LabelNames | backend/src/ai_trace_datasets/core/routes/datasets.py:186-188 | the label columns are the names of the dataset's labels, in order, or none when it has no labels |
| DatasetExport.ExportLookupAsWritten | backend/src/ai_trace_datasets/core/routes/datasets.py:173-178 | as written, an id that is not a UUID is a 400, a dataset the caller can see is returned, and any other lookup fails with a server error |
| DatasetExport.ExportMissingIsServerError | backend/src/ai_trace_datasets/core/routes/datasets.py:173-178 | as written, a well-formed id of a dataset that does not exist gets a 500 instead of the intended 404 |
| DatasetExport.ExportLookup | backend/src/ai_trace_datasets/core/routes/datasets.py:173-178 | with the guard before the name is read, a missing or foreign dataset is a 404, a malformed id a 400, and a visible dataset is returned |
| DatasetExport.ExportDataset | backend/src/ai_trace_datasets/core/routes/datasets.py:165-208 | an export fails exactly when the lookup does; otherwise it has the requested kind, the `dataset_<name>` file name and one row per selected image, newest first |
| ApiAuth.Prefix | backend/src/ai_trace_datasets/core/dependencies/auth.py:78-79 | Python's `s[:n]`: the first min(n, len s) characters, a prefix of s |
| ApiAuth.CurrentUser | backend/src/ai_trace_datasets/core/dependencies/auth.py:25-54 | the caller is resolved exactly when the token decodes, carries a `sub` and that user exists, and then carries the user's id, name, roles and organisation; every failure is the same 401 |
| ApiAuth.GenerateApiKey | backend/src/ai_trace_datasets/core/routes/key_management.py:23-24 | a generated key is `sk-` followed by the random part |
| ApiAuth.KeyPreview | backend/src/ai_trace_datasets/core/routes/key_management.py:27-28 | the preview of a key of at least five characters is its first five characters and `***`, eight characters in all |
| ApiAuth.GeneratedKeyPreview | backend/src/ai_trace_datasets/core/routes/key_management.py:23-28 | a generated key's preview is `sk-`, the first two random characters and `***` |
| ApiAuth.LookupPreviewMatchesStored | backend/src/ai_trace_datasets/core/dependencies/auth.py:78-79 | the preview the lookup computes from a presented token of 16 or more characters equals the preview stored for that key |
| ApiAuth.MatchingKey | backend/src/ai_trace_datasets/core/dependencies/auth.py:81-92 | the key found is the first stored key with the preview that checks against the token; none is found exactly when no stored key with the preview checks |
| ApiAuth.VerifyClientAuth | backend/src/ai_trace_datasets/core/dependencies/auth.py:57-94 | a valid session wins; otherwise a token under 16 characters is refused as malformed, and a longer one is accepted exactly when some stored key with its preview checks against it, as the API caller of the organisation of the first such key; every failure is a 401 |
| ApiAuth.CreateKey | backend/src/ai_trace_datasets/core/routes/key_management.py:31-56 | creation appends a record holding the key's preview, its hash and the caller's organisation, never the key, and returns the key in full |
| ApiAuth.CreatedKeyAuthenticates | backend/src/ai_trace_datasets/core/routes/key_management.py:31-56 | a freshly created key presented as a bearer token is accepted as an API caller, of the creator's organisation when no older key with its preview checks against it |
| ApiAuth.ListKeys | backend/src/ai_trace_datasets/core/routes/key_management.py:59-71 | the listing shows exactly the caller's organisation's keys, previews only |
| ApiAuth.DeleteKey | backend/src/ai_trace_datasets/core/routes/key_management.py:74-92 | a key is deleted exactly when one with that id belongs to the caller's organisation; then the first such record is removed and the others keep their order; otherwise 404 |
| ApiAuth.DeleteIsScoped | backend/src/ai_trace_datasets/core/routes/key_management.py:83-90 | a key of another organisation is never deleted: the request is a 404 |
| AccessRoles.RequireRole | backend/src/ai_trace_datasets/core/dependencies/role_check.py:9-21 | the caller passes unchanged exactly when they hold one of the required roles; otherwise 403 |
| AccessRoles.EmptyRequirementRejects | backend/src/ai_trace_datasets/core/dependencies/role_check.py:16 | with no required role every caller is refused |
| AccessRoles.RequireAdmin | backend/src/ai_trace_datasets/core/dependencies/role_check.py:24-30 | the caller passes unchanged exactly when they have the `admin` role; otherwise the 403 naming `admin` |
| AccessRoles.ApiCallerIsNotAdmin | backend/src/ai_trace_datasets/core/dependencies/auth.py:87-92 | an API-key caller never passes the administrator check |
| AccessRoles.ParseUserCreate | backend/src/ai_trace_datasets/core/schemas/admin_users.py:7-16 | a creation request is accepted exactly when the username has 3 to 64 characters and every role, defaulting to `user`, is `admin` or `user` |
| AccessRoles.DefaultsOfUserCreate | backend/src/ai_trace_datasets/core/schemas/admin_users.py:7-10 | leaving out the roles makes a plain user, and an empty password is accepted at creation |
| AccessRoles.ParsePasswordUpdate | backend/src/ai_trace_datasets/core/schemas/admin_users.py:20-21 | a new password is accepted exactly when it has at least 8 characters |
| ImageValidation.ValidateImage | backend/src/ai_trace_datasets/core/storage/utils.py:7-37 | the whole stream is returned with a type from the allow-list; a sniffed type is accepted exactly when allowed; an unknown type is accepted, as `avif`, exactly when the marker occurs in the first 100 bytes; every refusal is a 400: `Invalid image file` for an unknown type without the marker, and for a sniffed type outside the list `Invalid image format: <type>. Allowed formats: ` followed by the list joined with `, `, `tiff` twice as the list has it |
| ImageValidation.PositionIrrelevant | backend/src/ai_trace_datasets/core/storage/utils.py:8-9 | the result does not depend on where the stream was left |
| ImageValidation.LateMarkerRefused | backend/src/ai_trace_datasets/core/storage/utils.py:12-17 | an unknown file whose AVIF marker starts after the first 100 bytes is refused |
| RowService.StatusName | src/aitrace/services/row_service.py:72 | a status is written as `pending` or `reviewed` |
| RowService.CalculateStatus | src/aitrace/services/row_service.py:63-81 | a row is pending exactly when some required field is absent, null or empty text; with no required fields it is reviewed |
| RowService.StatusDependsOnRequiredSet | src/aitrace/services/row_service.py:74-81 | the status depends only on which fields are required, not on their order or repetition |
| RowService.RequiredIds | src/aitrace/services/row_service.py:343 | the required ids are exactly the ids of the schema's required fields |
| RowService.DatasetFields | src/aitrace/services/row_service.py:325-332 | the lookup fails exactly when the dataset or its schema is missing; otherwise it gives the fields of the dataset's schema |
| RowService.MapRowDataGet | src/aitrace/services/row_service.py:369-373 | a mapped field other than `image_url` whose column the line has holds that cell as text; every other field is absent |
| RowService.LineUrl | src/aitrace/services/row_service.py:348-354 | a line has an image URL exactly when the `image_url` mapping is present and non-empty and the line has that column; the URL is that cell |
| RowService.ImportLine | src/aitrace/services/row_service.py:346-398 | a line is counted once, as imported, duplicate or invalid. No URL adds `Row <n>: Missing image URL` and an unfetchable image `Row <n>: Invalid image - <message>`, each as one invalid line with nothing else changed. A hash the dataset already has is one duplicate with nothing else changed. Otherwise one row is appended with the line's URL and hash, the mapped data, status pending under `mark_all_pending` or else the one the required fields give, and the importer as last updater, and its hash becomes known |
| RowService.NewImageIsImported | src/aitrace/services/row_service.py:356-398 | a line with a URL, a fetchable image and a hash the dataset does not have is imported |
| RowService.ImportLinesProvenance | src/aitrace/services/row_service.py:345-398 | walking the lines keeps the rows created before, and every row it creates is made, as above, from one of the lines, numbered from the first line's number |
| RowService.MadeFromLinesCons | src/aitrace/services/row_service.py:345-398 | rows made from the later lines, preceded by nothing or by a row made from the first line, are made from the lines |
| RowService.FromLaterLine | src/aitrace/services/row_service.py:345 | a row made from a later line, numbered one higher, is made from one of the lines |
| RowService.ImportCounts | src/aitrace/services/row_service.py:338-398 | over all lines, imported plus duplicates plus invalid is the number of lines, with one row per import and one error per invalid line |
| RowService.ImportLineHashes | src/aitrace/services/row_service.py:356-394 | a line either creates nothing and learns no hash, or creates one row whose hash was unknown and is now known |
| RowService.GrowKeepsFresh | src/aitrace/services/row_service.py:364-394 | adding one row whose hash was unknown keeps the created rows' hashes known, pairwise different and new |
| RowService.ImportLineKeepsFresh | src/aitrace/services/row_service.py:364-367 | one line keeps the created rows' hashes pairwise different and absent from the hashes stored before the import |
| RowService.ImportKeepsFresh | src/aitrace/services/row_service.py:345-398 | no two rows of one import share a hash, and none repeats a hash stored before the import |
| RowService.ImportCsv | src/aitrace/services/row_service.py:308-405 | a missing dataset or schema is an error; otherwise every line is counted once, one row per import, at most 100 errors (all of them when there are no more), and the new rows' hashes are new and distinct |
| RowService.ImportedRowsFromLines | src/aitrace/services/row_service.py:345-398 | every row an import creates comes from some line k of the file, numbered k + 2: its URL and hash are that line's, its data the mapped cells, its status pending under `mark_all_pending` or else the one the required fields give, and its last updater the importer |
| RowService.FirstLineIsLineTwo | src/aitrace/services/row_service.py:345-352 | with no image column mapped, the first data line is reported as `Row 2: Missing image URL` |
| RowService.ReportedErrors | src/aitrace/services/row_service.py:400-405 | the response carries the errors in line order, cut after the first hundred |
| RowService.MissingImageFirst | src/aitrace/services/row_service.py:348-352 | with no image column mapped, the first line walked adds the missing-image error for its number right after the earlier errors |
| RowService.PrefixKept | src/aitrace/services/row_service.py:341-398 | later lines only add errors after the ones already reported |
| RowService.UpdateRow | src/aitrace/services/row_service.py:217-271 | a missing row is not found; an update keeps id and dataset and records the updater; the image changes only for a new non-empty URL whose hash no other row of the dataset has (the corrected duplicate check; see Findings); new data replaces the old; an explicit status wins; with neither the status stays |
| RowService.HashTakenAsWrittenRefusesMore | src/aitrace/repositories/row_repository.py:88-98 | whatever the corrected duplicate check refuses, the check as written refuses too |
| RowService.UpdateRowAsWritten | src/aitrace/services/row_service.py:246-250 | with the duplicate check as written, a new image whose hash some row of the dataset has, the updated row included, is refused as `This image already exists in the dataset` once any other row is stored; any update it accepts is the corrected one's |
| RowService.UpdateToOwnImageRefusedAsWritten | src/aitrace/repositories/row_repository.py:88-98 | re-pointing a row to a new URL that serves its own image, with another row stored and no other row of the dataset holding that hash, is refused as written and accepted by the corrected update |
| RowService.OwnImageExample | src/aitrace/repositories/row_repository.py:88-98 | a concrete such case: row `a` of dataset `d` re-pointed to an image with its own hash while row `b` of another dataset is stored |
| RowService.UpdateIgnoresOwnHash | src/aitrace/services/row_service.py:246-253 | with the corrected check, whether an image update succeeds does not depend on the hash the updated row had before |
| RowService.UpdateWithoutNewImageFetchesNothing | src/aitrace/services/row_service.py:246-253 | when the image does not change, the outcome does not depend on what fetching the image would give |
| RowService.UpdateRecomputesStatus | src/aitrace/services/row_service.py:256-261 | new data without an explicit status sets the status the schema's required fields give for that data |
| RowService.FieldNames | src/aitrace/services/row_service.py:449 | the field columns are the schema's field names, in order |
| RowService.ExportHeader | src/aitrace/services/row_service.py:448-450 | the header is `image_url`, the field names in schema order, then status, created_at, updated_at and updated_by |
| RowService.FieldCells | src/aitrace/services/row_service.py:459-461 | each field's entry is its name with the row's value for its id, "" when absent |
| RowService.ExportEntries | src/aitrace/services/row_service.py:456-472 | a row's dictionary holds the image URL, one entry per field name, then the status and the three system entries |
| RowService.ExportLine | src/aitrace/services/row_service.py:452-474 | a written line has exactly one cell per header column |
| RowService.ExportRows | src/aitrace/services/row_service.py:430-441 | only the reviewed rows are exported when asked, every row otherwise |
| RowService.ExportLineAt | src/aitrace/services/row_service.py:456-474 | a column holds the value of the last dictionary entry with that column's name |
| RowService.ExportLineUrl | src/aitrace/services/row_service.py:457 | when no field is named `image_url`, the first column is the row's image URL |
| RowService.ExportLineField | src/aitrace/services/row_service.py:459-461 | with distinct field names that clash with no fixed column, a field's column holds its value, "" when absent |
| RowService.ExportLineStatus | src/aitrace/services/row_service.py:464 | the status column holds the row's status |
| SchemaService.GetSchema | src/aitrace/services/schema_service.py:27-45 | a schema is found exactly when its id is stored; otherwise the answer is `Schema not found` |
| SchemaService.NewFields | src/aitrace/services/schema_service.py:122-134 | one new field per input, in request order, each with a fresh id and the input's name, type, required flag, default, position and config (empty when none was sent) |
| SchemaService.InsertByPosition | src/aitrace/models/schema.py:38 | inserting a field adds exactly that field, and puts it at the head or keeps the old head |
| SchemaService.InsertKeepsOrder | src/aitrace/models/schema.py:38 | inserting into a list in position order keeps it in position order |
| SchemaService.SortByPosition | src/aitrace/models/schema.py:38 | the fields read back are a permutation of the stored ones in position order |
| SchemaService.SortKeepsOrdered | src/aitrace/models/schema.py:38 | fields already in position order are read back unchanged |
| SchemaService.MakeFields | src/aitrace/services/schema_service.py:122-137 | the schema's fields as read back after creation: one per input, in position order, and exactly the new fields of the inputs, each once |
| SchemaService.CreateSchema | src/aitrace/services/schema_service.py:64-139 | a name the team already uses is a duplicate, checked first; a missing copy source is `Source schema not found`; otherwise exactly the new schema is added, with the caller as creator and last updater |
| SchemaService.MakeFieldsKeepsOrderedInputs | src/aitrace/services/schema_service.py:122-137 | inputs given in position order come back in request order, each described by its input and with the id of its index |
| SchemaService.CreateCopiesSource | src/aitrace/services/schema_service.py:86-107 | a copy gets one field per source field, in position order, with the copied definitions and fresh ids, whatever fields the request lists; a source read in position order is copied in its own order, field by field |
| SchemaService.CreateUsesGivenFields | src/aitrace/services/schema_service.py:86-134 | without a copy source the schema's fields are the requested ones, read back in position order; requested in position order, they keep the request's order, field by field |
| SchemaService.UpdateSchema | src/aitrace/services/schema_service.py:141-201 | an unknown id is not found; a new non-empty name another schema of the team has is a duplicate and anything else succeeds; the name, description and fields change only when given, new fields being the given ones read back in position order; id, team and creator stay; the caller becomes last updater |
| SchemaService.DeleteSchema | src/aitrace/services/schema_service.py:203-218 | an unknown id is not found; otherwise only that schema is removed |
| SchemaService.CreateKeepsNamesUnique | src/aitrace/services/schema_service.py:82-84 | a creation keeps schema names unique within each team |
| SchemaService.UpdateKeepsNamesUnique | src/aitrace/services/schema_service.py:164-170 | an update keeps schema names unique within each team |
| SchemaService.RenameToSameNameIsNoOp | src/aitrace/services/schema_service.py:164-176 | sending a schema's own name succeeds and changes nothing but the last updater |
| SchemaService.DeleteThenGetIsNotFound | src/aitrace/services/schema_service.py:40-45 | after a deletion the schema is no longer found |
| DatasetService.CountStatus | src/aitrace/repositories/dataset_repository.py:73-112 | a count by status never exceeds the number of rows |
| DatasetService.StatusCountsPartition | src/aitrace/models/row.py:16-20 | since a row is pending or reviewed, the reviewed and pending counts add up to the dataset's rows, and a dataset no row refers to has none |
| DatasetService.GetDataset | src/aitrace/services/dataset_service.py:22-48 | a dataset is found exactly when its id is stored; it is answered with its reviewed and pending counts, which add up to its rows |
| DatasetService.CreateDataset | src/aitrace/services/dataset_service.py:75-119 | a missing schema is not found, checked first; a name the team already uses is a duplicate; otherwise exactly the new dataset is added, with the caller as creator and last updater, answered with no rows |
| DatasetService.CreatedCountsAgreeWithLookup | src/aitrace/services/dataset_service.py:114-119 | the zero counts a creation answers with are what a later lookup finds while no row refers to the new dataset |
| DatasetService.MissingSchemaReportedFirst | src/aitrace/services/dataset_service.py:92-99 | a missing schema together with a taken name is answered `Schema not found` |
| DatasetService.UpdateDataset | src/aitrace/services/dataset_service.py:121-167 | an unknown id is not found; a new non-empty name another dataset of the team has is a duplicate and anything else succeeds; name and description change only when given; the caller becomes last updater; the counts are the reviewed and pending ones |
| DatasetService.DeleteDataset | src/aitrace/services/dataset_service.py:169-184 | an unknown id is not found; otherwise only that dataset is removed |
| DatasetService.CreateKeepsNamesUnique | src/aitrace/services/dataset_service.py:97-99 | a creation keeps dataset names unique within each team |
| DatasetService.UpdateKeepsNamesUnique | src/aitrace/services/dataset_service.py:144-150 | an update keeps dataset names unique within each team |
| TeamService.TemplateFields | src/aitrace/services/team_service.py:74-106 | the template has three fields with the ids supplied and no defaults: `predicted` (boolean) at position 0, `name` (text) at 1 and `description` (text) at 2 |
| TeamService.TemplateRequiredFields | src/aitrace/services/team_service.py:76-106 | exactly `predicted` and `name` are required, and only `description` carries a configuration (multi-line) |
| TeamService.GetTeam | src/aitrace/services/team_service.py:24-42 | a team is found exactly when its id is stored; otherwise the answer is `Team not found` |
| TeamService.CreateTeam | src/aitrace/services/team_service.py:44-110 | creating a team stores it and a `Boolean Template` schema owned by it, with the template description, the template fields and no creator; users, datasets and the other schemas stay as they were |
| TeamService.ExistsAny | src/aitrace/services/team_service.py:112-119 | true exactly when some team is stored |
| TeamService.CreatedTeamOwnsTemplate | src/aitrace/services/team_service.py:44-110 | after a creation some team exists, and a new team owns exactly the template schema |
| TeamService.CreateTeamKeepsNamesUnique | src/aitrace/services/team_service.py:62-72 | creating a team keeps schema names unique within each team |
| UserService.GetUser | src/aitrace/services/user_service.py:27-45 | a user is found exactly when one has the id, and the answer is that user; otherwise `User not found` |
| UserService.CreateUser | src/aitrace/services/user_service.py:64-100 | an email some user has, ignoring letter case, is a duplicate; otherwise exactly one user is appended with the lower-cased email, the hash of the temporary password and a pending reset, and the temporary password is returned |
| UserService.CreateRefusesSameEmailAgain | src/aitrace/repositories/user_repository.py:67-81 | after a creation, the same email in any letter case is refused as a duplicate |
| UserService.UpdateUser | src/aitrace/services/user_service.py:102-129 | an unknown id is not found; otherwise a given role replaces the old one and nothing else changes |
| UserService.DeleteUser | src/aitrace/services/user_service.py:131-158 | an unknown id is not found; deleting oneself is forbidden; deleting a team's only administrator is forbidden; otherwise exactly that user is removed |
| UserService.DeleteKeepsAnAdmin | src/aitrace/services/user_service.py:152-156 | a team that has an administrator still has one after any successful deletion |
| UserService.ResetUserPassword | src/aitrace/services/user_service.py:160-187 | an unknown id is not found; otherwise only that user changes, to the hash of the new temporary password with a pending reset, and the temporary password is returned |
| ReviewStore.FindEmail | src/aitrace/repositories/user_repository.py:19-30 | the lookup finds a user whose stored email is the lower-cased address, and finds none only when no user has it |
| ReviewStore.AdminCount | src/aitrace/repositories/user_repository.py:48-65 | the administrator count of a team never exceeds the number of users |
| ReviewStore.AdminCountPositive | src/aitrace/repositories/user_repository.py:48-65 | a team's administrator count is positive exactly when one of its users has the `admin` role |
| ReviewStore.AdminCountRemove | src/aitrace/services/user_service.py:152-158 | removing one user lowers the team's administrator count by one when that user is one of its administrators and leaves it otherwise |
| ReviewStore.FindUser | src/aitrace/repositories/base_repository.py:28-39 | the lookup finds a user with that id, and finds none only when no user has it |
| ServiceErrors.StatusCode | src/aitrace/common/exceptions.py:28-65 | not found is 404, duplicate 409, unauthorized 401, forbidden 403, a failed body constraint 422, and every answer is a 4xx or 5xx status |
| ReviewAuth.CreateAccessToken | src/aitrace/services/auth_service.py:52-72 | the token names the user, is issued now and expires 7 days later with remember-me, 24 hours later otherwise |
| ReviewAuth.Login | src/aitrace/services/auth_service.py:74-98 | sign-in succeeds exactly when a user has the lower-cased email and the password checks against its hash; the user gets a token of the chosen lifetime; every failure is the same `Invalid email or password` |
| ReviewAuth.ChangePassword | src/aitrace/services/auth_service.py:100-125 | an unknown user is unauthorized; a wrong old password is a validation error; otherwise only that user changes, to the new password's hash with no reset pending |
| ReviewAuth.ResetPassword | src/aitrace/services/auth_service.py:127-143 | an unknown user is unauthorized; otherwise only that user changes, to the new password's hash with no reset pending |
| ReviewAuth.NewPasswordSignsIn | src/aitrace/services/auth_service.py:127-143 | after a reset the user signs in with the new password and has no reset pending |
| ReviewAuth.WrongOldPasswordKeepsHash | src/aitrace/services/auth_service.py:119-120 | a change with the wrong old password is refused |
| ReviewAuth.Sextet | src/aitrace/services/auth_service.py:152 | every base64 digit is a URL-safe character |
| ReviewAuth.UrlSafeBase64 | src/aitrace/services/auth_service.py:145-152 | the unpadded URL-safe encoding of n bytes has (4n + 2) / 3 characters, all URL-safe |
| ReviewAuth.SextetRoundTrip | src/aitrace/services/auth_service.py:152 | each base64 character reads back as the digit it was written for |
| ReviewAuth.BytesOfDigits | src/aitrace/services/auth_service.py:152 | reading back the six-bit digits of any byte string, three bytes to four digits with a short last group, gives the bytes |
| ReviewAuth.DecodeEncode | src/aitrace/services/auth_service.py:145-152 | decoding the unpadded URL-safe text gives back exactly the random bytes it was made from, so no two byte strings share a password |
| ReviewAuth.TempPassword | src/aitrace/services/auth_service.py:145-152 | a temporary password is sixteen URL-safe characters |
| ReviewAuth.GetCurrentUser | src/aitrace/common/dependencies.py:18-62 | a missing cookie is `Not authenticated`; a request passes only with a decodable token that names an existing user and an expiry not yet passed; a subject that is not a UUID is a server error; every other failure is unauthorized |
| ReviewAuth.GetCurrentAdmin | src/aitrace/common/dependencies.py:65-83 | only administrators pass; other users are refused as unauthorized with `Admin access required`; an earlier failure passes through |
| ReviewAuth.LoginTokenAuthenticates | src/aitrace/common/dependencies.py:36-59 | the token a sign-in hands out authenticates its user until it expires and is refused afterwards |
| SetupRoutes.NeedsSetup | src/aitrace/routes/setup.py:35-51 | setup is needed exactly when no team exists |
| SetupRoutes.InitializeSetup | src/aitrace/routes/setup.py:54-112 | a password shorter than 8 or longer than 128 characters is refused as invalid; an application that has a team is refused with `Setup already completed`; otherwise the only team is `My Team`, the users gain an administrator with the lower-cased email and no pending reset, the schemas gain the team's `Boolean Template` with the template fields and keep every other schema, the datasets stay as they were, and a secure, HTTP-only, strict cookie carries a day-long token |
| SetupRoutes.CookieOutlivesNoToken | src/aitrace/routes/setup.py:96-104 | the cookie lives exactly as long as the token in it |
| SetupRoutes.SetupRunsOnce | src/aitrace/routes/setup.py:71-74 | after a setup, setup is no longer needed and a second attempt is refused |
| SetupRoutes.FirstAdminSignsIn | src/aitrace/routes/setup.py:84-93 | the first administrator signs in with the setup password, belongs to the new team and has no reset pending |

## Left out

- HTTP transport, SQL sessions and storage backends are not modelled. A request's outcome is an input value such as a reply, a 409 or a failure, and a table is a map, set or sequence.
- Hashing, bcrypt, JWT encoding and decoding, md5, `secrets`, `uuid4`, the `imghdr` sniffer, signed URLs and the AI title service are not modelled. Each is a parameter, because its behaviour is outside this code. Where a property needs them to agree, for example the hash that the checker accepts, a lemma states that agreement as a precondition.
- The clock is not modelled. Time is an integer parameter in seconds. `datetime.utcnow()` and the `exp` comparison are taken on one time scale, and python-jose's own expiry check inside `jwt.decode` is not modelled.
- Timers and concurrency are not modelled: the search debounce, flag-reset timeouts and interleaved React state updates. Each handler is one atomic step.
- Floating point is not modelled. Label numbers are integers. The image viewer's scale is counted in quarter steps: 4 is 100 %, 2 to 12 is the 0.5 to 3 range.
- The ordering of JavaScript object keys that look like integers is not modelled. Keys keep insertion order.
- Letter case is ASCII only. `toLowerCase`, `lower()` and `toUpperCase` on non-ASCII letters are not modelled, nor is the `\b`/`\w` behaviour on non-ASCII text.
- Password and username lengths count Dafny characters, which are UTF-16 code units. Python counts code points, so the bounds differ only for characters outside the basic plane.
- Pydantic's `EmailStr` syntax check is not modelled. Any string is accepted as an email.
- Copying a schema's `config` through `SchemaFieldCreate` is taken to give the same JSON back. Pydantic's `model_dump` normalisation is not modelled.
- Deleting a schema or a user does not model the database's foreign-key cascades or refusals. The services show no such logic.
- The copy source of a new schema is looked up without a team check, as in the code. A schema of another team can be copied.
- CSV and Parquet serialisation (pandas, Papa Parse, `DictReader`, `DictWriter`) is not modelled. The model works on the row dictionaries they produce or consume.
- `export_csv` collects rows page by page. The model takes the finished listing, because the loop only concatenates pages.
- Whether the pagination controls render at all (hidden at one page) is not modelled, because it is rendering only.
- `createRow` in the dataset store is not modelled. It is a plain pass-through that refreshes the current dataset.
- `handleSubmit` and the schema fetch of the new-dataset page are not modelled. Only the setup check, field order, enum values and type names are.
- The client and server disagree in two places, and each side is modelled as written. The admin panel deletes a key at the key-management path without `/delete`, which is the route's path. The labellers PUT a bare array of labels, while the server's request schema expects an object.
- For a boolean label, a string that is neither a yes word nor a no word maps to `false`, as the code does. A numeric-looking string is not parsed as a number.
- A CSV import's column mapping goes from field id to column name, as the code reads it.
- The review service's `rows_count` counts only reviewed rows, as the repository query does. `DatasetService.GetDataset` follows that.
- An upload by file whose labels field is not valid JSON is answered as a server error (500), the status an unhandled exception gets.
- DeveloperKeys.Loaded: shows a fixed load-failure text, while the dialog shows the thrown error's own message, which comes from the network layer.
- DeveloperKeys.Create: shows a fixed create-failure text, while the dialog shows `e.message || "Unknown error"`. The thrown error's message comes from the network layer.
- DeveloperKeys.Delete: shows a fixed delete-failure text, while the dialog shows `e.message || "Unknown error"`. The thrown error's message comes from the network layer.
- Common.IsSpace: trimming strips the ASCII blanks, no-break space and byte order mark only. JavaScript's `trim` also strips the other Unicode space separators and the line and paragraph separators. Python's `strip` also strips U+001C to U+001F and U+0085, but keeps the byte order mark, so a Python-side trim would differ there; every trim in the model is a client-side one. Cells and names with those characters at their ends are kept as they are.
- SchemaService.MakeFields: fields with equal positions are read back in an order the database chooses, which is not modelled. The model puts them in request order, and its contracts promise only position order and the same fields.
- Router.MetaOf: vue-router ranks routes by specificity rather than declaration order; for this table both orders pick the same route. Percent-decoding of the path is not modelled.
- CreateDatasetDialog.Create: on success it closes the dialog and leaves the fields as they were, as the code does. They are cleared only by `OpenChange`.
- DatasetView.SaveImagePayload: states only the payload. The merge of the server's answer into the list is `DatasetView.ReplaceImage`.
- NewDataset.SetupComplete: its own contract states only the no-schema case. The per-field rule is stated by `NewDataset.AllEnumFieldsReady`, which `SetupComplete` uses.
- UploadDialog.DefaultSelections: its own contract states only that names stay unique. The values are stated by `UploadDialog.DefaultSelectionsOf`.
- RowService.ExportLine: its own contract states only the line's length. Its cells are stated by `RowService.ExportLineAt`, `ExportLineUrl`, `ExportLineField` and `ExportLineStatus`.
- DatasetExport.ExportDataset: uses the corrected lookup, which answers 404 for a missing or foreign dataset. The route as written answers 500 there; see Findings and `DatasetExport.ExportLookupAsWritten`.
- RowService.UpdateRow: uses the corrected duplicate check, which leaves the updated row out. The check as written also counts the updated row itself; see Findings and `RowService.UpdateRowAsWritten`.
- ReviewAuth.LoginTokenAuthenticates: after expiry the model refuses with `Token expired`, because its abstract decode ignores time. python-jose's `jwt.decode` itself rejects an expired token, which the route answers with `Invalid token`.
- RowService.ExportRows: with `only_reviewed` it states which rows are kept, not that the listing's order is kept. The order comes from the database query, which is not modelled.
- RowService.ExportLineField: assumes distinct field names that do not clash with a fixed column. With a clash, the later dictionary entry wins, which `RowService.ExportLineAt` covers.

## Findings

| source | as written | input that shows it | evidently intended | confidence | as-written member | corrected member |
|---|---|---|---|---|---|---|
| backend/src/ai_trace_datasets/core/routes/datasets.py:173-178 | the export route reads `dataset.name` before checking that the dataset was found | a well-formed UUID of a dataset that does not exist or belongs to another organization: reading the name of `None` raises, so the answer is 500 | answer 404 `Dataset with ID … not found`, as the guard right after it intends | high; not executed | DatasetExport.ExportLookupAsWritten (with DatasetExport.ExportMissingIsServerError) | DatasetExport.ExportLookup |
| src/aitrace/repositories/row_repository.py:88-98 | with an id to exclude, `exists_by_image_hash` puts `id != exclude_id` on the outer query, and the inner existence test, having a single table, is not correlated with it: the test still sees the updated row, and the outer query yields one row per other stored row, in any dataset | update a row to a new URL serving the same bytes as its current image while any other row is stored: the test finds the row's own hash and the update answers 409 `This image already exists in the dataset` | leave the updated row out of the existence test, so that only another row of the dataset with that hash refuses the update | medium; not executed | RowService.UpdateRowAsWritten (with RowService.UpdateToOwnImageRefusedAsWritten and RowService.OwnImageExample) | RowService.UpdateRow (with RowService.UpdateIgnoresOwnHash) |

=== FILE: access_roles.dfy ===
/** Role checks of the image backend's routes and the validation of the
    admin user requests: allowed roles, username length and the minimum
    length of a new password. */
module AccessRoles {
  import opened Common
  import opened ApiAuth

  /** `', '.join(items)`. */
  function Join(items: seq<string>, sep: string): (r: string)
    ensures |items| == 0 ==> r == ""
    ensures |items| == 1 ==> r == items[0]
    decreases |items|
  {
    if |items| == 0 then ""
    else if |items| == 1 then items[0]
    else items[0] + sep + Join(items[1..], sep)
  }

  /** The caller has at least one of the roles. */
  predicate SharesRole(roles: seq<string>, required: seq<string>) {
    exists r :: r in required && r in roles
  }

  /** `require_role`: the caller unchanged when they hold one of the
      required roles, else 403 naming the roles. */
  function RequireRole(required: seq<string>, caller: Caller): (r: Result<Caller, HttpError>)
    ensures r.Ok? <==> SharesRole(caller.roles, required)
    ensures r.Ok? ==> r.value == caller
    ensures r.Err? ==> r.error.status == 403
  {
    if exists role :: role in required && role in caller.roles then Ok(caller)
    else Err(HttpError(403, "User does not have the required role(s): " + Join(required, ", ")))
  }

  /** With no required role, every caller is refused. */
  lemma EmptyRequirementRejects(caller: Caller)
    ensures RequireRole([], caller).Err?
  {
  }

  /** `require_admin`: the caller unchanged exactly when they are an
      administrator. */
  function RequireAdmin(caller: Caller): (r: Result<Caller, HttpError>)
    ensures r.Ok? <==> "admin" in caller.roles
    ensures r.Ok? ==> r.value == caller
    ensures r.Err? ==> r.error == HttpError(403, "User does not have the required role(s): admin")
  {
    var r := RequireRole(["admin"], caller);
    assert "admin" in ["admin"];
    r
  }

  /** An API key never passes the administrator check. */
  lemma ApiCallerIsNotAdmin(organizationId: string)
    ensures RequireAdmin(ApiCaller(organizationId)).Err?
  {
  }

  // ---------------------------------------------------------------------
  // Admin user requests

  const AllowedRoles: set<string> := {"admin", "user"}
  const DefaultRoles: seq<string> := ["user"]
  const UsernameMin := 3
  const UsernameMax := 64
  const PasswordMin := 8

  /** A user-creation request as submitted; `roles` is `None` when the
      field is left out. */
  datatype UserCreateInput = UserCreateInput(username: string, password: string, roles: Option<seq<string>>)

  /** A user-creation request that passed validation. */
  datatype UserCreateRequest = UserCreateRequest(username: string, password: string, roles: seq<string>)

  /** Why a request was refused. */
  datatype RequestError = UsernameLength | RoleNotAllowed | PasswordTooShort

  /** `validate_roles`: every role must be allowed; an empty list passes. */
  predicate RolesValid(roles: seq<string>) {
    forall i :: 0 <= i < |roles| ==> roles[i] in AllowedRoles
  }

  /** Parsing a user-creation request: the username must be 3 to 64
      characters, the roles default to `["user"]` and must all be allowed;
      the password has no length bound. */
  function ParseUserCreate(input: UserCreateInput): (r: Result<UserCreateRequest, RequestError>)
    ensures r.Ok? <==> UsernameMin <= |input.username| <= UsernameMax && RolesValid(input.roles.GetOr(DefaultRoles))
    ensures r.Ok? ==> r.value == UserCreateRequest(input.username, input.password, input.roles.GetOr(DefaultRoles))
  {
    var roles := if input.roles.Some? then input.roles.value else DefaultRoles;
    if !(UsernameMin <= |input.username| <= UsernameMax) then Err(UsernameLength)
    else if !RolesValid(roles) then Err(RoleNotAllowed)
    else Ok(UserCreateRequest(input.username, input.password, roles))
  }

  /** Leaving out the roles makes a plain user; an empty password is
      accepted at creation. */
  lemma DefaultsOfUserCreate(username: string)
    requires UsernameMin <= |username| <= UsernameMax
    ensures ParseUserCreate(UserCreateInput(username, "", None)) == Ok(UserCreateRequest(username, "", ["user"]))
  {
  }

  /** A password update must have at least eight characters. */
  function ParsePasswordUpdate(password: string): (r: Result<string, RequestError>)
    ensures r.Ok? <==> |password| >= PasswordMin
    ensures r.Ok? ==> r.value == password
  {
    if |password| >= PasswordMin then Ok(password) else Err(PasswordTooShort)
  }
}

=== FILE: admin_panel.dfy ===
/** The admin panel: user management that is switched off in SaaS
    deployments, feature-flag toggling, the API-key list, and the display
    name of a feature flag. */
module AdminPanel {
  import opened Common
  import opened DeveloperKeys

  datatype NewUserForm = NewUserForm(username: string, password: string, roles: seq<string>)
  datatype PasswordForm = PasswordForm(userId: string, username: string, password: string)
  datatype FeatureFlag = FeatureFlag(id: string, name: string, enabled: bool)

  /** The panel's state. Users are kept opaque as their ids. */
  datatype PanelState = PanelState(
    users: seq<string>, newUser: NewUserForm, newUserOpen: bool,
    password: PasswordForm, passwordOpen: bool,
    deleteUserId: Option<string>, deleteOpen: bool,
    flags: seq<FeatureFlag>, keys: seq<KeyPreview>)

  const EmptyNewUser := NewUserForm("", "", ["user"])
  const EmptyPassword := PasswordForm("", "", "")

  /** Loading the users: always none in SaaS mode; otherwise the fetched
      list, or the old one when the fetch fails. */
  function FetchUsers(st: PanelState, saas: bool, fetched: Option<seq<string>>): (r: PanelState)
    ensures saas ==> r == st.(users := [])
    ensures !saas && fetched.Some? ==> r == st.(users := fetched.value)
    ensures !saas && fetched.None? ==> r == st
  {
    if saas then st.(users := [])
    else if fetched.Some? then st.(users := fetched.value)
    else st
  }

  /** A request the panel makes, with whether the server accepted it;
      `NotSent` when the panel sends nothing. */
  datatype Sent = NotSent | SentOk | SentFailed

  /** Creating a user: no request in SaaS mode; on success the dialog
      closes and the form is reset. */
  function CreateUser(st: PanelState, saas: bool, ok: bool): (r: (PanelState, Sent))
    ensures saas ==> r == (st, NotSent)
    ensures !saas && ok ==> r.1 == SentOk && r.0 == st.(newUserOpen := false, newUser := EmptyNewUser)
    ensures !saas && !ok ==> r == (st, SentFailed)
  {
    if saas then (st, NotSent)
    else if ok then (st.(newUserOpen := false, newUser := EmptyNewUser), SentOk)
    else (st, SentFailed)
  }

  /** Setting a user's password: no request in SaaS mode; on success the
      dialog closes and its data is cleared. */
  function UpdatePassword(st: PanelState, saas: bool, ok: bool): (r: (PanelState, Sent))
    ensures saas ==> r == (st, NotSent)
    ensures !saas && ok ==> r.1 == SentOk && r.0 == st.(passwordOpen := false, password := EmptyPassword)
    ensures !saas && !ok ==> r == (st, SentFailed)
  {
    if saas then (st, NotSent)
    else if ok then (st.(passwordOpen := false, password := EmptyPassword), SentOk)
    else (st, SentFailed)
  }

  /** Deleting the selected user: nothing without a selection or in SaaS
      mode; on success the dialog closes and the selection is cleared. */
  function DeleteUser(st: PanelState, saas: bool, ok: bool): (r: (PanelState, Sent))
    ensures st.deleteUserId.None? || st.deleteUserId == Some("") || saas ==> r == (st, NotSent)
    ensures r.1 == SentOk ==> r.0 == st.(deleteOpen := false, deleteUserId := None)
    ensures r.1 != NotSent ==> !saas && st.deleteUserId.Some? && (r.1 == SentOk <==> ok)
  {
    if st.deleteUserId.None? || st.deleteUserId.value == "" || saas then (st, NotSent)
    else if ok then (st.(deleteOpen := false, deleteUserId := None), SentOk)
    else (st, SentFailed)
  }

  /** The flag list with the server's answer put in place of every flag
      with the same id. */
  function ReplaceFlag(flags: seq<FeatureFlag>, updated: FeatureFlag): (r: seq<FeatureFlag>)
    ensures |r| == |flags|
    ensures forall i :: 0 <= i < |flags| ==> r[i] == if flags[i].id == updated.id then updated else flags[i]
  {
    seq(|flags|, i requires 0 <= i < |flags| => if flags[i].id == updated.id then updated else flags[i])
  }

  /** Toggling a flag asks the server for the opposite state and puts its
      answer in place; a failure changes nothing. */
  function ToggleFlag(st: PanelState, flag: FeatureFlag, respond: (string, bool) -> Option<FeatureFlag>)
    : (r: PanelState)
    ensures respond(flag.name, !flag.enabled).None? ==> r == st
    ensures respond(flag.name, !flag.enabled).Some? ==> r == st.(flags := ReplaceFlag(st.flags, respond(flag.name, !flag.enabled).value))
  {
    match respond(flag.name, !flag.enabled)
    case None => st
    case Some(u) => st.(flags := ReplaceFlag(st.flags, u))
  }

  /** When the server's answer is the same flag with the state flipped, the
      toggled flag is flipped and every other flag stays. */
  lemma ToggleFlipsOnlyThatFlag(st: PanelState, flag: FeatureFlag, respond: (string, bool) -> Option<FeatureFlag>, i: int)
    requires respond(flag.name, !flag.enabled) == Some(flag.(enabled := !flag.enabled))
    requires 0 <= i < |st.flags|
    ensures var r := ToggleFlag(st, flag, respond).flags;
      |r| == |st.flags|
      && (st.flags[i].id == flag.id ==> r[i] == flag.(enabled := !flag.enabled))
      && (st.flags[i].id != flag.id ==> r[i] == st.flags[i])
  {
  }

  /** A successful key deletion removes every entry with that id and keeps
      the others in order. */
  function DeleteKey(st: PanelState, keyId: string, ok: bool): (r: PanelState)
    ensures !ok ==> r == st
    ensures ok ==> (forall k :: k in r.keys <==> k in st.keys && k.id != keyId)
                   && r == st.(keys := r.keys) && |r.keys| <= |st.keys|
    ensures ok ==> |r.keys| == CountWhere(st.keys, OtherKey(keyId))
    ensures ok ==> forall i :: 0 <= i < |st.keys| && st.keys[i].id != keyId ==>
      CountWhere(st.keys[..i], OtherKey(keyId)) < |r.keys|
      && r.keys[CountWhere(st.keys[..i], OtherKey(keyId))] == st.keys[i]
  {
    if ok then
      FilterKeepsOrder(st.keys, OtherKey(keyId));
      st.(keys := Filter(st.keys, OtherKey(keyId)))
    else st
  }

  /** Whether a key entry is not the one with the id. */
  function OtherKey(keyId: string): KeyPreview -> bool {
    (k: KeyPreview) => k.id != keyId
  }

  // ---------------------------------------------------------------------
  // Flag display names

  /** A character of the `\w` class. */
  predicate IsWordChar(c: char) {
    'a' <= c <= 'z' || 'A' <= c <= 'Z' || '0' <= c <= '9' || c == '_'
  }

  /** `replace(/_/g, ' ')`. */
  function UnderscoresToSpaces(s: string): (r: string)
    ensures |r| == |s|
    ensures forall i :: 0 <= i < |s| ==> r[i] == if s[i] == '_' then ' ' else s[i]
  {
    seq(|s|, i requires 0 <= i < |s| => if s[i] == '_' then ' ' else s[i])
  }

  /** `replace(/\b\w/g, l => l.toUpperCase())`: upper-cases every word
      character that starts a word. */
  function CapitaliseWords(s: string): (r: string)
    ensures |r| == |s|
    ensures forall i :: 0 <= i < |s| ==>
      r[i] == if IsWordChar(s[i]) && (i == 0 || !IsWordChar(s[i - 1])) then UpperChar(s[i]) else s[i]
  {
    seq(|s|, i requires 0 <= i < |s| =>
      if IsWordChar(s[i]) && (i == 0 || !IsWordChar(s[i - 1])) then UpperChar(s[i]) else s[i])
  }

  /** A flag's display name, e.g. `ai_name` becomes `Ai Name`. */
  function DisplayName(name: string): (r: string)
    ensures |r| == |name|
    ensures forall i :: 0 <= i < |r| ==> r[i] != '_'
  {
    CapitaliseWords(UnderscoresToSpaces(name))
  }

  /** Upper-casing keeps word characters word characters. */
  lemma UpperKeepsWordChar(c: char)
    ensures IsWordChar(UpperChar(c)) <==> IsWordChar(c)
  {
  }

  /** Prettifying a display name again changes nothing: the word
      boundaries and the letters are already where they end up. */
  lemma DisplayNameIdempotent(name: string)
    ensures DisplayName(DisplayName(name)) == DisplayName(name)
  {
    var d := DisplayName(name);
    var t := UnderscoresToSpaces(name);
    assert UnderscoresToSpaces(d) == d;
    forall i | 0 <= i < |d|
      ensures IsWordChar(d[i]) <==> IsWordChar(t[i])
    {
      UpperKeepsWordChar(t[i]);
    }
  }

  /** The display name of a name made of lower-case words joined by `_`:
      each word starts with a capital and `_` becomes a space. */
  lemma DisplayNameExample()
    ensures DisplayName("ai_name") == "Ai Name"
  {
  }
}

=== FILE: api_auth.dfy ===
/** Authentication of the image backend: bearer tokens that are either
    signed session tokens or developer API keys, the keys' creation, listing
    and deletion, and the key preview that links a presented key back to the
    stored record. Token decoding and password hashing are parameters. */
module ApiAuth {
  import opened Common

  /** A failed request: the HTTP status and its `detail`. */
  datatype HttpError = HttpError(status: int, detail: string)

  /** A stored user. */
  datatype StoredUser = StoredUser(id: string, username: string, roles: seq<string>, organizationId: string)

  /** The caller as the routes see it; API keys have no user id. */
  datatype Caller = Caller(id: Option<string>, username: string, roles: seq<string>, organizationId: string)

  /** The claims of a session token that decoded, with its `sub`, if any. */
  datatype Claims = Claims(sub: Option<string>)

  /** A stored API key: never the key itself, only its preview and hash. */
  datatype ApiKeyRecord = ApiKeyRecord(id: string, preview: string, keyHash: string, createdAt: int, organizationId: string)

  const CredentialsMessage := "Could not validate credentials"
  const KeyFormatMessage := "Invalid API key format"
  const KeyInvalidMessage := "API key invalid"
  const KeyNotFoundMessage := "API key not found"
  const ApiUsername := "API KEY"

  /** Python's `s[:n]` for `n >= 0`. */
  function Prefix(s: string, n: nat): (r: string)
    ensures |r| == Min(n, |s|) && IsPrefix(r, s)
  {
    if n <= |s| then s[..n] else s
  }

  /** `get_current_user`: a session token that decodes, names a user in
      `sub`, and that user exists. Every other case is the same 401. */
  function CurrentUser(token: string, decode: string -> Option<Claims>, users: map<string, StoredUser>)
    : (r: Result<Caller, HttpError>)
    ensures r.Err? <==> (decode(token).None? || decode(token).value.sub.None?
                         || decode(token).value.sub.value !in users)
    ensures r.Err? ==> r.error == HttpError(401, CredentialsMessage)
    ensures r.Ok? ==> (var u := users[decode(token).value.sub.value];
                       r.value == Caller(Some(u.id), u.username, u.roles, u.organizationId))
  {
    match decode(token)
    case None => Err(HttpError(401, CredentialsMessage))
    case Some(claims) =>
      if claims.sub.None? || claims.sub.value !in users then Err(HttpError(401, CredentialsMessage))
      else
        var u := users[claims.sub.value];
        Ok(Caller(Some(u.id), u.username, u.roles, u.organizationId))
  }

  // ---------------------------------------------------------------------
  // Key generation and preview

  /** `generate_api_key`: `sk-` followed by the random part. */
  function GenerateApiKey(randomPart: string): (k: string)
    ensures IsPrefix("sk-", k) && k[3..] == randomPart
  {
    "sk-" + randomPart
  }

  /** `get_api_key_preview`: the first five characters and `***`. */
  function KeyPreview(key: string): (p: string)
    ensures |key| >= 5 ==> |p| == 8 && p == key[..5] + "***"
  {
    Prefix(key, 5) + "***"
  }

  /** The preview of a generated key shows `sk-` and the first two random
      characters: eight characters in all. */
  lemma GeneratedKeyPreview(randomPart: string)
    requires |randomPart| >= 2
    ensures KeyPreview(GenerateApiKey(randomPart)) == "sk-" + randomPart[..2] + "***"
    ensures |KeyPreview(GenerateApiKey(randomPart))| == 8
  {
  }

  /** The preview the key lookup computes from a presented token of at
      least 16 characters: its first 16, then the first five of those. */
  function LookupPreview(token: string): (p: string)
    requires |token| >= 16
  {
    Prefix(Prefix(token, 16), 5) + "***"
  }

  /** The lookup preview of a presented key is the preview stored when the
      key was created, so the lookup finds its record. */
  lemma LookupPreviewMatchesStored(token: string)
    requires |token| >= 16
    ensures LookupPreview(token) == KeyPreview(token)
  {
    assert Prefix(token, 16)[..5] == token[..5];
  }

  // ---------------------------------------------------------------------
  // Client authentication

  /** The caller an API key stands for. */
  function ApiCaller(organizationId: string): Caller {
    Caller(None, ApiUsername, ["api"], organizationId)
  }

  /** Key `i` is the first with the preview whose hash the token checks
      against. */
  predicate FirstMatch(keys: seq<ApiKeyRecord>, preview: string, token: string, checks: (string, string) -> bool,
                       i: int) {
    0 <= i < |keys| && keys[i].preview == preview && checks(token, keys[i].keyHash)
    && forall j :: 0 <= j < i ==> !(keys[j].preview == preview && checks(token, keys[j].keyHash))
  }

  /** The first stored key, among those with the given preview, whose hash
      the token checks against. */
  function MatchingKey(keys: seq<ApiKeyRecord>, preview: string, token: string, checks: (string, string) -> bool)
    : (o: Option<ApiKeyRecord>)
    ensures o.Some? ==> o.value in keys && o.value.preview == preview && checks(token, o.value.keyHash)
    ensures o.Some? ==> exists i :: FirstMatch(keys, preview, token, checks, i) && keys[i] == o.value
    ensures o.None? <==> forall k :: k in keys && k.preview == preview ==> !checks(token, k.keyHash)
  {
    var i := FindFirst(keys, (k: ApiKeyRecord) => k.preview == preview && checks(token, k.keyHash));
    if i.Some? then
      assert FirstMatch(keys, preview, token, checks, i.value);
      Some(keys[i.value])
    else None
  }

  /** `verify_client_auth`: a valid session token wins; otherwise the token
      is tried as an API key, which must be at least 16 characters long and
      check against a stored key with its preview. */
  function VerifyClientAuth(token: string, decode: string -> Option<Claims>, users: map<string, StoredUser>,
                            keys: seq<ApiKeyRecord>, checks: (string, string) -> bool)
    : (r: Result<Caller, HttpError>)
    ensures CurrentUser(token, decode, users).Ok? ==> r == CurrentUser(token, decode, users)
    ensures CurrentUser(token, decode, users).Err? && |token| < 16 ==> r == Err(HttpError(401, KeyFormatMessage))
    ensures (CurrentUser(token, decode, users).Err? && |token| >= 16 ==>
      (r.Ok? <==> exists k :: k in keys && k.preview == KeyPreview(token) && checks(token, k.keyHash)))
    ensures (CurrentUser(token, decode, users).Err? && |token| >= 16 && r.Ok? ==>
      MatchingKey(keys, KeyPreview(token), token, checks).Some?
      && r.value == ApiCaller(MatchingKey(keys, KeyPreview(token), token, checks).value.organizationId))
    ensures r.Ok? && r.value.id.None? ==> r.value.username == ApiUsername && r.value.roles == ["api"]
    ensures r.Err? ==> r.error.status == 401
  {
    match CurrentUser(token, decode, users)
    case Ok(u) => Ok(u)
    case Err(_) =>
      if |token| < 16 then Err(HttpError(401, KeyFormatMessage))
      else
        LookupPreviewMatchesStored(token);
        match MatchingKey(keys, LookupPreview(token), token, checks)
        case Some(k) => Ok(ApiCaller(k.organizationId))
        case None => Err(HttpError(401, KeyInvalidMessage))
  }

  // ---------------------------------------------------------------------
  // Key management routes

  /** What key creation returns: the one and only time the full key is
      shown. */
  datatype CreatedKey = CreatedKey(apiKey: string, id: string, preview: string, createdAt: int)

  /** `create_api_key`: stores the preview and the hash of a fresh key for
      the caller's organization and returns the key in full. */
  function CreateKey(keys: seq<ApiKeyRecord>, caller: Caller, newId: string, randomPart: string,
                     hash: string -> string, now: int): (r: (seq<ApiKeyRecord>, CreatedKey))
    ensures var key := GenerateApiKey(randomPart);
      r.0 == keys + [ApiKeyRecord(newId, KeyPreview(key), hash(key), now, caller.organizationId)]
      && r.1 == CreatedKey(key, newId, KeyPreview(key), now)
  {
    var key := GenerateApiKey(randomPart);
    var record := ApiKeyRecord(newId, KeyPreview(key), hash(key), now, caller.organizationId);
    (keys + [record], CreatedKey(key, newId, record.preview, now))
  }

  /** A created key authenticates: presented as a bearer token that is not a
      session token, it is accepted as an API caller, of the creator's
      organization when no older key of the same preview checks against it.
      The hash is assumed to check against the key it was made from. */
  lemma CreatedKeyAuthenticates(keys: seq<ApiKeyRecord>, caller: Caller, newId: string, randomPart: string,
                                hash: string -> string, now: int,
                                decode: string -> Option<Claims>, users: map<string, StoredUser>,
                                checks: (string, string) -> bool)
    requires |randomPart| >= 13
    requires checks(GenerateApiKey(randomPart), hash(GenerateApiKey(randomPart)))
    requires decode(GenerateApiKey(randomPart)).None?
    ensures var (keys', created) := CreateKey(keys, caller, newId, randomPart, hash, now);
      var r := VerifyClientAuth(created.apiKey, decode, users, keys', checks);
      r.Ok? && r.value.username == ApiUsername && r.value.roles == ["api"]
    ensures (forall k :: k in keys && k.preview == KeyPreview(GenerateApiKey(randomPart)) ==>
               !checks(GenerateApiKey(randomPart), k.keyHash)) ==>
      var (keys', created) := CreateKey(keys, caller, newId, randomPart, hash, now);
      VerifyClientAuth(created.apiKey, decode, users, keys', checks) == Ok(ApiCaller(caller.organizationId))
  {
    var key := GenerateApiKey(randomPart);
    var (keys', created) := CreateKey(keys, caller, newId, randomPart, hash, now);
    var record := keys'[|keys|];
    assert record in keys';
    LookupPreviewMatchesStored(key);
    var p := (k: ApiKeyRecord) => k.preview == LookupPreview(key) && checks(key, k.keyHash);
    var i := FindFirst(keys', p);
    assert i.Some?;
    if forall k :: k in keys && k.preview == KeyPreview(key) ==> !checks(key, k.keyHash) {
      assert i.value == |keys|;
    }
  }

  /** One key as listed. */
  datatype KeyListing = KeyListing(id: string, preview: string, createdAt: int)

  function Listing(k: ApiKeyRecord): KeyListing {
    KeyListing(k.id, k.preview, k.createdAt)
  }

  /** `list_api_keys`: the caller's organization's keys, previews only, in
      stored order. */
  function ListKeys(keys: seq<ApiKeyRecord>, caller: Caller): (r: seq<KeyListing>)
    ensures |r| <= |keys|
    ensures forall k :: k in keys && k.organizationId == caller.organizationId ==> Listing(k) in r
    ensures forall l :: l in r ==> (exists k :: k in keys && k.organizationId == caller.organizationId
                                                && l == Listing(k))
    decreases |keys|
  {
    if |keys| == 0 then []
    else
      var rest := ListKeys(keys[1..], caller);
      assert forall k :: k in keys[1..] ==> k in keys;
      if keys[0].organizationId == caller.organizationId then [Listing(keys[0])] + rest else rest
  }

  /** Key `i` is the first with the id that belongs to the caller's
      organization. */
  predicate FirstOwned(keys: seq<ApiKeyRecord>, caller: Caller, keyId: string, i: int) {
    0 <= i < |keys| && keys[i].id == keyId && keys[i].organizationId == caller.organizationId
    && forall j :: 0 <= j < i ==> !(keys[j].id == keyId && keys[j].organizationId == caller.organizationId)
  }

  /** `delete_api_key`: the caller may delete a key of their own
      organization, which removes that one record and keeps the others in
      order; any other id is not found. */
  function DeleteKey(keys: seq<ApiKeyRecord>, caller: Caller, keyId: string): (r: Result<seq<ApiKeyRecord>, HttpError>)
    ensures r.Err? <==> forall k :: k in keys ==> !(k.id == keyId && k.organizationId == caller.organizationId)
    ensures r.Err? ==> r.error == HttpError(404, KeyNotFoundMessage)
    ensures r.Ok? ==> (|r.value| == |keys| - 1
                       && forall k :: k in r.value ==> k in keys)
    ensures r.Ok? ==> exists i :: FirstOwned(keys, caller, keyId, i) && r.value == keys[..i] + keys[i + 1..]
  {
    var i := FindFirst(keys, (k: ApiKeyRecord) => k.id == keyId && k.organizationId == caller.organizationId);
    match i
    case None => Err(HttpError(404, KeyNotFoundMessage))
    case Some(n) =>
      assert FirstOwned(keys, caller, keyId, n);
      Ok(RemoveAt(keys, n))
  }

  /** A key of another organization is never deleted: the request fails and
      the stored keys stay as they are. */
  lemma DeleteIsScoped(keys: seq<ApiKeyRecord>, caller: Caller, keyId: string)
    requires forall k :: k in keys && k.id == keyId ==> k.organizationId != caller.organizationId
    ensures DeleteKey(keys, caller, keyId) == Err(HttpError(404, KeyNotFoundMessage))
  {
  }
}

=== FILE: auth_store.dfy ===
/** The signed-in user as the single-page client keeps it: who is signed
    in, whether they are an administrator or must change their password,
    and the login, logout, refresh and password-change actions. */
module AuthStore {
  import opened Common

  /** The fields of the user record the client acts on. */
  datatype User = User(id: string, role: string, mustResetPassword: bool)

  datatype AuthState = AuthState(user: Option<User>, loading: bool, error: Option<string>)

  /** A service call's outcome: a value, or a failure with the server's
      `message`, if any. */
  datatype Reply<R> = Done(value: R) | Failed(message: Option<string>)

  const LoginFailedMessage := "Login failed"
  const LogoutFailedMessage := "Logout failed"
  const PasswordFailedMessage := "Password change failed"

  predicate IsAuthenticated(st: AuthState) {
    st.user.Some?
  }

  predicate IsAdmin(st: AuthState) {
    st.user.Some? && st.user.value.role == "admin"
  }

  /** A missing user need not reset anything. */
  predicate MustResetPassword(st: AuthState) {
    st.user.Some? && st.user.value.mustResetPassword
  }

  /** An administrator is signed in. */
  lemma AdminIsAuthenticated(st: AuthState)
    requires IsAdmin(st)
    ensures IsAuthenticated(st)
  {
  }

  /** Logging in signs in the returned user; a failure shows the error,
      keeps whoever was signed in and is passed on (second result `false`). */
  function Login(st: AuthState, reply: Reply<User>): (r: (AuthState, bool))
    ensures !r.0.loading
    ensures reply.Done? ==> r.0.user == Some(reply.value) && r.0.error.None? && r.1
    ensures reply.Failed? ==> (r.0.user == st.user && r.0.error == Some(ErrorText(reply.message, LoginFailedMessage))
                               && !r.1)
  {
    match reply
    case Done(u) => (AuthState(Some(u), false, None), true)
    case Failed(m) => (AuthState(st.user, false, Some(ErrorText(m, LoginFailedMessage))), false)
  }

  /** Logging out forgets the user only when the server confirms it; a
      failure keeps the user signed in and is not passed on. */
  function Logout(st: AuthState, ok: Reply<()>): (r: AuthState)
    ensures !r.loading
    ensures ok.Done? ==> r == st.(user := None, loading := false)
    ensures ok.Failed? ==> r == st.(loading := false, error := Some(ErrorText(ok.message, LogoutFailedMessage)))
  {
    match ok
    case Done(_) => st.(user := None, loading := false)
    case Failed(m) => st.(loading := false, error := Some(ErrorText(m, LogoutFailedMessage)))
  }

  /** Refreshing the user: the server's user, or nobody when the call
      fails (the failure is passed on). The error text is left alone. */
  function FetchCurrentUser(st: AuthState, reply: Reply<User>): (r: (AuthState, bool))
    ensures r.0.error == st.error && !r.0.loading
    ensures reply.Done? <==> r.1
    ensures reply.Done? ==> r.0.user == Some(reply.value)
    ensures reply.Failed? ==> r.0.user.None?
  {
    match reply
    case Done(u) => (st.(user := Some(u), loading := false), true)
    case Failed(_) => (st.(user := None, loading := false), false)
  }

  /** Changing the password clears the must-reset mark of the signed-in
      user on success; a failure shows the error and is passed on. */
  function ChangePassword(st: AuthState, ok: Reply<()>): (r: (AuthState, bool))
    ensures !r.0.loading
    ensures ok.Done? ==> (r.1 && r.0.error.None? && !MustResetPassword(r.0)
                          && (st.user.Some? <==> r.0.user.Some?)
                          && (st.user.Some? ==> r.0.user.value == st.user.value.(mustResetPassword := false)))
    ensures ok.Failed? ==> (!r.1 && r.0.user == st.user
                            && r.0.error == Some(ErrorText(ok.message, PasswordFailedMessage)))
  {
    match ok
    case Done(_) =>
      var user := if st.user.Some? then Some(st.user.value.(mustResetPassword := false)) else None;
      (AuthState(user, false, None), true)
    case Failed(m) => (AuthState(st.user, false, Some(ErrorText(m, PasswordFailedMessage))), false)
  }

  /** A successful password change keeps who is signed in and their role. */
  lemma ChangePasswordKeepsRole(st: AuthState)
    ensures var r := ChangePassword(st, Done(())).0;
      IsAuthenticated(r) == IsAuthenticated(st) && IsAdmin(r) == IsAdmin(st)
  {
  }
}

=== FILE: backend_db.dfy ===
/** The image-labelling service's stored state: datasets with their cached
    image counters and the images that belong to them, the dataset lookup
    scoped to an organisation, and the counter update every image operation
    performs. */
module BackendDb {
  import opened Common
  import opened Labels

  /** An HTTP error raised by a route or service (its status code). */
  datatype ApiError = ApiError(status: int)

  const BadRequest := ApiError(400)
  const NotFound := ApiError(404)

  /** A stored dataset: `n_images` and `n_labeled_images` are counters kept
      up to date by every image operation. */
  datatype Dataset = Dataset(
    id: string, orgId: string, name: string, description: string,
    labels: Option<seq<LabelDef>>, nImages: int, nLabeled: int)
  {
    /** `n_queued_images`: images still waiting for a label. */
    function NQueued(): (q: int)
      ensures q + nLabeled == nImages
    {
      nImages - nLabeled
    }
  }

  /** A stored image. `createdAt` is a timestamp; `None` when unset. */
  datatype Image = Image(
    id: string, datasetId: string, name: string, storageUrl: string,
    sourceUrl: Option<string>, md5: string, description: Option<string>,
    labels: Option<seq<LabelUpdate>>, comment: Option<string>, isLabeled: bool,
    updatedBy: string, createdAt: Option<int>, updatedAt: Option<int>)
  {
    /** `is_queued`: an image is queued exactly when it is not labeled. */
    predicate IsQueued() {
      !isLabeled
    }
  }

  datatype Db = Db(datasets: map<string, Dataset>, images: map<string, Image>)

  /** The ids of the images stored under dataset `ds`. */
  ghost function ImagesOf(images: map<string, Image>, ds: string): set<string> {
    set id | id in images && images[id].datasetId == ds
  }

  /** The ids of the labeled images of dataset `ds`. */
  ghost function LabeledOf(images: map<string, Image>, ds: string): set<string> {
    set id | id in images && images[id].datasetId == ds && images[id].isLabeled
  }

  /** The ids of the queued images of dataset `ds`. */
  ghost function QueuedOf(images: map<string, Image>, ds: string): set<string> {
    set id | id in images && images[id].datasetId == ds && images[id].IsQueued()
  }

  /** Every dataset's counters equal the number of its images and of its
      labeled images; map keys are the records' ids. */
  ghost predicate CountsAgree(db: Db) {
    (forall d :: d in db.datasets ==> db.datasets[d].id == d)
    && (forall i :: i in db.images ==> db.images[i].id == i)
    && forall d :: d in db.datasets ==>
         db.datasets[d].nImages == |ImagesOf(db.images, d)| && db.datasets[d].nLabeled == |LabeledOf(db.images, d)|
  }

  lemma ImagesAfterPut(images: map<string, Image>, id: string, img: Image, d: string)
    ensures ImagesOf(images[id := img], d) == (ImagesOf(images, d) - {id}) + (if img.datasetId == d then {id} else {})
    ensures LabeledOf(images[id := img], d)
         == (LabeledOf(images, d) - {id}) + (if img.datasetId == d && img.isLabeled then {id} else {})
  {
  }

  lemma ImagesAfterInsert(images: map<string, Image>, id: string, img: Image, d: string)
    requires id !in images
    ensures ImagesOf(images[id := img], d) == ImagesOf(images, d) + (if img.datasetId == d then {id} else {})
    ensures LabeledOf(images[id := img], d)
         == LabeledOf(images, d) + (if img.datasetId == d && img.isLabeled then {id} else {})
    ensures id !in ImagesOf(images, d) && id !in LabeledOf(images, d)
  {
  }

  lemma ImagesAfterRemove(images: map<string, Image>, id: string, d: string)
    ensures ImagesOf(images - {id}, d) == ImagesOf(images, d) - {id}
    ensures LabeledOf(images - {id}, d) == LabeledOf(images, d) - {id}
  {
  }

  /** Removing an image lowers its dataset's image count by one, and its
      labeled count by one when it was labeled; other datasets keep theirs. */
  lemma RemoveCounts(images: map<string, Image>, id: string, d: string)
    requires id in images
    ensures |ImagesOf(images - {id}, d)| == |ImagesOf(images, d)| - (if images[id].datasetId == d then 1 else 0)
    ensures |LabeledOf(images - {id}, d)|
         == |LabeledOf(images, d)| - (if images[id].datasetId == d && images[id].isLabeled then 1 else 0)
  {
    ImagesAfterRemove(images, id, d);
    if images[id].datasetId == d {
      assert id in ImagesOf(images, d);
    } else {
      assert ImagesOf(images, d) - {id} == ImagesOf(images, d);
    }
    if images[id].datasetId == d && images[id].isLabeled {
      assert id in LabeledOf(images, d);
    } else {
      assert LabeledOf(images, d) - {id} == LabeledOf(images, d);
    }
  }

  /** Replacing an image by one in the same dataset keeps every dataset's
      image count and moves its labeled count by the change of the flag. */
  lemma PutSameDatasetCounts(images: map<string, Image>, id: string, img: Image, d: string)
    requires id in images && images[id].datasetId == img.datasetId
    ensures |ImagesOf(images[id := img], d)| == |ImagesOf(images, d)|
    ensures |LabeledOf(images[id := img], d)| == |LabeledOf(images, d)|
      + (if img.datasetId == d then (if img.isLabeled then 1 else 0) - (if images[id].isLabeled then 1 else 0) else 0)
  {
    ImagesAfterPut(images, id, img, d);
    var prev := images[id];
    assert id in ImagesOf(images, d) <==> prev.datasetId == d;
    assert id in LabeledOf(images, d) <==> prev.datasetId == d && prev.isLabeled;
    SwapCard(ImagesOf(images, d), id, img.datasetId == d);
    SwapCard(LabeledOf(images, d), id, img.datasetId == d && img.isLabeled);
  }

  /** Taking `x` out of a set and optionally putting it back. */
  lemma SwapCard<T>(a: set<T>, x: T, back: bool)
    ensures |(a - {x}) + (if back then {x} else {})| == |a| + (if back then 1 else 0) - (if x in a then 1 else 0)
  {
    if x in a {
      assert a == (a - {x}) + {x};
    } else {
      assert a - {x} == a;
    }
  }

  /** With agreeing counters, the queued count is the number of queued
      images. */
  lemma QueuedCountAgrees(db: Db, d: string)
    requires CountsAgree(db) && d in db.datasets
    ensures db.datasets[d].NQueued() == |QueuedOf(db.images, d)|
  {
    var all, lab, que := ImagesOf(db.images, d), LabeledOf(db.images, d), QueuedOf(db.images, d);
    assert lab + que == all;
    assert lab * que == {};
    assert |lab + que| == |lab| + |que| - |lab * que|;
  }

  /** `find_by_id_and_org_id`: the id must parse as a UUID (400 otherwise);
      the dataset is returned only when it belongs to the caller's
      organisation. `parseUuid` stands for `uuid.UUID` and yields the
      canonical id. */
  function FindByIdAndOrg(db: Db, rawId: string, org: string, parseUuid: string -> Option<string>)
    : (r: Result<Option<Dataset>, ApiError>)
    ensures r.Err? <==> parseUuid(rawId).None?
    ensures r.Err? ==> r.error == BadRequest
    ensures r.Ok? && r.value.Some? ==>
      var id := parseUuid(rawId).value;
      id in db.datasets && r.value.value == db.datasets[id] && r.value.value.orgId == org
    ensures r.Ok? && r.value.None? ==>
      var id := parseUuid(rawId).value;
      id !in db.datasets || db.datasets[id].orgId != org
  {
    match parseUuid(rawId)
    case None => Err(BadRequest)
    case Some(id) =>
      if id in db.datasets && db.datasets[id].orgId == org then Ok(Some(db.datasets[id])) else Ok(None)
  }

  /** `increase_img_count`: shifts a dataset's counters by the given deltas;
      404 when the dataset does not exist. Nothing else changes. */
  function IncreaseImgCount(db: Db, ds: string, nTotal: int, nLabeled: int): (r: Result<Db, ApiError>)
    ensures r.Err? <==> ds !in db.datasets
    ensures r.Err? ==> r.error == NotFound
    ensures r.Ok? ==>
      (r.value.images == db.images
       && r.value.datasets.Keys == db.datasets.Keys
       && r.value.datasets[ds] == db.datasets[ds].(nImages := db.datasets[ds].nImages + nTotal,
                                                   nLabeled := db.datasets[ds].nLabeled + nLabeled)
       && forall d :: d in db.datasets && d != ds ==> r.value.datasets[d] == db.datasets[d])
  {
    if ds !in db.datasets then Err(NotFound)
    else
      var d := db.datasets[ds];
      Ok(db.(datasets := db.datasets[ds := d.(nImages := d.nImages + nTotal, nLabeled := d.nLabeled + nLabeled)]))
  }
}

=== FILE: bulk_import.dfy ===
/** The bulk-import dialog: it guesses which CSV columns hold the image URL,
    the image name and each label, coerces CSV cells to label values, and
    sends one import-by-URL request per row, tallying successes, duplicates
    (HTTP 409) and failures. */
module BulkImport {
  import opened Common
  import opened Records
  import opened Labels

  /** A parsed CSV row: header to cell. A header missing from the map reads
      as `undefined`. */
  type Row = map<string, Value>

  /** `{labelName, columnName, enabled}`. */
  datatype LabelMapping = LabelMapping(labelName: string, columnName: string, enabled: bool)

  /** `{enabled, columnName}` for the image name. */
  datatype NameMapping = NameMapping(enabled: bool, columnName: string)

  // ---------------------------------------------------------------------
  // Column inference

  predicate IsUrlHeader(h: string) {
    Contains(Lower(h), "url") || Contains(Lower(h), "image") || Contains(Lower(h), "img")
  }

  predicate IsNameHeader(h: string) {
    Contains(Lower(h), "name")
  }

  /** The column preselected for image URLs: the first header that mentions
      a URL or an image, else the first header; nothing for no headers. */
  function GuessUrlColumn(headers: seq<string>): (r: Option<string>)
    ensures r.None? <==> |headers| == 0
    ensures r.Some? ==> r.value in headers
    ensures (exists j :: 0 <= j < |headers| && IsUrlHeader(headers[j])) ==>
      r.Some? && IsUrlHeader(r.value)
      && (exists k :: 0 <= k < |headers| && headers[k] == r.value
            && forall j :: 0 <= j < k ==> !IsUrlHeader(headers[j]))
    ensures (forall j :: 0 <= j < |headers| ==> !IsUrlHeader(headers[j])) && |headers| > 0 ==>
      r == Some(headers[0])
  {
    match FindFirst(headers, IsUrlHeader)
    case Some(k) => Some(headers[k])
    case None => if |headers| > 0 then Some(headers[0]) else None
  }

  /** Header `k` is the first that mentions a name. */
  predicate FirstNameHeader(headers: seq<string>, k: int) {
    0 <= k < |headers| && IsNameHeader(headers[k]) && forall j :: 0 <= j < k ==> !IsNameHeader(headers[j])
  }

  /** The name mapping: enabled on the first header that mentions a name,
      disabled with an empty column otherwise. */
  function GuessNameMapping(headers: seq<string>): (m: NameMapping)
    ensures m.enabled <==> exists j :: 0 <= j < |headers| && IsNameHeader(headers[j])
    ensures m.enabled ==> m.columnName in headers && IsNameHeader(m.columnName)
    ensures forall k :: FirstNameHeader(headers, k) ==> m == NameMapping(true, headers[k])
    ensures !m.enabled ==> m.columnName == ""
  {
    match FindFirst(headers, IsNameHeader)
    case Some(k) => NameMapping(true, headers[k])
    case None => NameMapping(false, "")
  }

  /** Header `k` is the first equal to `name` up to case. */
  predicate FirstExactHeader(headers: seq<string>, name: string, k: int) {
    0 <= k < |headers| && EqualsIgnoreCase(headers[k], name)
    && forall j :: 0 <= j < k ==> !EqualsIgnoreCase(headers[j], name)
  }

  /** Header `k` is the first that contains `name` up to case. */
  predicate FirstPartialHeader(headers: seq<string>, name: string, k: int) {
    0 <= k < |headers| && Contains(Lower(headers[k]), Lower(name))
    && forall j :: 0 <= j < k ==> !Contains(Lower(headers[j]), Lower(name))
  }

  /** The column matched to one label: the first header equal to the label
      name up to case is preferred, then the first header that contains it;
      a match that is the (falsy) empty header counts as no match. A match
      enables the mapping; without one the mapping is left as it was. */
  function GuessLabelColumn(headers: seq<string>, m: LabelMapping): (r: LabelMapping)
    ensures r.labelName == m.labelName
    ensures r == m || (r.enabled && r.columnName in headers && r.columnName != "")
    ensures r != m ==> EqualsIgnoreCase(r.columnName, m.labelName) || Contains(Lower(r.columnName), Lower(m.labelName))
    ensures (exists j :: 0 <= j < |headers| && EqualsIgnoreCase(headers[j], m.labelName)) && m.labelName != "" ==>
      r.enabled && EqualsIgnoreCase(r.columnName, m.labelName)
  {
    var exact := FindFirst(headers, h => EqualsIgnoreCase(h, m.labelName));
    if exact.Some? && headers[exact.value] != "" then
      LabelMapping(m.labelName, headers[exact.value], true)
    else
      var partial := FindFirst(headers, h => Contains(Lower(h), Lower(m.labelName)));
      if partial.Some? && headers[partial.value] != "" then
        LabelMapping(m.labelName, headers[partial.value], true)
      else m
  }

  /** Which header a label is matched to, told by first matches: the first
      header equal to the label name up to case when it is not empty; else
      the first header containing the name when that is not empty; else the
      mapping stays as it was. */
  lemma GuessLabelColumnPicksFirst(headers: seq<string>, m: LabelMapping)
    ensures forall k :: FirstExactHeader(headers, m.labelName, k) && headers[k] != "" ==>
      GuessLabelColumn(headers, m) == LabelMapping(m.labelName, headers[k], true)
    ensures (forall k :: FirstExactHeader(headers, m.labelName, k) ==> headers[k] == "") ==>
      forall k :: FirstPartialHeader(headers, m.labelName, k) && headers[k] != "" ==>
        GuessLabelColumn(headers, m) == LabelMapping(m.labelName, headers[k], true)
    ensures ((forall k :: FirstExactHeader(headers, m.labelName, k) ==> headers[k] == "")
             && (forall k :: FirstPartialHeader(headers, m.labelName, k) ==> headers[k] == "")) ==>
      GuessLabelColumn(headers, m) == m
  {
    var exact := FindFirst(headers, h => EqualsIgnoreCase(h, m.labelName));
    var partial := FindFirst(headers, h => Contains(Lower(h), Lower(m.labelName)));
    if exact.Some? {
      assert FirstExactHeader(headers, m.labelName, exact.value);
      FirstIsUnique(headers, m.labelName, exact.value);
    }
    if partial.Some? {
      assert FirstPartialHeader(headers, m.labelName, partial.value);
      FirstPartialIsUnique(headers, m.labelName, partial.value);
    }
  }

  lemma FirstIsUnique(headers: seq<string>, name: string, k: int)
    requires FirstExactHeader(headers, name, k)
    ensures forall k' :: FirstExactHeader(headers, name, k') ==> k' == k
  {
  }

  lemma FirstPartialIsUnique(headers: seq<string>, name: string, k: int)
    requires FirstPartialHeader(headers, name, k)
    ensures forall k' :: FirstPartialHeader(headers, name, k') ==> k' == k
  {
  }

  /** Matching runs over every mapping and keeps their order. */
  function GuessLabelMappings(headers: seq<string>, ms: seq<LabelMapping>): (r: seq<LabelMapping>)
    ensures |r| == |ms|
    ensures forall i :: 0 <= i < |ms| ==> r[i] == GuessLabelColumn(headers, ms[i])
  {
    seq(|ms|, i requires 0 <= i < |ms| => GuessLabelColumn(headers, ms[i]))
  }

  // ---------------------------------------------------------------------
  // Coercion of CSV cells

  const TrueWords: seq<string> := ["true", "t", "yes", "y", "1"]
  const FalseWords: seq<string> := ["false", "f", "no", "n", "0"]

  /** The value stored for a CSV cell under a label. */
  function ParseValueForLabel(defs: Rec<LabelDef>, labelName: string, v: Value): (r: Value)
    ensures Get(defs, labelName).None? ==> r == v
    ensures Get(defs, labelName).Some? && Get(defs, labelName).value.kind.Boolean? ==> r.Bool?
    ensures Get(defs, labelName).Some? && Get(defs, labelName).value.kind.Category? ==>
      Admissible(Get(defs, labelName).value, r)
    ensures Get(defs, labelName).Some? && Get(defs, labelName).value.kind.OtherKind? ==> r == Str(v.ToJsString())
  {
    match Get(defs, labelName)
    case None => v
    case Some(d) =>
      match d.kind
      case Boolean => Bool(ParseBoolean(v))
      case Category => Str(ParseCategory(d.possibleValues, v))
      case OtherKind(_) => Str(v.ToJsString())
  }

  /** Boolean coercion: booleans as they are, the usual yes/no words in any
      case and with surrounding blanks, numbers by non-zero, false otherwise. */
  function ParseBoolean(v: Value): (b: bool)
    ensures v.Bool? ==> b == v.b
    ensures v.Num? ==> b == (v.n != 0)
    ensures v.Str? ==> (b <==> Trim(Lower(v.s)) in TrueWords)
    ensures v.Null? ==> !b
  {
    match v
    case Bool(x) => x
    case Num(n) => n != 0
    case Null => false
    case Str(s) =>
      var w := Trim(Lower(s));
      if w in TrueWords then true
      else if w in FalseWords then false
      else false
  }

  /** Value `k` is the first equal to `t` up to case. */
  predicate FirstCaseMatch(values: seq<string>, t: string, k: int) {
    0 <= k < |values| && EqualsIgnoreCase(values[k], t)
    && forall j :: 0 <= j < k ==> !EqualsIgnoreCase(values[j], t)
  }

  /** Category coercion: the trimmed text if it is one of the values, else
      the first value equal to it up to case, else the first value, else the
      empty string. */
  function ParseCategory(values: seq<string>, v: Value): (r: string)
    ensures r in values || (values == [] && r == "")
    ensures Trim(v.ToJsString()) in values ==> r == Trim(v.ToJsString())
  {
    var t := Trim(v.ToJsString());
    if t in values then t
    else
      // A case-insensitive match cannot be the (falsy) empty string here:
      // it would have the length of `t`, and an empty `t` that is a value
      // was already returned above.
      match FindFirst(values, x => EqualsIgnoreCase(x, t))
      case Some(k) => values[k]
      case None => if |values| > 0 then values[0] else ""
  }

  /** When the trimmed text is not a value, ParseCategory picks the first
      value equal to it up to case, and failing that the first value. */
  lemma ParseCategoryFallback(values: seq<string>, v: Value, t: string)
    requires t == Trim(v.ToJsString()) && t !in values
    ensures forall k :: FirstCaseMatch(values, t, k) ==> ParseCategory(values, v) == values[k]
    ensures |values| > 0 && (forall j :: 0 <= j < |values| ==> !EqualsIgnoreCase(values[j], t))
            ==> ParseCategory(values, v) == values[0]
  {
    match FindFirst(values, x => EqualsIgnoreCase(x, t))
    case Some(i) =>
      assert FirstCaseMatch(values, t, i);
      forall k | FirstCaseMatch(values, t, k) ensures k == i {
        FirstCaseMatchIsUnique(values, t, k, i);
      }
    case None =>
  }

  lemma FirstCaseMatchIsUnique(values: seq<string>, t: string, k: int, i: int)
    requires FirstCaseMatch(values, t, k) && FirstCaseMatch(values, t, i)
    ensures k == i
  {
  }

  /** A lower-case spelling of a category maps to the declared spelling. */
  lemma ParseCategoryIgnoresCase()
    ensures ParseCategory(["Cat", "Dog"], Str("dog")) == "Dog"
  {
    DogIsTrimmed();
    DogMatchesSecond();
    ParseCategoryFallback(["Cat", "Dog"], Str("dog"), "dog");
  }

  lemma DogIsTrimmed()
    ensures Trim(Str("dog").ToJsString()) == "dog"
  {
    var d := Str("dog").ToJsString();
    assert d == "dog" && d[0] == 'd' && d[2] == 'g';
    assert !IsSpace(d[2]) && TrimEnd(d) == d;
    assert !IsSpace(d[0]) && TrimStart(d) == d;
  }

  lemma DogMatchesSecond()
    ensures FirstCaseMatch(["Cat", "Dog"], "dog", 1) && "dog" !in ["Cat", "Dog"]
  {
    assert Lower("Cat")[0] == 'c' != Lower("dog")[0];
    assert Lower("Dog") == "dog" == Lower("dog");
  }

  /** Coercing an already-coerced value changes nothing, given that the
      category values are stored trimmed (the label editor trims them). */
  lemma ParseValueIdempotent(defs: Rec<LabelDef>, labelName: string, v: Value)
    requires Get(defs, labelName).Some? ==> forall x :: x in Get(defs, labelName).value.possibleValues ==> Trim(x) == x
    ensures ParseValueForLabel(defs, labelName, ParseValueForLabel(defs, labelName, v))
         == ParseValueForLabel(defs, labelName, v)
  {
    match Get(defs, labelName)
    case None =>
    case Some(d) =>
      match d.kind
      case Boolean =>
      case Category =>
        var r := ParseCategory(d.possibleValues, v);
        assert Str(r).ToJsString() == r;
        if r == "" && d.possibleValues == [] {
          assert Trim("") == "";
        }
      case OtherKind(_) =>
  }

  /** Every spelling of yes/no the importer understands, in any case and with
      surrounding blanks, maps to the intended boolean. */
  lemma BooleanWordsRecognised(pad: string, s: string, pad': string)
    requires IsBlank(pad) && IsBlank(pad')
    requires Lower(s) in TrueWords + FalseWords
    ensures ParseBoolean(Str(pad + s + pad')) == (Lower(s) in TrueWords)
  {
    assert Lower(pad + s + pad') == Lower(pad) + Lower(s) + Lower(pad');
    LowerOfBlank(pad);
    LowerOfBlank(pad');
    TrimAround(pad, Lower(s), pad');
  }

  /** Whitespace has no upper case. */
  lemma LowerOfBlank(pad: string)
    requires IsBlank(pad)
    ensures Lower(pad) == pad
  {
    assert forall i :: 0 <= i < |pad| ==> LowerChar(pad[i]) == pad[i];
  }

  lemma TrimAround(pad: string, s: string, pad': string)
    requires IsBlank(pad) && IsBlank(pad')
    requires |s| > 0 && !IsSpace(s[0]) && !IsSpace(s[|s| - 1])
    ensures Trim(pad + s + pad') == s
  {
    var t := pad + s + pad';
    var e := TrimEnd(t);
    assert t[..|pad| + |s|] == pad + s;
    TrimEndOf(pad + s, pad');
    TrimStartOf(pad, s);
  }

  lemma {:induction false} TrimEndOf(a: string, pad: string)
    requires IsBlank(pad)
    requires |a| > 0 && !IsSpace(a[|a| - 1])
    ensures TrimEnd(a + pad) == a
    decreases |pad|
  {
    if |pad| > 0 {
      var t := a + pad;
      assert t[..|t| - 1] == a + pad[..|pad| - 1];
      TrimEndOf(a, pad[..|pad| - 1]);
    } else {
      assert a + pad == a;
    }
  }

  lemma {:induction false} TrimStartOf(pad: string, s: string)
    requires IsBlank(pad)
    requires |s| > 0 && !IsSpace(s[0])
    ensures TrimStart(pad + s) == s
    decreases |pad|
  {
    if |pad| > 0 {
      assert (pad + s)[1..] == pad[1..] + s;
      TrimStartOf(pad[1..], s);
    } else {
      assert pad + s == s;
    }
  }

  // ---------------------------------------------------------------------
  // Sending the rows

  /** The body of one import-by-URL request. */
  datatype UrlImportRequest = UrlImportRequest(url: string, name: Value, labels: seq<LabelUpdate>, isLabeled: bool)

  /** What the server answered to one request: the created image, a 409
      conflict, or anything else (an error status or a failed fetch). */
  datatype UploadResponse<Img> = Created(image: Img) | Conflict | Failure

  /** What became of one row. */
  datatype RowOutcome<Img> = Imported(image: Img) | Duplicate | Failed

  /** The column choices in force when the import starts. */
  datatype ImportSettings = ImportSettings(
    urlColumn: string,
    nameMapping: NameMapping,
    labelMappings: seq<LabelMapping>,
    datasetLabels: Rec<LabelDef>)

  /** A label mapping that sends a value for this row: enabled, with a
      column chosen and present in the row. */
  predicate SendsCell(row: Row, m: LabelMapping) {
    m.enabled && m.columnName != "" && m.columnName in row
  }

  function SendsCellIn(row: Row): LabelMapping -> bool {
    m => SendsCell(row, m)
  }

  /** The entry a sending mapping contributes: its label with the cell's
      value coerced to the label's type. */
  function CellEntry(defs: Rec<LabelDef>, row: Row, m: LabelMapping): LabelUpdate
    requires SendsCell(row, m)
  {
    LabelUpdate(m.labelName, ParseValueForLabel(defs, m.labelName, row[m.columnName]))
  }

  /** The label entries sent for one row: one per enabled mapping with a
      column that the row has, in mapping order, but only when the dataset
      defines labels at all. */
  function RowLabels(s: ImportSettings, row: Row): (u: seq<LabelUpdate>)
    ensures |s.datasetLabels| == 0 ==> u == []
    ensures |u| <= |s.labelMappings|
    ensures forall e :: e in u ==>
      (exists m :: m in s.labelMappings && SendsCell(row, m) && e == CellEntry(s.datasetLabels, row, m))
  {
    if |s.datasetLabels| == 0 then [] else MappedLabels(s.datasetLabels, s.labelMappings, row)
  }

  function MappedLabels(defs: Rec<LabelDef>, ms: seq<LabelMapping>, row: Row): (u: seq<LabelUpdate>)
    ensures |u| <= |ms|
    ensures forall e :: e in u ==>
      (exists m :: m in ms && SendsCell(row, m) && e == CellEntry(defs, row, m))
  {
    if |ms| == 0 then []
    else
      var rest := MappedLabels(defs, ms[1..], row);
      if SendsCell(row, ms[0]) then [CellEntry(defs, row, ms[0])] + rest else rest
  }

  /** Every sending mapping contributes exactly one entry, in mapping order:
      mapping `i` gives the entry right after those of the sending mappings
      before it, and there are no other entries. */
  lemma {:induction false} MappedLabelsInOrder(defs: Rec<LabelDef>, ms: seq<LabelMapping>, row: Row)
    ensures |MappedLabels(defs, ms, row)| == CountWhere(ms, SendsCellIn(row))
    ensures forall i :: 0 <= i < |ms| && SendsCell(row, ms[i]) ==>
      CountWhere(ms[..i], SendsCellIn(row)) < |MappedLabels(defs, ms, row)|
      && MappedLabels(defs, ms, row)[CountWhere(ms[..i], SendsCellIn(row))] == CellEntry(defs, row, ms[i])
  {
    if |ms| > 0 {
      var p := SendsCellIn(row);
      MappedLabelsInOrder(defs, ms[1..], row);
      assert p(ms[0]) == SendsCell(row, ms[0]);
      forall i | 0 < i < |ms| && SendsCell(row, ms[i])
        ensures CountWhere(ms[..i], p) < |MappedLabels(defs, ms, row)|
          && MappedLabels(defs, ms, row)[CountWhere(ms[..i], p)] == CellEntry(defs, row, ms[i])
      {
        CountWherePrefix(ms, p, i);
        assert ms[1..][i - 1] == ms[i];
      }
      assert ms[..0] == [];
    }
  }

  /** The same for a whole row: with labels defined, the entries are exactly
      the sending mappings' entries, in order. */
  lemma RowLabelsInOrder(s: ImportSettings, row: Row)
    requires |s.datasetLabels| > 0
    ensures |RowLabels(s, row)| == CountWhere(s.labelMappings, SendsCellIn(row))
    ensures forall i :: 0 <= i < |s.labelMappings| && SendsCell(row, s.labelMappings[i]) ==>
      CountWhere(s.labelMappings[..i], SendsCellIn(row)) < |RowLabels(s, row)|
      && RowLabels(s, row)[CountWhere(s.labelMappings[..i], SendsCellIn(row))]
         == CellEntry(s.datasetLabels, row, s.labelMappings[i])
  {
    MappedLabelsInOrder(s.datasetLabels, s.labelMappings, row);
  }

  /** The name mapping is on, names a column and the row has a truthy value
      there (`row[col] || null`). */
  predicate NamesRow(nm: NameMapping, row: Row) {
    nm.enabled && nm.columnName != "" && nm.columnName in row && row[nm.columnName].Truthy()
  }

  /** The request sent for a row, or none when the URL cell is missing, not
      a string or empty. */
  function RowRequest(s: ImportSettings, row: Row): (q: Option<UrlImportRequest>)
    ensures q.Some? <==> s.urlColumn in row && row[s.urlColumn].Str? && row[s.urlColumn].s != ""
    ensures q.Some? ==> q.value.url == row[s.urlColumn].s
    ensures q.Some? ==> (q.value.isLabeled <==> |q.value.labels| > 0)
    ensures q.Some? ==> q.value.labels == RowLabels(s, row)
    ensures q.Some? ==>
      q.value.name == (if NamesRow(s.nameMapping, row) then row[s.nameMapping.columnName] else Null)
    ensures q.Some? ==> q.value.name == Null || q.value.name.Truthy()
  {
    if s.urlColumn in row && row[s.urlColumn].Str? && row[s.urlColumn].s != "" then
      var name := if NamesRow(s.nameMapping, row) then row[s.nameMapping.columnName] else Null;
      var labels := RowLabels(s, row);
      Some(UrlImportRequest(row[s.urlColumn].s, name, labels, |labels| > 0))
    else None
  }

  /** The fate of a row given the answer to its request. */
  function RowFate<Img>(s: ImportSettings, row: Row, answer: UploadResponse<Img>): (o: RowOutcome<Img>)
    ensures RowRequest(s, row).None? ==> o.Failed?
    ensures o.Imported? <==> RowRequest(s, row).Some? && answer.Created?
    ensures o.Duplicate? <==> RowRequest(s, row).Some? && answer.Conflict?
    ensures o.Imported? ==> o.image == answer.image
  {
    if RowRequest(s, row).None? then Failed
    else match answer
      case Created(img) => Imported(img)
      case Conflict => Duplicate
      case Failure => Failed
  }

  /** What the import reports when it is done. */
  datatype ImportResult<Img> =
    | MissingData
    | Finished(requests: seq<UrlImportRequest>, success: nat, failed: nat, conflicts: nat,
               images: seq<Img>, notified: bool)

  function Fates<Img>(s: ImportSettings, rows: seq<Row>, answers: seq<UploadResponse<Img>>): (f: seq<RowOutcome<Img>>)
    requires |answers| == |rows|
    ensures |f| == |rows|
    ensures forall i :: 0 <= i < |rows| ==> f[i] == RowFate(s, rows[i], answers[i])
  {
    seq(|rows|, i requires 0 <= i < |rows| => RowFate(s, rows[i], answers[i]))
  }

  function ImportedImages<Img>(f: seq<RowOutcome<Img>>): seq<Img> {
    if |f| == 0 then []
    else (if f[0].Imported? then [f[0].image] else []) + ImportedImages(f[1..])
  }

  function SentRequests(s: ImportSettings, rows: seq<Row>): seq<UrlImportRequest> {
    if |rows| == 0 then []
    else (match RowRequest(s, rows[0]) case Some(q) => [q] case None => []) + SentRequests(s, rows[1..])
  }

  /** Rows are sent one after the other; `answers[i]` is the server's reply to
      row `i` (ignored for a row that sends nothing). Every row is counted
      exactly once as imported, duplicate or failed; the created images are
      collected in row order; the dataset view is told about them only when
      at least one was imported. With no rows or no URL column selected
      nothing is sent. */
  method ProcessImages<Img>(s: ImportSettings, rows: seq<Row>, answers: seq<UploadResponse<Img>>)
    returns (r: ImportResult<Img>)
    requires |answers| == |rows|
    ensures r.MissingData? <==> |rows| == 0 || s.urlColumn == ""
    ensures r.Finished? ==> r.success + r.failed + r.conflicts == |rows|
    ensures r.Finished? ==> r.success == CountWhere(Fates(s, rows, answers), (o: RowOutcome<Img>) => o.Imported?)
    ensures r.Finished? ==> r.conflicts == CountWhere(Fates(s, rows, answers), (o: RowOutcome<Img>) => o.Duplicate?)
    ensures r.Finished? ==> r.images == ImportedImages(Fates(s, rows, answers)) && |r.images| == r.success
    ensures r.Finished? ==> r.requests == SentRequests(s, rows)
    ensures r.Finished? ==> (r.notified <==> r.success > 0)
  {
    if |rows| == 0 || s.urlColumn == "" {
      return MissingData;
    }
    var success, failed, conflicts := 0, 0, 0;
    var images: seq<Img> := [];
    var requests: seq<UrlImportRequest> := [];
    ghost var fates := Fates(s, rows, answers);
    var i := 0;
    while i < |rows|
      invariant 0 <= i <= |rows|
      invariant success + failed + conflicts == i
      invariant success == CountWhere(fates[..i], (o: RowOutcome<Img>) => o.Imported?)
      invariant conflicts == CountWhere(fates[..i], (o: RowOutcome<Img>) => o.Duplicate?)
      invariant images == ImportedImages(fates[..i]) && |images| == success
      invariant requests == SentRequests(s, rows[..i])
    {
      var fate := RowFate(s, rows[i], answers[i]);
      var sent := RowRequest(s, rows[i]);
      StepLemma(s, rows, fates, i);
      if sent.Some? {
        requests := requests + [sent.value];
      }
      if fate.Imported? {
        success := success + 1;
        images := images + [fate.image];
      } else if fate.Duplicate? {
        conflicts := conflicts + 1;
      } else {
        failed := failed + 1;
      }
      i := i + 1;
    }
    assert fates[..|rows|] == fates;
    assert rows[..|rows|] == rows;
    r := Finished(requests, success, failed, conflicts, images, success > 0);
  }

  lemma StepLemma<Img>(s: ImportSettings, rows: seq<Row>, fates: seq<RowOutcome<Img>>, i: nat)
    requires i < |rows| == |fates|
    ensures fates[..i + 1] == fates[..i] + [fates[i]]
    ensures rows[..i + 1] == rows[..i] + [rows[i]]
    ensures CountWhere(fates[..i + 1], (o: RowOutcome<Img>) => o.Imported?)
         == CountWhere(fates[..i], (o: RowOutcome<Img>) => o.Imported?) + (if fates[i].Imported? then 1 else 0)
    ensures CountWhere(fates[..i + 1], (o: RowOutcome<Img>) => o.Duplicate?)
         == CountWhere(fates[..i], (o: RowOutcome<Img>) => o.Duplicate?) + (if fates[i].Duplicate? then 1 else 0)
    ensures ImportedImages(fates[..i + 1])
         == ImportedImages(fates[..i]) + (if fates[i].Imported? then [fates[i].image] else [])
    ensures SentRequests(s, rows[..i + 1])
         == SentRequests(s, rows[..i]) + (match RowRequest(s, rows[i]) case Some(q) => [q] case None => [])
  {
    assert fates[..i + 1] == fates[..i] + [fates[i]];
    assert rows[..i + 1] == rows[..i] + [rows[i]];
    CountWhereAppend(fates[..i], [fates[i]], (o: RowOutcome<Img>) => o.Imported?);
    CountWhereAppend(fates[..i], [fates[i]], (o: RowOutcome<Img>) => o.Duplicate?);
    ImportedImagesAppend(fates[..i], [fates[i]]);
    SentRequestsAppend(s, rows[..i], [rows[i]]);
  }

  lemma ImportedImagesAppend<Img>(a: seq<RowOutcome<Img>>, b: seq<RowOutcome<Img>>)
    ensures ImportedImages(a + b) == ImportedImages(a) + ImportedImages(b)
  {
    if |a| > 0 {
      assert (a + b)[1..] == a[1..] + b;
      ImportedImagesAppend(a[1..], b);
    } else {
      assert a + b == b;
    }
  }

  lemma SentRequestsAppend(s: ImportSettings, a: seq<Row>, b: seq<Row>)
    ensures SentRequests(s, a + b) == SentRequests(s, a) + SentRequests(s, b)
  {
    if |a| > 0 {
      assert (a + b)[1..] == a[1..] + b;
      SentRequestsAppend(s, a[1..], b);
    } else {
      assert a + b == b;
    }
  }
}

=== FILE: common.dfy ===
/** Shared vocabulary of the model: optional values, outcomes that carry an
    error, and the string operations the application applies to user input
    (ASCII case folding, whitespace trimming, substring and prefix tests). */
module Common {

  /** A value that may be absent: `undefined`/`null` in the web client,
      `None` in the Python services. */
  datatype Option<T> = None | Some(value: T) {
    function GetOr(default: T): (r: T)
      ensures Some? ==> r == value
      ensures None? ==> r == default
    {
      if Some? then value else default
    }
  }

  /** The outcome of an operation that can fail with an error of type `E`. */
  datatype Result<T, E> = Ok(value: T) | Err(error: E)

  /** The error a web-client store shows for a failed request: the
      server's message when it has a non-empty one, else the store's own
      text for that action. */
  function ErrorText(message: Option<string>, fallback: string): (e: string)
    ensures message.Some? && message.value != "" ==> e == message.value
    ensures message.None? || message.value == "" ==> e == fallback
  {
    if message.Some? && message.value != "" then message.value else fallback
  }

  /** An octet. */
  newtype byte = x: int | 0 <= x < 256

  // ---------------------------------------------------------------------
  // Characters and case folding

  function LowerChar(c: char): (r: char)
    ensures 'A' <= c <= 'Z' ==> 'a' <= r <= 'z'
    ensures !('A' <= c <= 'Z') ==> r == c
  {
    if 'A' <= c <= 'Z' then (c as int + 32) as char else c
  }

  function UpperChar(c: char): (r: char)
    ensures 'a' <= c <= 'z' ==> 'A' <= r <= 'Z'
    ensures !('a' <= c <= 'z') ==> r == c
  {
    if 'a' <= c <= 'z' then (c as int - 32) as char else c
  }

  /** `toLowerCase()` / `str.lower()` restricted to ASCII letters. */
  function Lower(s: string): (r: string)
    ensures |r| == |s|
    ensures forall i :: 0 <= i < |s| ==> r[i] == LowerChar(s[i])
  {
    seq(|s|, i requires 0 <= i < |s| => LowerChar(s[i]))
  }

  /** Case-insensitive equality as `a.toLowerCase() === b.toLowerCase()`. */
  predicate EqualsIgnoreCase(a: string, b: string) {
    Lower(a) == Lower(b)
  }

  // ---------------------------------------------------------------------
  // Whitespace and trimming

  /** The whitespace that `String.prototype.trim` removes, restricted to the
      ASCII and BMP characters a form field realistically carries. */
  predicate IsSpace(c: char) {
    c == ' ' || c == '\t' || c == '\n' || c == '\r' || c == '\U{000B}'
    || c == '\U{000C}' || c == '\U{00A0}' || c == '\U{FEFF}'
  }

  /** A string made only of whitespace (including the empty string). */
  predicate IsBlank(s: string) {
    forall i :: 0 <= i < |s| ==> IsSpace(s[i])
  }

  function TrimStart(s: string): (r: string)
    ensures |r| <= |s| && r == s[|s| - |r|..]
    ensures |r| == 0 || !IsSpace(r[0])
    ensures forall i :: 0 <= i < |s| - |r| ==> IsSpace(s[i])
  {
    if |s| > 0 && IsSpace(s[0]) then TrimStart(s[1..]) else s
  }

  function TrimEnd(s: string): (r: string)
    ensures |r| <= |s| && r == s[..|r|]
    ensures |r| == 0 || !IsSpace(r[|r| - 1])
    ensures forall i :: |r| <= i < |s| ==> IsSpace(s[i])
  {
    if |s| > 0 && IsSpace(s[|s| - 1]) then TrimEnd(s[..|s| - 1]) else s
  }

  /** `s.trim()`: the longest infix of `s` that neither starts nor ends with
      whitespace. */
  function Trim(s: string): (r: string)
    ensures |r| == 0 || (!IsSpace(r[0]) && !IsSpace(r[|r| - 1]))
    ensures |r| <= |s|
  {
    TrimStart(TrimEnd(s))
  }

  /** Trimming leaves nothing exactly when the input is blank. */
  lemma TrimEmptyIffBlank(s: string)
    ensures Trim(s) == "" <==> IsBlank(s)
  {
    var e := TrimEnd(s);
    if Trim(s) == "" {
      assert |e| == 0;
    } else {
      var r := Trim(s);
      assert r[0] == e[|e| - |r|];
      assert e[|e| - |r|] == s[|e| - |r|];
    }
  }

  /** Trimming a trimmed string changes nothing. */
  lemma TrimIdempotent(s: string)
    ensures Trim(Trim(s)) == Trim(s)
  {
    var r := Trim(s);
    if |r| > 0 {
      assert TrimEnd(r) == r;
      assert TrimStart(r) == r;
    }
  }

  // ---------------------------------------------------------------------
  // Substrings

  predicate IsPrefix(p: string, s: string) {
    |p| <= |s| && s[..|p|] == p
  }

  /** `s.includes(sub)` / Python's `sub in s`. */
  predicate Contains(s: string, sub: string)
    decreases |s|
  {
    IsPrefix(sub, s) || (|s| > 0 && Contains(s[1..], sub))
  }

  /** A witness position makes `Contains` true, and `Contains` yields one. */
  lemma {:induction false} ContainsIffOccurs(s: string, sub: string)
    ensures Contains(s, sub) <==> exists i :: 0 <= i <= |s| && IsPrefix(sub, s[i..])
    decreases |s|
  {
    if IsPrefix(sub, s) {
      assert s[0..] == s;
    } else if |s| > 0 {
      ContainsIffOccurs(s[1..], sub);
      if Contains(s[1..], sub) {
        var i :| 0 <= i <= |s[1..]| && IsPrefix(sub, s[1..][i..]);
        assert s[1..][i..] == s[i + 1..];
      }
      if exists i :: 0 <= i <= |s| && IsPrefix(sub, s[i..]) {
        var i :| 0 <= i <= |s| && IsPrefix(sub, s[i..]);
        assert i != 0 by { assert s[0..] == s; }
        assert s[1..][i - 1..] == s[i..];
      }
    } else {
      assert forall i :: 0 <= i <= |s| ==> s[i..] == s;
    }
  }

  /** A substring of `s` is a substring of every string that embeds `s`. */
  lemma ContainsInfix(a: string, s: string, b: string, sub: string)
    requires Contains(s, sub)
    ensures Contains(a + s + b, sub)
  {
    ContainsIffOccurs(s, sub);
    var i :| 0 <= i <= |s| && IsPrefix(sub, s[i..]);
    var t := a + s + b;
    assert t[|a| + i..][..|sub|] == s[i..][..|sub|];
    ContainsIffOccurs(t, sub);
  }

  // ---------------------------------------------------------------------
  // Sequences

  /** No element occurs twice. */
  predicate Distinct<T(==)>(s: seq<T>) {
    forall i, j :: 0 <= i < j < |s| ==> s[i] != s[j]
  }

  /** The sequence with the element at index `i` taken out, as
      `list.filter((_, j) => j !== i)` computes it. */
  function RemoveAt<T>(s: seq<T>, i: nat): (r: seq<T>)
    requires i < |s|
    ensures |r| == |s| - 1
    ensures forall j :: 0 <= j < i ==> r[j] == s[j]
    ensures forall j :: i <= j < |r| ==> r[j] == s[j + 1]
  {
    s[..i] + s[i + 1..]
  }

  /** The sequence with element `i` replaced by `x`. */
  function ReplaceAt<T>(s: seq<T>, i: nat, x: T): (r: seq<T>)
    requires i < |s|
    ensures |r| == |s| && r[i] == x
    ensures forall j :: 0 <= j < |s| && j != i ==> r[j] == s[j]
  {
    s[i := x]
  }

  /** Index of the first element satisfying `p`, if any (`findIndex`). */
  function FindFirst<T>(s: seq<T>, p: T -> bool): (r: Option<nat>)
    ensures r.Some? ==> r.value < |s| && p(s[r.value])
    ensures r.Some? ==> forall j :: 0 <= j < r.value ==> !p(s[j])
    ensures r.None? ==> forall j :: 0 <= j < |s| ==> !p(s[j])
  {
    if |s| == 0 then None
    else if p(s[0]) then Some(0)
    else match FindFirst(s[1..], p)
      case None => None
      case Some(k) => Some(k + 1)
  }

  /** The elements that satisfy `p`, in order (`Array.prototype.filter`). */
  function Filter<T>(s: seq<T>, p: T -> bool): (r: seq<T>)
    ensures |r| <= |s| && |r| == CountWhere(s, p)
    ensures forall x :: x in r ==> x in s && p(x)
    ensures forall x :: x in s && p(x) ==> x in r
  {
    if |s| == 0 then []
    else if p(s[0]) then [s[0]] + Filter(s[1..], p)
    else Filter(s[1..], p)
  }

  lemma FilterAppend<T>(a: seq<T>, b: seq<T>, p: T -> bool)
    ensures Filter(a + b, p) == Filter(a, p) + Filter(b, p)
  {
    if |a| > 0 {
      assert (a + b)[1..] == a[1..] + b;
      FilterAppend(a[1..], b, p);
    } else {
      assert a + b == b;
    }
  }

  /** Filtering keeps a list whose every element passes. */
  lemma {:induction false} FilterAll<T>(s: seq<T>, p: T -> bool)
    requires forall i :: 0 <= i < |s| ==> p(s[i])
    ensures Filter(s, p) == s
  {
    if |s| > 0 {
      FilterAll(s[1..], p);
    }
  }

  /** Count of the elements satisfying `p`. */
  function CountWhere<T>(s: seq<T>, p: T -> bool): (n: nat)
    ensures n <= |s|
  {
    if |s| == 0 then 0 else (if p(s[0]) then 1 else 0) + CountWhere(s[1..], p)
  }

  lemma CountWhereAppend<T>(a: seq<T>, b: seq<T>, p: T -> bool)
    ensures CountWhere(a + b, p) == CountWhere(a, p) + CountWhere(b, p)
  {
    if |a| > 0 {
      assert (a + b)[1..] == a[1..] + b;
      CountWhereAppend(a[1..], b, p);
    } else {
      assert a + b == b;
    }
  }

  /** Filtering keeps order and multiplicity: the `i`-th element of `s`,
      when it passes, lands right after the passing elements before it. */
  lemma {:induction false} FilterKeepsOrder<T>(s: seq<T>, p: T -> bool)
    ensures forall i :: 0 <= i < |s| && p(s[i]) ==>
      CountWhere(s[..i], p) < |Filter(s, p)| && Filter(s, p)[CountWhere(s[..i], p)] == s[i]
  {
    if |s| > 0 {
      FilterKeepsOrder(s[1..], p);
      forall i | 0 < i < |s| && p(s[i])
        ensures CountWhere(s[..i], p) < |Filter(s, p)| && Filter(s, p)[CountWhere(s[..i], p)] == s[i]
      {
        CountWherePrefix(s, p, i);
        assert s[1..][i - 1] == s[i];
      }
      assert s[..0] == [];
    }
  }

  /** Counting over a non-empty prefix peels off its first element. */
  lemma CountWherePrefix<T>(s: seq<T>, p: T -> bool, i: nat)
    requires 0 < i <= |s|
    ensures CountWhere(s[..i], p) == (if p(s[0]) then 1 else 0) + CountWhere(s[1..][..i - 1], p)
  {
    assert s[..i][1..] == s[1..][..i - 1];
  }

  // ---------------------------------------------------------------------
  // Numbers

  function Min(a: int, b: int): (r: int)
    ensures r <= a && r <= b && (r == a || r == b)
  {
    if a <= b then a else b
  }

  function Max(a: int, b: int): (r: int)
    ensures r >= a && r >= b && (r == a || r == b)
  {
    if a >= b then a else b
  }

  /** Decimal rendering of an integer, as `String(n)` / `str(n)`. */
  function IntToString(n: int): (r: string)
    ensures |r| > 0
    decreases if n < 0 then -n + 1 else n
  {
    if n < 0 then "-" + IntToString(-n)
    else if n < 10 then [('0' as int + n) as char]
    else IntToString(n / 10) + [('0' as int + n % 10) as char]
  }
}

=== FILE: create_dataset_dialog.dfy ===
/** The "Create Dataset" dialog: it picks the first schema once the schema
    list loads, refuses a blank name or a missing schema without sending
    anything, sends trimmed text, and forgets everything when it closes. */
module CreateDatasetDialog {
  import opened Common

  /** The dialog's state. `schema` is the selected schema name, "" for none;
      `navigateTo` is where a successful creation sends the browser. */
  datatype DialogState = DialogState(
    open: bool, name: string, description: string, schema: string,
    error: Option<string>, navigateTo: Option<string>)

  /** The body of the creation request. */
  datatype CreateRequest = CreateRequest(name: string, description: string, schema: string)

  /** The server's answer: the new dataset's id, or a failure with the
      status and the `detail` field of the error body, if any. */
  datatype CreateResponse = CreatedDataset(id: string) | CreateFailed(status: int, detail: Option<string>)

  const NameRequiredMessage := "Dataset name is required"
  const SchemaRequiredMessage := "Please select a dataset schema"
  const LoadFailedMessage := "Failed to load dataset schemas. Please try again."

  /** The schema list arrived (`Some(names)`) or could not be fetched
      (`None`). A non-empty list selects its first schema. */
  function SchemasLoaded(st: DialogState, names: Option<seq<string>>): (r: DialogState)
    ensures names.Some? && |names.value| > 0 ==> r == st.(schema := names.value[0])
    ensures names.Some? && |names.value| == 0 ==> r == st
    ensures names.None? ==> r == st.(error := Some(LoadFailedMessage))
  {
    match names
    case None => st.(error := Some(LoadFailedMessage))
    case Some(ns) => if |ns| > 0 then st.(schema := ns[0]) else st
  }

  /** The request `handleCreate` sends, or `None` when the name is blank or
      no schema is selected. */
  function Request(st: DialogState): (q: Option<CreateRequest>)
    ensures q.None? <==> IsBlank(st.name) || st.schema == ""
    ensures q.Some? ==> q.value == CreateRequest(Trim(st.name), Trim(st.description), st.schema)
  {
    TrimEmptyIffBlank(st.name);
    if Trim(st.name) == "" || st.schema == "" then None
    else Some(CreateRequest(Trim(st.name), Trim(st.description), st.schema))
  }

  /** A request that is sent carries a non-blank name and text without
      leading or trailing white space. */
  lemma RequestIsTrimmed(st: DialogState)
    ensures Request(st).Some? ==>
      var q := Request(st).value;
      q.name != "" && Trim(q.name) == q.name && Trim(q.description) == q.description && q.schema != ""
  {
    TrimEmptyIffBlank(st.name);
    TrimIdempotent(st.name);
    TrimIdempotent(st.description);
  }

  /** `handleCreate`: a blank name or a missing schema only sets the error;
      otherwise the request is sent and its answer either closes the dialog
      and opens the new dataset, or shows the error. */
  function Create(st: DialogState, respond: CreateRequest -> CreateResponse): (r: DialogState)
    ensures IsBlank(st.name) ==> r == st.(error := Some(NameRequiredMessage))
    ensures !IsBlank(st.name) && st.schema == "" ==> r == st.(error := Some(SchemaRequiredMessage))
    ensures Request(st).Some? && respond(Request(st).value).CreatedDataset? ==>
      !r.open && r.navigateTo == Some("/dataset/" + respond(Request(st).value).id)
    ensures Request(st).Some? && respond(Request(st).value).CreateFailed? ==>
      r.open == st.open && r.error.Some? && r.navigateTo == st.navigateTo
  {
    TrimEmptyIffBlank(st.name);
    if Trim(st.name) == "" then st.(error := Some(NameRequiredMessage))
    else if st.schema == "" then st.(error := Some(SchemaRequiredMessage))
    else
      match respond(CreateRequest(Trim(st.name), Trim(st.description), st.schema))
      case CreatedDataset(id) => st.(open := false, error := None, navigateTo := Some("/dataset/" + id))
      case CreateFailed(status, detail) =>
        st.(error := Some(if detail.Some? && detail.value != "" then detail.value
                          else "Error creating dataset: " + IntToString(status)))
  }

  /** `handleOpenChange`: closing clears the name, description, schema and
      error; opening changes nothing else. */
  function OpenChange(st: DialogState, open: bool): (r: DialogState)
    ensures r.open == open && r.navigateTo == st.navigateTo
    ensures !open ==> r.name == "" && r.description == "" && r.schema == "" && r.error.None?
    ensures open ==> r == st.(open := true)
  {
    if open then st.(open := true)
    else st.(open := false, name := "", description := "", schema := "", error := None)
  }

  /** Closing and reopening shows an empty form: it cannot be submitted
      until a name is typed and a schema is chosen. */
  lemma ReopenedFormSendsNothing(st: DialogState)
    ensures Request(OpenChange(OpenChange(st, false), true)).None?
    ensures OpenChange(OpenChange(st, false), true).error.None?
  {
  }
}

=== FILE: dataset_export.dfy ===
/** Exporting a dataset: which images are exported and in what order, and
    the row each image becomes (fixed columns first, then one column per
    label of the dataset). Writing the rows out as CSV or Parquet is left to
    the serialiser and not modelled. */
module DatasetExport {
  import opened Common
  import opened Records
  import opened Labels
  import opened BackendDb

  /** A cell of an exported row; `NoCell` is Python's `None`. A timestamp
      stands for its ISO-8601 rendering. */
  datatype Cell = Text(s: string) | Flag(b: bool) | Stamp(t: int) | LabelCell(v: Value) | NoCell

  /** The fixed columns, in order. */
  const FixedColumns: seq<string> :=
    ["id", "name", "source_url", "description", "is_labeled", "is_queued", "created_at", "updated_at"]

  /** The URL exported for an image: its source URL when that is set and
      non-empty, else a signed URL for the stored file. */
  function ExportUrl(img: Image, signedUrl: string -> string): (u: string)
    ensures img.sourceUrl.Some? && img.sourceUrl.value != "" ==> u == img.sourceUrl.value
    ensures img.sourceUrl.None? || img.sourceUrl.value == "" ==> u == signedUrl(img.storageUrl)
  {
    if img.sourceUrl.Some? && img.sourceUrl.value != "" then img.sourceUrl.value else signedUrl(img.storageUrl)
  }

  function OptText(o: Option<string>): Cell {
    if o.Some? then Text(o.value) else NoCell
  }

  function OptStamp(o: Option<int>): Cell {
    if o.Some? then Stamp(o.value) else NoCell
  }

  /** The fixed part of a row, keyed by `FixedColumns`. */
  function FixedCells(img: Image, signedUrl: string -> string): (r: Rec<Cell>)
    ensures Keys(r) == FixedColumns
  {
    [("id", Text(img.id)), ("name", Text(img.name)), ("source_url", Text(ExportUrl(img, signedUrl))),
     ("description", OptText(img.description)), ("is_labeled", Flag(img.isLabeled)),
     ("is_queued", Flag(img.IsQueued())), ("created_at", OptStamp(img.createdAt)),
     ("updated_at", OptStamp(img.updatedAt))]
  }

  /** The image's labels as a name-to-value lookup (built in order, so a
      later entry with the same name wins). */
  function LabelEntries(img: Image): (e: seq<(string, Value)>)
    ensures |e| == if img.labels.Some? then |img.labels.value| else 0
  {
    var ls := if img.labels.Some? then img.labels.value else [];
    seq(|ls|, i requires 0 <= i < |ls| => (ls[i].name, ls[i].value))
  }

  /** The cell of label `name`: the image's value for it, `None` when the
      image has no such label (a JSON `null` is `None` too). */
  function LabelColumn(img: Image, name: string): Cell {
    match LastValue(LabelEntries(img), name)
    case None => NoCell
    case Some(v) => if v == Null then NoCell else LabelCell(v)
  }

  function LabelCells(img: Image, labelNames: seq<string>): (e: seq<(string, Cell)>)
    ensures |e| == |labelNames|
    ensures forall i :: 0 <= i < |e| ==> e[i] == (labelNames[i], LabelColumn(img, labelNames[i]))
  {
    seq(|labelNames|, i requires 0 <= i < |labelNames| => (labelNames[i], LabelColumn(img, labelNames[i])))
  }

  /** One exported row: the fixed columns, then the label columns assigned
      in `labelNames` order into the same dictionary. */
  function ExportRow(img: Image, labelNames: seq<string>, signedUrl: string -> string): (row: Rec<Cell>)
    ensures UniqueKeys(row)
    ensures |row| >= |FixedColumns| && Keys(row)[..|FixedColumns|] == FixedColumns
    ensures forall k :: k in Keys(row) <==> k in FixedColumns || k in labelNames
    ensures forall l :: l in labelNames ==> Get(row, l) == Some(LabelColumn(img, l))
    ensures forall c :: c in FixedColumns && c !in labelNames ==> Get(row, c) == Get(FixedCells(img, signedUrl), c)
  {
    var fixed := FixedCells(img, signedUrl);
    var entries := fixed + LabelCells(img, labelNames);
    ExportRowFacts(fixed, LabelCells(img, labelNames), labelNames, img);
    FromEntries(entries)
  }

  lemma ExportRowFacts(fixed: Rec<Cell>, labels: seq<(string, Cell)>, labelNames: seq<string>, img: Image)
    requires Keys(fixed) == FixedColumns
    requires |labels| == |labelNames|
    requires forall i :: 0 <= i < |labels| ==> labels[i] == (labelNames[i], LabelColumn(img, labelNames[i]))
    ensures var row := FromEntries(fixed + labels);
      UniqueKeys(row)
      && |row| >= |FixedColumns| && Keys(row)[..|FixedColumns|] == FixedColumns
      && (forall k :: k in Keys(row) <==> k in FixedColumns || k in labelNames)
      && (forall l :: l in labelNames ==> Get(row, l) == Some(LabelColumn(img, l)))
      && (forall c :: c in FixedColumns && c !in labelNames ==> Get(row, c) == Get(fixed, c))
  {
    ExportRowShape(fixed, labels, labelNames);
    ExportRowCells(fixed, labels, labelNames, img);
  }

  /** The row's columns: the fixed ones first, then the new label names. */
  lemma ExportRowShape(fixed: Rec<Cell>, labels: seq<(string, Cell)>, labelNames: seq<string>)
    requires Keys(fixed) == FixedColumns
    requires |labels| == |labelNames|
    requires forall i :: 0 <= i < |labels| ==> labels[i].0 == labelNames[i]
    ensures var row := FromEntries(fixed + labels);
      UniqueKeys(row) && UniqueKeys(fixed)
      && |row| >= |FixedColumns| && Keys(row)[..|FixedColumns|] == FixedColumns
      && (forall k :: k in Keys(row) <==> k in FixedColumns || k in labelNames)
  {
    var entries := fixed + labels;
    FromEntriesUnique(entries);
    assert UniqueKeys(fixed) by {
      assert forall i :: 0 <= i < |fixed| ==> fixed[i].0 == FixedColumns[i];
    }
    FromEntriesOfRecord(fixed);
    FromEntriesKeysPrefix(fixed, labels);
    forall k
      ensures k in Keys(FromEntries(entries)) <==> k in FixedColumns || k in labelNames
    {
      RowKey(fixed, labels, labelNames, k);
    }
  }

  /** The row's cells: a label name's column, else the fixed cell. */
  lemma ExportRowCells(fixed: Rec<Cell>, labels: seq<(string, Cell)>, labelNames: seq<string>, img: Image)
    requires Keys(fixed) == FixedColumns && UniqueKeys(fixed)
    requires |labels| == |labelNames|
    requires forall i :: 0 <= i < |labels| ==> labels[i] == (labelNames[i], LabelColumn(img, labelNames[i]))
    ensures var row := FromEntries(fixed + labels);
      (forall l :: l in labelNames ==> Get(row, l) == Some(LabelColumn(img, l)))
      && (forall c :: c in FixedColumns && c !in labelNames ==> Get(row, c) == Get(fixed, c))
  {
    var entries := fixed + labels;
    forall l | l in labelNames
      ensures Get(FromEntries(entries), l) == Some(LabelColumn(img, l))
    {
      RowLabel(fixed, labels, labelNames, img, l);
    }
    forall c | c in FixedColumns && c !in labelNames
      ensures Get(FromEntries(entries), c) == Get(fixed, c)
    {
      RowFixed(fixed, labels, labelNames, c);
    }
  }

  lemma RowKey(fixed: Rec<Cell>, labels: seq<(string, Cell)>, labelNames: seq<string>, k: string)
    requires Keys(fixed) == FixedColumns
    requires |labels| == |labelNames|
    requires forall i :: 0 <= i < |labels| ==> labels[i].0 == labelNames[i]
    ensures k in Keys(FromEntries(fixed + labels)) <==> k in FixedColumns || k in labelNames
  {
    var entries := fixed + labels;
    GetFromEntries(entries, k);
    var o := LastValue(entries, k);
    if k in FixedColumns {
      var i :| 0 <= i < |FixedColumns| && FixedColumns[i] == k;
      assert entries[i].0 == k;
    } else if k in labelNames {
      var i :| 0 <= i < |labelNames| && labelNames[i] == k;
      assert entries[|fixed| + i].0 == k;
    }
    if o.Some? {
      var i :| 0 <= i < |entries| && entries[i] == (k, o.value);
      if i >= |fixed| {
        assert labels[i - |fixed|].0 == k;
      } else {
        assert Keys(fixed)[i] == k;
      }
    }
  }

  lemma RowLabel(fixed: Rec<Cell>, labels: seq<(string, Cell)>, labelNames: seq<string>, img: Image, l: string)
    requires |labels| == |labelNames| && l in labelNames
    requires forall i :: 0 <= i < |labels| ==> labels[i] == (labelNames[i], LabelColumn(img, labelNames[i]))
    ensures Get(FromEntries(fixed + labels), l) == Some(LabelColumn(img, l))
  {
    var entries := fixed + labels;
    GetFromEntries(entries, l);
    var k :| 0 <= k < |labelNames| && labelNames[k] == l;
    assert entries[|fixed| + k].0 == l;
    forall j | |fixed| <= j < |entries| && entries[j].0 == l
      ensures entries[j].1 == LabelColumn(img, l)
    {
      assert entries[j] == labels[j - |fixed|];
    }
    LastValueOfTail(entries, l, LabelColumn(img, l), |fixed|);
  }

  lemma RowFixed(fixed: Rec<Cell>, labels: seq<(string, Cell)>, labelNames: seq<string>, c: string)
    requires Keys(fixed) == FixedColumns && UniqueKeys(fixed)
    requires |labels| == |labelNames|
    requires forall i :: 0 <= i < |labels| ==> labels[i].0 == labelNames[i]
    requires c in FixedColumns && c !in labelNames
    ensures Get(FromEntries(fixed + labels), c) == Get(fixed, c)
  {
    var entries := fixed + labels;
    GetFromEntries(entries, c);
    var o := LastValue(entries, c);
    var k :| 0 <= k < |FixedColumns| && FixedColumns[k] == c;
    assert entries[k].0 == c;
    var i :| 0 <= i < |entries| && entries[i] == (c, o.value);
    assert forall m :: |fixed| <= m < |entries| ==> entries[m].0 == labels[m - |fixed|].0 != c;
    assert i < |fixed|;
    assert entries[i] == fixed[i];
    GetUnique(fixed, i);
  }

  /** The output formats the serialiser accepts. */
  datatype FileKind = Csv | Parquet

  /** `export_dataset_rows`: one row per image, in order; any format other
      than `csv` or `parquet` is a `ValueError`. */
  function ExportDatasetRows(images: seq<Image>, labelNames: seq<string>, format: string,
                             signedUrl: string -> string): (r: Result<(FileKind, seq<Rec<Cell>>), string>)
    ensures r.Ok? <==> format == "csv" || format == "parquet"
    ensures r.Ok? ==> (r.value.0 == Csv <==> format == "csv")
    ensures r.Ok? ==>
      (|r.value.1| == |images|
       && forall i :: 0 <= i < |images| ==> r.value.1[i] == ExportRow(images[i], labelNames, signedUrl))
  {
    var rows := seq(|images|, i requires 0 <= i < |images| => ExportRow(images[i], labelNames, signedUrl));
    if format == "csv" then Ok((Csv, rows))
    else if format == "parquet" then Ok((Parquet, rows))
    else Err("Invalid format. Use 'csv' or 'parquet'.")
  }

  // ---------------------------------------------------------------------
  // Which images are exported, newest first

  /** `a` may come before `b` when sorting by `created_at` descending: an
      image without a timestamp sorts first (PostgreSQL puts nulls first in
      a descending order). */
  predicate NewerOrSame(a: Image, b: Image) {
    a.createdAt.None? || (b.createdAt.Some? && a.createdAt.value >= b.createdAt.value)
  }

  predicate SortedNewestFirst(s: seq<Image>) {
    forall i, j :: 0 <= i < j < |s| ==> NewerOrSame(s[i], s[j])
  }

  /** Inserts `x` before the first image it is newer than or as new as. */
  function Insert(x: Image, s: seq<Image>): (r: seq<Image>)
    ensures |r| == |s| + 1
  {
    if |s| == 0 then [x]
    else if NewerOrSame(x, s[0]) then [x] + s
    else [s[0]] + Insert(x, s[1..])
  }

  lemma {:induction false} InsertSorted(x: Image, s: seq<Image>)
    requires SortedNewestFirst(s)
    ensures SortedNewestFirst(Insert(x, s))
    ensures multiset(Insert(x, s)) == multiset(s) + multiset{x}
  {
    if |s| > 0 {
      assert s == [s[0]] + s[1..];
      if NewerOrSame(x, s[0]) {
        ConsSorted(x, s);
      } else {
        var t := Insert(x, s[1..]);
        InsertSorted(x, s[1..]);
        forall y | y in t
          ensures NewerOrSame(s[0], y)
        {
          assert y in multiset(t);
          if y != x {
            assert y in multiset(s[1..]);
          }
        }
        ConsSorted(s[0], t);
      }
    }
  }

  /** Putting an image in front of a sorted list of images it is newer than
      keeps the list sorted. */
  lemma ConsSorted(a: Image, t: seq<Image>)
    requires SortedNewestFirst(t)
    requires forall y :: y in t ==> NewerOrSame(a, y)
    ensures SortedNewestFirst([a] + t)
  {
    var r := [a] + t;
    forall i, j | 0 <= i < j < |r|
      ensures NewerOrSame(r[i], r[j])
    {
      assert r[j] == t[j - 1];
      if i > 0 {
        assert r[i] == t[i - 1];
      }
    }
  }

  /** The images ordered newest first (insertion sort). */
  function SortNewestFirst(s: seq<Image>): (r: seq<Image>)
    ensures |r| == |s|
  {
    if |s| == 0 then [] else Insert(s[0], SortNewestFirst(s[1..]))
  }

  /** Sorting yields the same images, newest first. */
  lemma {:induction false} SortNewestFirstCorrect(s: seq<Image>)
    ensures SortedNewestFirst(SortNewestFirst(s))
    ensures multiset(SortNewestFirst(s)) == multiset(s)
  {
    if |s| > 0 {
      SortNewestFirstCorrect(s[1..]);
      InsertSorted(s[0], SortNewestFirst(s[1..]));
      assert s == [s[0]] + s[1..];
    }
  }

  predicate Selected(img: Image, ds: string, onlyLabeled: bool) {
    img.datasetId == ds && (img.isLabeled || !onlyLabeled)
  }

  /** The export query: the dataset's images (only the labeled ones when
      `onlyLabeled`), newest first. `table` is the image table in the order
      the database enumerates it. */
  function ExportQuery(table: seq<Image>, ds: string, onlyLabeled: bool): (r: seq<Image>)
  {
    SortNewestFirst(Filter(table, img => Selected(img, ds, onlyLabeled)))
  }

  /** The export query returns exactly the selected images of the table,
      each as often as it is stored, newest first. */
  lemma ExportQueryCorrect(table: seq<Image>, ds: string, onlyLabeled: bool)
    ensures var r := ExportQuery(table, ds, onlyLabeled);
      SortedNewestFirst(r)
      && multiset(r) == multiset(Filter(table, img => Selected(img, ds, onlyLabeled)))
      && forall img :: img in r <==> img in table && Selected(img, ds, onlyLabeled)
  {
    var sel := Filter(table, img => Selected(img, ds, onlyLabeled));
    SortNewestFirstCorrect(sel);
    var r := ExportQuery(table, ds, onlyLabeled);
    forall img
      ensures img in r <==> img in sel
    {
      assert img in r <==> img in multiset(r);
      assert img in sel <==> img in multiset(sel);
    }
  }

  // ---------------------------------------------------------------------
  // The export endpoint

  /** A successful export: the file kind, the attachment file name and the
      rows. */
  datatype Export = Export(kind: FileKind, fileName: string, rows: seq<Rec<Cell>>)

  /** The label columns: the names of the dataset's labels, in order, or none
      when the dataset has no labels. */
  function LabelNames(ds: Dataset): (names: seq<string>)
    ensures ds.labels.Some? ==>
      (|names| == |ds.labels.value|
       && forall i :: 0 <= i < |names| ==> names[i] == ds.labels.value[i].name)
    ensures ds.labels.None? ==> names == []
  {
    if ds.labels.Some? then seq(|ds.labels.value|, i requires 0 <= i < |ds.labels.value| => ds.labels.value[i].name)
    else []
  }

  function FileName(ds: Dataset, kind: FileKind): string {
    "dataset_" + ds.name + (if kind == Csv then ".csv" else ".parquet")
  }

  /** The export route as written: the dataset's name is read before the
      missing-dataset check, so a dataset that is missing or belongs to
      another organisation fails with an attribute error (a 500) and the 404
      branch is never reached. */
  function ExportLookupAsWritten(db: Db, rawId: string, org: string, parseUuid: string -> Option<string>)
    : (r: Result<Dataset, ApiError>)
    ensures r.Err? ==> r.error == BadRequest || r.error == ApiError(500)
    ensures r.Ok? ==> FindByIdAndOrg(db, rawId, org, parseUuid) == Ok(Some(r.value))
    ensures FindByIdAndOrg(db, rawId, org, parseUuid).Ok? && FindByIdAndOrg(db, rawId, org, parseUuid).value.Some?
      ==> r.Ok?
  {
    match FindByIdAndOrg(db, rawId, org, parseUuid)
    case Err(e) => Err(e)
    case Ok(None) => Err(ApiError(500))
    case Ok(Some(ds)) => Ok(ds)
  }

  /** A well-formed id of a dataset the caller cannot see gets a 500 from
      the route as written, never the 404 it means to send. */
  lemma ExportMissingIsServerError(db: Db, rawId: string, org: string, parseUuid: string -> Option<string>)
    requires parseUuid(rawId).Some? && parseUuid(rawId).value !in db.datasets
    ensures ExportLookupAsWritten(db, rawId, org, parseUuid) == Err(ApiError(500))
  {
  }

  /** The export route's dataset lookup with the guard before the name is
      read: 400 for a malformed id, 404 for a dataset the caller cannot see. */
  function ExportLookup(db: Db, rawId: string, org: string, parseUuid: string -> Option<string>)
    : (r: Result<Dataset, ApiError>)
    ensures r.Err? ==> r.error == BadRequest || r.error == NotFound
    ensures parseUuid(rawId).Some? && (parseUuid(rawId).value !in db.datasets
                                       || db.datasets[parseUuid(rawId).value].orgId != org)
      ==> r == Err(NotFound)
    ensures r.Ok? ==> FindByIdAndOrg(db, rawId, org, parseUuid) == Ok(Some(r.value))
    ensures FindByIdAndOrg(db, rawId, org, parseUuid).Ok? && FindByIdAndOrg(db, rawId, org, parseUuid).value.Some?
      ==> r.Ok?
  {
    match FindByIdAndOrg(db, rawId, org, parseUuid)
    case Err(e) => Err(e)
    case Ok(None) => Err(NotFound)
    case Ok(Some(ds)) => Ok(ds)
  }

  /** `GET /datasets/{id}/export`: the dataset's selected images, newest
      first, as rows with one column per dataset label, in the requested
      format. `table` lists the stored images. */
  function ExportDataset(db: Db, table: seq<Image>, rawId: string, org: string, onlyLabeled: bool,
                         kind: FileKind, parseUuid: string -> Option<string>, signedUrl: string -> string)
    : (r: Result<Export, ApiError>)
    ensures r.Err? <==> ExportLookup(db, rawId, org, parseUuid).Err?
    ensures r.Ok? ==> var ds := ExportLookup(db, rawId, org, parseUuid).value;
      var imgs := ExportQuery(table, ds.id, onlyLabeled);
      r.value.kind == kind && r.value.fileName == FileName(ds, kind)
      && |r.value.rows| == |imgs|
      && forall i :: 0 <= i < |imgs| ==> r.value.rows[i] == ExportRow(imgs[i], LabelNames(ds), signedUrl)
  {
    match ExportLookup(db, rawId, org, parseUuid)
    case Err(e) => Err(e)
    case Ok(ds) =>
      var imgs := ExportQuery(table, ds.id, onlyLabeled);
      var out := ExportDatasetRows(imgs, LabelNames(ds), if kind == Csv then "csv" else "parquet", signedUrl);
      Ok(Export(kind, FileName(ds, kind), out.value.1))
  }
}

=== FILE: dataset_images.dfy ===
/** Image operations of the labelling service: downloading an image by URL,
    storing a new image, updating its name, comment, labels and labeled
    flag, and deleting it. Each keeps the dataset's image counters in step
    with the images actually stored. */
module DatasetImages {
  import opened Common
  import opened Labels
  import opened BackendDb
  import DatasetRoutes

  // ---------------------------------------------------------------------
  // Download by URL

  const MaxImageBytes: int := 10 * 1024 * 1024

  /** What fetching the URL produced: an HTTP response (its status, its
      `Content-Length` when present and non-empty, its body), a timeout, or a
      client error. */
  datatype FetchOutcome = Response(status: int, contentLength: Option<int>, body: seq<int>) | Timeout | ClientError

  /** `download_image`: the body of a 200 response that does not announce
      more than 10 MB; otherwise the upstream status, 400 for an oversized
      image, 408 for a timeout, 500 for a client error. */
  function DownloadImage(f: FetchOutcome): (r: Result<seq<int>, ApiError>)
    ensures r.Ok? <==> f.Response? && f.status == 200
                       && (f.contentLength.None? || f.contentLength.value <= MaxImageBytes)
    ensures r.Ok? ==> r.value == f.body
    ensures f.Response? && f.status != 200 ==> r == Err(ApiError(f.status))
    ensures f.Response? && f.status == 200 && f.contentLength.Some? && f.contentLength.value > MaxImageBytes
      ==> r == Err(ApiError(400))
    ensures f.Timeout? ==> r == Err(ApiError(408))
    ensures f.ClientError? ==> r == Err(ApiError(500))
  {
    match f
    case Timeout => Err(ApiError(408))
    case ClientError => Err(ApiError(500))
    case Response(status, len, body) =>
      if status != 200 then Err(ApiError(status))
      else if len.Some? && len.value > MaxImageBytes then Err(ApiError(400))
      else Ok(body)
  }

  // ---------------------------------------------------------------------
  // Storing a new image

  /** What the storage backend returned for the saved bytes. */
  datatype StoredImage = StoredImage(url: string, md5: string)

  /** The arguments `persist_image` is called with. */
  datatype PersistArgs = PersistArgs(
    sourceUrl: Option<string>, name: string, labels: Option<seq<LabelUpdate>>,
    isLabeled: Option<bool>, comment: Option<string>)

  /** The name an image is stored under: an empty name for an image that has
      a source URL is replaced by the generated title, when one comes back
      non-empty. `title` is what the title generator answers. */
  function StoredName(name: string, sourceUrl: Option<string>, title: Option<string>): (n: string)
    ensures name != "" ==> n == name
    ensures name == "" && sourceUrl.Some? && sourceUrl.value != "" && title.Some? && title.value != ""
      ==> n == title.value
    ensures n == name || (title.Some? && n == title.value)
  {
    if name == "" && sourceUrl.Some? && sourceUrl.value != "" && title.Some? && title.value != ""
    then title.value else name
  }

  /** `persist_image`: stores a new image under a fresh id and counts it
      (and counts it as labeled when it arrives labeled). A missing dataset
      aborts with 404 and nothing is stored. */
  function PersistImage(db: Db, ds: string, newId: string, stored: StoredImage, a: PersistArgs,
                        title: Option<string>, username: string, now: int): (r: Result<(Db, Image), ApiError>)
    requires newId !in db.images
    ensures r.Err? <==> ds !in db.datasets
    ensures r.Err? ==> r.error == NotFound
    ensures r.Ok? ==> var (db', img) := r.value;
      db'.images == db.images[newId := img]
      && img.id == newId && img.datasetId == ds
      && img.isLabeled == (a.isLabeled == Some(true))
      && img.name == StoredName(a.name, a.sourceUrl, title)
      && img.labels == a.labels && img.comment == a.comment && img.sourceUrl == a.sourceUrl
      && img.storageUrl == stored.url && img.md5 == stored.md5 && img.updatedBy == username
      && db'.datasets.Keys == db.datasets.Keys && ds in db'.datasets
      && db'.datasets[ds] == db.datasets[ds].(nImages := db.datasets[ds].nImages + 1,
           nLabeled := db.datasets[ds].nLabeled + (if img.isLabeled then 1 else 0))
      && (forall d :: d in db.datasets && d != ds ==> db'.datasets[d] == db.datasets[d])
  {
    var img := Image(newId, ds, StoredName(a.name, a.sourceUrl, title), stored.url, a.sourceUrl, stored.md5,
                     None, a.labels, a.comment, a.isLabeled == Some(true), username, Some(now), Some(now));
    var withImage := db.(images := db.images[newId := img]);
    match IncreaseImgCount(withImage, ds, 1, if a.isLabeled == Some(true) then 1 else 0)
    case Err(e) => Err(e)
    case Ok(db') => Ok((db', img))
  }

  /** Storing an image keeps every dataset's counters equal to its image
      counts. */
  lemma PersistKeepsCounts(db: Db, ds: string, newId: string, stored: StoredImage, a: PersistArgs,
                           title: Option<string>, username: string, now: int)
    requires CountsAgree(db) && newId !in db.images
    ensures var r := PersistImage(db, ds, newId, stored, a, title, username, now);
      r.Ok? ==> CountsAgree(r.value.0)
  {
    var r := PersistImage(db, ds, newId, stored, a, title, username, now);
    if r.Ok? {
      InsertKeepsCounts(db, r.value.0, newId, r.value.1, ds);
    }
  }

  /** Adding one image to dataset `ds` and bumping that dataset's counters,
      and nothing else, keeps the counters in agreement. */
  lemma InsertKeepsCounts(db: Db, db': Db, newId: string, img: Image, ds: string)
    requires CountsAgree(db) && newId !in db.images && ds in db.datasets
    requires db'.images == db.images[newId := img] && img.id == newId && img.datasetId == ds
    requires db'.datasets.Keys == db.datasets.Keys
    requires db'.datasets[ds] == db.datasets[ds].(nImages := db.datasets[ds].nImages + 1,
               nLabeled := db.datasets[ds].nLabeled + (if img.isLabeled then 1 else 0))
    requires forall d :: d in db.datasets && d != ds ==> db'.datasets[d] == db.datasets[d]
    ensures CountsAgree(db')
  {
    forall d | d in db'.datasets
      ensures db'.datasets[d].nImages == |ImagesOf(db'.images, d)|
      ensures db'.datasets[d].nLabeled == |LabeledOf(db'.images, d)|
    {
      PersistCountsAt(db, db', newId, img, ds, d);
    }
  }

  lemma PersistCountsAt(db: Db, db': Db, newId: string, img: Image, ds: string, d: string)
    requires CountsAgree(db) && newId !in db.images && d in db.datasets && ds in db.datasets
    requires db'.images == db.images[newId := img] && img.datasetId == ds
    requires d != ds ==> d in db'.datasets && db'.datasets[d] == db.datasets[d]
    requires ds in db'.datasets && db'.datasets[ds] == db.datasets[ds].(nImages := db.datasets[ds].nImages + 1,
               nLabeled := db.datasets[ds].nLabeled + (if img.isLabeled then 1 else 0))
    ensures d in db'.datasets
    ensures db'.datasets[d].nImages == |ImagesOf(db'.images, d)|
    ensures db'.datasets[d].nLabeled == |LabeledOf(db'.images, d)|
  {
    ImagesAfterInsert(db.images, newId, img, d);
  }

  // ---------------------------------------------------------------------
  // Upload routes: shaping the arguments of persist_image

  /** The JSON body of an upload by URL. */
  datatype ImportImageRequest = ImportImageRequest(
    url: string, name: Option<string>, labels: Option<seq<LabelUpdate>>, isLabeled: Option<bool>)

  /** Upload by URL: an empty label list is stored as no labels, a missing or
      empty name as the empty name (which asks for a generated title), and
      no comment. */
  function UploadByUrlArgs(q: ImportImageRequest): (a: PersistArgs)
    ensures a.sourceUrl == Some(q.url) && a.comment.None? && a.isLabeled == q.isLabeled
    ensures a.labels.Some? <==> q.labels.Some? && |q.labels.value| > 0
    ensures a.labels.Some? ==> a.labels == q.labels
    ensures a.name == (if q.name.Some? then q.name.value else "")
  {
    PersistArgs(Some(q.url),
                if q.name.Some? && q.name.value != "" then q.name.value else "",
                if q.labels.Some? && |q.labels.value| > 0 then q.labels else None,
                q.isLabeled, None)
  }

  /** The multipart form of an upload by file (`name` defaults to the empty
      string and `is_labeled` to false). */
  datatype UploadForm = UploadForm(
    url: Option<string>, name: string, labels: Option<string>, isLabeled: bool, comment: Option<string>)

  /** Upload by file: the labels field is parsed as JSON only when it is
      non-empty; unparseable JSON fails the request. `parseLabels` stands
      for `json.loads`. */
  function UploadByFileArgs(f: UploadForm, parseLabels: string -> Option<seq<LabelUpdate>>)
    : (r: Result<PersistArgs, ApiError>)
    ensures r.Err? <==> f.labels.Some? && f.labels.value != "" && parseLabels(f.labels.value).None?
    ensures r.Ok? ==>
      r.value.sourceUrl == f.url && r.value.name == f.name
      && r.value.isLabeled == Some(f.isLabeled) && r.value.comment == f.comment
    ensures r.Ok? ==> (r.value.labels.Some? <==> f.labels.Some? && f.labels.value != "")
  {
    if f.labels.Some? && f.labels.value != "" then
      match parseLabels(f.labels.value)
      case None => Err(ApiError(500))
      case Some(ls) => Ok(PersistArgs(f.url, f.name, Some(ls), Some(f.isLabeled), f.comment))
    else Ok(PersistArgs(f.url, f.name, None, Some(f.isLabeled), f.comment))
  }

  // ---------------------------------------------------------------------
  // Updating an image

  /** `ImageUpdateRequest`: every field optional. */
  datatype ImageUpdateRequest = ImageUpdateRequest(
    comment: Option<string>, isLabeled: Option<bool>, name: Option<string>, labels: Option<seq<LabelUpdate>>)

  predicate InDataset(db: Db, ds: string, imgId: string) {
    imgId in db.images && db.images[imgId].datasetId == ds
  }

  /** The image an update leaves: comment, name and labels are replaced
      only by non-empty values, the labeled flag by any given value, and the
      caller becomes the last updater. */
  function MergeUpdate(prev: Image, q: ImageUpdateRequest, username: string, now: int): (img: Image)
    ensures img.id == prev.id && img.datasetId == prev.datasetId
    ensures img.comment == (if q.comment.Some? && q.comment.value != "" then q.comment else prev.comment)
    ensures img.name == (if q.name.Some? && q.name.value != "" then q.name.value else prev.name)
    ensures img.labels == (if q.labels.Some? && |q.labels.value| > 0 then q.labels else prev.labels)
    ensures img.isLabeled == q.isLabeled.GetOr(prev.isLabeled)
    ensures img.updatedBy == username
  {
    prev.(
      comment := if q.comment.Some? && q.comment.value != "" then q.comment else prev.comment,
      isLabeled := q.isLabeled.GetOr(prev.isLabeled),
      name := if q.name.Some? && q.name.value != "" then q.name.value else prev.name,
      labels := if q.labels.Some? && |q.labels.value| > 0 then q.labels else prev.labels,
      updatedBy := username,
      updatedAt := Some(now))
  }

  /** `update_image`: the image is merged with the request; flipping the
      flag moves the image between the labeled and queued counts. 404 when
      the image is not in the dataset. */
  function UpdateImage(db: Db, ds: string, imgId: string, q: ImageUpdateRequest, username: string, now: int)
    : (r: Result<(Db, Image), ApiError>)
    ensures r.Err? <==>
      !InDataset(db, ds, imgId) || (db.images[imgId].isLabeled != q.isLabeled.GetOr(db.images[imgId].isLabeled) && ds !in db.datasets)
    ensures r.Err? ==> r.error == NotFound
    ensures r.Ok? ==> var (db', img) := r.value; var prev := db.images[imgId];
      db'.images == db.images[imgId := img]
      && img == MergeUpdate(prev, q, username, now) && img.datasetId == ds
      && (prev.isLabeled == img.isLabeled ==> db'.datasets == db.datasets)
      && (prev.isLabeled != img.isLabeled ==>
            db'.datasets.Keys == db.datasets.Keys && ds in db.datasets
            && (forall d :: d in db.datasets && d != ds ==> db'.datasets[d] == db.datasets[d])
            && db'.datasets[ds] == db.datasets[ds].(nLabeled := db.datasets[ds].nLabeled + (if img.isLabeled then 1 else -1)))
  {
    if !InDataset(db, ds, imgId) then Err(NotFound)
    else
      var prev := db.images[imgId];
      var img := MergeUpdate(prev, q, username, now);
      var db1 := db.(images := db.images[imgId := img]);
      if prev.isLabeled == img.isLabeled then Ok((db1, img))
      else
        match IncreaseImgCount(db1, ds, 0, if img.isLabeled then 1 else -1)
        case Err(e) => Err(e)
        case Ok(db') => Ok((db', img))
  }

  /** Updating an image keeps every dataset's counters equal to its image
      counts. */
  lemma UpdateKeepsCounts(db: Db, ds: string, imgId: string, q: ImageUpdateRequest, username: string, now: int)
    requires CountsAgree(db)
    ensures var r := UpdateImage(db, ds, imgId, q, username, now);
      r.Ok? ==> CountsAgree(r.value.0)
  {
    var r := UpdateImage(db, ds, imgId, q, username, now);
    if r.Ok? {
      var db' := r.value.0;
      var img := r.value.1;
      forall d | d in db'.datasets
        ensures db'.datasets[d].nImages == |ImagesOf(db'.images, d)|
        ensures db'.datasets[d].nLabeled == |LabeledOf(db'.images, d)|
      {
        UpdateCountsAt(db, db', imgId, img, ds, d);
      }
    }
  }

  lemma UpdateCountsAt(db: Db, db': Db, imgId: string, img: Image, ds: string, d: string)
    requires CountsAgree(db) && InDataset(db, ds, imgId) && d in db.datasets
    requires db'.images == db.images[imgId := img] && img.datasetId == ds
    requires db.images[imgId].isLabeled == img.isLabeled ==> db'.datasets == db.datasets
    requires db.images[imgId].isLabeled != img.isLabeled ==>
      ds in db.datasets && db'.datasets.Keys == db.datasets.Keys
      && (d != ds ==> db'.datasets[d] == db.datasets[d])
      && db'.datasets[ds] == db.datasets[ds].(nLabeled := db.datasets[ds].nLabeled + (if img.isLabeled then 1 else -1))
    ensures d in db'.datasets
    ensures db'.datasets[d].nImages == |ImagesOf(db'.images, d)|
    ensures db'.datasets[d].nLabeled == |LabeledOf(db'.images, d)|
  {
    PutSameDatasetCounts(db.images, imgId, img, d);
  }

  // ---------------------------------------------------------------------
  // Deleting an image

  /** Removing an image once its dataset is known: 404 for an image that
      is not in the dataset; otherwise the image is removed and uncounted
      (also from the labeled count when it was labeled). */
  function RemoveImage(db: Db, ds: string, imgId: string): (r: Result<Db, ApiError>)
    ensures r.Err? <==> !InDataset(db, ds, imgId) || ds !in db.datasets
    ensures r.Err? ==> r.error == NotFound
    ensures r.Ok? ==>
      (r.value.images == db.images - {imgId}
       && r.value.datasets.Keys == db.datasets.Keys && ds in db.datasets
       && r.value.datasets[ds].nImages == db.datasets[ds].nImages - 1
       && r.value.datasets[ds].nLabeled == db.datasets[ds].nLabeled - (if db.images[imgId].isLabeled then 1 else 0)
       && forall d :: d in db.datasets && d != ds ==> r.value.datasets[d] == db.datasets[d])
  {
    if !InDataset(db, ds, imgId) then Err(NotFound)
    else
      match IncreaseImgCount(db, ds, -1, if db.images[imgId].isLabeled then -1 else 0)
      case Err(e) => Err(e)
      case Ok(db') => Ok(db'.(images := db'.images - {imgId}))
  }

  /** `DELETE /datasets/{id}/images/{image_id}`: the dataset is looked up
      within the caller's organisation first (400 for an id that is not a
      UUID, 404 for a dataset that is missing or foreign); then the image is
      removed as `RemoveImage` does. */
  function DeleteImage(db: Db, rawId: string, org: string, imgId: string, parseUuid: string -> Option<string>)
    : (r: Result<Db, ApiError>)
    ensures DatasetRoutes.Lookup(db, rawId, org, parseUuid).Err? ==>
      r == Err(DatasetRoutes.Lookup(db, rawId, org, parseUuid).error)
    ensures r.Err? && r.error == BadRequest <==> parseUuid(rawId).None?
    ensures r.Ok? ==> var ds := parseUuid(rawId).value;
      (ds in db.datasets && db.datasets[ds].orgId == org && InDataset(db, ds, imgId)
       && r.value.images == db.images - {imgId}
       && r.value.datasets.Keys == db.datasets.Keys
       && r.value.datasets[ds].nImages == db.datasets[ds].nImages - 1
       && r.value.datasets[ds].nLabeled == db.datasets[ds].nLabeled - (if db.images[imgId].isLabeled then 1 else 0)
       && forall d :: d in db.datasets && d != ds ==> r.value.datasets[d] == db.datasets[d])
    ensures DatasetRoutes.Lookup(db, rawId, org, parseUuid).Ok? ==>
      (r.Err? <==> !InDataset(db, parseUuid(rawId).value, imgId)) && (r.Err? ==> r.error == NotFound)
  {
    match DatasetRoutes.Lookup(db, rawId, org, parseUuid)
    case Err(e) => Err(e)
    case Ok(_) => RemoveImage(db, parseUuid(rawId).value, imgId)
  }

  /** An image of another organisation's dataset is never deleted. */
  lemma DeleteImageIsScoped(db: Db, rawId: string, org: string, imgId: string, parseUuid: string -> Option<string>)
    requires parseUuid(rawId).Some? && parseUuid(rawId).value in db.datasets
    requires db.datasets[parseUuid(rawId).value].orgId != org
    ensures DeleteImage(db, rawId, org, imgId, parseUuid) == Err(NotFound)
  {
  }

  /** Deleting an image keeps every dataset's counters equal to its image
      counts. */
  lemma DeleteKeepsCounts(db: Db, rawId: string, org: string, imgId: string, parseUuid: string -> Option<string>)
    requires CountsAgree(db)
    ensures var r := DeleteImage(db, rawId, org, imgId, parseUuid);
      r.Ok? ==> CountsAgree(r.value)
  {
    var r := DeleteImage(db, rawId, org, imgId, parseUuid);
    if r.Ok? {
      var ds := parseUuid(rawId).value;
      var db' := r.value;
      forall d | d in db'.datasets
        ensures db'.datasets[d].nImages == |ImagesOf(db'.images, d)|
        ensures db'.datasets[d].nLabeled == |LabeledOf(db'.images, d)|
      {
        DeleteCountsAt(db, db', ds, imgId, d);
      }
    }
  }

  lemma DeleteCountsAt(db: Db, db': Db, ds: string, imgId: string, d: string)
    requires CountsAgree(db) && InDataset(db, ds, imgId) && ds in db.datasets && d in db.datasets
    requires db'.images == db.images - {imgId} && db'.datasets.Keys == db.datasets.Keys
    requires db'.datasets[ds].nImages == db.datasets[ds].nImages - 1
    requires db'.datasets[ds].nLabeled == db.datasets[ds].nLabeled - (if db.images[imgId].isLabeled then 1 else 0)
    requires d != ds ==> db'.datasets[d] == db.datasets[d]
    ensures db'.datasets[d].nImages == |ImagesOf(db'.images, d)|
    ensures db'.datasets[d].nLabeled == |LabeledOf(db'.images, d)|
  {
    RemoveCounts(db.images, imgId, d);
  }
}

=== FILE: dataset_routes.dfy ===
/** The dataset endpoints of the labelling service: creating a dataset with
    its default label, reading and partially updating one, and deleting one
    together with its images. Every lookup is scoped to the caller's
    organisation. */
module DatasetRoutes {
  import opened Common
  import opened Labels
  import opened BackendDb

  /** The one label every new dataset starts with. */
  const MatchLabel: LabelDef := LabelDef("match", Boolean, "", [])

  /** `POST /datasets`: a dataset with the given name and description, owned
      by the caller's organisation, with the single boolean label `match`
      and no images. `newId` is the freshly generated UUID: no dataset and no
      image refers to it yet. */
  function CreateDataset(db: Db, newId: string, org: string, name: string, description: string)
    : (r: (Db, Dataset))
    requires newId !in db.datasets
    ensures var (db', ds) := r;
      ds.id == newId && ds.orgId == org && ds.name == name && ds.description == description
      && ds.labels == Some([MatchLabel]) && ds.nImages == 0 && ds.nLabeled == 0
      && db'.datasets == db.datasets[newId := ds] && db'.images == db.images
  {
    var ds := Dataset(newId, org, name, description, Some([LabelDef("match", Boolean, "", [])]), 0, 0);
    (db.(datasets := db.datasets[newId := ds]), ds)
  }

  /** A new dataset holds no images, so its zero counters agree. */
  lemma CreateKeepsCounts(db: Db, newId: string, org: string, name: string, description: string)
    requires CountsAgree(db) && newId !in db.datasets
    requires forall i :: i in db.images ==> db.images[i].datasetId != newId
    ensures CountsAgree(CreateDataset(db, newId, org, name, description).0)
  {
    var (db', ds) := CreateDataset(db, newId, org, name, description);
    assert ImagesOf(db.images, newId) == {};
    assert LabeledOf(db.images, newId) == {};
  }

  /** Looks up the dataset a request names: 400 for an id that is not a
      UUID, 404 for one that is missing or belongs to another organisation.
      This is `GET /datasets/{id}` and the guard of the update and delete
      routes. */
  function Lookup(db: Db, rawId: string, org: string, parseUuid: string -> Option<string>)
    : (r: Result<Dataset, ApiError>)
    ensures r.Err? ==> r.error == BadRequest || r.error == NotFound
    ensures r.Err? && r.error == BadRequest <==> parseUuid(rawId).None?
    ensures r.Ok? <==> (parseUuid(rawId).Some? && parseUuid(rawId).value in db.datasets
                       && db.datasets[parseUuid(rawId).value].orgId == org)
    ensures r.Ok? ==> r.value == db.datasets[parseUuid(rawId).value]
  {
    match FindByIdAndOrg(db, rawId, org, parseUuid)
    case Err(e) => Err(e)
    case Ok(None) => Err(NotFound)
    case Ok(Some(ds)) => Ok(ds)
  }

  /** The fields of an update request; `None` leaves the field as it is. */
  datatype UpdateDatasetRequest = UpdateDatasetRequest(
    name: Option<string>, description: Option<string>, labels: Option<seq<LabelDef>>)

  /** `PUT /datasets/{id}`: overwrites exactly the fields the request sets;
      the counters, the owner and the images stay as they are. */
  function UpdateDataset(db: Db, rawId: string, org: string, q: UpdateDatasetRequest,
                         parseUuid: string -> Option<string>): (r: Result<(Db, Dataset), ApiError>)
    ensures r.Err? <==> Lookup(db, rawId, org, parseUuid).Err?
    ensures r.Err? ==> r.error == Lookup(db, rawId, org, parseUuid).error
    ensures r.Ok? ==> var (db', ds) := r.value;
      var prev := Lookup(db, rawId, org, parseUuid).value;
      ds.id == prev.id && ds.orgId == prev.orgId
      && ds.nImages == prev.nImages && ds.nLabeled == prev.nLabeled
      && ds.name == q.name.GetOr(prev.name)
      && ds.description == q.description.GetOr(prev.description)
      && (q.labels.Some? ==> ds.labels == q.labels)
      && (q.labels.None? ==> ds.labels == prev.labels)
      && db'.datasets == db.datasets[parseUuid(rawId).value := ds] && db'.images == db.images
  {
    match Lookup(db, rawId, org, parseUuid)
    case Err(e) => Err(e)
    case Ok(prev) =>
      var ds := prev.(name := if q.name.Some? then q.name.value else prev.name,
                      description := if q.description.Some? then q.description.value else prev.description,
                      labels := if q.labels.Some? then q.labels else prev.labels);
      Ok((db.(datasets := db.datasets[parseUuid(rawId).value := ds]), ds))
  }

  /** Updating a dataset's fields never disturbs the counters. */
  lemma UpdateDatasetKeepsCounts(db: Db, rawId: string, org: string, q: UpdateDatasetRequest,
                                 parseUuid: string -> Option<string>)
    requires CountsAgree(db)
    ensures var r := UpdateDataset(db, rawId, org, q, parseUuid);
      r.Ok? ==> CountsAgree(r.value.0)
  {
  }

  /** The images left once every image of dataset `id` is removed. */
  function ImagesWithout(images: map<string, Image>, id: string): (m: map<string, Image>)
    ensures forall i :: i in m <==> i in images && images[i].datasetId != id
    ensures forall i :: i in m ==> m[i] == images[i]
  {
    map i | i in images && images[i].datasetId != id :: images[i]
  }

  /** `DELETE /datasets/{id}`: removes the dataset and every image stored
      under it; all other datasets and images stay. */
  function DeleteDataset(db: Db, rawId: string, org: string, parseUuid: string -> Option<string>)
    : (r: Result<Db, ApiError>)
    ensures r.Err? <==> Lookup(db, rawId, org, parseUuid).Err?
    ensures r.Err? ==> r.error == Lookup(db, rawId, org, parseUuid).error
    ensures r.Ok? ==> var id := parseUuid(rawId).value;
      r.value.datasets == db.datasets - {id}
      && (forall i :: i in r.value.images <==> i in db.images && db.images[i].datasetId != id)
      && (forall i :: i in r.value.images ==> r.value.images[i] == db.images[i])
  {
    match Lookup(db, rawId, org, parseUuid)
    case Err(e) => Err(e)
    case Ok(_) =>
      var id := parseUuid(rawId).value;
      Ok(Db(db.datasets - {id}, ImagesWithout(db.images, id)))
  }

  /** Deleting a dataset with its images leaves no image pointing at it and
      keeps the remaining counters in agreement. */
  lemma DeleteDatasetKeepsCounts(db: Db, rawId: string, org: string, parseUuid: string -> Option<string>)
    requires CountsAgree(db)
    ensures var r := DeleteDataset(db, rawId, org, parseUuid);
      r.Ok? ==> CountsAgree(r.value)
                && forall i :: i in r.value.images ==> r.value.images[i].datasetId != parseUuid(rawId).value
  {
    var r := DeleteDataset(db, rawId, org, parseUuid);
    if r.Ok? {
      var id := parseUuid(rawId).value;
      var db' := r.value;
      forall d | d in db'.datasets
        ensures db'.datasets[d].nImages == |ImagesOf(db'.images, d)|
        ensures db'.datasets[d].nLabeled == |LabeledOf(db'.images, d)|
      {
        assert ImagesOf(db'.images, d) == ImagesOf(db.images, d);
        assert LabeledOf(db'.images, d) == LabeledOf(db.images, d);
      }
    }
  }
}

=== FILE: dataset_service.dfy ===
/** Dataset management: looking a dataset up with its reviewed and
    pending row counts, creating one on an existing schema, updating its name and
    description, and deleting it. Dataset names are unique within a team. */
module DatasetService {
  import opened Common
  import opened ServiceErrors
  import opened ReviewStore
  import opened RowService

  datatype DatasetCreate = DatasetCreate(name: string, description: Option<string>, schemaId: string)
  datatype DatasetUpdate = DatasetUpdate(name: Option<string>, description: Option<string>)

  /** A dataset as the service answers it: with how many of its rows are
      reviewed and how many are still pending. */
  datatype DatasetView = DatasetView(dataset: Dataset, rowsCount: nat, pendingCount: nat)

  const DatasetNotFound := "Dataset not found"
  const SchemaNotFound := "Schema not found"
  const DuplicateName := "A dataset with this name already exists"

  /** The number of rows of a dataset with the given status. */
  function CountStatus(rows: seq<Row>, datasetId: string, status: RowStatus): (n: nat)
    ensures n <= |rows|
    decreases |rows|
  {
    if |rows| == 0 then 0
    else
      var r := rows[|rows| - 1];
      CountStatus(rows[..|rows| - 1], datasetId, status) + (if r.datasetId == datasetId && r.status == status then 1 else 0)
  }

  /** The number of rows of a dataset, whatever their status. */
  function CountAll(rows: seq<Row>, datasetId: string): (n: nat)
    ensures n <= |rows|
    decreases |rows|
  {
    if |rows| == 0 then 0
    else CountAll(rows[..|rows| - 1], datasetId) + (if rows[|rows| - 1].datasetId == datasetId then 1 else 0)
  }

  /** Every row is pending or reviewed, so the two counts a lookup answers
      with add up to the dataset's rows, and a dataset no row refers to has
      none of either. */
  lemma {:induction false} StatusCountsPartition(rows: seq<Row>, datasetId: string)
    ensures CountStatus(rows, datasetId, Reviewed) + CountStatus(rows, datasetId, Pending) == CountAll(rows, datasetId)
    ensures (forall i :: 0 <= i < |rows| ==> rows[i].datasetId != datasetId) ==> CountAll(rows, datasetId) == 0
    decreases |rows|
  {
    if |rows| > 0 {
      StatusCountsPartition(rows[..|rows| - 1], datasetId);
    }
  }

  /** Looking a dataset up by id, with its counts. */
  function GetDataset(db: Db, rows: seq<Row>, id: string): (r: Result<DatasetView, ServiceError>)
    ensures id !in db.datasets <==> r == Err(NotFound(DatasetNotFound))
    ensures r.Ok? ==>
      r.value.dataset == db.datasets[id]
      && r.value.rowsCount == CountStatus(rows, id, Reviewed) && r.value.pendingCount == CountStatus(rows, id, Pending)
      && r.value.rowsCount + r.value.pendingCount == CountAll(rows, id)
  {
    if id !in db.datasets then Err(NotFound(DatasetNotFound))
    else
      StatusCountsPartition(rows, id);
      Ok(DatasetView(db.datasets[id], CountStatus(rows, id, Reviewed), CountStatus(rows, id, Pending)))
  }

  /** Creating a dataset: a schema that does not exist is not found, and
      that is checked before the name; a name already used in the team is a
      duplicate; otherwise the dataset is stored with the caller as creator
      and last updater, and answered with no rows. */
  function CreateDataset(db: Db, data: DatasetCreate, teamId: string, createdBy: string, newId: string)
    : (r: Result<(Db, DatasetView), ServiceError>)
    requires newId !in db.datasets
    ensures data.schemaId !in db.schemas ==> r == Err(NotFound(SchemaNotFound))
    ensures data.schemaId in db.schemas && DatasetNameTaken(db, data.name, teamId, None)
            ==> r == Err(Duplicate(DuplicateName))
    ensures r.Ok? <==> data.schemaId in db.schemas && !DatasetNameTaken(db, data.name, teamId, None)
    ensures r.Ok? ==>
      var (db', v) := r.value;
      db' == db.(datasets := db.datasets[newId := v.dataset])
      && v.dataset == Dataset(newId, data.name, data.description, data.schemaId, teamId, Some(createdBy), Some(createdBy))
      && v.rowsCount == 0 && v.pendingCount == 0
  {
    if data.schemaId !in db.schemas then Err(NotFound(SchemaNotFound))
    else if DatasetNameTaken(db, data.name, teamId, None) then Err(Duplicate(DuplicateName))
    else
      var d := Dataset(newId, data.name, data.description, data.schemaId, teamId, Some(createdBy), Some(createdBy));
      Ok((db.(datasets := db.datasets[newId := d]), DatasetView(d, 0, 0)))
  }

  /** The counts a creation answers with are the ones a later lookup finds,
      as long as no row refers to the new id yet. */
  lemma CreatedCountsAgreeWithLookup(db: Db, rows: seq<Row>, data: DatasetCreate, teamId: string, createdBy: string,
                                     newId: string)
    requires newId !in db.datasets
    requires CreateDataset(db, data, teamId, createdBy, newId).Ok?
    requires forall i :: 0 <= i < |rows| ==> rows[i].datasetId != newId
    ensures var (db', v) := CreateDataset(db, data, teamId, createdBy, newId).value;
      GetDataset(db', rows, newId) == Ok(v)
  {
    StatusCountsPartition(rows, newId);
  }

  /** The schema check comes first: a creation that names a missing schema
      and a taken name is answered "not found". */
  lemma MissingSchemaReportedFirst(db: Db, data: DatasetCreate, teamId: string, createdBy: string, newId: string)
    requires newId !in db.datasets
    requires data.schemaId !in db.schemas && DatasetNameTaken(db, data.name, teamId, None)
    ensures CreateDataset(db, data, teamId, createdBy, newId) == Err(NotFound(SchemaNotFound))
  {
  }

  /** A given, non-empty name different from the current one. */
  predicate Renames(data: DatasetUpdate, current: string) {
    data.name.Some? && data.name.value != "" && data.name.value != current
  }

  /** Updating a dataset: unknown ids are not found; a new non-empty name
      used by another dataset of the team is a duplicate; otherwise the name
      changes only when a different non-empty one is given, the description
      only when one is given, and the caller becomes the last updater. */
  function UpdateDataset(db: Db, rows: seq<Row>, id: string, data: DatasetUpdate, updatedBy: string)
    : (r: Result<(Db, DatasetView), ServiceError>)
    ensures id !in db.datasets ==> r == Err(NotFound(DatasetNotFound))
    ensures id in db.datasets && Renames(data, db.datasets[id].name) ==>
      (r.Err? <==> DatasetNameTaken(db, data.name.value, db.datasets[id].teamId, Some(id)))
    ensures id in db.datasets && !Renames(data, db.datasets[id].name) ==> r.Ok?
    ensures r.Err? ==> r.error in {NotFound(DatasetNotFound), Duplicate(DuplicateName)}
    ensures r.Ok? ==>
      var (db', v) := r.value;
      var old_ := db.datasets[id];
      db' == db.(datasets := db.datasets[id := v.dataset])
      && v.dataset == old_.(name := if Renames(data, old_.name) then data.name.value else old_.name,
                            description := if data.description.Some? then data.description else old_.description,
                            updatedBy := Some(updatedBy))
      && v.rowsCount == CountStatus(rows, id, Reviewed) && v.pendingCount == CountStatus(rows, id, Pending)
      && v.rowsCount + v.pendingCount == CountAll(rows, id)
  {
    if id !in db.datasets then Err(NotFound(DatasetNotFound))
    else
      var d := db.datasets[id];
      if Renames(data, d.name) && DatasetNameTaken(db, data.name.value, d.teamId, Some(id))
      then Err(Duplicate(DuplicateName))
      else
        var d' := d.(name := if Renames(data, d.name) then data.name.value else d.name,
                     description := if data.description.Some? then data.description else d.description,
                     updatedBy := Some(updatedBy));
        StatusCountsPartition(rows, id);
        Ok((db.(datasets := db.datasets[id := d']), DatasetView(d', CountStatus(rows, id, Reviewed), CountStatus(rows, id, Pending))))
  }

  /** Deleting a dataset: unknown ids are not found; otherwise only that
      dataset is gone. */
  function DeleteDataset(db: Db, id: string): (r: Result<Db, ServiceError>)
    ensures id !in db.datasets <==> r == Err(NotFound(DatasetNotFound))
    ensures r.Ok? ==> r.value == db.(datasets := db.datasets - {id}) && id !in r.value.datasets
  {
    if id !in db.datasets then Err(NotFound(DatasetNotFound)) else Ok(db.(datasets := db.datasets - {id}))
  }

  /** Creating and updating keep dataset names unique within each team. */
  lemma CreateKeepsNamesUnique(db: Db, data: DatasetCreate, teamId: string, createdBy: string, newId: string)
    requires UniqueNames(db) && newId !in db.datasets
    requires CreateDataset(db, data, teamId, createdBy, newId).Ok?
    ensures UniqueNames(CreateDataset(db, data, teamId, createdBy, newId).value.0)
  {
  }

  lemma UpdateKeepsNamesUnique(db: Db, rows: seq<Row>, id: string, data: DatasetUpdate, updatedBy: string)
    requires UniqueNames(db)
    requires UpdateDataset(db, rows, id, data, updatedBy).Ok?
    ensures UniqueNames(UpdateDataset(db, rows, id, data, updatedBy).value.0)
  {
  }
}

=== FILE: dataset_view.dfy ===
/** The dataset page of the web client: which tab is shown and the path that
    selects it, the image-list query it sends, and how its per-image state
    (comments, names, editing flags, label values) follows the images that
    are loaded, uploaded, saved, queued and removed. */
module DatasetView {
  import opened Common
  import opened Records
  import opened Labels
  import opened Pagination

  // ---------------------------------------------------------------------
  // Tabs and paths

  datatype Tab = All | Labeled | Queued | Tests

  /** The tab a path selects: `/labeled` wins over `/queued`, which wins over
      `/tests`; any other path shows all images. */
  function TabFromPath(path: string): (t: Tab)
    ensures t == Labeled <==> Contains(path, "/labeled")
    ensures t == Queued <==> !Contains(path, "/labeled") && Contains(path, "/queued")
    ensures t == Tests <==> !Contains(path, "/labeled") && !Contains(path, "/queued") && Contains(path, "/tests")
  {
    if Contains(path, "/labeled") then Labeled
    else if Contains(path, "/queued") then Queued
    else if Contains(path, "/tests") then Tests
    else All
  }

  function TabSuffix(t: Tab): string {
    match t
    case All => ""
    case Labeled => "/labeled"
    case Queued => "/queued"
    case Tests => "/tests"
  }

  /** The path the view navigates to when tab `t` is chosen. */
  function TabPath(id: string, t: Tab): (p: string)
    ensures IsPrefix("/dataset/" + id, p)
  {
    "/dataset/" + id + TabSuffix(t)
  }

  /** A character of a UUID's text form. */
  predicate UuidChar(c: char) {
    '0' <= c <= '9' || 'a' <= c <= 'f' || 'A' <= c <= 'F' || c == '-'
  }

  /** Choosing a tab and reading the tab back from the new path gives the
      chosen tab, for any dataset id written as a UUID. */
  lemma TabRoundTrip(id: string, t: Tab)
    requires forall i :: 0 <= i < |id| ==> UuidChar(id[i])
    ensures TabFromPath(TabPath(id, t)) == t
  {
    var p := TabPath(id, t);
    MarkerOnlyInSuffix(id, t, "/labeled");
    MarkerOnlyInSuffix(id, t, "/queued");
    MarkerOnlyInSuffix(id, t, "/tests");
  }

  /** A tab marker occurs in a tab path exactly when it starts the tab
      suffix. */
  lemma MarkerOnlyInSuffix(id: string, t: Tab, w: string)
    requires forall i :: 0 <= i < |id| ==> UuidChar(id[i])
    requires w == "/labeled" || w == "/queued" || w == "/tests"
    ensures Contains(TabPath(id, t), w) <==> IsPrefix(w, TabSuffix(t))
  {
    var p := TabPath(id, t);
    var suf := TabSuffix(t);
    var n := 9 + |id|;
    assert p[n..] == suf;
    ContainsIffOccurs(p, w);
    if IsPrefix(w, suf) {
      assert IsPrefix(w, p[n..]);
    }
    if Contains(p, w) {
      var i :| 0 <= i <= |p| && IsPrefix(w, p[i..]);
      MarkerPosition(id, t, w, i);
      assert p[i..] == suf;
    }
  }

  lemma MarkerPosition(id: string, t: Tab, w: string, i: int)
    requires forall i :: 0 <= i < |id| ==> UuidChar(id[i])
    requires w == "/labeled" || w == "/queued" || w == "/tests"
    requires 0 <= i <= |TabPath(id, t)| && IsPrefix(w, TabPath(id, t)[i..])
    ensures i == 9 + |id|
  {
    var p := TabPath(id, t);
    var suf := TabSuffix(t);
    assert p == "/dataset/" + id + suf;
    assert p[i] == '/' && p[i + 1] == w[1];
  }

  // ---------------------------------------------------------------------
  // The image-list request

  /** The query of an image-list request: the labeled filter, the name
      search, and the page as `limit` and `offset`. */
  datatype ImageQuery = ImageQuery(isLabeled: Option<bool>, searchByName: Option<string>, limit: int, offset: int)

  /** The request the view sends for its tab, its settled search text and
      its current page. */
  function ImagesQuery(tab: Tab, search: string, page: PageState): (q: ImageQuery)
    ensures q.isLabeled == Some(true) <==> tab == Labeled
    ensures q.isLabeled == Some(false) <==> tab == Queued
    ensures q.isLabeled.None? <==> tab == All || tab == Tests
    ensures q.searchByName.Some? <==> search != ""
    ensures q.searchByName.Some? ==> q.searchByName.value == search
    ensures q.limit == page.pageSize
    ensures q.offset == (page.currentPage - 1) * page.pageSize
  {
    ImageQuery(if tab == Labeled then Some(true) else if tab == Queued then Some(false) else None,
               if search != "" then Some(search) else None,
               page.pageSize, PageOffset(page.currentPage, page.pageSize))
  }

  /** Fetching the current page and applying the headers the server sends
      for that query keeps the view on the same page. */
  lemma QueryKeepsPage(tab: Tab, search: string, page: PageState, total: nat)
    requires page.currentPage >= 1 && page.pageSize > 0
    ensures var q := ImagesQuery(tab, search, page);
      ApplyHeaders(page, Received(ListHeaders(total, q.limit, q.offset))).currentPage == page.currentPage
  {
    PageRoundTrip(page, total);
  }

  // ---------------------------------------------------------------------
  // Per-image state

  /** An image as the list endpoint returns it. */
  datatype ViewImage = ViewImage(id: string, name: Option<string>, comment: Option<string>,
                                 labels: LabelsField, isLabeled: bool)

  /** The page's state: the images shown and, keyed by image id, the comment
      and name being edited, whether the name is in edit mode and the label
      values; the tab and the pagination. */
  datatype ViewState = ViewState(
    images: seq<ViewImage>, comments: Rec<string>, names: Rec<string>, editing: Rec<bool>,
    labels: Rec<Rec<Value>>, tab: Tab, page: PageState, datasetLoaded: bool)

  /** `x || ''` for an optional string. */
  function OrEmpty(o: Option<string>): (s: string)
    ensures o.Some? ==> s == o.value
    ensures o.None? ==> s == ""
  {
    if o.Some? then o.value else ""
  }

  function CommentEntries(imgs: seq<ViewImage>): (e: seq<(string, string)>)
    ensures |e| == |imgs| && forall i :: 0 <= i < |imgs| ==> e[i] == (imgs[i].id, OrEmpty(imgs[i].comment))
  {
    seq(|imgs|, i requires 0 <= i < |imgs| => (imgs[i].id, OrEmpty(imgs[i].comment)))
  }

  function NameEntries(imgs: seq<ViewImage>): (e: seq<(string, string)>)
    ensures |e| == |imgs| && forall i :: 0 <= i < |imgs| ==> e[i] == (imgs[i].id, OrEmpty(imgs[i].name))
  {
    seq(|imgs|, i requires 0 <= i < |imgs| => (imgs[i].id, OrEmpty(imgs[i].name)))
  }

  /** The same value for every image. */
  function SameEntries<V>(imgs: seq<ViewImage>, v: V): (e: seq<(string, V)>)
    ensures |e| == |imgs| && forall i :: 0 <= i < |imgs| ==> e[i] == (imgs[i].id, v)
  {
    seq(|imgs|, i requires 0 <= i < |imgs| => (imgs[i].id, v))
  }

  function LabelEntries(imgs: seq<ViewImage>): (e: seq<(string, Rec<Value>)>)
    ensures |e| == |imgs| && forall i :: 0 <= i < |imgs| ==> e[i] == (imgs[i].id, NormalizeLabels(imgs[i].labels))
  {
    seq(|imgs|, i requires 0 <= i < |imgs| => (imgs[i].id, NormalizeLabels(imgs[i].labels)))
  }

  /** Loading a page of images: the list is replaced, and each loaded image's
      comment, name, label values and a cleared edit flag are recorded; the
      state kept for other images stays. */
  function ProcessImages(st: ViewState, imgs: seq<ViewImage>): (st': ViewState)
  {
    st.(images := imgs,
        comments := SetAll(st.comments, CommentEntries(imgs)),
        names := SetAll(st.names, NameEntries(imgs)),
        editing := SetAll(st.editing, SameEntries(imgs, false)),
        labels := SetAll(st.labels, LabelEntries(imgs)))
  }

  /** After loading, every loaded image has its comment and name (empty when
      missing), a cleared edit flag and its labels as a name-to-value record
      whichever of the two shapes they came in; every other image keeps what
      it had. */
  lemma ProcessImagesState(st: ViewState, imgs: seq<ViewImage>, k: string)
    requires forall i, j :: 0 <= i < j < |imgs| ==> imgs[i].id != imgs[j].id
    ensures var st' := ProcessImages(st, imgs);
      st'.images == imgs
      && (forall i :: 0 <= i < |imgs| && imgs[i].id == k ==>
            Get(st'.comments, k) == Some(OrEmpty(imgs[i].comment))
            && Get(st'.names, k) == Some(OrEmpty(imgs[i].name))
            && Get(st'.editing, k) == Some(false)
            && Get(st'.labels, k) == Some(NormalizeLabels(imgs[i].labels)))
      && ((forall i :: 0 <= i < |imgs| ==> imgs[i].id != k) ==>
            Get(st'.comments, k) == Get(st.comments, k) && Get(st'.names, k) == Get(st.names, k)
            && Get(st'.editing, k) == Get(st.editing, k) && Get(st'.labels, k) == Get(st.labels, k))
  {
    forall i | 0 <= i < |imgs| && imgs[i].id == k
      ensures var st' := ProcessImages(st, imgs);
        Get(st'.comments, k) == Some(OrEmpty(imgs[i].comment))
        && Get(st'.names, k) == Some(OrEmpty(imgs[i].name))
        && Get(st'.editing, k) == Some(false)
        && Get(st'.labels, k) == Some(NormalizeLabels(imgs[i].labels))
    {
      LoadedImageState(st, imgs, i);
    }
    if forall i :: 0 <= i < |imgs| ==> imgs[i].id != k {
      OtherImageState(st, imgs, k);
    }
  }

  /** The state recorded for one loaded image. */
  lemma LoadedImageState(st: ViewState, imgs: seq<ViewImage>, i: int)
    requires forall i, j :: 0 <= i < j < |imgs| ==> imgs[i].id != imgs[j].id
    requires 0 <= i < |imgs|
    ensures var st' := ProcessImages(st, imgs);
      var k := imgs[i].id;
      Get(st'.comments, k) == Some(OrEmpty(imgs[i].comment))
      && Get(st'.names, k) == Some(OrEmpty(imgs[i].name))
      && Get(st'.editing, k) == Some(false)
      && Get(st'.labels, k) == Some(NormalizeLabels(imgs[i].labels))
  {
    var ce, ne, fe, le := CommentEntries(imgs), NameEntries(imgs), SameEntries(imgs, false), LabelEntries(imgs);
    LoadedKey(st.comments, imgs, ce, i);
    LoadedKey(st.names, imgs, ne, i);
    LoadedKey(st.editing, imgs, fe, i);
    LoadedKey(st.labels, imgs, le, i);
  }

  /** Assigning entries keyed by distinct image ids gives each image's key
      the entry made for it. */
  lemma LoadedKey<V>(r: Rec<V>, imgs: seq<ViewImage>, e: seq<(string, V)>, i: int)
    requires forall i, j :: 0 <= i < j < |imgs| ==> imgs[i].id != imgs[j].id
    requires |e| == |imgs| && forall j :: 0 <= j < |e| ==> e[j].0 == imgs[j].id
    requires 0 <= i < |imgs|
    ensures Get(SetAll(r, e), imgs[i].id) == Some(e[i].1)
  {
    GetSetAll(r, e, imgs[i].id);
    LastOfUnique(imgs, e, i);
  }

  /** The state kept for an image that was not loaded. */
  lemma OtherImageState(st: ViewState, imgs: seq<ViewImage>, k: string)
    requires forall i :: 0 <= i < |imgs| ==> imgs[i].id != k
    ensures var st' := ProcessImages(st, imgs);
      Get(st'.comments, k) == Get(st.comments, k) && Get(st'.names, k) == Get(st.names, k)
      && Get(st'.editing, k) == Get(st.editing, k) && Get(st'.labels, k) == Get(st.labels, k)
  {
    var ce, ne, fe, le := CommentEntries(imgs), NameEntries(imgs), SameEntries(imgs, false), LabelEntries(imgs);
    AbsentKeyKept(st.comments, imgs, ce, k);
    AbsentKeyKept(st.names, imgs, ne, k);
    AbsentKeyKept(st.editing, imgs, fe, k);
    AbsentKeyKept(st.labels, imgs, le, k);
  }

  /** Assigning entries keyed by the images' ids leaves a key no image has
      alone. */
  lemma AbsentKeyKept<V>(r: Rec<V>, imgs: seq<ViewImage>, e: seq<(string, V)>, k: string)
    requires forall i :: 0 <= i < |imgs| ==> imgs[i].id != k
    requires |e| == |imgs| && forall j :: 0 <= j < |e| ==> e[j].0 == imgs[j].id
    ensures Get(SetAll(r, e), k) == Get(r, k)
  {
    GetSetAll(r, e, k);
    assert forall j :: 0 <= j < |e| ==> e[j].0 != k;
  }

  /** With distinct image ids, the last entry keyed by an image's id is the
      entry made for that image. */
  lemma LastOfUnique<V>(imgs: seq<ViewImage>, e: seq<(string, V)>, i: int)
    requires forall i, j :: 0 <= i < j < |imgs| ==> imgs[i].id != imgs[j].id
    requires |e| == |imgs| && forall j :: 0 <= j < |e| ==> e[j].0 == imgs[j].id
    requires 0 <= i < |imgs|
    ensures LastValue(e, imgs[i].id) == Some(e[i].1)
  {
    var k := imgs[i].id;
    var o := LastValue(e, k);
    assert e[i].0 == k;
    var j :| 0 <= j < |e| && e[j] == (k, o.value) && forall m :: j < m < |e| ==> e[m].0 != k;
    assert imgs[j].id == k;
    assert j == i;
  }

  /** Newly uploaded images are appended and start with an empty comment,
      their name, a cleared edit flag and no label values. */
  function ImagesUploaded(st: ViewState, imgs: seq<ViewImage>): (st': ViewState)
    ensures st'.images == st.images + imgs
  {
    st.(images := st.images + imgs,
        comments := SetAll(st.comments, SameEntries(imgs, "")),
        names := SetAll(st.names, NameEntries(imgs)),
        editing := SetAll(st.editing, SameEntries(imgs, false)),
        labels := SetAll(st.labels, SameEntries<Rec<Value>>(imgs, [])))
  }

  /** An uploaded image starts with an empty comment and no label values. */
  lemma ImagesUploadedState(st: ViewState, imgs: seq<ViewImage>, i: int)
    requires forall i, j :: 0 <= i < j < |imgs| ==> imgs[i].id != imgs[j].id
    requires 0 <= i < |imgs|
    ensures var st' := ImagesUploaded(st, imgs);
      Get(st'.comments, imgs[i].id) == Some("") && Get(st'.labels, imgs[i].id) == Some([])
      && Get(st'.names, imgs[i].id) == Some(OrEmpty(imgs[i].name))
      && Get(st'.editing, imgs[i].id) == Some(false)
  {
    LoadedKey(st.comments, imgs, SameEntries(imgs, ""), i);
    LoadedKey(st.names, imgs, NameEntries(imgs), i);
    LoadedKey(st.editing, imgs, SameEntries(imgs, false), i);
    LoadedKey(st.labels, imgs, SameEntries<Rec<Value>>(imgs, []), i);
  }

  function WithoutImage(imgs: seq<ViewImage>, id: string): (r: seq<ViewImage>)
    ensures |r| <= |imgs|
    ensures forall x :: x in r <==> x in imgs && x.id != id
  {
    Filter(imgs, (x: ViewImage) => x.id != id)
  }

  /** After a delete: the image leaves the list and its four per-image
      entries are dropped; nothing else changes. */
  function ImageRemoved(st: ViewState, id: string): (st': ViewState)
    ensures forall x :: x in st'.images <==> x in st.images && x.id != id
    ensures forall k :: Get(st'.comments, k) == (if k == id then None else Get(st.comments, k))
    ensures forall k :: Get(st'.names, k) == (if k == id then None else Get(st.names, k))
    ensures forall k :: Get(st'.editing, k) == (if k == id then None else Get(st.editing, k))
    ensures forall k :: Get(st'.labels, k) == (if k == id then None else Get(st.labels, k))
    ensures st'.tab == st.tab && st'.page == st.page
  {
    forall k
      ensures Get(Delete(st.comments, id), k) == (if k == id then None else Get(st.comments, k))
      ensures Get(Delete(st.names, id), k) == (if k == id then None else Get(st.names, k))
      ensures Get(Delete(st.editing, id), k) == (if k == id then None else Get(st.editing, k))
      ensures Get(Delete(st.labels, id), k) == (if k == id then None else Get(st.labels, k))
    {
      DeleteGet(st.comments, id, k);
      DeleteGet(st.names, id, k);
      DeleteGet(st.editing, id, k);
      DeleteGet(st.labels, id, k);
    }
    st.(images := WithoutImage(st.images, id),
        comments := Delete(st.comments, id), names := Delete(st.names, id),
        editing := Delete(st.editing, id), labels := Delete(st.labels, id))
  }

  /** Replaces every image with id `id` by the server's answer. */
  function ReplaceImage(imgs: seq<ViewImage>, id: string, updated: ViewImage): (r: seq<ViewImage>)
    ensures |r| == |imgs|
    ensures forall i :: 0 <= i < |imgs| ==> r[i] == (if imgs[i].id == id then updated else imgs[i])
  {
    seq(|imgs|, i requires 0 <= i < |imgs| => if imgs[i].id == id then updated else imgs[i])
  }

  /** Putting an image back in the queue: on the labeled tab it leaves the
      list; on any other tab the server's answer replaces it in place. The
      server's answer is the full updated image. */
  function QueueImage(st: ViewState, id: string, updated: ViewImage): (st': ViewState)
    ensures st.tab == Labeled ==> forall x :: x in st'.images <==> x in st.images && x.id != id
    ensures st.tab != Labeled ==>
      (|st'.images| == |st.images|
       && forall i :: 0 <= i < |st.images| ==>
            st'.images[i] == (if st.images[i].id == id then updated else st.images[i]))
    ensures st'.comments == st.comments && st'.labels == st.labels
  {
    if st.tab == Labeled then st.(images := WithoutImage(st.images, id))
    else st.(images := ReplaceImage(st.images, id, updated))
  }

  /** Choosing a tab goes back to page 1 of that tab. */
  function ChangeTab(st: ViewState, t: Tab): (st': ViewState)
    ensures st'.tab == t && st'.page.currentPage == 1
    ensures st'.page == st.page.(currentPage := 1) && st'.images == st.images
  {
    st.(tab := t, page := st.page.(currentPage := 1))
  }

  /** A new settled search text goes back to page 1 once the dataset is
      loaded. */
  function SearchChanged(st: ViewState): (st': ViewState)
    ensures st.datasetLoaded ==> st'.page.currentPage == 1
    ensures !st.datasetLoaded ==> st' == st
    ensures st'.page.pageSize == st.page.pageSize && st'.tab == st.tab
  {
    if st.datasetLoaded then st.(page := st.page.(currentPage := 1)) else st
  }

  // ---------------------------------------------------------------------
  // Saving an image

  /** The dataset's label definitions keyed by name (a later definition with
      the same name replaces an earlier one). */
  function LabelDefsByName(defs: seq<LabelDef>): (r: Rec<LabelDef>)
    ensures UniqueKeys(r)
    ensures forall n :: Get(r, n) == LastValue(seq(|defs|, i requires 0 <= i < |defs| => (defs[i].name, defs[i])), n)
  {
    var e := seq(|defs|, i requires 0 <= i < |defs| => (defs[i].name, defs[i]));
    FromEntriesUnique(e);
    forall n
      ensures Get(FromEntries(e), n) == LastValue(e, n)
    {
      GetFromEntries(e, n);
    }
    FromEntries(e)
  }

  /** The body of the save request for one image. */
  datatype SavePayload = SavePayload(name: Option<string>, comment: Option<string>,
                                     labels: seq<LabelUpdate>, isLabeled: Option<bool>)

  /** Saving an image sends its edited name and comment, one value for every
      label the dataset defines, and marks it labeled only when the list shows
      it unlabeled. */
  function SaveImagePayload(st: ViewState, defs: Rec<LabelDef>, id: string): (p: SavePayload)
    ensures |p.labels| == |defs|
    ensures forall i :: 0 <= i < |defs| ==> p.labels[i].name == defs[i].0 && p.labels[i].value != Null
    ensures p.name == Get(st.names, id) && p.comment == Get(st.comments, id)
    ensures p.isLabeled.Some? ==> p.isLabeled.value
    ensures p.isLabeled.Some? <==> exists i :: 0 <= i < |st.images| && st.images[i].id == id
                                             && !st.images[i].isLabeled
                                             && forall j :: 0 <= j < i ==> st.images[j].id != id
  {
    var current := Get(st.labels, id).GetOr([]);
    var found := FindFirst(st.images, (x: ViewImage) => x.id == id);
    var mark := found.Some? && !st.images[found.value].isLabeled;
    if mark then
      assert exists i :: 0 <= i < |st.images| && st.images[i].id == id && !st.images[i].isLabeled
                         && forall j :: 0 <= j < i ==> st.images[j].id != id by {
        assert st.images[found.value].id == id;
      }
      SavePayload(Get(st.names, id), Get(st.comments, id), CompleteLabels(defs, current), Some(true))
    else
      SavePayload(Get(st.names, id), Get(st.comments, id), CompleteLabels(defs, current), None)
  }

  /** The label values a save sends keep every value the image already has
      and fill the others with their label's default. */
  lemma SavePayloadValues(st: ViewState, defs: Rec<LabelDef>, id: string, i: int)
    requires 0 <= i < |defs|
    ensures var p := SaveImagePayload(st, defs, id);
      var v := Get(Get(st.labels, id).GetOr([]), defs[i].0);
      (v.Some? && v.value != Null ==> p.labels[i].value == v.value)
      && (v.None? || v.value == Null ==> p.labels[i].value == SaveDefault(defs[i].1))
  {
  }
}

=== FILE: developer_keys.dfy ===
/** The developer API-key dialog: the caller's key previews, a newly
    created key shown in full once at the top of the list, deletion by
    position, and copying a key to the clipboard. */
module DeveloperKeys {
  import opened Common

  /** What the list shows for a key: its id, preview and creation time. */
  datatype KeyPreview = KeyPreview(id: string, preview: string, createdAt: string)

  /** The server's answer to a key creation. */
  datatype CreatedKey = CreatedKey(id: string, apiKey: string, preview: string, createdAt: string)

  /** The dialog's state: the list, the error shown, and which row shows
      its full key. */
  datatype KeysState = KeysState(keys: seq<KeyPreview>, error: Option<string>, shown: Option<(string, nat)>)

  const LoadFailedMessage := "Failed to load API keys"
  const CreateFailedMessage := "Failed to create API key"
  const DeleteFailedMessage := "Failed to delete API key"

  /** Opening the dialog loads the list, or shows an error and keeps it. */
  function Loaded(st: KeysState, fetched: Option<seq<KeyPreview>>): (r: KeysState)
    ensures fetched.Some? ==> r.keys == fetched.value && r.error.None?
    ensures fetched.None? ==> r.keys == st.keys && r.error == Some(LoadFailedMessage)
  {
    match fetched
    case Some(ks) => st.(keys := ks, error := None)
    case None => st.(error := Some(LoadFailedMessage))
  }

  /** A created key goes to the front of the list and row 0 shows it in
      full; a failure leaves the list as it is. */
  function Create(st: KeysState, created: Option<CreatedKey>): (r: KeysState)
    ensures created.Some? ==> (r.keys == [KeyPreview(created.value.id, created.value.preview, created.value.createdAt)] + st.keys
                               && r.shown == Some((created.value.apiKey, 0)) && r.error.None?)
    ensures created.None? ==> r.keys == st.keys && r.shown == st.shown && r.error == Some(CreateFailedMessage)
  {
    match created
    case Some(c) => st.(keys := [KeyPreview(c.id, c.preview, c.createdAt)] + st.keys, shown := Some((c.apiKey, 0)), error := None)
    case None => st.(error := Some(CreateFailedMessage))
  }

  /** Deleting row `idx`: nothing happens for a row that does not exist;
      otherwise `ok` says whether the server deleted it, and only then is
      exactly that row removed. */
  function Delete(st: KeysState, idx: int, ok: bool): (r: KeysState)
    ensures !(0 <= idx < |st.keys|) ==> r == st
    ensures 0 <= idx < |st.keys| && ok ==> r.keys == RemoveAt(st.keys, idx) && r.error.None?
    ensures 0 <= idx < |st.keys| && !ok ==> r.keys == st.keys && r.error == Some(DeleteFailedMessage)
  {
    if !(0 <= idx < |st.keys|) then st
    else if ok then st.(keys := RemoveAt(st.keys, idx), error := None)
    else st.(error := Some(DeleteFailedMessage))
  }

  /** Deleting the key just created restores the list. */
  lemma CreateThenDeleteRestores(st: KeysState, c: CreatedKey)
    ensures Delete(Create(st, Some(c)), 0, true).keys == st.keys
  {
    var l := Create(st, Some(c)).keys;
    assert RemoveAt(l, 0) == l[1..];
  }

  /** What a copy writes to the clipboard: the full key when one is given,
      else the preview of row `idx`, else nothing. */
  function CopyValue(keys: seq<KeyPreview>, idx: int, fullKey: Option<string>): (o: Option<string>)
    ensures fullKey.Some? && fullKey.value != "" ==> o == fullKey
    ensures (fullKey.None? || fullKey.value == "") && 0 <= idx < |keys| && keys[idx].preview != ""
            ==> o == Some(keys[idx].preview)
    ensures o.Some? ==> o.value != ""
    ensures (fullKey.None? || fullKey.value == "") && !(0 <= idx < |keys|) ==> o.None?
  {
    if fullKey.Some? && fullKey.value != "" then fullKey
    else if 0 <= idx < |keys| && keys[idx].preview != "" then Some(keys[idx].preview)
    else None
  }
}

=== FILE: enum_editor.dfy ===
/** The category-list editor used while setting up a dataset: values can be
    added, renamed and removed, but the list never becomes empty, never holds
    a blank value it was given through the editor, and never holds the same
    value twice. Each successful change reports the new list to the parent. */
module EnumEditor {
  import opened Common

  /** The editor's state: the list, the new-value input, the error shown,
      the index being renamed and the text of that rename. */
  datatype EnumState = EnumState(
    local: seq<string>, input: string, error: Option<string>,
    editing: Option<nat>, editValue: string)

  /** A state after one user action, and the list handed to `onChange` when
      the action changed it. */
  datatype Step = Step(state: EnumState, emitted: Option<seq<string>>)

  const AtLeastOneMessage := "At least one category is required"
  const EmptyMessage := "Category cannot be empty"
  const ExistsMessage := "Category already exists"
  const DuplicateMessage := "Duplicate category"

  /** The editor opened on a list. */
  function Open(values: seq<string>): (st: EnumState)
    ensures st.local == values && st.editing.None? && st.error.None?
  {
    EnumState(values, "", None, None, "")
  }

  /** The list without index `idx`; an index outside the list removes
      nothing. */
  function Without(s: seq<string>, idx: int): (r: seq<string>)
    ensures 0 <= idx < |s| ==> r == RemoveAt(s, idx)
    ensures !(0 <= idx < |s|) ==> r == s
  {
    if 0 <= idx < |s| then RemoveAt(s, idx) else s
  }

  /** Removing a value: refused, with a message, while only one is left;
      otherwise index `idx` is dropped and any rename is abandoned. */
  function Remove(st: EnumState, idx: int): (r: Step)
    ensures |st.local| <= 1 ==> r == Step(st.(error := Some(AtLeastOneMessage)), None)
    ensures |st.local| > 1 ==> r.state.local == Without(st.local, idx) && r.emitted == Some(r.state.local)
                               && r.state.error.None? && r.state.editing.None?
  {
    if |st.local| <= 1 then Step(st.(error := Some(AtLeastOneMessage)), None)
    else
      var updated := Without(st.local, idx);
      Step(st.(local := updated, error := None, editing := None), Some(updated))
  }

  /** Adding the typed value: refused when it is blank or already listed
      (after trimming); otherwise appended, trimmed, and the input cleared. */
  function Add(st: EnumState): (r: Step)
    ensures r.emitted.Some? <==> Trim(st.input) != "" && Trim(st.input) !in st.local
    ensures Trim(st.input) == "" ==> r == Step(st.(error := Some(EmptyMessage)), None)
    ensures Trim(st.input) != "" && Trim(st.input) in st.local ==> r == Step(st.(error := Some(ExistsMessage)), None)
    ensures r.emitted.Some? ==> r.state.local == st.local + [Trim(st.input)] && r.emitted == Some(r.state.local)
                                && r.state.input == "" && r.state.error.None?
  {
    var trimmed := Trim(st.input);
    if trimmed == "" then Step(st.(error := Some(EmptyMessage)), None)
    else if trimmed in st.local then Step(st.(error := Some(ExistsMessage)), None)
    else
      var updated := st.local + [trimmed];
      Step(st.(local := updated, input := "", error := None), Some(updated))
  }

  /** Starting to rename the value at `idx`. */
  function StartEdit(st: EnumState, idx: nat, value: string): (r: EnumState)
    ensures r.local == st.local && r.editing == Some(idx) && r.editValue == value && r.error.None?
  {
    st.(editing := Some(idx), editValue := value, error := None)
  }

  /** Abandoning a rename leaves the list as it is. */
  function CancelEdit(st: EnumState): (r: EnumState)
    ensures r.local == st.local && r.input == st.input
    ensures r.editing.None? && r.editValue == "" && r.error.None?
  {
    st.(editing := None, editValue := "", error := None)
  }

  /** Finishing the rename of index `idx`: refused when the trimmed text is
      blank or equals another entry; otherwise only that entry changes. The
      index is one of the list's own (the editor renders one per value). */
  function FinishEdit(st: EnumState, idx: nat): (r: Step)
    requires idx < |st.local|
    ensures r.emitted.Some? <==> Trim(st.editValue) != ""
                                 && forall i :: 0 <= i < |st.local| && i != idx ==> st.local[i] != Trim(st.editValue)
    ensures r.emitted.None? ==> r.state.local == st.local && r.state.error.Some?
    ensures r.emitted.Some? ==> r.state.local == ReplaceAt(st.local, idx, Trim(st.editValue))
                                && r.emitted == Some(r.state.local)
                                && r.state.editing.None? && r.state.editValue == "" && r.state.error.None?
  {
    var trimmed := Trim(st.editValue);
    if trimmed == "" then Step(st.(error := Some(EmptyMessage)), None)
    else if exists i :: 0 <= i < |st.local| && i != idx && st.local[i] == trimmed then
      Step(st.(error := Some(DuplicateMessage)), None)
    else
      var updated := ReplaceAt(st.local, idx, trimmed);
      Step(st.(local := updated, error := None, editing := None, editValue := ""), Some(updated))
  }

  /** The list the editor keeps: never empty, no value twice. */
  predicate ValidList(s: seq<string>) {
    |s| >= 1 && Distinct(s)
  }

  /** Removal keeps a valid list valid and shortens it by one exactly when
      it removes something. */
  lemma RemoveKeepsValid(st: EnumState, idx: int)
    requires ValidList(st.local)
    ensures ValidList(Remove(st, idx).state.local)
    ensures Remove(st, idx).emitted.Some? && 0 <= idx < |st.local| ==> |Remove(st, idx).state.local| == |st.local| - 1
  {
    var r := Remove(st, idx).state.local;
    if |st.local| > 1 && 0 <= idx < |st.local| {
      forall i, j | 0 <= i < j < |r| ensures r[i] != r[j] {
        var i' := if i < idx then i else i + 1;
        var j' := if j < idx then j else j + 1;
        assert r[i] == st.local[i'] && r[j] == st.local[j'];
      }
    }
  }

  /** Adding keeps a valid list valid and lengthens it by one when it
      succeeds. */
  lemma AddKeepsValid(st: EnumState)
    requires ValidList(st.local)
    ensures ValidList(Add(st).state.local)
    ensures Add(st).emitted.Some? ==> |Add(st).state.local| == |st.local| + 1
  {
    var t := Trim(st.input);
    if t != "" && t !in st.local {
      var r := st.local + [t];
      forall i, j | 0 <= i < j < |r| ensures r[i] != r[j] {
        if j == |st.local| {
          assert r[i] == st.local[i];
        }
      }
    }
  }

  /** Renaming keeps a valid list valid and keeps its length. */
  lemma FinishEditKeepsValid(st: EnumState, idx: nat)
    requires ValidList(st.local) && idx < |st.local|
    ensures ValidList(FinishEdit(st, idx).state.local)
    ensures |FinishEdit(st, idx).state.local| == |st.local|
  {
    var t := Trim(st.editValue);
    var r := FinishEdit(st, idx).state.local;
    if FinishEdit(st, idx).emitted.Some? {
      forall i, j | 0 <= i < j < |r| ensures r[i] != r[j] {
        if i == idx {
          assert r[j] == st.local[j];
        } else if j == idx {
          assert r[i] == st.local[i];
        }
      }
    }
  }

  /** Every value the editor itself puts into the list is trimmed and not
      blank. */
  lemma AddedValuesAreTrimmed(st: EnumState, idx: nat)
    requires idx < |st.local|
    ensures Add(st).emitted.Some? ==> var v := Add(st).state.local[|st.local|]; v != "" && Trim(v) == v
    ensures FinishEdit(st, idx).emitted.Some? ==> var v := FinishEdit(st, idx).state.local[idx]; v != "" && Trim(v) == v
  {
    TrimIdempotent(st.input);
    TrimIdempotent(st.editValue);
  }
}

=== FILE: image_full_view.dfy ===
/** The full-size image viewer: zoom in quarter steps between 0.5 and 3,
    rotation in quarter turns, and a reset. The scale is kept as a whole
    number of quarters, which is exact for every value the viewer reaches. */
module ImageFullView {
  import opened Common

  /** The view: `quarters` is the scale times four, `rotation` is in
      degrees. */
  datatype View = View(quarters: int, rotation: int)

  const MinQuarters := 2   // scale 0.5
  const MaxQuarters := 12  // scale 3

  /** The view the dialog opens with: scale 1, no rotation. */
  const Initial := View(4, 0)

  /** The views the controls can reach from the initial one. */
  predicate Reachable(v: View) {
    MinQuarters <= v.quarters <= MaxQuarters && v.rotation in {0, 90, 180, 270}
  }

  /** Zoom in: a quarter more, at most 3. */
  function ZoomIn(v: View): (r: View)
    ensures r.rotation == v.rotation
    ensures r.quarters == if v.quarters + 1 < MaxQuarters then v.quarters + 1 else MaxQuarters
  {
    v.(quarters := Min(v.quarters + 1, MaxQuarters))
  }

  /** Zoom out: a quarter less, at least 0.5. */
  function ZoomOut(v: View): (r: View)
    ensures r.rotation == v.rotation
    ensures r.quarters == if v.quarters - 1 > MinQuarters then v.quarters - 1 else MinQuarters
  {
    v.(quarters := Max(v.quarters - 1, MinQuarters))
  }

  /** Rotate a quarter turn clockwise, modulo a full turn. */
  function Rotate(v: View): (r: View)
    ensures r.quarters == v.quarters
    ensures 0 <= v.rotation ==> 0 <= r.rotation < 360 && (r.rotation - v.rotation - 90) % 360 == 0
  {
    v.(rotation := (v.rotation + 90) % 360)
  }

  /** Reset to the initial view. */
  function Reset(v: View): (r: View)
    ensures r == Initial && Reachable(r)
  {
    View(4, 0)
  }

  /** The four controls. */
  datatype Control = In | Out | Turn | ResetView

  function Apply(v: View, c: Control): View {
    match c
    case In => ZoomIn(v)
    case Out => ZoomOut(v)
    case Turn => Rotate(v)
    case ResetView => Reset(v)
  }

  /** Applying controls in order. */
  function Run(v: View, cs: seq<Control>): View
    decreases |cs|
  {
    if |cs| == 0 then v else Run(Apply(v, cs[0]), cs[1..])
  }

  /** Whatever the user presses, the scale stays within [0.5, 3] and the
      rotation is one of the four quarter turns. */
  lemma {:induction false} RunStaysReachable(v: View, cs: seq<Control>)
    requires Reachable(v)
    ensures Reachable(Run(v, cs))
    decreases |cs|
  {
    if |cs| > 0 {
      var w := Apply(v, cs[0]);
      assert Reachable(w);
      RunStaysReachable(w, cs[1..]);
    }
  }

  /** Four quarter turns return to the starting rotation. */
  lemma FourTurnsIsIdentity(v: View)
    requires Reachable(v)
    ensures Rotate(Rotate(Rotate(Rotate(v)))) == v
  {
  }

  /** Zooming out right after a zoom in below the maximum undoes it, and
      the other way round above the minimum. */
  lemma ZoomRoundTrip(v: View)
    requires Reachable(v)
    ensures v.quarters < MaxQuarters ==> ZoomOut(ZoomIn(v)) == v
    ensures v.quarters > MinQuarters ==> ZoomIn(ZoomOut(v)) == v
  {
  }

  /** The image shown: the source URL when there is one, else the render
      endpoint when both ids are known, else nothing. */
  function ImageSource(sourceUrl: string, imageId: string, datasetId: string,
                       renderUrl: (string, string) -> string): (o: Option<string>)
    ensures sourceUrl != "" ==> o == Some(sourceUrl)
    ensures sourceUrl == "" && imageId != "" && datasetId != "" ==> o == Some(renderUrl(datasetId, imageId))
    ensures sourceUrl == "" && (imageId == "" || datasetId == "") ==> o.None?
  {
    if sourceUrl != "" then Some(sourceUrl)
    else if imageId != "" && datasetId != "" then Some(renderUrl(datasetId, imageId))
    else None
  }
}

=== FILE: image_validation.dfy ===
/** Validation of uploaded image bytes: the type comes from a content
    sniffer, with AVIF recognised by its brand marker when the sniffer
    does not know it, and only an allow-list of types is accepted. */
module ImageValidation {
  import opened Common
  import opened ApiAuth
  import AccessRoles

  /** A readable stream: its whole contents and the current read
      position. */
  datatype Stream = Stream(contents: seq<byte>, position: nat)

  /** The bytes of `ypavif`, the AVIF brand as it appears in the file
      header. */
  const AvifMarker: seq<byte> := [121, 112, 97, 118, 105, 102]

  /** How far into the file the marker is looked for. */
  const MarkerWindow := 100

  const AllowedTypes: seq<string> := ["jpeg", "jpg", "png", "gif", "avif", "webp", "bmp", "tiff", "tiff", "svg"]

  /** `sub` occurs in `s` as a contiguous run. */
  predicate Occurs(s: seq<byte>, sub: seq<byte>) {
    exists i :: 0 <= i <= |s| - |sub| && OccursAt(s, sub, i)
  }

  predicate OccursAt(s: seq<byte>, sub: seq<byte>, i: int) {
    0 <= i <= |s| - |sub| && s[i..i + |sub|] == sub
  }

  /** The type of the image, or why it is refused. The whole stream is read
      from the start, whatever the position it was left at. */
  function ValidateImage(stream: Stream, sniff: seq<byte> -> Option<string>): (r: Result<(seq<byte>, string), HttpError>)
    ensures r.Ok? ==> r.value.0 == stream.contents && r.value.1 in AllowedTypes
    ensures r.Err? ==> r.error.status == 400
    ensures sniff(stream.contents).None? ==>
      (r.Ok? <==> Occurs(stream.contents[..Min(MarkerWindow, |stream.contents|)], AvifMarker))
    ensures r.Ok? && sniff(stream.contents).None? ==> r.value.1 == "avif"
    ensures sniff(stream.contents).Some? ==>
      (r.Ok? <==> sniff(stream.contents).value in AllowedTypes)
    ensures r.Ok? && sniff(stream.contents).Some? ==> r.value.1 == sniff(stream.contents).value
    ensures sniff(stream.contents).None? && r.Err? ==> r.error == HttpError(400, "Invalid image file")
    ensures sniff(stream.contents).Some? && r.Err? ==>
      r.error == HttpError(400, "Invalid image format: " + sniff(stream.contents).value + ". Allowed formats: "
                                + AccessRoles.Join(AllowedTypes, ", "))
  {
    var contents := stream.contents;
    var head := contents[..Min(MarkerWindow, |contents|)];
    var sniffed := sniff(contents);
    if sniffed.None? && !Occurs(head, AvifMarker) then Err(HttpError(400, "Invalid image file"))
    else
      var imageType := if sniffed.Some? then sniffed.value else "avif";
      if imageType !in AllowedTypes then
        Err(HttpError(400, "Invalid image format: " + imageType + ". Allowed formats: " + AccessRoles.Join(AllowedTypes, ", ")))
      else Ok((contents, imageType))
  }

  /** Where the stream was left does not matter. */
  lemma PositionIrrelevant(contents: seq<byte>, p: nat, q: nat, sniff: seq<byte> -> Option<string>)
    ensures ValidateImage(Stream(contents, p), sniff) == ValidateImage(Stream(contents, q), sniff)
  {
  }

  /** An unknown file whose marker lies past the first hundred bytes is
      refused. */
  lemma LateMarkerRefused(sniff: seq<byte> -> Option<string>)
    requires sniff(seq(100, _ => 0 as byte) + AvifMarker).None?
    ensures ValidateImage(Stream(seq(100, _ => 0 as byte) + AvifMarker, 0), sniff).Err?
  {
    var s := seq(100, _ => 0 as byte) + AvifMarker;
    var head := s[..100];
    assert head == seq(100, _ => 0 as byte);
    forall i ensures !OccursAt(head, AvifMarker, i) {
      if 0 <= i <= |head| - |AvifMarker| {
        assert head[i..i + |AvifMarker|][0] == 0;
      }
    }
  }
}

=== FILE: label_config.dfy ===
/** The label configuration panel of a dataset: the labels are kept as an
    object keyed by label name, edited through a form whose category values
    stay trimmed and duplicate-free, and sent to the server as the list of
    the object's values after every change. */
module LabelConfig {
  import opened Common
  import opened Records
  import opened Labels

  /** The panel's state: the labels by name, the form, the name of the label
      being edited (if any) and the text of the new-value input. */
  datatype ConfigState = ConfigState(
    labels: Rec<LabelDef>, form: LabelDef, editing: Option<string>, newValue: string)

  /** The empty form: a category without name, description or values. */
  const EmptyForm: LabelDef := LabelDef("", Category, "", [])

  /** `resetForm`: an empty form and no label being edited. */
  function ResetForm(st: ConfigState): (r: ConfigState)
    ensures r.labels == st.labels && r.form == EmptyForm && r.editing.None?
  {
    st.(form := EmptyForm, editing := None)
  }

  /** `editLabel`: loads an existing label into the form; an unknown name
      changes nothing. */
  function EditLabel(st: ConfigState, name: string): (r: ConfigState)
    ensures Get(st.labels, name).None? ==> r == st
    ensures Get(st.labels, name).Some? ==> (r.form == Get(st.labels, name).value && r.editing == Some(name)
                                           && r.labels == st.labels)
  {
    match Get(st.labels, name)
    case None => st
    case Some(d) => st.(form := d, editing := Some(name))
  }

  /** `handleAddValue`: appends the trimmed input to the form's values when
      it is not blank and not listed yet. */
  function AddValue(st: ConfigState): (r: ConfigState)
    ensures var t := Trim(st.newValue);
      (t != "" && t !in st.form.possibleValues ==>
         r.form.possibleValues == st.form.possibleValues + [t] && r.newValue == "")
      && (!(t != "" && t !in st.form.possibleValues) ==> r == st)
    ensures r.labels == st.labels && r.editing == st.editing
    ensures r.form.(possibleValues := []) == st.form.(possibleValues := [])
  {
    var t := Trim(st.newValue);
    if t != "" && t !in st.form.possibleValues then
      st.(form := st.form.(possibleValues := st.form.possibleValues + [t]), newValue := "")
    else st
  }

  /** Adding a value keeps the form's values free of duplicates. */
  lemma AddValueKeepsDistinct(st: ConfigState)
    requires Distinct(st.form.possibleValues)
    ensures Distinct(AddValue(st).form.possibleValues)
  {
    var vs := st.form.possibleValues;
    var t := Trim(st.newValue);
    if t != "" && t !in vs {
      var r := vs + [t];
      forall i, j | 0 <= i < j < |r| ensures r[i] != r[j] {
        if j == |vs| {
          assert r[i] == vs[i];
        }
      }
    }
  }

  /** `handleRemoveValue`: drops exactly index `i` of the form's values (an
      index outside the list drops nothing). */
  function RemoveValue(st: ConfigState, i: int): (r: ConfigState)
    ensures 0 <= i < |st.form.possibleValues| ==> r.form.possibleValues == RemoveAt(st.form.possibleValues, i)
    ensures !(0 <= i < |st.form.possibleValues|) ==> r == st
    ensures r.labels == st.labels && r.editing == st.editing
    ensures r.form.(possibleValues := []) == st.form.(possibleValues := [])
  {
    if 0 <= i < |st.form.possibleValues| then
      st.(form := st.form.(possibleValues := RemoveAt(st.form.possibleValues, i)))
    else st
  }

  /** Removing a value keeps the form's values free of duplicates. */
  lemma RemoveValueKeepsDistinct(st: ConfigState, i: int)
    requires Distinct(st.form.possibleValues)
    ensures Distinct(RemoveValue(st, i).form.possibleValues)
  {
    var vs := st.form.possibleValues;
    if 0 <= i < |vs| {
      var r := RemoveAt(vs, i);
      forall a, b | 0 <= a < b < |r| ensures r[a] != r[b] {
        var a' := if a < i then a else a + 1;
        var b' := if b < i then b else b + 1;
        assert r[a] == vs[a'] && r[b] == vs[b'];
      }
    }
  }

  /** What `saveLabelsToBackend` sends: the labels as a list, in the
      object's order, or nothing when the dataset id is missing. */
  function SaveRequest(datasetId: string, labels: Rec<LabelDef>): (o: Option<seq<LabelDef>>)
    ensures o.Some? <==> datasetId != ""
    ensures o.Some? ==> |o.value| == |labels| && forall i :: 0 <= i < |labels| ==> o.value[i] == labels[i].1
  {
    if datasetId == "" then None else Some(Values(labels))
  }

  /** The outcome of submitting the form: a rejection with its message, or
      the new state and the request that saves it. */
  datatype SubmitOutcome = Invalid(message: string) | Saved(state: ConfigState, request: Option<seq<LabelDef>>)

  const EmptyNameMessage := "Label name cannot be empty."
  const NoValuesMessage := "Category labels must have at least one possible value."

  /** The labels after saving `data`: a rename drops the old key first; in
      every case `data` is stored under its own name. */
  function Upsert(labels: Rec<LabelDef>, editing: Option<string>, data: LabelDef): (r: Rec<LabelDef>)
  {
    if editing.Some? && editing.value != "" && editing.value != data.name
    then Set(Delete(labels, editing.value), data.name, data)
    else Set(labels, data.name, data)
  }

  /** `onSubmit`: rejects a blank name and a category without values,
      leaving everything as it was; otherwise stores the label, resets the
      form and sends the new list. */
  function Submit(st: ConfigState, datasetId: string, data: LabelDef): (r: SubmitOutcome)
    ensures r.Invalid? <==> IsBlank(data.name) || (data.kind.Category? && |data.possibleValues| == 0)
    ensures r.Invalid? && IsBlank(data.name) ==> r.message == EmptyNameMessage
    ensures r.Saved? ==> r.state.labels == Upsert(st.labels, st.editing, data)
                         && r.state.form == EmptyForm && r.state.editing.None?
                         && r.request == SaveRequest(datasetId, r.state.labels)
  {
    TrimEmptyIffBlank(data.name);
    if Trim(data.name) == "" then Invalid(EmptyNameMessage)
    else if data.kind.Category? && |data.possibleValues| == 0 then Invalid(NoValuesMessage)
    else
      var labels := Upsert(st.labels, st.editing, data);
      Saved(ResetForm(st.(labels := labels)), SaveRequest(datasetId, labels))
  }

  /** After a submit the label is stored under its name, a renamed label's
      old name is gone, and every other label is untouched. */
  lemma UpsertEffect(labels: Rec<LabelDef>, editing: Option<string>, data: LabelDef, k: string)
    ensures var r := Upsert(labels, editing, data);
      var renamed := editing.Some? && editing.value != "" && editing.value != data.name;
      (k == data.name ==> Get(r, k) == Some(data))
      && (renamed && k == editing.value ==> Get(r, k).None?)
      && (k != data.name && !(renamed && k == editing.value) ==> Get(r, k) == Get(labels, k))
  {
    if editing.Some? && editing.value != "" && editing.value != data.name {
      GetSet(Delete(labels, editing.value), data.name, data, k);
      DeleteGet(labels, editing.value, k);
    } else {
      GetSet(labels, data.name, data, k);
    }
  }

  /** Names stay unique, so the list sent holds one entry per name. */
  lemma UpsertKeepsUnique(labels: Rec<LabelDef>, editing: Option<string>, data: LabelDef)
    requires UniqueKeys(labels)
    ensures UniqueKeys(Upsert(labels, editing, data))
  {
    if editing.Some? && editing.value != "" && editing.value != data.name {
      DeleteSubseq(labels, editing.value);
      SetUnique(Delete(labels, editing.value), data.name, data);
    } else {
      SetUnique(labels, data.name, data);
    }
  }

  /** `deleteLabel`: removes that one label, resets the form when it was
      being edited, and sends the new list. */
  function DeleteLabel(st: ConfigState, datasetId: string, name: string): (r: (ConfigState, Option<seq<LabelDef>>))
    ensures r.0.labels == Delete(st.labels, name) && r.1 == SaveRequest(datasetId, r.0.labels)
    ensures st.editing == Some(name) ==> r.0.form == EmptyForm && r.0.editing.None?
    ensures st.editing != Some(name) ==> r.0.form == st.form && r.0.editing == st.editing
  {
    var labels := Delete(st.labels, name);
    var st' := st.(labels := labels);
    (if st.editing == Some(name) then ResetForm(st') else st', SaveRequest(datasetId, labels))
  }

  /** Deleting a label removes only that key. */
  lemma DeleteLabelOnlyThatKey(st: ConfigState, datasetId: string, name: string, k: string)
    ensures Get(DeleteLabel(st, datasetId, name).0.labels, k) == if k == name then None else Get(st.labels, k)
  {
    DeleteGet(st.labels, name, k);
  }
}

=== FILE: labelers.dfy ===
/** The two labelling components of the web client: the inline labeller
    shown beside each image and the label editor dialog. Both start from the
    image's current values, give every dataset label that has no value a
    starting value, and send the values back as `{name, value}` entries. */
module Labelers {
  import opened Common
  import opened Records
  import opened Labels

  /** Gives every defined label that is still `undefined` its starting value;
      values already present (even `null`) are kept. */
  function FillMissing(values: Rec<Value>, defs: Rec<LabelDef>): (r: Rec<Value>)
    decreases |defs|
  {
    if |defs| == 0 then values
    else
      var n := |defs| - 1;
      var prev := FillMissing(values, defs[..n]);
      if Get(prev, defs[n].0).None? then Set(prev, defs[n].0, InitDefault(defs[n].1)) else prev
  }

  /** Filling never overwrites a value, and afterwards every defined label
      has one: its starting value when it had none. */
  lemma {:induction false} FillMissingValues(values: Rec<Value>, defs: Rec<LabelDef>, k: string)
    requires UniqueKeys(defs)
    ensures Get(FillMissing(values, defs), k) ==
      if Get(values, k).Some? then Get(values, k)
      else if k in Keys(defs) then Some(InitDefault(Get(defs, k).value))
      else None
    decreases |defs|
  {
    if |defs| > 0 {
      var n := |defs| - 1;
      var init := defs[..n];
      var last := defs[n];
      LastKeyFresh(defs);
      FillMissingValues(values, init, k);
      GetInit(defs, k);
      var prev := FillMissing(values, init);
      if Get(prev, last.0).None? {
        GetSet(prev, last.0, InitDefault(last.1), k);
      }
    }
  }

  lemma {:induction false} FillMissingUnique(values: Rec<Value>, defs: Rec<LabelDef>)
    requires UniqueKeys(values)
    ensures UniqueKeys(FillMissing(values, defs))
    decreases |defs|
  {
    if |defs| > 0 {
      var n := |defs| - 1;
      FillMissingUnique(values, defs[..n]);
      SetUnique(FillMissing(values, defs[..n]), defs[n].0, InitDefault(defs[n].1));
    }
  }

  // ---------------------------------------------------------------------
  // Inline labeller

  /** The inline labeller's starting values: nothing happens while the
      dataset's labels are unknown; otherwise the image's labels (in either
      shape) with every missing dataset label filled in. */
  function InlineInit(defs: Option<Rec<LabelDef>>, current: LabelsField, prev: Rec<Value>): (r: Rec<Value>)
    ensures defs.None? ==> r == prev
    ensures defs.Some? ==> UniqueKeys(r)
  {
    if defs.None? then prev
    else
      FillMissingUnique(NormalizeLabels(current), defs.value);
      FillMissing(NormalizeLabels(current), defs.value)
  }

  /** What the inline labeller's save sends, or `None` when the dataset or
      image id is missing (nothing is sent). */
  function InlineSave(datasetId: string, imageId: string, defs: Rec<LabelDef>, values: Rec<Value>)
    : (u: Option<seq<LabelUpdate>>)
    ensures u.None? <==> datasetId == "" || imageId == ""
    ensures u.Some? ==> (|u.value| == |defs|
      && forall i :: 0 <= i < |defs| ==> u.value[i].name == defs[i].0 && u.value[i].value != Null)
  {
    if datasetId == "" || imageId == "" then None else Some(CompleteLabels(defs, values))
  }

  /** After a successful save the parent receives the payload as a record:
      every dataset label with the value that was sent for it. */
  lemma SavedRecordMatchesPayload(defs: Rec<LabelDef>, values: Rec<Value>, i: int)
    requires UniqueKeys(defs) && 0 <= i < |defs|
    ensures var u := CompleteLabels(defs, values);
      Get(UpdatesToRecord(u), defs[i].0) == Some(u[i].value)
  {
    var u := CompleteLabels(defs, values);
    var pairs := seq(|u|, j requires 0 <= j < |u| => (u[j].name, u[j].value));
    assert forall j :: 0 <= j < |pairs| ==> pairs[j].0 == defs[j].0;
    assert UniqueKeys(pairs);
    FromEntriesOfRecord(pairs);
    GetUnique(pairs, i);
  }

  /** Saving a freshly initialised form sends exactly what saving the
      image's own labels would: the starting values the form fills in are the
      values the save would fill in anyway (boolean and category labels). */
  lemma InitThenSave(defs: Rec<LabelDef>, current: LabelsField, prev: Rec<Value>)
    requires UniqueKeys(defs)
    requires forall i :: 0 <= i < |defs| ==> !defs[i].1.kind.OtherKind?
    ensures CompleteLabels(defs, InlineInit(Some(defs), current, prev))
         == CompleteLabels(defs, NormalizeLabels(current))
  {
    var cur := NormalizeLabels(current);
    var r := InlineInit(Some(defs), current, prev);
    forall i | 0 <= i < |defs|
      ensures FillValue(Get(r, defs[i].0), defs[i].1) == FillValue(Get(cur, defs[i].0), defs[i].1)
    {
      GetUnique(defs, i);
      assert defs[i].0 in Keys(defs);
      FillMissingValues(cur, defs, defs[i].0);
      DefaultsAgree(defs[i].1);
    }
  }

  /** A boolean or category change sets that one label and hands the whole
      record to the parent; every other label keeps its value. */
  function ChangeValue(values: Rec<Value>, name: string, v: Value): (r: Rec<Value>)
    ensures UniqueKeys(values) ==> UniqueKeys(r)
  {
    if UniqueKeys(values) then SetUnique(values, name, v); Set(values, name, v)
    else Set(values, name, v)
  }

  /** After a change the changed label reads back the new value and every
      other label reads what it read before. */
  lemma ChangeValueOnlyThatLabel(values: Rec<Value>, name: string, v: Value, k: string)
    ensures Get(ChangeValue(values, name, v), k) == if k == name then Some(v) else Get(values, k)
  {
    GetSet(values, name, v, k);
  }

  // ---------------------------------------------------------------------
  // Label editor dialog

  /** The editor's starting value for a label: `false` for a boolean, else
      `possible_values[0] || ''`. */
  function EditorDefault(d: LabelDef): (v: Value)
    ensures v == InitDefault(d)
  {
    if d.kind.Boolean? then Bool(false)
    else if |d.possibleValues| > 0 && d.possibleValues[0] != "" then Str(d.possibleValues[0])
    else Str("")
  }

  /** The editor form's values: set only when the dialog is open and the
      image's labels are known; the current values are copied and, when the
      dataset's labels are known, every missing one is filled in. */
  function EditorInit(open: bool, current: Option<Rec<Value>>, defs: Option<Rec<LabelDef>>, form: Rec<Value>)
    : (r: Rec<Value>)
    ensures !open || current.None? ==> r == form
  {
    if !open || current.None? then form
    else if defs.None? then FromEntries(current.value)
    else FillMissing(FromEntries(current.value), defs.value)
  }

  /** An opened editor shows each of the image's values, and, once the
      dataset's labels are known, a value for every one of them: the
      component's own starting value where the image had none. */
  lemma EditorInitValues(current: Rec<Value>, defs: Option<Rec<LabelDef>>, form: Rec<Value>, k: string)
    requires UniqueKeys(current)
    requires defs.Some? ==> UniqueKeys(defs.value)
    ensures var r := EditorInit(true, Some(current), defs, form);
      (Get(current, k).Some? ==> Get(r, k) == Get(current, k))
      && (defs.Some? && Get(current, k).None? && k in Keys(defs.value)
          ==> Get(r, k) == Some(EditorDefault(Get(defs.value, k).value)))
      && (Get(current, k).None? && (defs.None? || k !in Keys(defs.value)) ==> Get(r, k).None?)
  {
    FromEntriesOfRecord(current);
    if defs.Some? {
      FillMissingValues(FromEntries(current), defs.value, k);
    }
  }

  /** The editor's payload: one `{name, value}` per form field, in order,
      or `None` (nothing sent) when the dataset or image id is missing. */
  function EditorSubmit(datasetId: string, imageId: string, data: Rec<Value>): (u: Option<seq<LabelUpdate>>)
    ensures u.None? <==> datasetId == "" || imageId == ""
    ensures u.Some? ==> (|u.value| == |data|
      && forall i :: 0 <= i < |data| ==> u.value[i] == LabelUpdate(data[i].0, data[i].1))
  {
    if datasetId == "" || imageId == "" then None
    else Some(seq(|data|, i requires 0 <= i < |data| => LabelUpdate(data[i].0, data[i].1)))
  }

  /** The editor's payload read back as a record is the form itself. */
  lemma EditorPayloadRoundTrip(datasetId: string, imageId: string, data: Rec<Value>)
    requires datasetId != "" && imageId != "" && UniqueKeys(data)
    ensures UpdatesToRecord(EditorSubmit(datasetId, imageId, data).value) == data
  {
    var u := EditorSubmit(datasetId, imageId, data).value;
    var pairs := seq(|u|, i requires 0 <= i < |u| => (u[i].name, u[i].value));
    assert pairs == data;
    FromEntriesOfRecord(data);
  }
}

=== FILE: labels.dfy ===
/** Label values and label definitions as the web client sees them, and the
    rule every labelling view applies before it saves: each label the dataset
    defines is sent, and a label the user left empty gets a default. */
module Labels {
  import opened Common
  import opened Records

  /** A JSON label value: the client stores booleans and strings; a CSV cell
      or a server response may also hold a number or `null`. Numbers are
      modelled as integers. */
  datatype Value = Bool(b: bool) | Str(s: string) | Num(n: int) | Null {
    /** JavaScript truthiness. */
    predicate Truthy() {
      match this
      case Bool(b) => b
      case Str(s) => s != ""
      case Num(n) => n != 0
      case Null => false
    }

    /** `String(value)`. */
    function ToJsString(): (r: string)
      ensures Str? ==> r == s
    {
      match this
      case Bool(b) => if b then "true" else "false"
      case Str(s) => s
      case Num(n) => IntToString(n)
      case Null => "null"
    }
  }

  /** The label types a dataset can define; the server stores the type as a
      free string, so anything else is kept as `OtherKind`. */
  datatype LabelKind = Boolean | Category | OtherKind(tag: string)

  /** A label definition of a dataset (`{name, type, description,
      possible_values}`). */
  datatype LabelDef = LabelDef(name: string, kind: LabelKind, description: string, possibleValues: seq<string>)

  /** One `{name, value}` entry of a label update request. */
  datatype LabelUpdate = LabelUpdate(name: string, value: Value)

  /** An element of an image's `labels` array: an object that has both a
      `name` and a `value`, or anything else. */
  datatype LabelItem = NamedValue(name: string, value: Value) | OtherItem

  /** The two shapes in which an image's labels arrive. */
  datatype LabelsField = NoLabels | ArrayLabels(items: seq<LabelItem>) | ObjectLabels(entries: Rec<Value>)

  /** Labels whose value fits their definition: a boolean for a boolean label,
      one of the listed values for a category (or the empty string when the
      category lists none). */
  predicate Admissible(d: LabelDef, v: Value) {
    match d.kind
    case Boolean => v.Bool?
    case Category => v.Str? && (v.s in d.possibleValues || (d.possibleValues == [] && v.s == ""))
    case OtherKind(_) => v.Str?
  }

  /** The default sent for a label with no value when saving. */
  function SaveDefault(d: LabelDef): (v: Value)
    ensures v.Bool? <==> d.kind.Boolean?
    ensures v.Bool? ==> !v.b
    ensures d.kind.Category? ==> Admissible(d, v)
    ensures d.kind.OtherKind? ==> v == Str("")
  {
    if d.kind.Boolean? then Bool(false)
    else if d.kind.Category? && |d.possibleValues| > 0 then Str(d.possibleValues[0])
    else Str("")
  }

  /** The value a labelling form starts with for a label the image does not
      carry yet. */
  function InitDefault(d: LabelDef): (v: Value)
    ensures v.Bool? <==> d.kind.Boolean?
    ensures !d.kind.Boolean? ==> v.Str? && (v.s == "" || v.s in d.possibleValues)
  {
    if d.kind.Boolean? then Bool(false)
    else if |d.possibleValues| > 0 then Str(d.possibleValues[0])
    else Str("")
  }

  /** For the two label types the client creates, the form's starting value
      and the saved default agree, and both fit the definition. */
  lemma DefaultsAgree(d: LabelDef)
    requires !d.kind.OtherKind?
    ensures InitDefault(d) == SaveDefault(d)
    ensures Admissible(d, SaveDefault(d))
  {
  }

  /** The value saved for one label: the current value when there is one that
      is neither `undefined` nor `null`, otherwise the default. */
  function FillValue(current: Option<Value>, d: LabelDef): (v: Value)
    ensures v != Null
    ensures current.Some? && current.value != Null ==> v == current.value
    ensures current.None? || current.value == Null ==> v == SaveDefault(d)
  {
    if current.Some? && current.value != Null then current.value else SaveDefault(d)
  }

  /** The update payload a save sends: one entry per label the dataset
      defines, in definition order, never `null`. */
  function CompleteLabels(defs: Rec<LabelDef>, current: Rec<Value>): (u: seq<LabelUpdate>)
    ensures |u| == |defs|
    ensures forall i :: 0 <= i < |defs| ==> u[i].name == defs[i].0
    ensures forall i :: 0 <= i < |defs| ==> u[i].value == FillValue(Get(current, defs[i].0), defs[i].1)
  {
    seq(|defs|, i requires 0 <= i < |defs| => LabelUpdate(defs[i].0, FillValue(Get(current, defs[i].0), defs[i].1)))
  }

  /** The payload turned back into a name-to-value record, as the labeller
      hands it to its parent. */
  function UpdatesToRecord(u: seq<LabelUpdate>): (r: Rec<Value>)
  {
    FromEntries(seq(|u|, i requires 0 <= i < |u| => (u[i].name, u[i].value)))
  }

  /** Every value the user chose that fits its label survives a save, and the
      labels they left empty are filled with admissible defaults. */
  lemma CompleteLabelsAdmissible(defs: Rec<LabelDef>, current: Rec<Value>)
    requires forall i :: 0 <= i < |defs| ==> !defs[i].1.kind.OtherKind?
    requires forall i :: 0 <= i < |defs| ==>
      var c := Get(current, defs[i].0);
      c.None? || c.value == Null || Admissible(defs[i].1, c.value)
    ensures forall e :: e in CompleteLabels(defs, current) ==>
      exists i :: 0 <= i < |defs| && defs[i].0 == e.name && Admissible(defs[i].1, e.value)
  {
    var u := CompleteLabels(defs, current);
    forall e | e in u
      ensures exists i :: 0 <= i < |defs| && defs[i].0 == e.name && Admissible(defs[i].1, e.value)
    {
      var i :| 0 <= i < |u| && u[i] == e;
      DefaultsAgree(defs[i].1);
    }
  }

  /** Saving what a save produced sends the same payload again: completion is
      idempotent. */
  lemma {:induction false} CompleteLabelsIdempotent(defs: Rec<LabelDef>, current: Rec<Value>)
    requires UniqueKeys(defs)
    ensures CompleteLabels(defs, UpdatesToRecord(CompleteLabels(defs, current))) == CompleteLabels(defs, current)
  {
    var u := CompleteLabels(defs, current);
    var pairs := seq(|u|, i requires 0 <= i < |u| => (u[i].name, u[i].value));
    assert forall i :: 0 <= i < |pairs| ==> pairs[i].0 == defs[i].0;
    assert UniqueKeys(pairs);
    FromEntriesOfRecord(pairs);
    var r := UpdatesToRecord(u);
    assert r == pairs;
    forall i | 0 <= i < |defs|
      ensures Get(r, defs[i].0) == Some(u[i].value)
    {
      GetUnique(pairs, i);
    }
  }

  /** In a record with unique keys, looking up the key at index `i` yields the
      value at index `i`. */
  lemma {:induction false} GetUnique<V>(r: Rec<V>, i: nat)
    requires UniqueKeys(r) && i < |r|
    ensures Get(r, r[i].0) == Some(r[i].1)
  {
    if i > 0 {
      assert r[1..][i - 1] == r[i];
      GetUnique(r[1..], i - 1);
    }
  }

  /** The name-to-value record a labelling view starts from: array items that
      carry both a name and a value, or the entries of an object. */
  function NormalizeLabels(f: LabelsField): (r: Rec<Value>)
    ensures UniqueKeys(r)
  {
    FromEntriesUnique(ItemEntries(f));
    FromEntries(ItemEntries(f))
  }

  function ItemEntries(f: LabelsField): seq<(string, Value)> {
    match f
    case NoLabels => []
    case ObjectLabels(entries) => entries
    case ArrayLabels(items) => NamedEntries(items)
  }

  function NamedEntries(items: seq<LabelItem>): (e: seq<(string, Value)>)
    ensures |e| <= |items|
  {
    if |items| == 0 then []
    else if items[0].NamedValue? then [(items[0].name, items[0].value)] + NamedEntries(items[1..])
    else NamedEntries(items[1..])
  }

  /** Labels sent as an array of `{name, value}` objects and the same labels
      sent as an object normalise to the same record. */
  lemma {:induction false} ArrayAndObjectFormsAgree(r: Rec<Value>)
    requires UniqueKeys(r)
    ensures NormalizeLabels(ArrayLabels(seq(|r|, i requires 0 <= i < |r| => NamedValue(r[i].0, r[i].1))))
         == NormalizeLabels(ObjectLabels(r))
    ensures NormalizeLabels(ObjectLabels(r)) == r
  {
    var items := seq(|r|, i requires 0 <= i < |r| => NamedValue(r[i].0, r[i].1));
    NamedEntriesOfPairs(r, items);
    FromEntriesOfRecord(r);
  }

  lemma {:induction false} NamedEntriesOfPairs(r: Rec<Value>, items: seq<LabelItem>)
    requires |items| == |r|
    requires forall i :: 0 <= i < |r| ==> items[i] == NamedValue(r[i].0, r[i].1)
    ensures NamedEntries(items) == r
  {
    if |r| > 0 {
      NamedEntriesOfPairs(r[1..], items[1..]);
      assert r == [r[0]] + r[1..];
    }
  }
}

=== FILE: list_store.dfy ===
/** The list caches of the dataset and schema stores: a list page, the
    entity being viewed, and the create, update and delete operations that
    keep both in step with the server. Both stores behave identically, so
    the cache is written once, for any entity with an id. */
module ListStore {
  import opened Common

  /** A store's state. `error` is the message shown after a failure. */
  datatype StoreState<T> = StoreState(
    items: seq<T>, current: Option<T>, total: int, loading: bool, error: Option<string>)

  /** What the service call returned: a value, or a failure carrying the
      server's `message`, if any. */
  datatype Reply<R> = Done(value: R) | Failed(message: Option<string>)

  /** A failure leaves the cached data alone, shows the error, ends loading
      and is passed on to the caller. */
  function Fail<T>(st: StoreState<T>, message: Option<string>, fallback: string): (r: (StoreState<T>, bool))
    ensures r.0 == st.(loading := false, error := Some(ErrorText(message, fallback))) && !r.1
  {
    (st.(loading := false, error := Some(ErrorText(message, fallback))), false)
  }

  /** Fetching a page replaces the list and the total. The second result
      is `false` when the failure is passed on. */
  function FetchList<T>(st: StoreState<T>, reply: Reply<(seq<T>, int)>, fallback: string): (r: (StoreState<T>, bool))
    ensures reply.Done? ==> r.0 == st.(items := reply.value.0, total := reply.value.1, loading := false, error := None) && r.1
    ensures reply.Failed? ==> r == Fail(st, reply.message, fallback)
  {
    match reply
    case Done((items, total)) => (st.(items := items, total := total, loading := false, error := None), true)
    case Failed(m) => Fail(st, m, fallback)
  }

  /** Fetching one entity makes it the current one. */
  function FetchOne<T>(st: StoreState<T>, reply: Reply<T>, fallback: string): (r: (StoreState<T>, bool))
    ensures reply.Done? ==> r.0 == st.(current := Some(reply.value), loading := false, error := None) && r.1
    ensures reply.Failed? ==> r == Fail(st, reply.message, fallback)
  {
    match reply
    case Done(x) => (st.(current := Some(x), loading := false, error := None), true)
    case Failed(m) => Fail(st, m, fallback)
  }

  /** A created entity goes to the front of the list. */
  function Create<T>(st: StoreState<T>, reply: Reply<T>, fallback: string): (r: (StoreState<T>, bool))
    ensures reply.Done? ==> r.0.items == [reply.value] + st.items && r.0.current == st.current && r.1
    ensures reply.Failed? ==> r == Fail(st, reply.message, fallback)
  {
    match reply
    case Done(x) => (st.(items := [x] + st.items, loading := false, error := None), true)
    case Failed(m) => Fail(st, m, fallback)
  }

  /** An updated entity replaces the first list entry with its id (if
      any) and the current entity when that has the id. */
  function Update<T>(st: StoreState<T>, id: string, idOf: T -> string, reply: Reply<T>, fallback: string)
    : (r: (StoreState<T>, bool))
    ensures reply.Failed? ==> r == Fail(st, reply.message, fallback)
    ensures reply.Done? ==> (r.1 && |r.0.items| == |st.items|
      && (st.current.Some? && idOf(st.current.value) == id ==> r.0.current == Some(reply.value))
      && (!(st.current.Some? && idOf(st.current.value) == id) ==> r.0.current == st.current))
  {
    match reply
    case Failed(m) => Fail(st, m, fallback)
    case Done(x) =>
      var items := match FindFirst(st.items, (d: T) => idOf(d) == id)
        case None => st.items
        case Some(i) => ReplaceAt(st.items, i, x);
      var current := if st.current.Some? && idOf(st.current.value) == id then Some(x) else st.current;
      (st.(items := items, current := current, loading := false, error := None), true)
  }

  /** Ids that occur once each. */
  predicate UniqueIds<T>(items: seq<T>, idOf: T -> string) {
    forall i, j :: 0 <= i < j < |items| ==> idOf(items[i]) != idOf(items[j])
  }

  /** With unique ids, an update replaces exactly the entry with that id
      and leaves every other entry where it was. */
  lemma UpdateReplacesThatEntry<T>(st: StoreState<T>, id: string, idOf: T -> string, x: T, fallback: string, i: int)
    requires UniqueIds(st.items, idOf) && 0 <= i < |st.items|
    ensures var items := Update(st, id, idOf, Done(x), fallback).0.items;
      items[i] == if idOf(st.items[i]) == id then x else st.items[i]
  {
    var k := FindFirst(st.items, (d: T) => idOf(d) == id);
    if k.Some? && idOf(st.items[i]) == id {
      assert k.value == i;
    }
  }

  /** A delete removes every entry with that id, keeps the others in order,
      and forgets the current entity when it is the deleted one. */
  function Delete<T>(st: StoreState<T>, id: string, idOf: T -> string, reply: Reply<()>, fallback: string)
    : (r: (StoreState<T>, bool))
    ensures reply.Failed? ==> r == Fail(st, reply.message, fallback)
    ensures reply.Done? ==> (r.1 && r.0.items == Filter(st.items, (d: T) => idOf(d) != id)
      && (st.current.Some? && idOf(st.current.value) == id ==> r.0.current.None?)
      && (!(st.current.Some? && idOf(st.current.value) == id) ==> r.0.current == st.current))
  {
    match reply
    case Failed(m) => Fail(st, m, fallback)
    case Done(_) =>
      var current := if st.current.Some? && idOf(st.current.value) == id then None else st.current;
      (st.(items := Filter(st.items, (d: T) => idOf(d) != id), current := current, loading := false, error := None), true)
  }

  /** After a delete no entry has the id, and every other entry is kept. */
  lemma DeleteRemovesOnlyThatId<T>(st: StoreState<T>, id: string, idOf: T -> string, fallback: string)
    ensures var items := Delete(st, id, idOf, Done(()), fallback).0.items;
      forall d :: d in items <==> d in st.items && idOf(d) != id
  {
  }

  /** Deleting what was just created, under a fresh id, restores the list. */
  lemma CreateThenDeleteRestores<T>(st: StoreState<T>, x: T, idOf: T -> string, fallback: string)
    requires forall i :: 0 <= i < |st.items| ==> idOf(st.items[i]) != idOf(x)
    ensures var created := Create(st, Done(x), fallback).0;
      Delete(created, idOf(x), idOf, Done(()), fallback).0.items == st.items
  {
    var p := (d: T) => idOf(d) != idOf(x);
    FilterAll(st.items, p);
    assert ([x] + st.items)[1..] == st.items;
  }
}

=== FILE: new_dataset.dfy ===
/** The "New Dataset" page: it lists a schema's fields with the required
    ones first, lets the user edit each category (enum) field's values, and
    only counts the setup as complete when every category list is non-empty,
    free of blanks and duplicates, and confirmed. */
module NewDataset {
  import opened Common
  import opened Records

  /** A schema property as far as the page looks at it: its `type`, its
      `enum` list when that is an array, and its own `required` flag. */
  datatype Property = Property(typ: Option<string>, enumValues: Option<seq<string>>, required: bool)

  /** A dataset schema: its name, the `required` list of its definition
      (`None` when absent) and its properties in declaration order. */
  datatype Schema = Schema(name: string, required: Option<seq<string>>, properties: Rec<Property>)

  type Field = (string, Property)

  // ---------------------------------------------------------------------
  // Category setup

  /** A field whose values the user sets up as categories: a string with an
      enum array. */
  predicate IsEnumField(p: Property) {
    p.typ == Some("string") && p.enumValues.Some?
  }

  /** `getEnumValues`: the user's edits when there are any, else the
      schema's enum, else nothing. */
  function EnumValues(edits: Rec<seq<string>>, key: string, p: Property): (o: Option<seq<string>>)
    ensures Get(edits, key).Some? ==> o == Get(edits, key)
    ensures Get(edits, key).None? ==> o == p.enumValues
  {
    match Get(edits, key)
    case Some(vs) => Some(vs)
    case None => p.enumValues
  }

  /** Each value trimmed. */
  function TrimAll(vs: seq<string>): (r: seq<string>)
    ensures |r| == |vs| && forall i :: 0 <= i < |vs| ==> r[i] == Trim(vs[i])
  {
    seq(|vs|, i requires 0 <= i < |vs| => Trim(vs[i]))
  }

  /** The values that are not empty (`filter(Boolean)`). */
  function NonEmpty(vs: seq<string>): (r: seq<string>)
    ensures |r| <= |vs|
    ensures |r| == |vs| <==> forall i :: 0 <= i < |vs| ==> vs[i] != ""
    ensures |r| == |vs| ==> r == vs
  {
    if |vs| == 0 then []
    else if vs[0] == "" then NonEmpty(vs[1..])
    else [vs[0]] + NonEmpty(vs[1..])
  }

  /** The set of a list's elements. */
  function Elements(vs: seq<string>): set<string> {
    set v | v in vs
  }

  /** A list has as many distinct elements as entries exactly when no
      entry repeats (`new Set(list).size === list.length`). */
  lemma {:induction false} ElementsCount(vs: seq<string>)
    ensures |Elements(vs)| <= |vs|
    ensures |Elements(vs)| == |vs| <==> Distinct(vs)
    decreases |vs|
  {
    if |vs| == 0 {
      assert Elements(vs) == {};
    } else {
      var n := |vs| - 1;
      var init := vs[..n];
      ElementsCount(init);
      assert vs == init + [vs[n]];
      assert Elements(vs) == Elements(init) + {vs[n]};
      if vs[n] in init {
        assert Elements(vs) == Elements(init);
        var k :| 0 <= k < n && init[k] == vs[n];
        assert vs[k] == vs[n];
      } else {
        assert vs[n] !in Elements(init);
        if Distinct(init) {
          forall i, j | 0 <= i < j < |vs| ensures vs[i] != vs[j] {
            if j == n {
              assert vs[i] == init[i];
            } else {
              assert vs[i] == init[i] && vs[j] == init[j];
            }
          }
        } else {
          var i, j :| 0 <= i < j < n && init[i] == init[j];
          assert vs[i] == vs[j];
        }
      }
    }
  }

  /** One category list as the check reads it: non-empty, no entry blank
      after trimming, no trimmed entry repeated, and confirmed ("Done"). */
  function CategoryListReady(vals: Option<seq<string>>, done: Option<bool>): (ok: bool)
  {
    if vals.None? || |vals.value| == 0 then false
    else
      var trimmed := NonEmpty(TrimAll(vals.value));
      if |trimmed| != |vals.value| then false
      else if |Elements(trimmed)| != |trimmed| then false
      else done == Some(true)
  }

  /** The same check stated directly. */
  lemma CategoryListReadyMeans(vals: Option<seq<string>>, done: Option<bool>)
    ensures CategoryListReady(vals, done) <==>
      vals.Some? && |vals.value| > 0
      && (forall i :: 0 <= i < |vals.value| ==> Trim(vals.value[i]) != "")
      && Distinct(TrimAll(vals.value))
      && done == Some(true)
  {
    if vals.Some? && |vals.value| > 0 {
      var t := TrimAll(vals.value);
      var trimmed := NonEmpty(t);
      ElementsCount(trimmed);
      assert (forall i :: 0 <= i < |vals.value| ==> Trim(vals.value[i]) != "") <==> (forall i :: 0 <= i < |t| ==> t[i] != "");
    }
  }

  /** `isCategorySetupComplete`: with no schema selected there is nothing
      to set up; otherwise every enum field's list (the edits, else the
      schema's) must pass, in declaration order. */
  function SetupComplete(schema: Option<Schema>, edits: Rec<seq<string>>, done: Rec<bool>): (ok: bool)
    ensures schema.None? ==> ok
  {
    schema.None? || AllEnumFieldsReady(schema.value.properties, edits, done)
  }

  /** One field passes: it is not a category field, or its list is ready. */
  predicate FieldReady(f: Field, edits: Rec<seq<string>>, done: Rec<bool>) {
    !IsEnumField(f.1) || CategoryListReady(EnumValues(edits, f.0, f.1), Get(done, f.0))
  }

  /** Every enum field among `fields` is ready. */
  function AllEnumFieldsReady(fields: Rec<Property>, edits: Rec<seq<string>>, done: Rec<bool>): (ok: bool)
    ensures ok <==> forall i :: 0 <= i < |fields| ==> FieldReady(fields[i], edits, done)
    decreases |fields|
  {
    if |fields| == 0 then true
    else
      assert forall i :: 1 <= i < |fields| ==> fields[i] == fields[1..][i - 1];
      FieldReady(fields[0], edits, done) && AllEnumFieldsReady(fields[1..], edits, done)
  }

  /** An empty edited list, or an edited list with a blank or repeated
      value, makes the setup incomplete whatever the schema says. */
  lemma BadEditBlocksSetup(s: Schema, edits: Rec<seq<string>>, done: Rec<bool>, i: int)
    requires 0 <= i < |s.properties| && IsEnumField(s.properties[i].1)
    requires var e := Get(edits, s.properties[i].0);
      e.Some? && (|e.value| == 0 || (exists j :: 0 <= j < |e.value| && Trim(e.value[j]) == "")
                  || !Distinct(TrimAll(e.value)))
    ensures !SetupComplete(Some(s), edits, done)
  {
    var key := s.properties[i].0;
    CategoryListReadyMeans(EnumValues(edits, key, s.properties[i].1), Get(done, key));
  }

  // ---------------------------------------------------------------------
  // Field order

  /** A field is required when the schema lists it or it says so itself. */
  predicate IsRequired(reqs: seq<string>, f: Field) {
    f.0 in reqs || f.1.required
  }

  /** Inserting into a list sorted by the comparator "required first",
      after every element that does not compare greater (as a stable sort
      places a later element). */
  function InsertField(sorted: seq<Field>, f: Field, reqs: seq<string>): (r: seq<Field>)
    decreases |sorted|
  {
    if |sorted| == 0 then [f]
    else
      var last := sorted[|sorted| - 1];
      if IsRequired(reqs, f) && !IsRequired(reqs, last)
      then InsertField(sorted[..|sorted| - 1], f, reqs) + [last]
      else sorted + [f]
  }

  /** `sortedFields`: the properties put through the stable sort with the
      "required first" comparator. */
  function SortedFields(fields: seq<Field>, reqs: seq<string>): (r: seq<Field>)
    decreases |fields|
  {
    if |fields| == 0 then []
    else InsertField(SortedFields(fields[..|fields| - 1], reqs), fields[|fields| - 1], reqs)
  }

  /** The required fields, in their order. */
  function RequiredPart(fields: seq<Field>, reqs: seq<string>): (r: seq<Field>)
    ensures forall f :: f in r ==> IsRequired(reqs, f)
    decreases |fields|
  {
    if |fields| == 0 then []
    else
      var n := |fields| - 1;
      RequiredPart(fields[..n], reqs) + (if IsRequired(reqs, fields[n]) then [fields[n]] else [])
  }

  /** The other fields, in their order. */
  function OptionalPart(fields: seq<Field>, reqs: seq<string>): (r: seq<Field>)
    ensures forall f :: f in r ==> !IsRequired(reqs, f)
    decreases |fields|
  {
    if |fields| == 0 then []
    else
      var n := |fields| - 1;
      OptionalPart(fields[..n], reqs) + (if IsRequired(reqs, fields[n]) then [] else [fields[n]])
  }

  /** Inserting a required field into "required, then optional" places it
      right after the required ones. */
  lemma {:induction false} InsertRequired(req: seq<Field>, opt: seq<Field>, f: Field, reqs: seq<string>)
    requires forall g :: g in req ==> IsRequired(reqs, g)
    requires forall g :: g in opt ==> !IsRequired(reqs, g)
    requires IsRequired(reqs, f)
    ensures InsertField(req + opt, f, reqs) == req + [f] + opt
    decreases |opt|
  {
    if |opt| == 0 {
      assert req + opt == req;
      if |req| > 0 {
        assert req[|req| - 1] in req;
      }
    } else {
      var n := |opt| - 1;
      assert (req + opt)[..|req + opt| - 1] == req + opt[..n];
      assert (req + opt)[|req + opt| - 1] == opt[n];
      assert opt[n] in opt;
      InsertRequired(req, opt[..n], f, reqs);
      assert opt == opt[..n] + [opt[n]];
    }
  }

  /** The stable sort puts the required fields first and the others after
      them, each group in the schema's order. */
  lemma {:induction false} SortedFieldsPartition(fields: seq<Field>, reqs: seq<string>)
    ensures SortedFields(fields, reqs) == RequiredPart(fields, reqs) + OptionalPart(fields, reqs)
    decreases |fields|
  {
    if |fields| > 0 {
      var n := |fields| - 1;
      var f := fields[n];
      SortedFieldsPartition(fields[..n], reqs);
      var req := RequiredPart(fields[..n], reqs);
      var opt := OptionalPart(fields[..n], reqs);
      assert SortedFields(fields, reqs) == InsertField(req + opt, f, reqs);
      if IsRequired(reqs, f) {
        InsertRequired(req, opt, f, reqs);
        assert RequiredPart(fields, reqs) == req + [f];
        assert OptionalPart(fields, reqs) == opt;
      } else {
        assert InsertField(req + opt, f, reqs) == req + opt + [f];
        assert RequiredPart(fields, reqs) == req;
        assert OptionalPart(fields, reqs) == opt + [f];
      }
    }
  }

  /** The sorted list holds the same fields, each as often as before. */
  lemma {:induction false} PartitionIsPermutation(fields: seq<Field>, reqs: seq<string>)
    ensures multiset(RequiredPart(fields, reqs) + OptionalPart(fields, reqs)) == multiset(fields)
    decreases |fields|
  {
    if |fields| > 0 {
      var n := |fields| - 1;
      PartitionIsPermutation(fields[..n], reqs);
      assert fields == fields[..n] + [fields[n]];
    }
  }

  /** The order of a schema's fields on the page. */
  function PageFields(s: Schema): (r: seq<Field>)
    ensures r == RequiredPart(s.properties, s.required.GetOr([])) + OptionalPart(s.properties, s.required.GetOr([]))
    ensures multiset(r) == multiset(s.properties)
  {
    var reqs := if s.required.Some? then s.required.value else [];
    SortedFieldsPartition(s.properties, reqs);
    PartitionIsPermutation(s.properties, reqs);
    SortedFields(s.properties, reqs)
  }

  // ---------------------------------------------------------------------
  // Type column

  /** `renderType`: arrays show as `string[]`, objects and untyped
      properties as `json`, anything else by its type name. */
  function RenderType(p: Property): (s: string)
    ensures p.typ == Some("array") ==> s == "string[]"
    ensures p.typ == Some("object") || p.typ.None? || p.typ == Some("") ==> s == "json"
    ensures p.typ.Some? && p.typ.value !in {"array", "object", ""} ==> s == p.typ.value
  {
    match p.typ
    case None => "json"
    case Some(t) => if t == "array" then "string[]" else if t == "object" then "json" else if t == "" then "json" else t
  }
}

=== FILE: pagination.dfy ===
/** Paging of lists: the page count of a paginated response, the `X-*`
    headers the image list endpoint sends, and how the dataset view turns
    its current page into a request offset, reads the headers back and lays
    out the page-number buttons. */
module Pagination {
  import opened Common

  /** Python's `a // b` (rounds toward negative infinity). */
  function FloorDiv(a: int, b: int): (q: int)
    requires b != 0
    ensures b > 0 ==> q * b <= a < q * b + b
    ensures b < 0 ==> q * b >= a > q * b + b
  {
    if b > 0 then a / b else (-a) / (-b)
  }

  /** `PaginatedResponse.total_pages`: the number of pages of `pageSize`
      items needed to hold `total` items. A zero page size raises. */
  function TotalPages(total: int, pageSize: int): (r: Option<int>)
    ensures r.None? <==> pageSize == 0
    ensures pageSize > 0 && total >= 0 ==>
      (r.Some? && r.value >= 0
       && r.value * pageSize >= total && (r.value - 1) * pageSize < total
       && (r.value == 0 <==> total == 0))
  {
    if pageSize == 0 then None
    else Some(FloorDiv(total + pageSize - 1, pageSize))
  }

  /** The paging headers of the image list response. */
  datatype PageHeaders = PageHeaders(totalCount: int, pageSize: int, currentPage: int, totalPages: int)

  /** Headers for a list request with `limit` and `offset`: the page holding
      `offset`, and enough pages for `total`; a non-positive limit reports a
      single page. */
  function ListHeaders(total: int, limit: int, offset: int): (h: PageHeaders)
    ensures h.totalCount == total && h.pageSize == limit
    ensures limit <= 0 ==> h.currentPage == 1 && h.totalPages == 1
    ensures limit > 0 ==> (h.currentPage - 1) * limit <= offset < h.currentPage * limit
    ensures limit > 0 ==> TotalPages(total, limit) == Some(h.totalPages)
  {
    if limit > 0 then
      PageHeaders(total, limit, FloorDiv(offset, limit) + 1, FloorDiv(total + limit - 1, limit))
    else
      PageHeaders(total, limit, 1, 1)
  }

  /** The offset the dataset view asks for on `page`. */
  function PageOffset(page: int, pageSize: int): (offset: int)
    ensures page >= 1 && pageSize >= 0 ==> offset >= 0
  {
    (page - 1) * pageSize
  }

  /** The headers as the client reads them: `None` for a header that is
      missing or empty. */
  datatype ReceivedHeaders = ReceivedHeaders(
    totalCount: Option<int>, pageSize: Option<int>, currentPage: Option<int>, totalPages: Option<int>)

  function Received(h: PageHeaders): ReceivedHeaders {
    ReceivedHeaders(Some(h.totalCount), Some(h.pageSize), Some(h.currentPage), Some(h.totalPages))
  }

  /** The dataset view's pagination state. */
  datatype PageState = PageState(currentPage: int, pageSize: int, totalItems: int, totalPages: int)

  /** The state after a successful fetch: each missing header falls back
      (0 items, the page size asked for, page 1, one page) and at least one
      page is always shown. */
  function ApplyHeaders(prev: PageState, h: ReceivedHeaders): (s: PageState)
    ensures s.totalPages >= 1
    ensures s.totalItems == h.totalCount.GetOr(0)
    ensures s.pageSize == h.pageSize.GetOr(prev.pageSize)
    ensures s.currentPage == h.currentPage.GetOr(1)
    ensures h.totalPages.Some? && h.totalPages.value >= 1 ==> s.totalPages == h.totalPages.value
  {
    PageState(h.currentPage.GetOr(1), h.pageSize.GetOr(prev.pageSize), h.totalCount.GetOr(0),
              Max(1, h.totalPages.GetOr(1)))
  }

  /** Asking for a page and reading back the server's headers lands on the
      page that was asked for, keeps the page size, and shows enough pages to
      hold every item. */
  lemma {:induction false} PageRoundTrip(prev: PageState, total: nat)
    requires prev.currentPage >= 1 && prev.pageSize > 0
    ensures var s := ApplyHeaders(prev, Received(ListHeaders(total, prev.pageSize, PageOffset(prev.currentPage, prev.pageSize))));
      s.currentPage == prev.currentPage && s.pageSize == prev.pageSize && s.totalItems == total
      && s.totalPages * prev.pageSize >= total
      && (total > 0 ==> (s.totalPages - 1) * prev.pageSize < total)
  {
    var c, l := prev.currentPage, prev.pageSize;
    var h := ListHeaders(total, l, PageOffset(c, l));
    assert (h.currentPage - 1) * l <= (c - 1) * l < h.currentPage * l;
    PageOfOffset(h.currentPage - 1, c - 1, l);
  }

  lemma PageOfOffset(q: int, p: int, l: int)
    requires l > 0
    requires q * l <= p * l < q * l + l
    ensures q == p
  {
    if q < p {
      MulGap(q, p, l);
    } else if q > p {
      MulGap(p, q, l);
    }
  }

  /** Multiples of a positive `l` at distinct factors are at least `l` apart. */
  lemma MulGap(a: int, b: int, l: int)
    requires a < b && l > 0
    ensures b * l >= a * l + l
  {
    assert (b - a - 1) * l >= 0;
    assert (b - a - 1) * l == b * l - a * l - l;
  }

  // ---------------------------------------------------------------------
  // Page buttons

  const MaxVisible: int := 5

  /** The window of page buttons around the current page. */
  function PageWindow(current: int, total: int): (w: (int, int))
  {
    var start := Max(1, current - 2);
    var end := Min(total, current + 2);
    if end - start < MaxVisible - 1 then
      if start == 1 then (start, Min(total, start + MaxVisible - 1))
      else if end == total then (Max(1, end - MaxVisible + 1), end)
      else (start, end)
    else (start, end)
  }

  function Range(lo: int, hi: int): (r: seq<int>)
    ensures |r| == if hi >= lo then hi - lo + 1 else 0
    ensures forall i :: 0 <= i < |r| ==> r[i] == lo + i
    decreases hi - lo
  {
    if hi < lo then [] else [lo] + Range(lo + 1, hi)
  }

  /** The page numbers shown: consecutive pages inside 1..total that include
      the current one, five of them whenever there are at least five pages. */
  function PageNumbers(current: int, total: int): (pages: seq<int>)
    ensures 1 <= current <= total ==>
      |pages| == Min(MaxVisible, total)
      && current in pages
      && (forall i :: 0 <= i < |pages| ==> 1 <= pages[i] <= total)
      && (forall i :: 0 < i < |pages| ==> pages[i] == pages[i - 1] + 1)
  {
    var w := PageWindow(current, total);
    WindowBounds(current, total);
    var r := Range(w.0, w.1);
    assert 1 <= current <= total ==> r[current - w.0] == current;
    r
  }

  lemma WindowBounds(current: int, total: int)
    ensures 1 <= current <= total ==>
      var w := PageWindow(current, total);
      1 <= w.0 <= current <= w.1 <= total && w.1 - w.0 + 1 == Min(MaxVisible, total)
  {
  }

  /** The pagination bar is shown only when there is more than one page. */
  predicate ShowPagination(s: PageState) {
    s.totalPages > 1
  }

  /** The previous and next buttons never leave 1..totalPages. */
  function PrevPage(s: PageState): (p: int)
    ensures s.currentPage >= 1 ==> p >= 1
    ensures p <= s.currentPage || p == 1
    ensures s.currentPage > 1 ==> p == s.currentPage - 1
  {
    Max(1, s.currentPage - 1)
  }

  function NextPage(s: PageState): (p: int)
    ensures s.currentPage <= s.totalPages ==> p <= s.totalPages
    ensures p >= s.currentPage || p == s.totalPages
    ensures s.currentPage < s.totalPages ==> p == s.currentPage + 1
  {
    Min(s.totalPages, s.currentPage + 1)
  }
}

=== FILE: records.dfy ===
/** String-keyed records with insertion-ordered keys, as the web client uses
    plain JavaScript objects (`Record<string, T>`): assigning an existing key
    replaces its value in place, assigning a new key appends it, `delete`
    removes it, and `Object.entries` / `Object.values` walk the keys in
    insertion order. */
module Records {
  import opened Common

  type Rec<V> = seq<(string, V)>

  function Keys<V>(r: Rec<V>): (ks: seq<string>)
    ensures |ks| == |r|
    ensures forall i :: 0 <= i < |r| ==> ks[i] == r[i].0
  {
    seq(|r|, i requires 0 <= i < |r| => r[i].0)
  }

  /** `Object.values(r)`. */
  function Values<V>(r: Rec<V>): (vs: seq<V>)
    ensures |vs| == |r|
    ensures forall i :: 0 <= i < |r| ==> vs[i] == r[i].1
  {
    seq(|r|, i requires 0 <= i < |r| => r[i].1)
  }

  /** Every key occurs once, as in any JavaScript object. */
  predicate UniqueKeys<V>(r: Rec<V>) {
    forall i, j :: 0 <= i < j < |r| ==> r[i].0 != r[j].0
  }

  /** `r[k]`, with `None` standing for `undefined`. */
  function Get<V>(r: Rec<V>, k: string): (o: Option<V>)
    ensures o.Some? <==> k in Keys(r)
    ensures o.Some? ==> (k, o.value) in r
  {
    if |r| == 0 then None
    else if r[0].0 == k then Some(r[0].1)
    else
      assert Keys(r) == [r[0].0] + Keys(r[1..]);
      Get(r[1..], k)
  }

  /** Looking a key up in a record is looking it up among the entries
      before the last, and then in the last one. */
  lemma GetInit<V>(r: Rec<V>, k: string)
    requires |r| > 0
    ensures (k in Keys(r)) == (k in Keys(r[..|r| - 1]) || k == r[|r| - 1].0)
    ensures Get(r, k) == if k in Keys(r[..|r| - 1]) then Get(r[..|r| - 1], k)
                         else if r[|r| - 1].0 == k then Some(r[|r| - 1].1) else None
  {
    var n := |r| - 1;
    assert r == r[..n] + [r[n]];
    GetAppend(r[..n], r[n], k);
    assert Keys(r) == Keys(r[..n]) + [r[n].0];
  }

  /** With unique keys, the entries before the last still have unique keys
      and none of them has the last entry's key. */
  lemma LastKeyFresh<V>(r: Rec<V>)
    requires UniqueKeys(r) && |r| > 0
    ensures UniqueKeys(r[..|r| - 1])
    ensures r[|r| - 1].0 !in Keys(r[..|r| - 1])
  {
    var n := |r| - 1;
    forall i | 0 <= i < n ensures r[..n][i].0 != r[n].0 {
      assert r[i].0 != r[n].0;
    }
  }

  /** `r[k] = v`. */
  function Set<V>(r: Rec<V>, k: string, v: V): (r': Rec<V>)
  {
    if |r| == 0 then [(k, v)]
    else if r[0].0 == k then [(k, v)] + r[1..]
    else [r[0]] + Set(r[1..], k, v)
  }

  /** `delete r[k]`. */
  function Delete<V>(r: Rec<V>, k: string): (r': Rec<V>)
  {
    if |r| == 0 then []
    else if r[0].0 == k then Delete(r[1..], k)
    else [r[0]] + Delete(r[1..], k)
  }

  /** Assigning `r[k] = v` for every entry in order (a `forEach` that fills an
      empty object). */
  function FromEntries<V>(entries: seq<(string, V)>): (r: Rec<V>)
    decreases |entries|
  {
    if |entries| == 0 then []
    else Set(FromEntries(entries[..|entries| - 1]), entries[|entries| - 1].0, entries[|entries| - 1].1)
  }

  // ---------------------------------------------------------------------
  // Laws of assignment and deletion

  lemma {:induction false} SetKeys<V>(r: Rec<V>, k: string, v: V)
    ensures k in Keys(r) ==> Keys(Set(r, k, v)) == Keys(r)
    ensures k !in Keys(r) ==> Keys(Set(r, k, v)) == Keys(r) + [k]
  {
    if |r| > 0 {
      KeysCons(r[0], r[1..]);
      assert r == [r[0]] + r[1..];
      if r[0].0 != k {
        var rest := Set(r[1..], k, v);
        SetKeys(r[1..], k, v);
        KeysCons(r[0], rest);
        assert (k in Keys(r)) == (k in Keys(r[1..]));
      } else {
        KeysCons((k, v), r[1..]);
      }
    }
  }

  /** The keys of a record with one entry put in front. */
  lemma KeysCons<V>(e: (string, V), r: Rec<V>)
    ensures Keys([e] + r) == [e.0] + Keys(r)
  {
  }

  lemma {:induction false} GetSet<V>(r: Rec<V>, k: string, v: V, k': string)
    ensures Get(Set(r, k, v), k') == if k' == k then Some(v) else Get(r, k')
  {
    if |r| > 0 && r[0].0 != k {
      GetSet(r[1..], k, v, k');
    }
  }

  lemma {:induction false} SetUnique<V>(r: Rec<V>, k: string, v: V)
    requires UniqueKeys(r)
    ensures UniqueKeys(Set(r, k, v))
  {
    var r' := Set(r, k, v);
    SetKeys(r, k, v);
    assert forall i :: 0 <= i < |r'| ==> Keys(r')[i] == r'[i].0;
    if k in Keys(r) {
      assert forall i :: 0 <= i < |r| ==> r'[i].0 == Keys(r)[i];
    } else {
      assert forall i :: 0 <= i < |r| ==> r'[i].0 == Keys(r)[i];
      assert r'[|r|].0 == k;
    }
  }

  lemma {:induction false} DeleteGet<V>(r: Rec<V>, k: string, k': string)
    ensures Get(Delete(r, k), k') == if k' == k then None else Get(r, k')
  {
    if |r| > 0 {
      DeleteGet(r[1..], k, k');
    }
  }

  lemma {:induction false} DeleteSubseq<V>(r: Rec<V>, k: string)
    ensures |Delete(r, k)| <= |r|
    ensures forall e :: e in Delete(r, k) ==> e in r && e.0 != k
    ensures UniqueKeys(r) ==> UniqueKeys(Delete(r, k))
  {
    if |r| > 0 {
      DeleteSubseq(r[1..], k);
      if UniqueKeys(r) {
        assert UniqueKeys(r[1..]);
        var d := Delete(r[1..], k);
        if r[0].0 != k {
          assert forall e :: e in d ==> e.0 != r[0].0;
        }
      }
    }
  }

  /** An object rebuilt by assigning its own entries one by one is the object
      itself: the array and object encodings of a record agree. */
  lemma {:induction false} FromEntriesOfRecord<V>(r: Rec<V>)
    requires UniqueKeys(r)
    ensures FromEntries(r) == r
    decreases |r|
  {
    if |r| > 0 {
      var init := r[..|r| - 1];
      var last := r[|r| - 1];
      assert UniqueKeys(init);
      FromEntriesOfRecord(init);
      SetAppendsNew(init, last.0, last.1);
      assert init + [last] == r;
    }
  }

  lemma {:induction false} SetAppendsNew<V>(r: Rec<V>, k: string, v: V)
    requires k !in Keys(r)
    ensures Set(r, k, v) == r + [(k, v)]
  {
    if |r| > 0 {
      assert Keys(r) == [r[0].0] + Keys(r[1..]);
      SetAppendsNew(r[1..], k, v);
      assert [r[0]] + (r[1..] + [(k, v)]) == r + [(k, v)];
    }
  }

  lemma {:induction false} FromEntriesUnique<V>(entries: seq<(string, V)>)
    ensures UniqueKeys(FromEntries(entries))
    decreases |entries|
  {
    if |entries| > 0 {
      var init := entries[..|entries| - 1];
      FromEntriesUnique(init);
      SetUnique(FromEntries(init), entries[|entries| - 1].0, entries[|entries| - 1].1);
    }
  }

  // ---------------------------------------------------------------------
  // Dictionaries built from entries

  /** The value of the last entry with key `k`: what a dictionary built from
      the entries (a Python dict comprehension, or assigning them in order)
      holds under `k`. */
  function LastValue<V>(entries: seq<(string, V)>, k: string): (o: Option<V>)
    ensures o.None? <==> forall i :: 0 <= i < |entries| ==> entries[i].0 != k
    ensures o.Some? ==> exists i :: 0 <= i < |entries| && entries[i] == (k, o.value)
                                    && forall j :: i < j < |entries| ==> entries[j].0 != k
    decreases |entries|
  {
    if |entries| == 0 then None
    else
      var n := |entries| - 1;
      if entries[n].0 == k then Some(entries[n].1)
      else
        var init := entries[..n];
        var o := LastValue(init, k);
        assert forall i :: 0 <= i < n ==> init[i] == entries[i];
        assert o.Some? ==> exists i :: 0 <= i < n && init[i] == (k, o.value) && forall j :: i < j < n ==> init[j].0 != k;
        o
  }

  /** Looking a key up in a record built from entries finds the last entry's
      value: later assignments win. */
  lemma {:induction false} GetFromEntries<V>(entries: seq<(string, V)>, k: string)
    ensures Get(FromEntries(entries), k) == LastValue(entries, k)
    decreases |entries|
  {
    if |entries| > 0 {
      var init := entries[..|entries| - 1];
      var last := entries[|entries| - 1];
      GetFromEntries(init, k);
      GetSet(FromEntries(init), last.0, last.1, k);
    }
  }

  /** Assigning more entries never moves the keys already present. */
  lemma {:induction false} FromEntriesKeysPrefix<V>(a: seq<(string, V)>, b: seq<(string, V)>)
    ensures Keys(FromEntries(a)) <= Keys(FromEntries(a + b))
    decreases |b|
  {
    if |b| == 0 {
      assert a + b == a;
    } else {
      var ab := a + b;
      var init := b[..|b| - 1];
      var last := b[|b| - 1];
      assert ab[..|ab| - 1] == a + init;
      assert ab[|ab| - 1] == last;
      var before := FromEntries(a + init);
      assert FromEntries(ab) == Set(before, last.0, last.1);
      FromEntriesKeysPrefix(a, init);
      SetKeys(before, last.0, last.1);
      assert Keys(before) <= Keys(FromEntries(ab));
    }
  }

  /** Assigns every entry, in order, into an existing record (`{...r}`
      followed by one assignment per entry). */
  function SetAll<V>(r: Rec<V>, entries: seq<(string, V)>): (r': Rec<V>)
    decreases |entries|
  {
    if |entries| == 0 then r
    else
      var n := |entries| - 1;
      Set(SetAll(r, entries[..n]), entries[n].0, entries[n].1)
  }

  /** After assigning the entries, a key holds its last entry's value, and
      a key no entry mentions keeps its old value. */
  lemma {:induction false} GetSetAll<V>(r: Rec<V>, entries: seq<(string, V)>, k: string)
    ensures Get(SetAll(r, entries), k) == if LastValue(entries, k).Some? then LastValue(entries, k) else Get(r, k)
    decreases |entries|
  {
    if |entries| > 0 {
      var n := |entries| - 1;
      GetSetAll(r, entries[..n], k);
      GetSet(SetAll(r, entries[..n]), entries[n].0, entries[n].1, k);
    }
  }

  lemma {:induction false} SetAllUnique<V>(r: Rec<V>, entries: seq<(string, V)>)
    requires UniqueKeys(r)
    ensures UniqueKeys(SetAll(r, entries))
    decreases |entries|
  {
    if |entries| > 0 {
      var n := |entries| - 1;
      SetAllUnique(r, entries[..n]);
      SetUnique(SetAll(r, entries[..n]), entries[n].0, entries[n].1);
    }
  }

  /** Looking up a key in a record with one more entry at the end. */
  lemma {:induction false} GetAppend<V>(r: Rec<V>, e: (string, V), k: string)
    ensures Get(r + [e], k) == if k in Keys(r) then Get(r, k) else if e.0 == k then Some(e.1) else None
  {
    if |r| > 0 {
      assert (r + [e])[1..] == r[1..] + [e];
      assert Keys(r) == [r[0].0] + Keys(r[1..]);
      GetAppend(r[1..], e, k);
    }
  }

  /** When every entry for `k` from position `lo` on carries `v` and there
      is at least one, the last value for `k` is `v`. */
  lemma LastValueOfTail<V>(entries: seq<(string, V)>, k: string, v: V, lo: int)
    requires 0 <= lo <= |entries|
    requires exists j :: lo <= j < |entries| && entries[j].0 == k
    requires forall j :: lo <= j < |entries| && entries[j].0 == k ==> entries[j].1 == v
    ensures LastValue(entries, k) == Some(v)
  {
    var o := LastValue(entries, k);
    var j :| lo <= j < |entries| && entries[j].0 == k;
    var i :| 0 <= i < |entries| && entries[i] == (k, o.value)
             && forall m :: i < m < |entries| ==> entries[m].0 != k;
    assert i >= j;
  }

  lemma LastValueAt<V>(entries: seq<(string, V)>, i: int)
    requires 0 <= i < |entries|
    requires forall j :: i < j < |entries| ==> entries[j].0 != entries[i].0
    ensures LastValue(entries, entries[i].0) == Some(entries[i].1)
  {
    var k := entries[i].0;
    var o := LastValue(entries, k);
    var i' :| 0 <= i' < |entries| && entries[i'] == (k, o.value) && forall j :: i' < j < |entries| ==> entries[j].0 != k;
    assert i' == i;
  }
}

=== FILE: review_auth.dfy ===
/** Sign-in for the dataset-review application: access tokens that live a
    day (a week when the user asks to be remembered), password sign-in that
    does not reveal which of email and password was wrong, password change
    and reset, temporary passwords, and the checks every authenticated
    request's cookie goes through. Hashing, signing and the clock are
    parameters. */
module ReviewAuth {
  import opened Common
  import opened ServiceErrors
  import opened ReviewStore

  const Day := 24 * 60 * 60
  /** The lifetime of a token, in seconds. */
  const SessionLifetime := Day
  const RememberedLifetime := 7 * Day

  /** What a token says: whose it is, when it expires and when it was
      issued, in seconds since the epoch. */
  datatype Claims = Claims(sub: string, exp: int, iat: int)

  /** The claims of a new token for the user, issued at `now`. */
  function CreateAccessToken(userId: string, rememberMe: bool, now: int): (c: Claims)
    ensures c.sub == userId && c.iat == now
    ensures c.exp - c.iat == if rememberMe then 604800 else 86400
  {
    Claims(userId, now + (if rememberMe then RememberedLifetime else SessionLifetime), now)
  }

  const InvalidCredentials := "Invalid email or password"
  const UserNotFound := "User not found"
  const WrongOldPassword := "Old password is incorrect"

  /** Password sign-in: the user with the email (compared lower-cased) whose
      password hash the password matches gets a token; an unknown email and
      a wrong password fail the same way. */
  function Login(db: Db, email: string, password: string, rememberMe: bool, now: int,
                 verify: (string, string) -> bool): (r: Result<(User, Claims), ServiceError>)
    ensures r.Ok? <==> FindEmail(db, email).Some? && verify(password, db.users[FindEmail(db, email).value].passwordHash)
    ensures r.Err? ==> r.error == Unauthorized(InvalidCredentials)
    ensures r.Ok? ==> r.value.0 in db.users && r.value.0.email == Lower(email)
                      && r.value.1 == CreateAccessToken(r.value.0.id, rememberMe, now)
  {
    match FindEmail(db, email)
    case None => Err(Unauthorized(InvalidCredentials))
    case Some(i) =>
      if !verify(password, db.users[i].passwordHash) then Err(Unauthorized(InvalidCredentials))
      else Ok((db.users[i], CreateAccessToken(db.users[i].id, rememberMe, now)))
  }

  /** Changing one's password: an unknown user is unauthorized; a wrong old
      password is a validation error; otherwise the new password's hash is
      stored and no reset is pending any more. */
  function ChangePassword(db: Db, userId: string, oldPassword: string, newPassword: string,
                          verify: (string, string) -> bool, hash: string -> string): (r: Result<Db, ServiceError>)
    ensures FindUser(db, userId).None? ==> r == Err(Unauthorized(UserNotFound))
    ensures FindUser(db, userId).Some? ==>
      var i := FindUser(db, userId).value;
      (!verify(oldPassword, db.users[i].passwordHash) ==> r == Err(Validation(WrongOldPassword)))
      && (verify(oldPassword, db.users[i].passwordHash) ==>
            r == Ok(db.(users := db.users[i := db.users[i].(passwordHash := hash(newPassword), mustResetPassword := false)])))
  {
    match FindUser(db, userId)
    case None => Err(Unauthorized(UserNotFound))
    case Some(i) =>
      if !verify(oldPassword, db.users[i].passwordHash) then Err(Validation(WrongOldPassword))
      else Ok(db.(users := db.users[i := db.users[i].(passwordHash := hash(newPassword), mustResetPassword := false)]))
  }

  /** Setting a new password after a temporary one: like a change, without
      asking for the old password. */
  function ResetPassword(db: Db, userId: string, newPassword: string, hash: string -> string): (r: Result<Db, ServiceError>)
    ensures FindUser(db, userId).None? <==> r == Err(Unauthorized(UserNotFound))
    ensures r.Ok? ==>
      var i := FindUser(db, userId).value;
      r.value == db.(users := db.users[i := db.users[i].(passwordHash := hash(newPassword), mustResetPassword := false)])
  {
    match FindUser(db, userId)
    case None => Err(Unauthorized(UserNotFound))
    case Some(i) =>
      Ok(db.(users := db.users[i := db.users[i].(passwordHash := hash(newPassword), mustResetPassword := false)]))
  }

  /** After a password change or reset, when the hash function and the
      checker agree, the user signs in with the new password and with no
      reset pending. */
  lemma NewPasswordSignsIn(db: Db, userId: string, newPassword: string, email: string, rememberMe: bool, now: int,
                           verify: (string, string) -> bool, hash: string -> string)
    requires UniqueUsers(db)
    requires ResetPassword(db, userId, newPassword, hash).Ok?
    requires Lower(email) == db.users[FindUser(db, userId).value].email
    requires verify(newPassword, hash(newPassword))
    ensures var r := Login(ResetPassword(db, userId, newPassword, hash).value, email, newPassword, rememberMe, now, verify);
      r.Ok? && r.value.0.id == userId && !r.value.0.mustResetPassword
  {
    var i := FindUser(db, userId).value;
    var db' := ResetPassword(db, userId, newPassword, hash).value;
    assert db'.users[i].email == Lower(email);
    assert forall j :: 0 <= j < |db'.users| && j != i ==> db'.users[j] == db.users[j];
    assert FindEmail(db', email) == Some(i);
  }

  /** A change with the wrong old password changes nothing. */
  lemma WrongOldPasswordKeepsHash(db: Db, userId: string, oldPassword: string, newPassword: string,
                                  verify: (string, string) -> bool, hash: string -> string)
    requires FindUser(db, userId).Some?
    requires !verify(oldPassword, db.users[FindUser(db, userId).value].passwordHash)
    ensures ChangePassword(db, userId, oldPassword, newPassword, verify, hash).Err?
  {
  }

  // ---------------------------------------------------------------------
  // Temporary passwords

  /** The URL-safe base64 alphabet. */
  function Sextet(v: int): (c: char)
    requires 0 <= v < 64
    ensures IsUrlSafe(c)
  {
    if v < 26 then (65 + v) as char
    else if v < 52 then (97 + v - 26) as char
    else if v < 62 then (48 + v - 52) as char
    else if v == 62 then '-' else '_'
  }

  predicate IsUrlSafe(c: char) {
    'A' <= c <= 'Z' || 'a' <= c <= 'z' || '0' <= c <= '9' || c == '-' || c == '_'
  }

  /** The value of a URL-safe base64 digit; anything else counts as 63. */
  function SextetValue(c: char): (v: int)
    ensures 0 <= v < 64
  {
    if 'A' <= c <= 'Z' then c as int - 65
    else if 'a' <= c <= 'z' then c as int - 97 + 26
    else if '0' <= c <= '9' then c as int - 48 + 52
    else if c == '-' then 62 else 63
  }

  /** Reading a digit back gives the value it was written for. */
  lemma SextetRoundTrip(v: int)
    requires 0 <= v < 64
    ensures SextetValue(Sextet(v)) == v
  {
  }

  /** The six-bit digits of base64 without padding: each group of three
      bytes gives four digits, a last group of one or two bytes gives two or
      three. */
  function Digits(bs: seq<byte>): (ds: seq<int>)
    ensures 4 * |bs| <= 3 * |ds| <= 4 * |bs| + 2
    ensures forall i :: 0 <= i < |ds| ==> 0 <= ds[i] < 64
    decreases |bs|
  {
    if |bs| == 0 then []
    else
      var b0 := bs[0] as int;
      if |bs| == 1 then [b0 / 4, (b0 % 4) * 16]
      else
        var b1 := bs[1] as int;
        if |bs| == 2 then [b0 / 4, (b0 % 4) * 16 + b1 / 16, (b1 % 16) * 4]
        else
          var b2 := bs[2] as int;
          [b0 / 4, (b0 % 4) * 16 + b1 / 16, (b1 % 16) * 4 + b2 / 64, b2 % 64] + Digits(bs[3..])
  }

  /** The bytes six-bit digits stand for: every four digits give three
      bytes, a last group of two or three digits gives one or two. */
  function Bytes(ds: seq<int>): seq<byte>
    requires forall i :: 0 <= i < |ds| ==> 0 <= ds[i] < 64
    decreases |ds|
  {
    if |ds| < 2 then []
    else
      var b0 := (ds[0] * 4 + ds[1] / 16) as byte;
      if |ds| == 2 then [b0]
      else
        var b1 := ((ds[1] % 16) * 16 + ds[2] / 4) as byte;
        if |ds| == 3 then [b0, b1]
        else [b0, b1, ((ds[2] % 4) * 64 + ds[3]) as byte] + Bytes(ds[4..])
  }

  /** The bit arithmetic of one group: the four digits written for three
      bytes give the three bytes back, and the first digits of a shorter
      group give its first bytes back. */
  lemma GroupArithmetic(b0: int, b1: int, b2: int)
    requires 0 <= b0 < 256 && 0 <= b1 < 256 && 0 <= b2 < 256
    ensures var v0, v1, v2, v3 := b0 / 4, (b0 % 4) * 16 + b1 / 16, (b1 % 16) * 4 + b2 / 64, b2 % 64;
      v0 * 4 + v1 / 16 == b0 && (v1 % 16) * 16 + v2 / 4 == b1 && (v2 % 4) * 64 + v3 == b2
    ensures ((b0 % 4) * 16) / 16 == b0 % 4 && ((b1 % 16) * 4) / 4 == b1 % 16
  {
  }

  /** One byte: its two digits read back. */
  lemma BytesOfDigitsOne(bs: seq<byte>)
    requires |bs| == 1
    ensures Bytes(Digits(bs)) == bs
  {
    var b0 := bs[0] as int;
    GroupArithmetic(b0, 0, 0);
    var ds := Digits(bs);
    assert ds == [b0 / 4, (b0 % 4) * 16];
    var r := Bytes(ds);
    assert |r| == 1 && r[0] == bs[0];
  }

  /** Two bytes: their three digits read back. */
  lemma BytesOfDigitsTwo(bs: seq<byte>)
    requires |bs| == 2
    ensures Bytes(Digits(bs)) == bs
  {
    var b0, b1 := bs[0] as int, bs[1] as int;
    GroupArithmetic(b0, b1, 0);
    var ds := Digits(bs);
    var v0, v1, v2 := b0 / 4, (b0 % 4) * 16 + b1 / 16, (b1 % 16) * 4;
    assert |ds| == 3 && ds[0] == v0 && ds[1] == v1 && ds[2] == v2;
    var r := Bytes(ds);
    assert |r| == 2;
    assert r[0] == (ds[0] * 4 + ds[1] / 16) as byte;
    assert r[1] == ((ds[1] % 16) * 16 + ds[2] / 4) as byte;
    assert |r| == 2 && r[0] == bs[0] && r[1] == bs[1];
  }

  /** Four digits or more: the first four read as three bytes, ahead of
      the bytes of the rest. */
  lemma BytesUnfold(ds: seq<int>)
    requires |ds| >= 4 && forall i :: 0 <= i < |ds| ==> 0 <= ds[i] < 64
    ensures var r := Bytes(ds);
      |r| >= 3 && r[3..] == Bytes(ds[4..])
      && r[0] == (ds[0] * 4 + ds[1] / 16) as byte && r[1] == ((ds[1] % 16) * 16 + ds[2] / 4) as byte
      && r[2] == ((ds[2] % 4) * 64 + ds[3]) as byte
  {
  }

  /** The four digits written for three bytes read back as those bytes. */
  lemma GroupBytes(d0: int, d1: int, d2: int, d3: int, x0: byte, x1: byte, x2: byte)
    requires d0 == x0 as int / 4 && d1 == (x0 as int % 4) * 16 + x1 as int / 16
    requires d2 == (x1 as int % 16) * 4 + x2 as int / 64 && d3 == x2 as int % 64
    ensures (d0 * 4 + d1 / 16) as byte == x0 && ((d1 % 16) * 16 + d2 / 4) as byte == x1
    ensures ((d2 % 4) * 64 + d3) as byte == x2
  {
    GroupArithmetic(x0 as int, x1 as int, x2 as int);
  }

  /** Three bytes or more: the first four digits read back as the first
      three bytes, ahead of the rest. */
  lemma BytesOfDigitsStep(bs: seq<byte>)
    requires |bs| >= 3
    ensures var r := Bytes(Digits(bs));
      |r| >= 3 && r[0] == bs[0] && r[1] == bs[1] && r[2] == bs[2] && r[3..] == Bytes(Digits(bs[3..]))
  {
    var ds := Digits(bs);
    assert ds[0] == bs[0] as int / 4 && ds[1] == (bs[0] as int % 4) * 16 + bs[1] as int / 16;
    assert ds[2] == (bs[1] as int % 16) * 4 + bs[2] as int / 64 && ds[3] == bs[2] as int % 64;
    assert ds[4..] == Digits(bs[3..]);
    GroupBytes(ds[0], ds[1], ds[2], ds[3], bs[0], bs[1], bs[2]);
    BytesUnfold(ds);
  }

  /** Reading the digits of some bytes gives the bytes back. */
  lemma {:induction false} BytesOfDigits(bs: seq<byte>)
    ensures Bytes(Digits(bs)) == bs
    decreases |bs|
  {
    if |bs| >= 3 {
      BytesOfDigitsStep(bs);
      BytesOfDigits(bs[3..]);
      var r := Bytes(Digits(bs));
      assert r[3..] == bs[3..];
      assert forall i | 0 <= i < |bs| :: r[i] == bs[i] by {
        forall i | 3 <= i < |bs| ensures r[i] == bs[i] {
          assert r[i] == r[3..][i - 3];
        }
      }
    } else if |bs| == 2 {
      BytesOfDigitsTwo(bs);
    } else if |bs| == 1 {
      BytesOfDigitsOne(bs);
    }
  }

  /** URL-safe base64 without the trailing `=` padding, as
      `secrets.token_urlsafe` writes it. */
  function UrlSafeBase64(bs: seq<byte>): (s: string)
    ensures |s| == (4 * |bs| + 2) / 3
    ensures forall i :: 0 <= i < |s| ==> IsUrlSafe(s[i])
  {
    var ds := Digits(bs);
    seq(|ds|, i requires 0 <= i < |ds| => Sextet(ds[i]))
  }

  /** Decoding unpadded URL-safe base64. */
  function DecodeUrlSafeBase64(s: string): seq<byte> {
    Bytes(seq(|s|, i requires 0 <= i < |s| => SextetValue(s[i])))
  }

  /** Decoding an encoding gives the bytes back, so no information is lost
      between the random bytes and the password made of them. */
  lemma DecodeEncode(bs: seq<byte>)
    ensures DecodeUrlSafeBase64(UrlSafeBase64(bs)) == bs
  {
    var ds := Digits(bs);
    var s := UrlSafeBase64(bs);
    forall i | 0 <= i < |ds|
      ensures SextetValue(s[i]) == ds[i]
    {
      SextetRoundTrip(ds[i]);
    }
    assert seq(|s|, i requires 0 <= i < |s| => SextetValue(s[i])) == ds;
    BytesOfDigits(bs);
  }

  /** A temporary password: twelve random bytes in URL-safe base64, which
      is sixteen URL-safe characters. */
  function TempPassword(random: seq<byte>): (p: string)
    requires |random| == 12
    ensures |p| == 16 && forall i :: 0 <= i < |p| ==> IsUrlSafe(p[i])
  {
    UrlSafeBase64(random)
  }

  // ---------------------------------------------------------------------
  // Request authentication

  /** What decoding a token yields: the `sub` and `exp` claims, each of
      which may be missing. */
  datatype Payload = Payload(sub: Option<string>, exp: Option<int>)

  const NotAuthenticated := "Not authenticated"
  const InvalidToken := "Invalid token"
  const TokenExpired := "Token expired"
  const AdminRequired := "Admin access required"

  /** The user a request's cookie stands for, checked in order: a cookie
      must be present; the token must decode; it must name a user and an
      expiry; the expiry must not have passed; and the user must exist. A
      subject that is not a UUID is an unhandled error. */
  function GetCurrentUser(cookie: Option<string>, decode: string -> Option<Payload>, now: int,
                          isUuid: string -> bool, db: Db): (r: Result<User, ServiceError>)
    ensures cookie.None? || cookie == Some("") ==> r == Err(Unauthorized(NotAuthenticated))
    ensures r.Ok? ==>
      cookie.Some? && decode(cookie.value).Some?
      && decode(cookie.value).value.sub == Some(r.value.id) && decode(cookie.value).value.exp.Some?
      && now <= decode(cookie.value).value.exp.value && r.value in db.users
    ensures r.Err? && r.error != ServerError ==> r.error.Unauthorized?
    ensures r == Err(ServerError) ==>
      cookie.Some? && decode(cookie.value).Some? && decode(cookie.value).value.sub.Some?
      && !isUuid(decode(cookie.value).value.sub.value)
  {
    if cookie.None? || cookie.value == "" then Err(Unauthorized(NotAuthenticated))
    else match decode(cookie.value)
      case None => Err(Unauthorized(InvalidToken))
      case Some(p) =>
        if p.sub.None? || p.exp.None? then Err(Unauthorized(InvalidToken))
        else if now > p.exp.value then Err(Unauthorized(TokenExpired))
        else if !isUuid(p.sub.value) then Err(ServerError)
        else match FindUser(db, p.sub.value)
          case None => Err(Unauthorized(UserNotFound))
          case Some(i) => Ok(db.users[i])
  }

  /** Only administrators pass; anybody else is refused as unauthorized
      (401), not forbidden. */
  function GetCurrentAdmin(user: Result<User, ServiceError>): (r: Result<User, ServiceError>)
    ensures r.Ok? <==> user.Ok? && user.value.role == "admin"
    ensures r.Ok? ==> r == user
    ensures user.Ok? && user.value.role != "admin" ==> r == Err(Unauthorized(AdminRequired))
    ensures user.Err? ==> r == user
  {
    if user.Err? then user
    else if user.value.role != "admin" then Err(Unauthorized(AdminRequired))
    else user
  }

  /** The token a sign-in hands out authenticates its user until it
      expires, and is refused as expired afterwards (when the token decodes
      to the claims it was made of). */
  lemma LoginTokenAuthenticates(db: Db, email: string, password: string, rememberMe: bool, issued: int, now: int,
                                verify: (string, string) -> bool, cookie: string, decode: string -> Option<Payload>,
                                isUuid: string -> bool)
    requires UniqueUsers(db)
    requires Login(db, email, password, rememberMe, issued, verify).Ok?
    requires var (u, c) := Login(db, email, password, rememberMe, issued, verify).value;
      cookie != "" && decode(cookie) == Some(Payload(Some(c.sub), Some(c.exp))) && isUuid(u.id)
    ensures var (u, c) := Login(db, email, password, rememberMe, issued, verify).value;
      (now <= c.exp ==> GetCurrentUser(Some(cookie), decode, now, isUuid, db) == Ok(u))
      && (now > c.exp ==> GetCurrentUser(Some(cookie), decode, now, isUuid, db) == Err(Unauthorized(TokenExpired)))
  {
    var (u, c) := Login(db, email, password, rememberMe, issued, verify).value;
    var i := FindEmail(db, email).value;
    assert FindUser(db, u.id) == Some(i);
  }
}

=== FILE: review_store.dfy ===
/** The tables the dataset-review services work on, as immutable values:
    teams, users, schemas with their fields, and datasets. Fresh ids are
    supplied by the caller. */
module ReviewStore {
  import opened Common
  import opened Records
  import opened Labels

  datatype Team = Team(id: string, name: string)

  /** A user: emails are stored lower-cased; `mustResetPassword` marks a
      temporary password. */
  datatype User = User(id: string, email: string, passwordHash: string, role: string, teamId: string,
                       mustResetPassword: bool)

  /** A schema field. `config` is the field's JSON settings. */
  datatype Field = Field(id: string, name: string, typ: string, required: bool, defaultValue: Option<string>,
                         position: int, config: Rec<Value>)

  datatype Schema = Schema(id: string, name: string, description: Option<string>, teamId: string,
                           createdBy: Option<string>, updatedBy: Option<string>, fields: seq<Field>)

  datatype Dataset = Dataset(id: string, name: string, description: Option<string>, schemaId: string,
                             teamId: string, createdBy: Option<string>, updatedBy: Option<string>)

  /** The store. Users are kept in table order; everything else by id. */
  datatype Db = Db(teams: map<string, Team>, users: seq<User>, schemas: map<string, Schema>,
                   datasets: map<string, Dataset>)

  /** The position of the user with the id, if any. */
  function FindUser(db: Db, id: string): (o: Option<nat>)
    ensures o.Some? ==> o.value < |db.users| && db.users[o.value].id == id
    ensures o.None? ==> forall i :: 0 <= i < |db.users| ==> db.users[i].id != id
  {
    FindFirst(db.users, (u: User) => u.id == id)
  }

  /** The position of the user with the (lower-cased) email, if any. */
  function FindEmail(db: Db, email: string): (o: Option<nat>)
    ensures o.Some? ==> o.value < |db.users| && db.users[o.value].email == Lower(email)
    ensures o.None? ==> forall i :: 0 <= i < |db.users| ==> db.users[i].email != Lower(email)
  {
    FindFirst(db.users, (u: User) => u.email == Lower(email))
  }

  /** The database's constraints on users: ids are a primary key and
      emails are unique. */
  predicate UniqueUsers(db: Db) {
    forall i, j :: 0 <= i < j < |db.users| ==> db.users[i].id != db.users[j].id && db.users[i].email != db.users[j].email
  }

  /** Every user belongs to a team that exists (a foreign key). */
  predicate UsersHaveTeams(db: Db) {
    forall i :: 0 <= i < |db.users| ==> db.users[i].teamId in db.teams
  }

  /** Another schema of the team already has the name. */
  predicate SchemaNameTaken(db: Db, name: string, teamId: string, exclude: Option<string>) {
    exists id :: id in db.schemas && db.schemas[id].name == name && db.schemas[id].teamId == teamId
                 && Some(id) != exclude
  }

  /** Another dataset of the team already has the name. */
  predicate DatasetNameTaken(db: Db, name: string, teamId: string, exclude: Option<string>) {
    exists id :: id in db.datasets && db.datasets[id].name == name && db.datasets[id].teamId == teamId
                 && Some(id) != exclude
  }

  /** Names are unique within a team, for schemas and for datasets. */
  predicate UniqueNames(db: Db) {
    (forall a, b :: a in db.schemas && b in db.schemas && a != b && db.schemas[a].teamId == db.schemas[b].teamId
       ==> db.schemas[a].name != db.schemas[b].name)
    && (forall a, b :: a in db.datasets && b in db.datasets && a != b && db.datasets[a].teamId == db.datasets[b].teamId
          ==> db.datasets[a].name != db.datasets[b].name)
  }

  /** The number of administrators of a team. */
  function AdminCount(users: seq<User>, teamId: string): (n: nat)
    ensures n <= |users|
    decreases |users|
  {
    if |users| == 0 then 0
    else (if users[0].teamId == teamId && users[0].role == "admin" then 1 else 0) + AdminCount(users[1..], teamId)
  }

  /** A team with an administrator has a positive count, and a positive
      count means there is one. */
  lemma {:induction false} AdminCountPositive(users: seq<User>, teamId: string)
    ensures AdminCount(users, teamId) > 0 <==> exists i :: 0 <= i < |users| && users[i].teamId == teamId && users[i].role == "admin"
    decreases |users|
  {
    if |users| > 0 {
      AdminCountPositive(users[1..], teamId);
      if exists i :: 0 <= i < |users| && users[i].teamId == teamId && users[i].role == "admin" {
        var i :| 0 <= i < |users| && users[i].teamId == teamId && users[i].role == "admin";
        if i > 0 { assert users[1..][i - 1] == users[i]; }
      }
      if exists i :: 0 <= i < |users[1..]| && users[1..][i].teamId == teamId && users[1..][i].role == "admin" {
        var i :| 0 <= i < |users[1..]| && users[1..][i].teamId == teamId && users[1..][i].role == "admin";
        assert users[i + 1] == users[1..][i];
      }
    }
  }

  /** Taking out one user lowers the team's administrator count by one if
      that user is one of its administrators, else leaves it. */
  lemma {:induction false} AdminCountRemove(users: seq<User>, teamId: string, i: nat)
    requires i < |users|
    ensures AdminCount(RemoveAt(users, i), teamId) ==
      AdminCount(users, teamId) - (if users[i].teamId == teamId && users[i].role == "admin" then 1 else 0)
    decreases |users|
  {
    if i > 0 {
      AdminCountRemove(users[1..], teamId, i - 1);
      assert RemoveAt(users, i) == [users[0]] + RemoveAt(users[1..], i - 1);
    } else {
      assert RemoveAt(users, 0) == users[1..];
    }
  }
}

=== FILE: router.dfy ===
/** The client's route table and its navigation guard: the first-run
    setup redirect, the sign-in requirement of every page but the login and
    setup pages, and the administrator-only users page. */
module Router {
  import opened Common
  import opened AuthStore

  /** A route's `meta`: `requiresAuth` is `None` when the route does not
      say, which the guard treats like `true`. */
  datatype Meta = Meta(requiresAuth: Option<bool>, requiresAdmin: bool)

  /** A path pattern: literal segments, and `:name` parameters that match
      any one non-empty segment. */
  datatype Segment = Lit(text: string) | Param

  datatype Route = Route(pattern: seq<Segment>, meta: Meta)

  const Open := Meta(Some(false), false)
  const Private := Meta(Some(true), false)
  const AdminOnly := Meta(Some(true), true)

  /** The route table, in declaration order (the `/` redirect is left
      out: it has no page of its own). */
  const Routes: seq<Route> := [
    Route([Lit("login")], Open),
    Route([Lit("setup")], Open),
    Route([Lit("datasets")], Private),
    Route([Lit("datasets"), Lit("new")], Private),
    Route([Lit("datasets"), Param], Private),
    Route([Lit("datasets"), Param, Lit("rows"), Lit("new")], Private),
    Route([Lit("datasets"), Param, Lit("rows"), Param], Private),
    Route([Lit("datasets"), Param, Lit("queue")], Private),
    Route([Lit("schemas")], Private),
    Route([Lit("schemas"), Lit("new")], Private),
    Route([Lit("schemas"), Param], Private),
    Route([Lit("users")], AdminOnly),
    Route([Lit("settings")], Private)
  ]

  /** Whether a path, split into its segments, fits a pattern. */
  predicate Fits(pattern: seq<Segment>, segs: seq<string>) {
    |pattern| == |segs|
    && forall i :: 0 <= i < |segs| ==>
         match pattern[i]
         case Lit(t) => segs[i] == t
         case Param => segs[i] != ""
  }

  /** The segments as the router compares them: matching ignores case and
      accepts one trailing slash (the router is created neither `sensitive`
      nor `strict`), so a final empty segment is dropped and the others are
      lower-cased. */
  function Normalize(segs: seq<string>): (n: seq<string>)
    ensures |segs| > 0 && segs[|segs| - 1] == "" ==> |n| == |segs| - 1
    ensures !(|segs| > 0 && segs[|segs| - 1] == "") ==> |n| == |segs|
    ensures forall i :: 0 <= i < |n| ==> n[i] == Lower(segs[i])
  {
    var t := if |segs| > 0 && segs[|segs| - 1] == "" then segs[..|segs| - 1] else segs;
    seq(|t|, i requires 0 <= i < |t| => Lower(t[i]))
  }

  /** The meta of the first route that fits; a path no route fits has an
      empty meta. */
  function MetaOf(segs: seq<string>): (m: Meta)
    ensures m == Open || m == Private || m == AdminOnly || m == Meta(None, false)
    ensures m.requiresAuth != Some(false) ==> m.requiresAuth == Some(true) || m == Meta(None, false)
  {
    var n := Normalize(segs);
    var i := FindFirst(Routes, (r: Route) => Fits(r.pattern, n));
    if i.Some? then Routes[i.value].meta else Meta(None, false)
  }

  /** A trailing slash leads to the same page. */
  lemma TrailingSlashIgnored(segs: seq<string>)
    requires |segs| == 0 || segs[|segs| - 1] != ""
    ensures MetaOf(segs + [""]) == MetaOf(segs)
  {
    assert Normalize(segs + [""]) == Normalize(segs);
  }

  /** Page paths match whatever their case. */
  lemma UsersPageAnyCase()
    ensures MetaOf(["Users"]) == AdminOnly && MetaOf(["LOGIN", ""]) == Open
  {
    assert Normalize(["Users"]) == ["users"] by {
      assert Lower("Users") == "users";
    }
    assert Normalize(["LOGIN", ""]) == ["login"] by {
      assert Lower("LOGIN") == "login";
    }
    AdminPaths(["Users"]);
    PublicPaths(["LOGIN", ""]);
    RouteMetas();
  }

  /** A pattern of one literal fits exactly the path of that one segment. */
  lemma FitsOneLiteral(t: string, segs: seq<string>)
    ensures Fits([Lit(t)], segs) <==> segs == [t]
  {
  }

  /** Only the login and setup pages are open without signing in, and only
      the users page needs an administrator; every other path, including
      one no route knows, needs a signed-in user. */
  lemma PublicAndAdminPaths(segs: seq<string>)
    ensures MetaOf(segs).requiresAuth == Some(false) <==> Normalize(segs) == ["login"] || Normalize(segs) == ["setup"]
    ensures MetaOf(segs).requiresAdmin <==> Normalize(segs) == ["users"]
  {
    PublicPaths(segs);
    AdminPaths(segs);
  }

  lemma PublicPaths(segs: seq<string>)
    ensures MetaOf(segs).requiresAuth == Some(false) <==> Normalize(segs) == ["login"] || Normalize(segs) == ["setup"]
  {
    var n := Normalize(segs);
    var p := (r: Route) => Fits(r.pattern, n);
    var i := FindFirst(Routes, p);
    RouteMetas();
    FitsOneLiteral("login", n);
    FitsOneLiteral("setup", n);
    if n == ["login"] {
      assert p(Routes[0]);
    } else if n == ["setup"] {
      assert p(Routes[1]);
      assert !p(Routes[0]);
    } else if i.Some? {
      assert !p(Routes[0]) && !p(Routes[1]);
    }
  }

  lemma AdminPaths(segs: seq<string>)
    ensures MetaOf(segs).requiresAdmin <==> Normalize(segs) == ["users"]
  {
    var n := Normalize(segs);
    var p := (r: Route) => Fits(r.pattern, n);
    var i := FindFirst(Routes, p);
    RouteMetas();
    FitsOneLiteral("users", n);
    if n == ["users"] {
      assert p(Routes[11]);
      SingleSegmentRoutes();
      var k := i.value;
      assert Fits(Routes[k].pattern, n);
      assert Routes[k].pattern[0].text == "users";
    } else if i.Some? {
      assert !p(Routes[11]);
    }
  }

  /** The routes of one segment are literal, and only the twelfth is the
      users page. */
  lemma SingleSegmentRoutes()
    ensures forall k :: 0 <= k < |Routes| && |Routes[k].pattern| == 1 ==>
      Routes[k].pattern[0].Lit? && (Routes[k].pattern[0].text == "users" <==> k == 11)
  {
  }

  /** Only the first two routes are open and only the twelfth is for
      administrators. */
  lemma RouteMetas()
    ensures forall k :: 0 <= k < |Routes| ==> (Routes[k].meta.requiresAuth == Some(false) <==> k < 2)
    ensures forall k :: 0 <= k < |Routes| ==> (Routes[k].meta.requiresAdmin <==> k == 11)
  {
  }

  /** Where the guard sends the navigation. */
  datatype Decision = Redirect(to: string) | Proceed

  /** The navigation guard. `needsSetup` is the setup check's answer, `None`
      when the check failed (the guard then carries on); `fetched` is what
      refreshing the user returns when the guard needs it. The result is the
      decision and the auth state after the guard. */
  function BeforeEach(path: string, meta: Meta, needsSetup: Option<bool>, st: AuthState, fetched: Reply<User>)
    : (r: (Decision, AuthState))
    ensures path != "/setup" && needsSetup == Some(true) ==> r == (Redirect("/setup"), st)
    ensures r.0 == Proceed ==> meta.requiresAuth == Some(false) || IsAuthenticated(r.1)
    ensures r.0 == Proceed && meta.requiresAdmin ==> IsAdmin(r.1)
    ensures r.0 == Redirect("/login") ==> meta.requiresAuth != Some(false) && !IsAuthenticated(st) && fetched.Failed?
  {
    if path != "/setup" && needsSetup == Some(true) then (Redirect("/setup"), st)
    else
      var (st', ok) :=
        if meta.requiresAuth != Some(false) && !IsAuthenticated(st) then FetchCurrentUser(st, fetched)
        else (st, true);
      if !ok then (Redirect("/login"), st')
      else if meta.requiresAdmin && !IsAdmin(st') then (Redirect("/datasets"), st')
      else (Proceed, st')
  }

  /** A signed-in user is never sent to the login page, and a page that
      needs neither sign-in nor an administrator always opens once setup is
      done. */
  lemma GuardOutcomes(path: string, meta: Meta, needsSetup: Option<bool>, st: AuthState, fetched: Reply<User>)
    requires needsSetup != Some(true) || path == "/setup"
    ensures IsAuthenticated(st) ==> BeforeEach(path, meta, needsSetup, st, fetched).0 != Redirect("/login")
    ensures meta.requiresAuth == Some(false) && !meta.requiresAdmin ==>
      BeforeEach(path, meta, needsSetup, st, fetched) == (Proceed, st)
    ensures IsAdmin(st) ==> BeforeEach(path, meta, needsSetup, st, fetched) == (Proceed, st)
  {
  }

  /** Only an administrator reaches the users page. */
  lemma UsersPageIsAdminOnly(needsSetup: Option<bool>, st: AuthState, fetched: Reply<User>)
    ensures var r := BeforeEach("/users", MetaOf(["users"]), needsSetup, st, fetched);
      r.0 == Proceed ==> IsAdmin(r.1)
  {
    assert Normalize(["users"]) == ["users"] by {
      assert Lower("users") == "users";
    }
    PublicAndAdminPaths(["users"]);
  }
}

=== FILE: row_service.dfy ===
/** The rows of a review dataset: their review status, bulk import from a
    CSV file with per-row accounting and duplicate detection by image hash,
    editing, and CSV export. Fetching an image and hashing it is a parameter,
    as are fresh ids. */
module RowService {
  import opened Common
  import opened Records
  import opened Labels
  import opened ServiceErrors

  datatype RowStatus = Pending | Reviewed

  function StatusName(s: RowStatus): (n: string)
    ensures n == "pending" || n == "reviewed"
  {
    if s == Pending then "pending" else "reviewed"
  }

  /** A stored row. `data` maps schema field ids to values. */
  datatype Row = Row(id: string, datasetId: string, imageUrl: string, imageHash: string,
                     data: Rec<Value>, status: RowStatus, updatedBy: Option<string>)

  /** A schema field as the row service needs it. */
  datatype FieldSpec = FieldSpec(id: string, name: string, required: bool)

  /** Which schema each dataset uses, and each schema's fields. */
  datatype Catalog = Catalog(datasetSchema: map<string, string>, schemaFields: map<string, seq<FieldSpec>>)

  // ---------------------------------------------------------------------
  // Status

  /** A field counts as unanswered when it is absent, null or empty text. */
  predicate Unanswered(data: Rec<Value>, id: string) {
    Get(data, id).None? || Get(data, id).value == Null || Get(data, id).value == Str("")
  }

  /** `calculate_status`: pending while some required field is
      unanswered, reviewed otherwise (so with no required field). */
  function CalculateStatus(data: Rec<Value>, required: seq<string>): (s: RowStatus)
    ensures s == Pending <==> exists i :: 0 <= i < |required| && Unanswered(data, required[i])
    decreases |required|
  {
    if |required| == 0 then Reviewed
    else if Unanswered(data, required[0]) then Pending
    else
      var s := CalculateStatus(data, required[1..]);
      assert forall i :: 1 <= i < |required| ==> required[i] == required[1..][i - 1];
      s
  }

  /** The status depends on which fields are required, not on their order
      or repetition. */
  lemma StatusDependsOnRequiredSet(data: Rec<Value>, a: seq<string>, b: seq<string>)
    requires forall x :: x in a <==> x in b
    ensures CalculateStatus(data, a) == CalculateStatus(data, b)
  {
    if CalculateStatus(data, a) == Pending {
      var i :| 0 <= i < |a| && Unanswered(data, a[i]);
      assert a[i] in b;
    }
    if CalculateStatus(data, b) == Pending {
      var i :| 0 <= i < |b| && Unanswered(data, b[i]);
      assert b[i] in a;
    }
  }

  /** The ids of the required fields, in schema order. */
  function RequiredIds(fields: seq<FieldSpec>): (ids: seq<string>)
    ensures forall x :: x in ids <==> exists f :: f in fields && f.required && f.id == x
    decreases |fields|
  {
    if |fields| == 0 then []
    else
      var rest := RequiredIds(fields[1..]);
      assert forall f :: f in fields[1..] ==> f in fields;
      assert forall f :: f in fields ==> f == fields[0] || f in fields[1..];
      (if fields[0].required then [fields[0].id] else []) + rest
  }

  /** The schema fields of a dataset, or why there are none. */
  function DatasetFields(catalog: Catalog, datasetId: string): (r: Result<seq<FieldSpec>, ServiceError>)
    ensures r.Err? <==> datasetId !in catalog.datasetSchema
                        || catalog.datasetSchema[datasetId] !in catalog.schemaFields
    ensures r.Ok? ==> r.value == catalog.schemaFields[catalog.datasetSchema[datasetId]]
  {
    if datasetId !in catalog.datasetSchema then Err(NotFound("Dataset not found"))
    else if catalog.datasetSchema[datasetId] !in catalog.schemaFields then Err(NotFound("Schema not found"))
    else Ok(catalog.schemaFields[catalog.datasetSchema[datasetId]])
  }

  // ---------------------------------------------------------------------
  // CSV import

  /** A parsed CSV line: column header to cell. */
  type CsvRow = Rec<string>

  /** The import request. `columnMapping` maps field ids (and the key
      `image_url`) to CSV column names. */
  datatype ImportRequest = ImportRequest(rows: seq<CsvRow>, columnMapping: Rec<string>, markAllPending: bool)

  /** The counters and created rows while the lines are walked. */
  datatype Tally = Tally(hashes: set<string>, created: seq<Row>, imported: nat, duplicates: nat,
                         invalid: nat, errors: seq<string>)

  datatype ImportResponse = ImportResponse(imported: nat, skippedDuplicates: nat, skippedInvalid: nat,
                                           errors: seq<string>)

  const MaxReportedErrors := 100

  /** The row data of a CSV line: every mapped field other than `image_url`
      whose column the line has, as text. */
  function MapRowData(mapping: Rec<string>, line: CsvRow): (d: Rec<Value>)
    decreases |mapping|
  {
    if |mapping| == 0 then []
    else
      var n := |mapping| - 1;
      var prev := MapRowData(mapping[..n], line);
      var (field, column) := mapping[n];
      if field != "image_url" && Get(line, column).Some? then Set(prev, field, Str(Get(line, column).value))
      else prev
  }

  /** What a field of the mapped row data holds. */
  lemma {:induction false} MapRowDataGet(mapping: Rec<string>, line: CsvRow, f: string)
    requires UniqueKeys(mapping)
    ensures Get(MapRowData(mapping, line), f) ==
      if f != "image_url" && Get(mapping, f).Some? && Get(line, Get(mapping, f).value).Some?
      then Some(Str(Get(line, Get(mapping, f).value).value)) else None
    decreases |mapping|
  {
    if |mapping| > 0 {
      var n := |mapping| - 1;
      var init := mapping[..n];
      var (field, column) := mapping[n];
      assert UniqueKeys(init);
      MapRowDataGet(init, line, f);
      assert mapping == init + [mapping[n]];
      GetAppend(init, mapping[n], f);
      if field == f {
        assert f !in Keys(init);
      }
      var prev := MapRowData(init, line);
      if field != "image_url" && Get(line, column).Some? {
        GetSet(prev, field, Str(Get(line, column).value), f);
      }
    }
  }

  function LineError(line: int, what: string): string {
    "Row " + IntToString(line) + ": " + what
  }

  /** The image URL of a CSV line: the cell of the column mapped to
      `image_url`, when that mapping is non-empty and the line has it. */
  function LineUrl(req: ImportRequest, csvLine: CsvRow): (u: Option<string>)
    ensures u.Some? <==> Get(req.columnMapping, "image_url").Some? && Get(req.columnMapping, "image_url").value != ""
                         && Get(csvLine, Get(req.columnMapping, "image_url").value).Some?
    ensures u.Some? ==> u == Get(csvLine, Get(req.columnMapping, "image_url").value)
  {
    var column := Get(req.columnMapping, "image_url");
    if column.None? || column.value == "" then None else Get(csvLine, column.value)
  }

  /** The row a CSV line creates: the line's URL and hash, the mapped data,
      pending under `mark_all_pending` and otherwise the status the required
      fields give, with the importer as last updater. */
  predicate MadeFrom(r: Row, csvLine: CsvRow, line: int, req: ImportRequest, datasetId: string,
                     requiredIds: seq<string>, createdBy: string,
                     hashOf: string -> Result<string, string>, newId: int -> string) {
    LineUrl(req, csvLine).Some? && hashOf(LineUrl(req, csvLine).value).Ok?
    && r.id == newId(line) && r.datasetId == datasetId
    && r.imageUrl == LineUrl(req, csvLine).value && r.imageHash == hashOf(LineUrl(req, csvLine).value).value
    && r.data == MapRowData(req.columnMapping, csvLine)
    && r.status == (if req.markAllPending then Pending else CalculateStatus(r.data, requiredIds))
    && r.updatedBy == Some(createdBy)
  }

  /** One CSV line, numbered `line`: no image column or cell makes it
      invalid, an image that cannot be fetched makes it invalid, an image
      whose hash the dataset already has (also from an earlier line) is a
      duplicate, anything else becomes a new row. */
  function ImportLine(t: Tally, csvLine: CsvRow, line: int, req: ImportRequest, datasetId: string,
                      requiredIds: seq<string>, createdBy: string,
                      hashOf: string -> Result<string, string>, newId: int -> string): (t': Tally)
    ensures t'.imported + t'.duplicates + t'.invalid == t.imported + t.duplicates + t.invalid + 1
    ensures |t'.created| - |t.created| == t'.imported - t.imported
    ensures |t'.errors| - |t.errors| == t'.invalid - t.invalid
    ensures |t.created| <= |t'.created| && t'.created[..|t.created|] == t.created && t.hashes <= t'.hashes
    ensures LineUrl(req, csvLine).None? ==>
      t' == t.(invalid := t.invalid + 1, errors := t.errors + [LineError(line, "Missing image URL")])
    ensures LineUrl(req, csvLine).Some? && hashOf(LineUrl(req, csvLine).value).Err? ==>
      t' == t.(invalid := t.invalid + 1,
               errors := t.errors + [LineError(line, "Invalid image - " + hashOf(LineUrl(req, csvLine).value).error)])
    ensures LineUrl(req, csvLine).Some? && hashOf(LineUrl(req, csvLine).value).Ok?
            && hashOf(LineUrl(req, csvLine).value).value in t.hashes ==>
      t' == t.(duplicates := t.duplicates + 1)
    ensures t'.imported > t.imported ==>
      t'.imported == t.imported + 1 && |t'.created| == |t.created| + 1
      && t'.errors == t.errors && t'.duplicates == t.duplicates && t'.invalid == t.invalid
      && t'.created[|t.created|].imageHash !in t.hashes
      && t'.hashes == t.hashes + {t'.created[|t.created|].imageHash}
      && MadeFrom(t'.created[|t.created|], csvLine, line, req, datasetId, requiredIds, createdBy, hashOf, newId)
    ensures t'.imported == t.imported ==> t'.created == t.created && t'.hashes == t.hashes
  {
    match LineUrl(req, csvLine)
    case None =>
      t.(invalid := t.invalid + 1, errors := t.errors + [LineError(line, "Missing image URL")])
    case Some(url) =>
      match hashOf(url)
      case Err(message) =>
        t.(invalid := t.invalid + 1, errors := t.errors + [LineError(line, "Invalid image - " + message)])
      case Ok(hash) =>
        if hash in t.hashes then t.(duplicates := t.duplicates + 1)
        else
          var data := MapRowData(req.columnMapping, csvLine);
          var status := if req.markAllPending then Pending else CalculateStatus(data, requiredIds);
          var row := Row(newId(line), datasetId, url, hash, data, status, Some(createdBy));
          t.(hashes := t.hashes + {hash}, created := t.created + [row], imported := t.imported + 1)
  }

  /** A line with a fetchable image whose hash is new is imported. */
  lemma NewImageIsImported(t: Tally, csvLine: CsvRow, line: int, req: ImportRequest, datasetId: string,
                           requiredIds: seq<string>, createdBy: string,
                           hashOf: string -> Result<string, string>, newId: int -> string)
    requires LineUrl(req, csvLine).Some? && hashOf(LineUrl(req, csvLine).value).Ok?
    requires hashOf(LineUrl(req, csvLine).value).value !in t.hashes
    ensures ImportLine(t, csvLine, line, req, datasetId, requiredIds, createdBy, hashOf, newId).imported == t.imported + 1
  {
  }

  /** The lines from number `line` on. */
  function ImportLines(t: Tally, lines: seq<CsvRow>, line: int, req: ImportRequest, datasetId: string,
                       requiredIds: seq<string>, createdBy: string,
                       hashOf: string -> Result<string, string>, newId: int -> string): Tally
    decreases |lines|
  {
    if |lines| == 0 then t
    else ImportLines(ImportLine(t, lines[0], line, req, datasetId, requiredIds, createdBy, hashOf, newId),
                     lines[1..], line + 1, req, datasetId, requiredIds, createdBy, hashOf, newId)
  }

  /** `r` is made from one of the lines, numbered from `line`. */
  predicate FromSomeLine(r: Row, lines: seq<CsvRow>, line: int, req: ImportRequest, datasetId: string,
                         requiredIds: seq<string>, createdBy: string,
                         hashOf: string -> Result<string, string>, newId: int -> string) {
    exists k :: 0 <= k < |lines| && MadeFrom(r, lines[k], line + k, req, datasetId, requiredIds, createdBy, hashOf, newId)
  }

  /** Every row of `rows` from index `from` on is made from one of the
      lines, numbered from `line`. */
  predicate MadeFromLines(rows: seq<Row>, from: int, lines: seq<CsvRow>, line: int, req: ImportRequest,
                          datasetId: string, requiredIds: seq<string>, createdBy: string,
                          hashOf: string -> Result<string, string>, newId: int -> string) {
    forall i :: 0 <= from <= i < |rows| ==>
      FromSomeLine(rows[i], lines, line, req, datasetId, requiredIds, createdBy, hashOf, newId)
  }

  /** Walking the lines keeps the rows created before, and every row it
      creates is made from one of the lines, numbered from `line`. */
  lemma {:induction false} ImportLinesProvenance(t: Tally, lines: seq<CsvRow>, line: int, req: ImportRequest,
                                                 datasetId: string, requiredIds: seq<string>, createdBy: string,
                                                 hashOf: string -> Result<string, string>, newId: int -> string)
    ensures var t' := ImportLines(t, lines, line, req, datasetId, requiredIds, createdBy, hashOf, newId);
      |t.created| <= |t'.created| && t'.created[..|t.created|] == t.created
      && MadeFromLines(t'.created, |t.created|, lines, line, req, datasetId, requiredIds, createdBy, hashOf, newId)
    decreases |lines|
  {
    if |lines| > 0 {
      var t1 := ImportLine(t, lines[0], line, req, datasetId, requiredIds, createdBy, hashOf, newId);
      var t' := ImportLines(t1, lines[1..], line + 1, req, datasetId, requiredIds, createdBy, hashOf, newId);
      ImportLinesProvenance(t1, lines[1..], line + 1, req, datasetId, requiredIds, createdBy, hashOf, newId);
      assert t'.created[..|t.created|] == t.created by {
        assert t'.created[..|t.created|] == t'.created[..|t1.created|][..|t.created|];
      }
      var n := |t.created|;
      if |t1.created| == n {
        MadeFromLinesCons(t'.created, n, lines, line, req, datasetId, requiredIds, createdBy, hashOf, newId, false);
      } else {
        assert t'.created[n] == t'.created[..|t1.created|][n] == t1.created[n];
        MadeFromLinesCons(t'.created, n, lines, line, req, datasetId, requiredIds, createdBy, hashOf, newId, true);
      }
    }
  }

  /** The step: rows made from the later lines, preceded by no row or by a
      row made from the first line, are made from the lines. */
  lemma MadeFromLinesCons(rows: seq<Row>, n: nat, lines: seq<CsvRow>, line: int, req: ImportRequest,
                          datasetId: string, requiredIds: seq<string>, createdBy: string,
                          hashOf: string -> Result<string, string>, newId: int -> string, first: bool)
    requires |lines| > 0
    requires MadeFromLines(rows, if first then n + 1 else n, lines[1..], line + 1, req, datasetId, requiredIds,
                           createdBy, hashOf, newId)
    requires first ==> n < |rows| && MadeFrom(rows[n], lines[0], line, req, datasetId, requiredIds, createdBy, hashOf, newId)
    ensures MadeFromLines(rows, n, lines, line, req, datasetId, requiredIds, createdBy, hashOf, newId)
  {
    forall i | 0 <= n <= i < |rows|
      ensures FromSomeLine(rows[i], lines, line, req, datasetId, requiredIds, createdBy, hashOf, newId)
    {
      if first && i == n {
        assert MadeFrom(rows[i], lines[0], line + 0, req, datasetId, requiredIds, createdBy, hashOf, newId);
      } else {
        FromLaterLine(rows[i], lines, line, req, datasetId, requiredIds, createdBy, hashOf, newId);
      }
    }
  }

  /** A row made from a later line is made from one of the lines. */
  lemma FromLaterLine(r: Row, lines: seq<CsvRow>, line: int, req: ImportRequest, datasetId: string,
                      requiredIds: seq<string>, createdBy: string,
                      hashOf: string -> Result<string, string>, newId: int -> string)
    requires |lines| > 0
    requires FromSomeLine(r, lines[1..], line + 1, req, datasetId, requiredIds, createdBy, hashOf, newId)
    ensures FromSomeLine(r, lines, line, req, datasetId, requiredIds, createdBy, hashOf, newId)
  {
    var k :| 0 <= k < |lines[1..]|
      && MadeFrom(r, lines[1..][k], line + 1 + k, req, datasetId, requiredIds, createdBy, hashOf, newId);
    assert lines[1..][k] == lines[k + 1];
    assert MadeFrom(r, lines[k + 1], line + (k + 1), req, datasetId, requiredIds, createdBy, hashOf, newId);
  }

  /** Every counted line is counted once, every import creates one row and
      every invalid line reports one error. */
  lemma {:induction false} ImportCounts(t: Tally, lines: seq<CsvRow>, line: int, req: ImportRequest, datasetId: string,
                                        requiredIds: seq<string>, createdBy: string,
                                        hashOf: string -> Result<string, string>, newId: int -> string)
    ensures var t' := ImportLines(t, lines, line, req, datasetId, requiredIds, createdBy, hashOf, newId);
      t'.imported + t'.duplicates + t'.invalid == t.imported + t.duplicates + t.invalid + |lines|
      && |t'.created| - |t.created| == t'.imported - t.imported
      && |t'.errors| - |t.errors| == t'.invalid - t.invalid
    decreases |lines|
  {
    if |lines| > 0 {
      var t1 := ImportLine(t, lines[0], line, req, datasetId, requiredIds, createdBy, hashOf, newId);
      ImportCounts(t1, lines[1..], line + 1, req, datasetId, requiredIds, createdBy, hashOf, newId);
    }
  }

  /** The created rows have pairwise different hashes, none of which the
      dataset had before the import, and the tally knows all of them. */
  predicate FreshHashes(t: Tally, before: set<string>) {
    before <= t.hashes
    && (forall i :: 0 <= i < |t.created| ==> t.created[i].imageHash in t.hashes && t.created[i].imageHash !in before)
    && (forall i, j :: 0 <= i < j < |t.created| ==> t.created[i].imageHash != t.created[j].imageHash)
  }

  /** A line either creates nothing and learns no hash, or creates one row
      whose hash is new and is learnt. */
  lemma ImportLineHashes(t: Tally, csvLine: CsvRow, line: int, req: ImportRequest,
                         datasetId: string, requiredIds: seq<string>, createdBy: string,
                         hashOf: string -> Result<string, string>, newId: int -> string)
    ensures var t' := ImportLine(t, csvLine, line, req, datasetId, requiredIds, createdBy, hashOf, newId);
      var n := |t.created|;
      (|t'.created| == n && t'.hashes == t.hashes)
      || (|t'.created| == n + 1 && t'.created[n].imageHash !in t.hashes
          && t'.hashes == t.hashes + {t'.created[n].imageHash})
  {
  }

  lemma ImportLineKeepsFresh(t: Tally, before: set<string>, csvLine: CsvRow, line: int, req: ImportRequest,
                             datasetId: string, requiredIds: seq<string>, createdBy: string,
                             hashOf: string -> Result<string, string>, newId: int -> string)
    requires FreshHashes(t, before)
    ensures FreshHashes(ImportLine(t, csvLine, line, req, datasetId, requiredIds, createdBy, hashOf, newId), before)
  {
    ImportLineHashes(t, csvLine, line, req, datasetId, requiredIds, createdBy, hashOf, newId);
    GrowKeepsFresh(t, ImportLine(t, csvLine, line, req, datasetId, requiredIds, createdBy, hashOf, newId), before);
  }

  /** A tally that keeps its rows and either stays put or adds one row with
      a hash it did not know keeps the hashes fresh. */
  lemma GrowKeepsFresh(t: Tally, t': Tally, before: set<string>)
    requires FreshHashes(t, before)
    requires |t.created| <= |t'.created| && t'.created[..|t.created|] == t.created
    requires var n := |t.created|;
      (|t'.created| == n && t'.hashes == t.hashes)
      || (|t'.created| == n + 1 && t'.created[n].imageHash !in t.hashes
          && t'.hashes == t.hashes + {t'.created[n].imageHash})
    ensures FreshHashes(t', before)
  {
    var n := |t.created|;
    if |t'.created| > n {
      forall i | 0 <= i < |t'.created|
        ensures t'.created[i].imageHash in t'.hashes && t'.created[i].imageHash !in before
      {
        if i < n {
          assert t'.created[i] == t.created[i];
        }
      }
      forall i, j | 0 <= i < j < |t'.created|
        ensures t'.created[i].imageHash != t'.created[j].imageHash
      {
        assert t'.created[i] == t.created[i];
        if j < n {
          assert t'.created[j] == t.created[j];
        }
      }
    } else {
      assert t'.created == t.created;
    }
  }

  /** No two rows of one import share a hash, and no imported row repeats
      a hash the dataset already had: a repeated image, even within the same
      file, is skipped as a duplicate. */
  lemma {:induction false} ImportKeepsFresh(t: Tally, before: set<string>, lines: seq<CsvRow>, line: int, req: ImportRequest,
                                            datasetId: string, requiredIds: seq<string>, createdBy: string,
                                            hashOf: string -> Result<string, string>, newId: int -> string)
    requires FreshHashes(t, before)
    ensures FreshHashes(ImportLines(t, lines, line, req, datasetId, requiredIds, createdBy, hashOf, newId), before)
    decreases |lines|
  {
    if |lines| > 0 {
      ImportLineKeepsFresh(t, before, lines[0], line, req, datasetId, requiredIds, createdBy, hashOf, newId);
      var t1 := ImportLine(t, lines[0], line, req, datasetId, requiredIds, createdBy, hashOf, newId);
      ImportKeepsFresh(t1, before, lines[1..], line + 1, req, datasetId, requiredIds, createdBy, hashOf, newId);
    }
  }

  /** `import_csv`: the lines are numbered from 2 (line 1 is the header);
      the response carries the counters and at most the first hundred
      errors, and the created rows are returned alongside. `existing` is the
      set of image hashes the dataset already holds. */
  function ImportCsv(catalog: Catalog, datasetId: string, req: ImportRequest, existing: set<string>, createdBy: string,
                     hashOf: string -> Result<string, string>, newId: int -> string)
    : (r: Result<(ImportResponse, seq<Row>), ServiceError>)
    ensures r.Err? <==> DatasetFields(catalog, datasetId).Err?
    ensures r.Ok? ==> (var (resp, rows) := r.value;
                       resp.imported + resp.skippedDuplicates + resp.skippedInvalid == |req.rows|
                       && |rows| == resp.imported && |resp.errors| <= MaxReportedErrors
                       && (resp.skippedInvalid <= MaxReportedErrors ==> |resp.errors| == resp.skippedInvalid)
                       && (forall i :: 0 <= i < |rows| ==> rows[i].imageHash !in existing)
                       && (forall i, j :: 0 <= i < j < |rows| ==> rows[i].imageHash != rows[j].imageHash))
  {
    match DatasetFields(catalog, datasetId)
    case Err(e) => Err(e)
    case Ok(fields) =>
      var start := Tally(existing, [], 0, 0, 0, []);
      var t := ImportLines(start, req.rows, 2, req, datasetId, RequiredIds(fields), createdBy, hashOf, newId);
      ImportCounts(start, req.rows, 2, req, datasetId, RequiredIds(fields), createdBy, hashOf, newId);
      ImportKeepsFresh(start, existing, req.rows, 2, req, datasetId, RequiredIds(fields), createdBy, hashOf, newId);
      var errors := if |t.errors| <= MaxReportedErrors then t.errors else t.errors[..MaxReportedErrors];
      Ok((ImportResponse(t.imported, t.duplicates, t.invalid, errors), t.created))
  }

  /** Every row the import creates is made from one of the request's lines,
      the first data line being line 2: its image URL and hash, the mapped
      data, the computed or pending status and the creator. */
  lemma ImportedRowsFromLines(catalog: Catalog, datasetId: string, req: ImportRequest, existing: set<string>,
                              createdBy: string, hashOf: string -> Result<string, string>, newId: int -> string)
    requires DatasetFields(catalog, datasetId).Ok?
    ensures var r := ImportCsv(catalog, datasetId, req, existing, createdBy, hashOf, newId);
      var required := RequiredIds(DatasetFields(catalog, datasetId).value);
      r.Ok? && forall i :: 0 <= i < |r.value.1| ==>
        FromSomeLine(r.value.1[i], req.rows, 2, req, datasetId, required, createdBy, hashOf, newId)
  {
    var required := RequiredIds(DatasetFields(catalog, datasetId).value);
    var start := Tally(existing, [], 0, 0, 0, []);
    ImportLinesProvenance(start, req.rows, 2, req, datasetId, required, createdBy, hashOf, newId);
  }

  /** The first data line is reported as line 2. */
  lemma FirstLineIsLineTwo(catalog: Catalog, datasetId: string, req: ImportRequest, existing: set<string>,
                           createdBy: string, hashOf: string -> Result<string, string>, newId: int -> string)
    requires DatasetFields(catalog, datasetId).Ok?
    requires |req.rows| > 0 && Get(req.columnMapping, "image_url").None?
    ensures var r := ImportCsv(catalog, datasetId, req, existing, createdBy, hashOf, newId);
      r.Ok? && |r.value.0.errors| > 0 && r.value.0.errors[0] == "Row 2: Missing image URL"
  {
    var required := RequiredIds(DatasetFields(catalog, datasetId).value);
    var start := Tally(existing, [], 0, 0, 0, []);
    ReportedErrors(catalog, datasetId, req, existing, createdBy, hashOf, newId);
    MissingImageFirst(start, req.rows, req, datasetId, required, createdBy, hashOf, newId);
  }

  /** The response reports the tally's errors, cut after the first hundred. */
  lemma ReportedErrors(catalog: Catalog, datasetId: string, req: ImportRequest, existing: set<string>,
                       createdBy: string, hashOf: string -> Result<string, string>, newId: int -> string)
    requires DatasetFields(catalog, datasetId).Ok?
    ensures var r := ImportCsv(catalog, datasetId, req, existing, createdBy, hashOf, newId);
      var t := ImportLines(Tally(existing, [], 0, 0, 0, []), req.rows, 2, req, datasetId,
                           RequiredIds(DatasetFields(catalog, datasetId).value), createdBy, hashOf, newId);
      r.Ok? && r.value.0.errors == if |t.errors| <= MaxReportedErrors then t.errors else t.errors[..MaxReportedErrors]
  {
  }

  /** With no image column mapped, the line numbered 2 reports a missing
      image URL right after the errors already there. */
  lemma MissingImageFirst(t: Tally, lines: seq<CsvRow>, req: ImportRequest, datasetId: string,
                          requiredIds: seq<string>, createdBy: string,
                          hashOf: string -> Result<string, string>, newId: int -> string)
    requires |lines| > 0 && Get(req.columnMapping, "image_url").None?
    ensures var t' := ImportLines(t, lines, 2, req, datasetId, requiredIds, createdBy, hashOf, newId);
      |t'.errors| > |t.errors| && t'.errors[|t.errors|] == "Row 2: Missing image URL"
  {
    var t1 := ImportLine(t, lines[0], 2, req, datasetId, requiredIds, createdBy, hashOf, newId);
    assert t1.errors == t.errors + [LineError(2, "Missing image URL")];
    PrefixKept(t1, lines[1..], 3, req, datasetId, requiredIds, createdBy, hashOf, newId);
    assert LineError(2, "Missing image URL") == "Row 2: Missing image URL";
    var t' := ImportLines(t1, lines[1..], 3, req, datasetId, requiredIds, createdBy, hashOf, newId);
    assert t'.errors[|t.errors|] == t'.errors[..|t1.errors|][|t.errors|];
  }

  /** Later lines only add errors after the ones already reported. */
  lemma {:induction false} PrefixKept(t: Tally, lines: seq<CsvRow>, line: int, req: ImportRequest, datasetId: string,
                                      requiredIds: seq<string>, createdBy: string,
                                      hashOf: string -> Result<string, string>, newId: int -> string)
    ensures var t' := ImportLines(t, lines, line, req, datasetId, requiredIds, createdBy, hashOf, newId);
      |t.errors| <= |t'.errors| && t'.errors[..|t.errors|] == t.errors
    decreases |lines|
  {
    if |lines| > 0 {
      var t1 := ImportLine(t, lines[0], line, req, datasetId, requiredIds, createdBy, hashOf, newId);
      PrefixKept(t1, lines[1..], line + 1, req, datasetId, requiredIds, createdBy, hashOf, newId);
      var t' := ImportLines(t1, lines[1..], line + 1, req, datasetId, requiredIds, createdBy, hashOf, newId);
      assert t1.errors[..|t.errors|] == t.errors;
      assert t'.errors[..|t.errors|] == t'.errors[..|t1.errors|][..|t.errors|];
    }
  }

  // ---------------------------------------------------------------------
  // Update

  /** A row update; `None` leaves the part alone. */
  datatype RowUpdate = RowUpdate(imageUrl: Option<string>, data: Option<Rec<Value>>, status: Option<RowStatus>)

  /** The image changes only for a non-empty URL different from the
      stored one. */
  predicate ChangesImage(row: Row, upd: RowUpdate) {
    upd.imageUrl.Some? && upd.imageUrl.value != "" && upd.imageUrl.value != row.imageUrl
  }

  /** Another row of the same dataset already has the hash. */
  predicate HashTaken(rows: map<string, Row>, row: Row, hash: string) {
    exists id :: id in rows && id != row.id && rows[id].datasetId == row.datasetId && rows[id].imageHash == hash
  }

  /** `update`: a new image is fetched, hashed and checked against the
      dataset's other rows; new data replaces the old and recomputes the
      status; an explicit status wins over the recomputed one. */
  function UpdateRow(rows: map<string, Row>, catalog: Catalog, rowId: string, upd: RowUpdate, updatedBy: string,
                     hashOf: string -> Result<string, string>): (r: Result<Row, ServiceError>)
    ensures rowId !in rows ==> r == Err(NotFound("Row not found"))
    ensures r.Ok? ==> (rowId in rows && r.value.id == rows[rowId].id && r.value.datasetId == rows[rowId].datasetId
                       && r.value.updatedBy == Some(updatedBy))
    ensures r.Ok? && !ChangesImage(rows[rowId], upd) ==>
      r.value.imageUrl == rows[rowId].imageUrl && r.value.imageHash == rows[rowId].imageHash
    ensures r.Ok? && ChangesImage(rows[rowId], upd) ==>
      (r.value.imageUrl == upd.imageUrl.value && hashOf(upd.imageUrl.value) == Ok(r.value.imageHash)
       && !HashTaken(rows, rows[rowId], r.value.imageHash))
    ensures r.Ok? ==> r.value.data == upd.data.GetOr(rows[rowId].data)
    ensures r.Ok? && upd.status.Some? ==> r.value.status == upd.status.value
    ensures r.Ok? && upd.status.None? && upd.data.None? ==> r.value.status == rows[rowId].status
  {
    if rowId !in rows then Err(NotFound("Row not found"))
    else
      var row := rows[rowId];
      match DatasetFields(catalog, row.datasetId)
      case Err(_) => Err(ServerError)
      case Ok(fields) =>
        var imaged :=
          if !ChangesImage(row, upd) then Ok(row)
          else match hashOf(upd.imageUrl.value)
            case Err(message) => Err(Validation(message))
            case Ok(hash) =>
              if HashTaken(rows, row, hash) then Err(Duplicate("This image already exists in the dataset"))
              else Ok(row.(imageUrl := upd.imageUrl.value, imageHash := hash));
        match imaged
        case Err(e) => Err(e)
        case Ok(row1) =>
          var row2 := if upd.data.Some? then row1.(data := upd.data.value, status := CalculateStatus(upd.data.value, RequiredIds(fields))) else row1;
          var row3 := if upd.status.Some? then row2.(status := upd.status.value) else row2;
          Ok(row3.(updatedBy := Some(updatedBy)))
  }

  /** When the image does not change, the image is never fetched: the
      outcome is the same whatever fetching would have given. */
  lemma UpdateWithoutNewImageFetchesNothing(rows: map<string, Row>, catalog: Catalog, rowId: string, upd: RowUpdate,
                                            updatedBy: string, h1: string -> Result<string, string>,
                                            h2: string -> Result<string, string>)
    requires rowId in rows && !ChangesImage(rows[rowId], upd)
    ensures UpdateRow(rows, catalog, rowId, upd, updatedBy, h1) == UpdateRow(rows, catalog, rowId, upd, updatedBy, h2)
  {
  }

  /** New data without an explicit status recomputes the status from the
      schema's required fields. */
  lemma UpdateRecomputesStatus(rows: map<string, Row>, catalog: Catalog, rowId: string, upd: RowUpdate,
                               updatedBy: string, hashOf: string -> Result<string, string>)
    requires upd.data.Some? && upd.status.None?
    requires UpdateRow(rows, catalog, rowId, upd, updatedBy, hashOf).Ok?
    ensures var fields := DatasetFields(catalog, rows[rowId].datasetId);
      fields.Ok? && UpdateRow(rows, catalog, rowId, upd, updatedBy, hashOf).value.status
                    == CalculateStatus(upd.data.value, RequiredIds(fields.value))
  {
  }

  /** The duplicate check of an update as the repository writes it: the
      exclusion of the updated row lands on the outer query, which ranges
      over every stored row, while the inner existence test still sees the
      updated row itself. The answer is yes when some other row is stored,
      in any dataset, and some row of the dataset, the updated one
      included, has the hash. */
  predicate HashTakenAsWritten(rows: map<string, Row>, row: Row, hash: string) {
    (exists id :: id in rows && id != row.id)
    && exists id :: id in rows && rows[id].datasetId == row.datasetId && rows[id].imageHash == hash
  }

  /** Whatever the corrected check refuses, the written one refuses too. */
  lemma HashTakenAsWrittenRefusesMore(rows: map<string, Row>, row: Row, hash: string)
    requires HashTaken(rows, row, hash)
    ensures HashTakenAsWritten(rows, row, hash)
  {
    var id :| id in rows && id != row.id && rows[id].datasetId == row.datasetId && rows[id].imageHash == hash;
    assert id in rows && id != row.id;
  }

  /** `update` with the duplicate check as written: a new image whose hash
      the written check reports is refused as a duplicate, everything else
      goes as in `UpdateRow`. */
  function UpdateRowAsWritten(rows: map<string, Row>, catalog: Catalog, rowId: string, upd: RowUpdate,
                              updatedBy: string, hashOf: string -> Result<string, string>)
    : (r: Result<Row, ServiceError>)
    ensures rowId in rows && ChangesImage(rows[rowId], upd) && DatasetFields(catalog, rows[rowId].datasetId).Ok?
            && hashOf(upd.imageUrl.value).Ok?
            && HashTakenAsWritten(rows, rows[rowId], hashOf(upd.imageUrl.value).value)
            ==> r == Err(Duplicate("This image already exists in the dataset"))
    ensures r.Ok? ==> UpdateRow(rows, catalog, rowId, upd, updatedBy, hashOf) == r
  {
    if rowId in rows && ChangesImage(rows[rowId], upd) && DatasetFields(catalog, rows[rowId].datasetId).Ok?
       && hashOf(upd.imageUrl.value).Ok? && HashTakenAsWritten(rows, rows[rowId], hashOf(upd.imageUrl.value).value)
    then Err(Duplicate("This image already exists in the dataset"))
    else UpdateRow(rows, catalog, rowId, upd, updatedBy, hashOf)
  }

  /** The two checks differ on a row re-pointed to a new URL serving its
      own image: with any other row stored, the written check refuses the
      update as a duplicate of the row itself, while the corrected one lets
      it through when no other row of the dataset has that hash. */
  lemma UpdateToOwnImageRefusedAsWritten(rows: map<string, Row>, catalog: Catalog, rowId: string, upd: RowUpdate,
                                         updatedBy: string, hashOf: string -> Result<string, string>, other: string)
    requires rowId in rows && rows[rowId].id == rowId && other in rows && other != rowId
    requires ChangesImage(rows[rowId], upd) && DatasetFields(catalog, rows[rowId].datasetId).Ok?
    requires hashOf(upd.imageUrl.value) == Ok(rows[rowId].imageHash)
    requires forall id :: id in rows && id != rowId ==>
      rows[id].datasetId != rows[rowId].datasetId || rows[id].imageHash != rows[rowId].imageHash
    ensures UpdateRowAsWritten(rows, catalog, rowId, upd, updatedBy, hashOf)
            == Err(Duplicate("This image already exists in the dataset"))
    ensures UpdateRow(rows, catalog, rowId, upd, updatedBy, hashOf).Ok?
  {
    assert HashTakenAsWritten(rows, rows[rowId], rows[rowId].imageHash) by {
      assert other in rows && other != rows[rowId].id;
      assert rowId in rows && rows[rowId].datasetId == rows[rowId].datasetId;
    }
    assert !HashTaken(rows, rows[rowId], rows[rowId].imageHash);
  }

  /** A concrete case: row `a` of dataset `d` is re-pointed from `u` to `w`,
      which serves the same image, while row `b` of another dataset is
      stored. */
  lemma OwnImageExample()
    ensures var rows := map["a" := Row("a", "d", "u", "h", [], Reviewed, None),
                             "b" := Row("b", "e", "v", "k", [], Reviewed, None)];
      var catalog := Catalog(map["d" := "s"], map["s" := []]);
      var upd := RowUpdate(Some("w"), None, None);
      var hashOf := (url: string) => Ok("h");
      UpdateRowAsWritten(rows, catalog, "a", upd, "me", hashOf) == Err(Duplicate("This image already exists in the dataset"))
      && UpdateRow(rows, catalog, "a", upd, "me", hashOf).Ok?
  {
    var rows := map["a" := Row("a", "d", "u", "h", [], Reviewed, None), "b" := Row("b", "e", "v", "k", [], Reviewed, None)];
    var catalog := Catalog(map["d" := "s"], map["s" := []]);
    var upd := RowUpdate(Some("w"), None, None);
    var hashOf := (url: string) => Ok("h");
    UpdateToOwnImageRefusedAsWritten(rows, catalog, "a", upd, "me", hashOf, "b");
  }

  /** The corrected check never counts the updated row: the outcome of an
      update does not depend on the hash the row had before. */
  lemma UpdateIgnoresOwnHash(rows: map<string, Row>, catalog: Catalog, rowId: string, upd: RowUpdate,
                             updatedBy: string, hashOf: string -> Result<string, string>, oldHash: string)
    requires rowId in rows && rows[rowId].id == rowId && ChangesImage(rows[rowId], upd)
    ensures var rows' := rows[rowId := rows[rowId].(imageHash := oldHash)];
      UpdateRow(rows', catalog, rowId, upd, updatedBy, hashOf).Ok? == UpdateRow(rows, catalog, rowId, upd, updatedBy, hashOf).Ok?
  {
    var rows' := rows[rowId := rows[rowId].(imageHash := oldHash)];
    forall hash ensures HashTaken(rows', rows'[rowId], hash) == HashTaken(rows, rows[rowId], hash) {
      if HashTaken(rows, rows[rowId], hash) {
        var id :| id in rows && id != rows[rowId].id && rows[id].datasetId == rows[rowId].datasetId && rows[id].imageHash == hash;
        assert rows'[id] == rows[id];
      }
      if HashTaken(rows', rows'[rowId], hash) {
        var id :| id in rows' && id != rows'[rowId].id && rows'[id].datasetId == rows'[rowId].datasetId && rows'[id].imageHash == hash;
        assert rows'[id] == rows[id];
      }
    }
  }

  // ---------------------------------------------------------------------
  // Export

  const FixedBefore: seq<string> := ["image_url"]
  const FixedAfter: seq<string> := ["status", "created_at", "updated_at", "updated_by"]

  /** The field names, in schema order. */
  function FieldNames(fields: seq<FieldSpec>): (names: seq<string>)
    ensures |names| == |fields| && forall i :: 0 <= i < |fields| ==> names[i] == fields[i].name
  {
    seq(|fields|, i requires 0 <= i < |fields| => fields[i].name)
  }

  /** The export's header line. */
  function ExportHeader(fields: seq<FieldSpec>): (h: seq<string>)
    ensures |h| == |fields| + 5
    ensures h[0] == "image_url" && h[|fields| + 1..] == FixedAfter
    ensures forall i :: 0 <= i < |fields| ==> h[i + 1] == fields[i].name
  {
    FixedBefore + FieldNames(fields) + FixedAfter
  }

  /** How the CSV writer prints a value. */
  function CellText(v: Value): string {
    match v
    case Str(s) => s
    case Bool(b) => if b then "True" else "False"
    case Num(n) => IntToString(n)
    case Null => ""
  }

  /** What an exported row carries besides the row itself. */
  datatype RowMeta = RowMeta(createdAt: Option<string>, updatedAt: Option<string>, updaterEmail: Option<string>)

  /** The cells of the fields, keyed by field name. */
  function FieldCells(row: Row, fields: seq<FieldSpec>): (cells: seq<(string, string)>)
    ensures |cells| == |fields|
    ensures forall i :: 0 <= i < |fields| ==>
      cells[i] == (fields[i].name, CellText(Get(row.data, fields[i].id).GetOr(Str(""))))
  {
    seq(|fields|, i requires 0 <= i < |fields| => (fields[i].name, CellText(Get(row.data, fields[i].id).GetOr(Str("")))))
  }

  /** The dictionary an exported row is built as: the image URL, one entry
      per field name, then the status, the timestamps and the updater. Later
      entries win on a repeated key. */
  function ExportEntries(row: Row, fields: seq<FieldSpec>, meta: RowMeta): (e: seq<(string, string)>)
    ensures |e| == |fields| + 5
    ensures e[0] == ("image_url", row.imageUrl)
    ensures forall i :: 0 <= i < |fields| ==> e[i + 1] == FieldCells(row, fields)[i]
    ensures forall i :: 0 <= i < |fields| ==> e[i + 1].0 == fields[i].name
    ensures e[|fields| + 1] == ("status", StatusName(row.status))
    ensures e[|fields| + 2].0 == "created_at" && e[|fields| + 3].0 == "updated_at" && e[|fields| + 4].0 == "updated_by"
  {
    var cells := FieldCells(row, fields);
    var tail := [("status", StatusName(row.status)), ("created_at", meta.createdAt.GetOr("")),
                 ("updated_at", meta.updatedAt.GetOr("")), ("updated_by", meta.updaterEmail.GetOr(""))];
    var n := |fields|;
    seq(n + 5, i requires 0 <= i < n + 5 =>
      if i == 0 then ("image_url", row.imageUrl) else if i <= n then cells[i - 1] else tail[i - n - 1])
  }

  /** One written CSV line: each header column's value in the row's
      dictionary. */
  function ExportLine(row: Row, fields: seq<FieldSpec>, meta: RowMeta): (line: seq<string>)
    ensures |line| == |fields| + 5
  {
    var d := FromEntries(ExportEntries(row, fields, meta));
    var header := ExportHeader(fields);
    seq(|header|, i requires 0 <= i < |header| => Get(d, header[i]).GetOr(""))
  }

  /** The rows an export writes, in the listing's order: only reviewed
      rows unless every row is asked for. */
  function ExportRows(rows: seq<Row>, onlyReviewed: bool): (r: seq<Row>)
    ensures onlyReviewed ==> forall x :: x in r <==> x in rows && x.status == Reviewed
    ensures !onlyReviewed ==> r == rows
  {
    if onlyReviewed then Filter(rows, (x: Row) => x.status == Reviewed) else rows
  }

  /** Field names that are distinct and clash with no fixed column. */
  predicate CleanNames(fields: seq<FieldSpec>) {
    Distinct(FieldNames(fields)) && forall i :: 0 <= i < |fields| ==> !IsFixedColumn(fields[i].name)
  }

  predicate IsFixedColumn(name: string) {
    name == "image_url" || name == "status" || name == "created_at" || name == "updated_at" || name == "updated_by"
  }

  /** A column of a written line holds the value of the last entry with
      that column's key. */
  lemma ExportLineAt(row: Row, fields: seq<FieldSpec>, meta: RowMeta, col: int, i: int)
    requires 0 <= col < |fields| + 5 && 0 <= i < |fields| + 5
    ensures var entries, key := ExportEntries(row, fields, meta), ExportHeader(fields)[col];
      entries[i].0 == key && (forall j :: i < j < |fields| + 5 ==> entries[j].0 != key)
      ==> ExportLine(row, fields, meta)[col] == entries[i].1
  {
    var entries := ExportEntries(row, fields, meta);
    if entries[i].0 == ExportHeader(fields)[col] && forall j :: i < j < |fields| + 5 ==> entries[j].0 != ExportHeader(fields)[col] {
      GetFromEntries(entries, entries[i].0);
      LastValueAt(entries, i);
    }
  }

  /** The first column of a written line is the image URL whatever the
      field names. */
  lemma ExportLineUrl(row: Row, fields: seq<FieldSpec>, meta: RowMeta)
    requires forall i :: 0 <= i < |fields| ==> fields[i].name != "image_url"
    ensures ExportLine(row, fields, meta)[0] == row.imageUrl
  {
    var entries := ExportEntries(row, fields, meta);
    forall j | 0 < j < |fields| + 5 ensures entries[j].0 != "image_url" {
      if j <= |fields| { assert entries[j].0 == fields[j - 1].name; }
    }
    ExportLineAt(row, fields, meta, 0, 0);
  }

  /** With clean field names, the column of field `k` holds the field's
      data, or "" when the row has none. */
  lemma ExportLineField(row: Row, fields: seq<FieldSpec>, meta: RowMeta, k: int)
    requires CleanNames(fields) && 0 <= k < |fields|
    ensures ExportLine(row, fields, meta)[k + 1] == CellText(Get(row.data, fields[k].id).GetOr(Str("")))
  {
    var entries := ExportEntries(row, fields, meta);
    var n := |fields|;
    var name := fields[k].name;
    forall j | k + 1 < j <= n ensures entries[j].0 != name {
      NamesDiffer(fields, k, j - 1);
    }
    assert entries[k + 1] == (name, CellText(Get(row.data, fields[k].id).GetOr(Str(""))));
    ExportLineAt(row, fields, meta, k + 1, k + 1);
  }

  lemma NamesDiffer(fields: seq<FieldSpec>, a: int, b: int)
    requires CleanNames(fields) && 0 <= a < b < |fields|
    ensures fields[a].name != fields[b].name
  {
    assert FieldNames(fields)[a] != FieldNames(fields)[b];
  }

  /** The status column holds the row's status. */
  lemma ExportLineStatus(row: Row, fields: seq<FieldSpec>, meta: RowMeta)
    ensures ExportLine(row, fields, meta)[|fields| + 1] == StatusName(row.status)
  {
    ExportLineAt(row, fields, meta, |fields| + 1, |fields| + 1);
  }
}

=== FILE: schema_service.dfy ===
/** Schema management: looking a schema up, creating one (optionally as a
    copy of another schema's fields), updating its name, description and
    fields, and deleting it. Schema names are unique within a team. */
module SchemaService {
  import opened Common
  import opened Records
  import opened Labels
  import opened ServiceErrors
  import opened ReviewStore

  /** A field as a request describes it; `config` is absent when not sent. */
  datatype FieldInput = FieldInput(name: string, typ: string, required: bool, defaultValue: Option<string>,
                                   position: int, config: Option<Rec<Value>>)

  datatype SchemaCreate = SchemaCreate(name: string, description: Option<string>, fields: seq<FieldInput>,
                                       copyFrom: Option<string>)

  /** An update: every part is optional. */
  datatype SchemaUpdate = SchemaUpdate(name: Option<string>, description: Option<string>,
                                       fields: Option<seq<FieldInput>>)

  const SchemaNotFound := "Schema not found"
  const SourceNotFound := "Source schema not found"
  const DuplicateName := "A schema with this name already exists"

  /** Looking a schema up by id. */
  function GetSchema(db: Db, id: string): (r: Result<Schema, ServiceError>)
    ensures r.Ok? <==> id in db.schemas
    ensures r.Ok? ==> r.value == db.schemas[id] && r.value in db.schemas.Values
    ensures r.Err? ==> r.error == NotFound(SchemaNotFound)
  {
    if id in db.schemas then Ok(db.schemas[id]) else Err(NotFound(SchemaNotFound))
  }

  /** Two fields define the same thing: everything but the id agrees. */
  predicate SameDefinition(a: Field, b: Field) {
    a.name == b.name && a.typ == b.typ && a.required == b.required && a.defaultValue == b.defaultValue
    && a.position == b.position && a.config == b.config
  }

  /** Whether a stored field is what an input describes; a missing config
      is stored as an empty one. */
  predicate Describes(f: Field, input: FieldInput) {
    f.name == input.name && f.typ == input.typ && f.required == input.required
    && f.defaultValue == input.defaultValue && f.position == input.position
    && f.config == input.config.GetOr([])
  }

  /** The fields created from the inputs, with fresh ids in request order. */
  function NewFields(inputs: seq<FieldInput>, fieldId: nat -> string): (fs: seq<Field>)
    ensures |fs| == |inputs|
    ensures forall i :: 0 <= i < |inputs| ==> Describes(fs[i], inputs[i]) && fs[i].id == fieldId(i)
  {
    seq(|inputs|, i requires 0 <= i < |inputs| =>
      Field(fieldId(i), inputs[i].name, inputs[i].typ, inputs[i].required, inputs[i].defaultValue,
            inputs[i].position, inputs[i].config.GetOr([])))
  }

  /** Fields in the order a schema's fields are read back: by position. */
  predicate ByPosition(fs: seq<Field>) {
    forall i :: 0 <= i < |fs| - 1 ==> fs[i].position <= fs[i + 1].position
  }

  predicate InputsByPosition(inputs: seq<FieldInput>) {
    forall i, j :: 0 <= i < j < |inputs| ==> inputs[i].position <= inputs[j].position
  }

  /** `f` placed before the first field at the same or a later position. */
  function InsertByPosition(f: Field, fs: seq<Field>): (r: seq<Field>)
    ensures |r| == |fs| + 1 && (r[0] == f || (|fs| > 0 && r[0] == fs[0]))
    ensures multiset(r) == multiset(fs) + multiset{f}
  {
    if |fs| == 0 || f.position <= fs[0].position then [f] + fs
    else
      assert fs == [fs[0]] + fs[1..];
      [fs[0]] + InsertByPosition(f, fs[1..])
  }

  lemma {:induction false} InsertKeepsOrder(f: Field, fs: seq<Field>)
    requires ByPosition(fs)
    ensures ByPosition(InsertByPosition(f, fs))
  {
    if |fs| > 0 && f.position > fs[0].position {
      var tail := fs[1..];
      assert ByPosition(tail) by {
        forall i | 0 <= i < |tail| - 1 ensures tail[i].position <= tail[i + 1].position {
          assert tail[i] == fs[i + 1] && tail[i + 1] == fs[i + 2];
        }
      }
      InsertKeepsOrder(f, tail);
      var rest := InsertByPosition(f, tail);
      var r := [fs[0]] + rest;
      forall i | 0 <= i < |r| - 1 ensures r[i].position <= r[i + 1].position {
        if i > 0 {
          assert r[i] == rest[i - 1] && r[i + 1] == rest[i];
        }
      }
    }
  }

  /** The fields sorted by position, as the database returns them. */
  function SortByPosition(fs: seq<Field>): (r: seq<Field>)
    ensures |r| == |fs| && multiset(r) == multiset(fs)
    ensures ByPosition(r)
  {
    if |fs| == 0 then []
    else
      assert fs == [fs[0]] + fs[1..];
      var rest := SortByPosition(fs[1..]);
      InsertKeepsOrder(fs[0], rest);
      InsertByPosition(fs[0], rest)
  }

  /** Fields already in position order are read back as they are. */
  lemma {:induction false} SortKeepsOrdered(fs: seq<Field>)
    requires ByPosition(fs)
    ensures SortByPosition(fs) == fs
  {
    if |fs| > 0 {
      SortKeepsOrdered(fs[1..]);
      assert fs == [fs[0]] + fs[1..];
    }
  }

  /** The stored fields of a schema as they are read back: one per input,
      each with a fresh id and the input's name, type, required flag,
      default, position and config (empty when none was sent), ordered by
      position. */
  function MakeFields(inputs: seq<FieldInput>, fieldId: nat -> string): (fs: seq<Field>)
    ensures |fs| == |inputs| && ByPosition(fs)
    ensures multiset(fs) == multiset(NewFields(inputs, fieldId))
  {
    SortByPosition(NewFields(inputs, fieldId))
  }

  /** Inputs listed in position order come back in request order. */
  lemma MakeFieldsKeepsOrderedInputs(inputs: seq<FieldInput>, fieldId: nat -> string)
    requires InputsByPosition(inputs)
    ensures var fs := MakeFields(inputs, fieldId);
      forall i :: 0 <= i < |inputs| ==> Describes(fs[i], inputs[i]) && fs[i].id == fieldId(i)
  {
    SortKeepsOrdered(NewFields(inputs, fieldId));
  }

  /** The inputs a copy creates: every field of the source, in order. */
  function CopyInputs(source: seq<Field>): (inputs: seq<FieldInput>)
    ensures |inputs| == |source|
  {
    seq(|source|, i requires 0 <= i < |source| =>
      FieldInput(source[i].name, source[i].typ, source[i].required, source[i].defaultValue,
                 source[i].position, Some(source[i].config)))
  }

  /** Creating a schema: a name already used in the team is a duplicate
      (checked first); copying from a schema that does not exist is not
      found; otherwise the schema is stored with the caller as creator and
      last updater, and its fields are the copied ones or the given ones. */
  function CreateSchema(db: Db, data: SchemaCreate, teamId: string, createdBy: string, newId: string,
                        fieldId: nat -> string): (r: Result<(Db, Schema), ServiceError>)
    requires newId !in db.schemas
    ensures SchemaNameTaken(db, data.name, teamId, None) ==> r == Err(Duplicate(DuplicateName))
    ensures !SchemaNameTaken(db, data.name, teamId, None) && data.copyFrom.Some? && data.copyFrom.value !in db.schemas
            ==> r == Err(NotFound(SourceNotFound))
    ensures r.Err? ==> r.error in {Duplicate(DuplicateName), NotFound(SourceNotFound)}
    ensures r.Ok? ==>
      var (db', s) := r.value;
      db' == db.(schemas := db.schemas[newId := s])
      && s.id == newId && s.name == data.name && s.description == data.description && s.teamId == teamId
      && s.createdBy == Some(createdBy) && s.updatedBy == Some(createdBy)
      && !SchemaNameTaken(db, data.name, teamId, None)
  {
    if SchemaNameTaken(db, data.name, teamId, None) then Err(Duplicate(DuplicateName))
    else if data.copyFrom.Some? && data.copyFrom.value !in db.schemas then Err(NotFound(SourceNotFound))
    else
      var inputs := if data.copyFrom.Some? then CopyInputs(db.schemas[data.copyFrom.value].fields) else data.fields;
      var s := Schema(newId, data.name, data.description, teamId, Some(createdBy), Some(createdBy),
                      MakeFields(inputs, fieldId));
      Ok((db.(schemas := db.schemas[newId := s]), s))
  }

  /** A copy has the source's fields, each with the same definition and a
      fresh id, read back by position; the request's own fields are
      ignored. A source whose fields are in position order, as every stored
      schema's are read, is copied in its own order. */
  lemma CreateCopiesSource(db: Db, data: SchemaCreate, teamId: string, createdBy: string, newId: string,
                           fieldId: nat -> string)
    requires newId !in db.schemas
    requires data.copyFrom.Some?
    requires CreateSchema(db, data, teamId, createdBy, newId, fieldId).Ok?
    ensures var s := CreateSchema(db, data, teamId, createdBy, newId, fieldId).value.1;
      var source := db.schemas[data.copyFrom.value].fields;
      |s.fields| == |source| && ByPosition(s.fields)
      && multiset(s.fields) == multiset(NewFields(CopyInputs(source), fieldId))
      && (ByPosition(source) ==>
            forall i :: 0 <= i < |source| ==> SameDefinition(s.fields[i], source[i]) && s.fields[i].id == fieldId(i))
  {
    var source := db.schemas[data.copyFrom.value].fields;
    if ByPosition(source) {
      var inputs := CopyInputs(source);
      assert InputsByPosition(inputs) by {
        forall i, j | 0 <= i < j < |inputs| ensures inputs[i].position <= inputs[j].position {
          OrderedPairs(source, i, j);
        }
      }
      MakeFieldsKeepsOrderedInputs(inputs, fieldId);
    }
  }

  /** Adjacent order gives order between any two fields. */
  lemma {:induction false} OrderedPairs(fs: seq<Field>, i: nat, j: nat)
    requires ByPosition(fs) && i <= j < |fs|
    ensures fs[i].position <= fs[j].position
    decreases j - i
  {
    if i < j {
      OrderedPairs(fs, i + 1, j);
    }
  }

  /** Without a source the schema's fields are exactly the given ones, read
      back by position; given in position order, they keep that order. */
  lemma CreateUsesGivenFields(db: Db, data: SchemaCreate, teamId: string, createdBy: string, newId: string,
                              fieldId: nat -> string)
    requires newId !in db.schemas
    requires data.copyFrom.None?
    requires CreateSchema(db, data, teamId, createdBy, newId, fieldId).Ok?
    ensures var s := CreateSchema(db, data, teamId, createdBy, newId, fieldId).value.1;
      |s.fields| == |data.fields| && ByPosition(s.fields)
      && multiset(s.fields) == multiset(NewFields(data.fields, fieldId))
      && (InputsByPosition(data.fields) ==>
            forall i :: 0 <= i < |data.fields| ==> Describes(s.fields[i], data.fields[i]))
  {
    if InputsByPosition(data.fields) {
      MakeFieldsKeepsOrderedInputs(data.fields, fieldId);
    }
  }

  /** The name an update asks for: a given, non-empty name. */
  predicate Renames(data: SchemaUpdate, current: string) {
    data.name.Some? && data.name.value != "" && data.name.value != current
  }

  /** Updating a schema: unknown ids are not found; a new non-empty name
      used by another schema of the team is a duplicate; otherwise the name
      changes only when a different non-empty one is given, the description
      only when one is given, the fields are replaced only when a list is
      given, and the caller always becomes the last updater. */
  function UpdateSchema(db: Db, id: string, data: SchemaUpdate, updatedBy: string, fieldId: nat -> string)
    : (r: Result<(Db, Schema), ServiceError>)
    ensures id !in db.schemas ==> r == Err(NotFound(SchemaNotFound))
    ensures id in db.schemas && Renames(data, db.schemas[id].name) ==>
      (r.Err? <==> SchemaNameTaken(db, data.name.value, db.schemas[id].teamId, Some(id)))
    ensures id in db.schemas && !Renames(data, db.schemas[id].name) ==> r.Ok?
    ensures r.Err? ==> r.error in {NotFound(SchemaNotFound), Duplicate(DuplicateName)}
    ensures r.Ok? ==>
      var (db', s) := r.value;
      var old_ := db.schemas[id];
      db' == db.(schemas := db.schemas[id := s])
      && s.id == old_.id && s.teamId == old_.teamId && s.createdBy == old_.createdBy
      && s.updatedBy == Some(updatedBy)
      && s.name == (if Renames(data, old_.name) then data.name.value else old_.name)
      && s.description == (if data.description.Some? then data.description else old_.description)
      && (data.fields.None? ==> s.fields == old_.fields)
      && (data.fields.Some? ==>
            (|s.fields| == |data.fields.value| && ByPosition(s.fields)
             && multiset(s.fields) == multiset(NewFields(data.fields.value, fieldId))))
  {
    if id !in db.schemas then Err(NotFound(SchemaNotFound))
    else
      var s := db.schemas[id];
      if Renames(data, s.name) && SchemaNameTaken(db, data.name.value, s.teamId, Some(id))
      then Err(Duplicate(DuplicateName))
      else
        var s' := s.(name := if Renames(data, s.name) then data.name.value else s.name,
                     description := if data.description.Some? then data.description else s.description,
                     updatedBy := Some(updatedBy),
                     fields := if data.fields.Some? then MakeFields(data.fields.value, fieldId) else s.fields);
        Ok((db.(schemas := db.schemas[id := s']), s'))
  }

  /** Deleting a schema: unknown ids are not found; otherwise the schema
      and its fields are gone and nothing else changes. */
  function DeleteSchema(db: Db, id: string): (r: Result<Db, ServiceError>)
    ensures id !in db.schemas <==> r == Err(NotFound(SchemaNotFound))
    ensures r.Ok? ==> r.value == db.(schemas := db.schemas - {id}) && id !in r.value.schemas
  {
    if id !in db.schemas then Err(NotFound(SchemaNotFound)) else Ok(db.(schemas := db.schemas - {id}))
  }

  /** Creating and updating keep schema names unique within each team. */
  lemma CreateKeepsNamesUnique(db: Db, data: SchemaCreate, teamId: string, createdBy: string, newId: string,
                               fieldId: nat -> string)
    requires UniqueNames(db) && newId !in db.schemas
    requires CreateSchema(db, data, teamId, createdBy, newId, fieldId).Ok?
    ensures UniqueNames(CreateSchema(db, data, teamId, createdBy, newId, fieldId).value.0)
  {
  }

  lemma UpdateKeepsNamesUnique(db: Db, id: string, data: SchemaUpdate, updatedBy: string, fieldId: nat -> string)
    requires UniqueNames(db)
    requires UpdateSchema(db, id, data, updatedBy, fieldId).Ok?
    ensures UniqueNames(UpdateSchema(db, id, data, updatedBy, fieldId).value.0)
  {
  }

  /** An update that only renames a schema to its own name changes nothing
      but the last updater. */
  lemma RenameToSameNameIsNoOp(db: Db, id: string, updatedBy: string, fieldId: nat -> string)
    requires id in db.schemas
    ensures var r := UpdateSchema(db, id, SchemaUpdate(Some(db.schemas[id].name), None, None), updatedBy, fieldId);
      r.Ok? && r.value.1 == db.schemas[id].(updatedBy := Some(updatedBy))
  {
  }

  /** After a deletion the schema can no longer be found. */
  lemma DeleteThenGetIsNotFound(db: Db, id: string)
    requires DeleteSchema(db, id).Ok?
    ensures GetSchema(DeleteSchema(db, id).value, id) == Err(NotFound(SchemaNotFound))
  {
  }
}

=== FILE: service_errors.dfy ===
/** The errors the dataset-review services raise, each with the HTTP status
    the application answers it with. */
module ServiceErrors {
  datatype ServiceError =
    | NotFound(message: string)
    | Duplicate(message: string)
    | Unauthorized(message: string)
    | Forbidden(message: string)
    | Validation(message: string)
    | BadRequest(message: string)   // a plain HTTP 400 raised by a route
    | Unprocessable                 // a request body that fails its declared constraints
    | ServerError                   // an unhandled exception

  function StatusCode(e: ServiceError): (code: int)
    ensures 400 <= code < 600
    ensures e.NotFound? <==> code == 404
    ensures e.Duplicate? <==> code == 409
    ensures e.Unauthorized? <==> code == 401
    ensures e.Forbidden? <==> code == 403
    ensures e.Unprocessable? <==> code == 422
  {
    match e
    case NotFound(_) => 404
    case Duplicate(_) => 409
    case Unauthorized(_) => 401
    case Forbidden(_) => 403
    case Validation(_) => 400
    case BadRequest(_) => 400
    case Unprocessable => 422
    case ServerError => 500
  }
}

=== FILE: setup_routes.dfy ===
/** First-run setup of the dataset-review application: it is needed while
    no team exists, and completing it creates "My Team" (with its template
    schema) and a first administrator who is signed in at once. It can only
    be completed once. */
module SetupRoutes {
  import opened Common
  import opened ServiceErrors
  import opened ReviewStore
  import opened TeamService
  import opened ReviewAuth

  const FirstTeamName := "My Team"
  const AlreadyDone := "Setup already completed"
  const PasswordMin := 8
  const PasswordMax := 128

  /** The cookie that carries the access token. */
  datatype Cookie = Cookie(name: string, token: Claims, httpOnly: bool, secure: bool, sameSite: string, maxAge: int)

  /** The ids the new records get. */
  datatype SetupIds = SetupIds(teamId: string, schemaId: string, userId: string)

  datatype SetupDone = SetupDone(db: Db, teamId: string, userId: string, cookie: Cookie)

  /** Whether the application still needs its first-run setup. */
  function NeedsSetup(db: Db): (b: bool)
    ensures b <==> db.teams == map[]
  {
    !ExistsAny(db)
  }

  /** Completing the setup: a password of the wrong length is refused as an
      invalid request; an application that already has a team is refused;
      otherwise the first team and an administrator with the lower-cased
      email and no pending reset are created, and a day-long session cookie
      is set for the administrator. */
  function InitializeSetup(db: Db, email: string, password: string, now: int, ids: SetupIds,
                           fieldId: nat -> string, hash: string -> string): (r: Result<SetupDone, ServiceError>)
    requires ids.teamId !in db.teams && ids.schemaId !in db.schemas
    ensures !(PasswordMin <= |password| <= PasswordMax) ==> r == Err(Unprocessable)
    ensures PasswordMin <= |password| <= PasswordMax && !NeedsSetup(db) ==> r == Err(BadRequest(AlreadyDone))
    ensures r.Ok? <==> PasswordMin <= |password| <= PasswordMax && NeedsSetup(db)
    ensures r.Ok? ==>
      var d := r.value;
      d.teamId == ids.teamId && d.userId == ids.userId
      && d.db.teams == map[ids.teamId := Team(ids.teamId, FirstTeamName)]
      && d.db.users == db.users + [User(ids.userId, Lower(email), hash(password), "admin", ids.teamId, false)]
      && d.db.datasets == db.datasets && d.db.schemas.Keys == db.schemas.Keys + {ids.schemaId}
      && (forall id :: id in db.schemas ==> d.db.schemas[id] == db.schemas[id])
      && d.db.schemas[ids.schemaId].name == TemplateName && d.db.schemas[ids.schemaId].teamId == ids.teamId
      && d.db.schemas[ids.schemaId].fields == TemplateFields(fieldId)
      && d.cookie.name == "access_token" && d.cookie.token == CreateAccessToken(ids.userId, false, now)
      && d.cookie.httpOnly && d.cookie.secure && d.cookie.sameSite == "strict"
  {
    if !(PasswordMin <= |password| <= PasswordMax) then Err(Unprocessable)
    else if ExistsAny(db) then Err(BadRequest(AlreadyDone))
    else
      var (db1, team) := CreateTeam(db, FirstTeamName, ids.teamId, ids.schemaId, fieldId);
      var admin := User(ids.userId, Lower(email), hash(password), "admin", team.id, false);
      var cookie := Cookie("access_token", CreateAccessToken(admin.id, false, now), true, true, "strict", 24 * 60 * 60);
      Ok(SetupDone(db1.(users := db1.users + [admin]), team.id, admin.id, cookie))
  }

  /** The cookie lives exactly as long as the token in it. */
  lemma CookieOutlivesNoToken(db: Db, email: string, password: string, now: int, ids: SetupIds,
                              fieldId: nat -> string, hash: string -> string)
    requires ids.teamId !in db.teams && ids.schemaId !in db.schemas
    requires PasswordMin <= |password| <= PasswordMax && NeedsSetup(db)
    ensures var c := InitializeSetup(db, email, password, now, ids, fieldId, hash).value.cookie;
      c.token.iat + c.maxAge == c.token.exp
  {
  }

  /** Setup can only be completed once: afterwards it is no longer needed
      and any further attempt is refused. */
  lemma SetupRunsOnce(db: Db, email: string, password: string, now: int, ids: SetupIds, fieldId: nat -> string,
                      hash: string -> string, email2: string, password2: string, now2: int, ids2: SetupIds)
    requires ids.teamId !in db.teams && ids.schemaId !in db.schemas
    requires PasswordMin <= |password| <= PasswordMax && NeedsSetup(db)
    requires ids2.teamId != ids.teamId && ids2.schemaId != ids.schemaId && ids2.schemaId !in db.schemas
    ensures var db' := InitializeSetup(db, email, password, now, ids, fieldId, hash).value.db;
      !NeedsSetup(db')
      && InitializeSetup(db', email2, password2, now2, ids2, fieldId, hash).Err?
  {
    var db' := InitializeSetup(db, email, password, now, ids, fieldId, hash).value.db;
    assert ids.teamId in db'.teams;
  }

  /** The first administrator can sign in with the setup password (when the
      hash function and the checker agree) and is an administrator of the
      new team with no reset pending. */
  lemma FirstAdminSignsIn(db: Db, email: string, password: string, now: int, ids: SetupIds, fieldId: nat -> string,
                          hash: string -> string, verify: (string, string) -> bool, rememberMe: bool, later: int)
    requires ids.teamId !in db.teams && ids.schemaId !in db.schemas
    requires UsersHaveTeams(db)
    requires verify(password, hash(password))
    requires PasswordMin <= |password| <= PasswordMax && NeedsSetup(db)
    ensures var d := InitializeSetup(db, email, password, now, ids, fieldId, hash).value;
      var r := Login(d.db, email, password, rememberMe, later, verify);
      r.Ok? && r.value.0.id == ids.userId && r.value.0.role == "admin" && r.value.0.teamId == d.teamId
      && !r.value.0.mustResetPassword
  {
  }
}

=== FILE: team_service.dfy ===
/** Team management: a new team comes with a ready-made "Boolean Template"
    schema of three fields, and the application knows it has been set up
    once any team exists. */
module TeamService {
  import opened Common
  import opened Labels
  import opened ServiceErrors
  import opened ReviewStore

  const TeamNotFound := "Team not found"
  const TemplateName := "Boolean Template"
  const TemplateDescription :=
    "Default template for boolean classification with predicted value, name, and description"

  /** The template's fields, with the ids the caller supplies: a required
      boolean `predicted`, a required text `name` and an optional multi-line
      text `description`, at positions 0, 1 and 2. */
  function TemplateFields(fieldId: nat -> string): (fs: seq<Field>)
    ensures |fs| == 3
    ensures forall i :: 0 <= i < 3 ==> fs[i].position == i && fs[i].id == fieldId(i) && fs[i].defaultValue.None?
    ensures fs[0].name == "predicted" && fs[0].typ == "boolean"
    ensures fs[1].name == "name" && fs[1].typ == "text"
    ensures fs[2].name == "description" && fs[2].typ == "text"
  {
    [Field(fieldId(0), "predicted", "boolean", true, None, 0, []),
     Field(fieldId(1), "name", "text", true, None, 1, []),
     Field(fieldId(2), "description", "text", false, None, 2, [("multiline", Bool(true))])]
  }

  /** Looking a team up by id. */
  function GetTeam(db: Db, id: string): (r: Result<Team, ServiceError>)
    ensures id !in db.teams <==> r == Err(NotFound(TeamNotFound))
    ensures r.Ok? ==> r.value == db.teams[id]
  {
    if id in db.teams then Ok(db.teams[id]) else Err(NotFound(TeamNotFound))
  }

  /** Creating a team stores it and the template schema, which has no
      creator; nothing else changes. */
  function CreateTeam(db: Db, name: string, teamId: string, schemaId: string, fieldId: nat -> string)
    : (r: (Db, Team))
    requires teamId !in db.teams && schemaId !in db.schemas
    ensures r.1 == Team(teamId, name)
    ensures r.0.teams == db.teams[teamId := r.1] && r.0.users == db.users && r.0.datasets == db.datasets
    ensures r.0.schemas.Keys == db.schemas.Keys + {schemaId}
    ensures forall id :: id in db.schemas ==> r.0.schemas[id] == db.schemas[id]
    ensures var s := r.0.schemas[schemaId];
      s.id == schemaId && s.name == TemplateName && s.description == Some(TemplateDescription)
      && s.teamId == teamId && s.createdBy.None? && s.updatedBy.None? && s.fields == TemplateFields(fieldId)
  {
    var s := Schema(schemaId, TemplateName, Some(TemplateDescription), teamId, None, None, TemplateFields(fieldId));
    (db.(teams := db.teams[teamId := Team(teamId, name)], schemas := db.schemas[schemaId := s]), Team(teamId, name))
  }

  /** The template's required fields are exactly `predicted` and `name`,
      and only `description` is multi-line. */
  lemma TemplateRequiredFields(fieldId: nat -> string)
    ensures var fs := TemplateFields(fieldId);
      (forall i :: 0 <= i < |fs| ==> (fs[i].required <==> fs[i].name in {"predicted", "name"}))
      && (forall i :: 0 <= i < |fs| ==> (fs[i].config != [] <==> fs[i].name == "description"))
  {
  }

  /** Whether any team exists. */
  function ExistsAny(db: Db): (b: bool)
    ensures b <==> exists id :: id in db.teams
  {
    |db.teams| > 0
  }

  /** After a team is created some team exists, and the new team owns
      exactly one schema when it did not own any before. */
  lemma CreatedTeamOwnsTemplate(db: Db, name: string, teamId: string, schemaId: string, fieldId: nat -> string)
    requires teamId !in db.teams && schemaId !in db.schemas
    requires forall id :: id in db.schemas ==> db.schemas[id].teamId != teamId
    ensures var db' := CreateTeam(db, name, teamId, schemaId, fieldId).0;
      ExistsAny(db') && (forall id :: id in db'.schemas && db'.schemas[id].teamId == teamId <==> id == schemaId)
  {
    var db' := CreateTeam(db, name, teamId, schemaId, fieldId).0;
    assert teamId in db'.teams;
  }

  /** Creating a team keeps names unique within each team: the template is
      the only schema of the new team. */
  lemma CreateTeamKeepsNamesUnique(db: Db, name: string, teamId: string, schemaId: string, fieldId: nat -> string)
    requires teamId !in db.teams && schemaId !in db.schemas
    requires forall id :: id in db.schemas ==> db.schemas[id].teamId != teamId
    requires UniqueNames(db)
    ensures UniqueNames(CreateTeam(db, name, teamId, schemaId, fieldId).0)
  {
    var db' := CreateTeam(db, name, teamId, schemaId, fieldId).0;
    forall a, b | a in db'.schemas && b in db'.schemas && a != b && db'.schemas[a].teamId == db'.schemas[b].teamId
      ensures db'.schemas[a].name != db'.schemas[b].name
    {
      assert a != schemaId && b != schemaId;
    }
  }
}

=== FILE: upload_dialog.dfy ===
/** The single-image upload dialog of the web client: the label selections
    it starts with, the selections it actually sends, the check that every
    label has a value before an image is added, the upload outcomes, and the
    file name it gives a downloaded image. */
module UploadDialog {
  import opened Common
  import opened Records
  import opened Labels

  // ---------------------------------------------------------------------
  // Label selections

  /** The starting selection for one label: its first listed value when it
      lists any, `false` for a boolean without values, otherwise unset. */
  function DefaultSelection(d: LabelDef): (o: Option<Value>)
    ensures o.Some? ==> (|d.possibleValues| > 0 && o.value == Str(d.possibleValues[0]))
                        || (|d.possibleValues| == 0 && d.kind.Boolean? && o.value == Bool(false))
    ensures o.None? <==> |d.possibleValues| == 0 && !d.kind.Boolean?
  {
    if |d.possibleValues| > 0 then Some(Str(d.possibleValues[0]))
    else if d.kind.Boolean? then Some(Bool(false))
    else None
  }

  /** The selections the dialog starts with once the dataset's labels have
      loaded, one assignment per label in order. */
  function DefaultSelections(labels: seq<LabelDef>): (r: Rec<Value>)
    ensures UniqueKeys(r)
    decreases |labels|
  {
    if |labels| == 0 then []
    else
      var n := |labels| - 1;
      var prev := DefaultSelections(labels[..n]);
      var o := DefaultSelection(labels[n]);
      if o.Some? then SetUnique(prev, labels[n].name, o.value); Set(prev, labels[n].name, o.value) else prev
  }

  /** Labels with pairwise different names. */
  predicate DistinctNames(labels: seq<LabelDef>) {
    forall i, j :: 0 <= i < j < |labels| ==> labels[i].name != labels[j].name
  }

  /** With distinct names, each label starts at its own default and no other
      key is selected. */
  lemma {:induction false} DefaultSelectionsOf(labels: seq<LabelDef>, k: string)
    requires DistinctNames(labels)
    ensures (forall i :: 0 <= i < |labels| ==> labels[i].name != k) ==> Get(DefaultSelections(labels), k).None?
    ensures forall i :: 0 <= i < |labels| && labels[i].name == k ==>
              Get(DefaultSelections(labels), k) == DefaultSelection(labels[i])
    decreases |labels|
  {
    if |labels| > 0 {
      var n := |labels| - 1;
      var init := labels[..n];
      DefaultSelectionsOf(init, k);
      var prev := DefaultSelections(init);
      var o := DefaultSelection(labels[n]);
      if o.Some? {
        GetSet(prev, labels[n].name, o.value, k);
      }
      assert forall i :: 0 <= i < n ==> init[i] == labels[i];
    }
  }

  /** What the dialog sends for each label: the selection, with a boolean
      label that is unset or `null` read as `false`. Other entries stay. */
  function EffectiveSelections(sel: Rec<Value>, defs: Rec<LabelDef>): (r: Rec<Value>)
    decreases |defs|
  {
    if |defs| == 0 then sel
    else
      var n := |defs| - 1;
      var prev := EffectiveSelections(sel, defs[..n]);
      var cur := Get(prev, defs[n].0);
      if defs[n].1.kind.Boolean? && (cur.None? || cur.value == Null) then Set(prev, defs[n].0, Bool(false))
      else prev
  }

  /** A label is unset or `null`. */
  predicate Unset(o: Option<Value>) {
    o.None? || o.value == Null
  }

  /** The effective selection of a boolean label that was unset is `false`;
      every other key reads what the selections read. */
  lemma {:induction false} EffectiveSelectionsOf(sel: Rec<Value>, defs: Rec<LabelDef>, k: string)
    requires UniqueKeys(defs)
    ensures var r := EffectiveSelections(sel, defs);
      if k in Keys(defs) && Get(defs, k).value.kind.Boolean? && Unset(Get(sel, k))
      then Get(r, k) == Some(Bool(false))
      else Get(r, k) == Get(sel, k)
    decreases |defs|
  {
    if |defs| > 0 {
      var n := |defs| - 1;
      var init := defs[..n];
      var last := defs[n];
      LastKeyFresh(defs);
      EffectiveSelectionsOf(sel, init, k);
      GetInit(defs, k);
      var prev := EffectiveSelections(sel, init);
      if last.1.kind.Boolean? && Unset(Get(prev, last.0)) {
        GetSet(prev, last.0, Bool(false), k);
      }
    }
  }

  /** The labels that still need a value: every non-boolean label whose
      effective selection is falsy. */
  function MissingLabels(defs: Rec<LabelDef>, eff: Rec<Value>): (m: seq<(string, LabelDef)>)
    ensures forall e :: e in m <==> e in defs && !e.1.kind.Boolean? && !(Get(eff, e.0).Some? && Get(eff, e.0).value.Truthy())
  {
    Filter(defs, (e: (string, LabelDef)) => !e.1.kind.Boolean? && !(Get(eff, e.0).Some? && Get(eff, e.0).value.Truthy()))
  }

  // ---------------------------------------------------------------------
  // Adding the previewed image

  /** The server's answer to an upload. */
  datatype UploadResponse<I> = Created(image: I) | Conflict | Failed(status: int)

  /** The outcome of "add to dataset": an error message shown in the dialog,
      nothing at all, or the request sent together with what came of it. */
  datatype AddOutcome<I> =
    | AddError(message: string)
    | NothingSent
    | Added(labels: seq<LabelUpdate>, isLabeled: string, image: I)
    | SentButRejected(labels: seq<LabelUpdate>, message: string)

  const SelectAllMessage := "Please select a value for all labels before uploading."
  const ExistsMessage := "Image already exists in this dataset."
  const AddFailedMessage := "Failed to add image to dataset"

  /** The labels sent with an added image: one entry per dataset label,
      holding its effective selection. */
  function AddPayload(defs: Rec<LabelDef>, eff: Rec<Value>): (u: seq<LabelUpdate>)
    requires forall i :: 0 <= i < |defs| ==> Get(eff, defs[i].0).Some?
    ensures |u| == |defs|
    ensures forall i :: 0 <= i < |defs| ==> u[i].name == defs[i].0 && Some(u[i].value) == Get(eff, defs[i].0)
  {
    seq(|defs|, i requires 0 <= i < |defs| => LabelUpdate(defs[i].0, Get(eff, defs[i].0).value))
  }

  /** Once no label is missing, every dataset label has an effective value. */
  lemma NothingMissingAllSet(defs: Rec<LabelDef>, sel: Rec<Value>, i: int)
    requires UniqueKeys(defs) && 0 <= i < |defs|
    requires MissingLabels(defs, EffectiveSelections(sel, defs)) == []
    ensures Get(EffectiveSelections(sel, defs), defs[i].0).Some?
  {
    var eff := EffectiveSelections(sel, defs);
    GetUnique(defs, i);
    assert defs[i].0 in Keys(defs);
    EffectiveSelectionsOf(sel, defs, defs[i].0);
    if !defs[i].1.kind.Boolean? {
      assert defs[i] !in MissingLabels(defs, eff);
    }
  }

  /** `handleAddToDataset`: refuses with a message while a non-boolean
      label lacks a value; sends nothing without an image or a dataset id;
      otherwise uploads the image with every label and `is_labeled` "true".
      A 409 is never a success. */
  function AddToDataset<I>(hasFile: bool, datasetId: string, defs: Rec<LabelDef>, sel: Rec<Value>,
                           respond: seq<LabelUpdate> -> UploadResponse<I>): (r: AddOutcome<I>)
    requires UniqueKeys(defs)
    ensures var eff := EffectiveSelections(sel, defs);
      (r.AddError? <==> MissingLabels(defs, eff) != [])
      && (r.AddError? ==> r.message == SelectAllMessage)
      && (r.NothingSent? <==> MissingLabels(defs, eff) == [] && (!hasFile || datasetId == ""))
    ensures r.Added? || r.SentButRejected? ==>
      |r.labels| == |defs|
      && (forall i :: 0 <= i < |defs| ==> r.labels[i].name == defs[i].0 && r.labels[i].value != Null
                                           && (!defs[i].1.kind.Boolean? ==> r.labels[i].value.Truthy()))
      && (r.Added? <==> respond(r.labels).Created?)
    ensures r.SentButRejected? && respond(r.labels).Conflict? ==> r.message == ExistsMessage
    ensures r.Added? ==> r.isLabeled == "true" && r.image == respond(r.labels).image
  {
    var eff := EffectiveSelections(sel, defs);
    if MissingLabels(defs, eff) != [] then AddError(SelectAllMessage)
    else if !hasFile || datasetId == "" then NothingSent
    else
      var labels := AddPayloadChecked(defs, sel);
      match respond(labels)
      case Created(img) => Added(labels, "true", img)
      case Conflict => SentButRejected(labels, ExistsMessage)
      case Failed(_) => SentButRejected(labels, AddFailedMessage)
  }

  /** The payload once nothing is missing: every value is set, non-null, and
      truthy for a non-boolean label. */
  function AddPayloadChecked(defs: Rec<LabelDef>, sel: Rec<Value>): (u: seq<LabelUpdate>)
    requires UniqueKeys(defs)
    requires MissingLabels(defs, EffectiveSelections(sel, defs)) == []
    ensures |u| == |defs|
    ensures forall i :: 0 <= i < |defs| ==> (u[i].name == defs[i].0 && u[i].value != Null
                                           && (!defs[i].1.kind.Boolean? ==> u[i].value.Truthy()))
    ensures forall i :: 0 <= i < |defs| ==> Some(u[i].value) == Get(EffectiveSelections(sel, defs), defs[i].0)
  {
    var eff := EffectiveSelections(sel, defs);
    forall i | 0 <= i < |defs|
      ensures Get(eff, defs[i].0).Some?
      ensures Get(eff, defs[i].0).value != Null
      ensures !defs[i].1.kind.Boolean? ==> Get(eff, defs[i].0).value.Truthy()
    {
      NothingMissingAllSet(defs, sel, i);
      PayloadValueSet(defs, sel, i);
    }
    AddPayload(defs, eff)
  }

  /** A label's effective value once nothing is missing is not `null`, and a
      non-boolean one is truthy. */
  lemma PayloadValueSet(defs: Rec<LabelDef>, sel: Rec<Value>, i: int)
    requires UniqueKeys(defs) && 0 <= i < |defs|
    requires MissingLabels(defs, EffectiveSelections(sel, defs)) == []
    ensures var o := Get(EffectiveSelections(sel, defs), defs[i].0);
      o.Some? && o.value != Null && (!defs[i].1.kind.Boolean? ==> o.value.Truthy())
  {
    var eff := EffectiveSelections(sel, defs);
    NothingMissingAllSet(defs, sel, i);
    GetUnique(defs, i);
    assert defs[i].0 in Keys(defs);
    EffectiveSelectionsOf(sel, defs, defs[i].0);
    if !defs[i].1.kind.Boolean? {
      assert defs[i] !in MissingLabels(defs, eff);
    }
  }

  /** The labels `uploadImageToApi` attaches: only when asked to and when
      some selection exists, one `{name, value}` per dataset label with its
      raw selection (`None` where the label has none). The dialog defines
      `uploadImageToApi` but none of its handlers calls it; the upload the
      dialog performs is `AddToDataset`. */
  function UploadLabels(withLabels: bool, defs: Rec<LabelDef>, sel: Rec<Value>)
    : (o: Option<seq<(string, Option<Value>)>>)
    ensures o.Some? <==> withLabels && |sel| > 0
    ensures o.Some? ==> (|o.value| == |defs|
      && forall i :: 0 <= i < |defs| ==> o.value[i] == (defs[i].0, Get(sel, defs[i].0)))
  {
    if withLabels && |sel| > 0 then Some(seq(|defs|, i requires 0 <= i < |defs| => (defs[i].0, Get(sel, defs[i].0))))
    else None
  }

  /** `uploadImageToApi`'s result: the stored image, or nothing when the
      dataset id is missing, the image already exists or the upload fails.
      Like `UploadLabels`, this models a helper the dialog defines but does
      not call. */
  function UploadResult<I>(datasetId: string, response: UploadResponse<I>): (o: Option<I>)
    ensures o.Some? <==> datasetId != "" && response.Created?
    ensures o.Some? ==> o.value == response.image
  {
    if datasetId == "" then None
    else match response
      case Created(img) => Some(img)
      case Conflict => None
      case Failed(_) => None
  }

  // ---------------------------------------------------------------------
  // File names

  /** The index of the last '/' in a path, or -1 when there is none. */
  function LastSlash(path: string): (r: int)
    ensures -1 <= r < |path|
    ensures r >= 0 ==> path[r] == '/'
    ensures forall j :: r < j < |path| ==> path[j] != '/'
    decreases |path|
  {
    if |path| == 0 then -1
    else if path[|path| - 1] == '/' then |path| - 1
    else LastSlash(path[..|path| - 1])
  }

  /** The text after the last '/' of a path (`pathname.split('/')` and its
      last element): a suffix of the path without any '/', preceded by one
      unless it is the whole path. */
  function LastSegment(path: string): (s: string)
    ensures '/' !in s
    ensures |s| <= |path| && path[|path| - |s|..] == s
    ensures |s| < |path| ==> path[|path| - |s| - 1] == '/'
  {
    path[LastSlash(path) + 1..]
  }

  /** The name a fetched image is stored under: the URL's last path segment
      when it contains a dot, else `fallback` ("image" when downloading,
      "image.jpg" for a preview). `pathname` is `None` when the URL does not
      parse. */
  function FileName(pathname: Option<string>, fallback: string): (f: string)
    ensures f == fallback || (pathname.Some? && '.' in f && '/' !in f && |f| <= |pathname.value|
                              && f == pathname.value[|pathname.value| - |f|..])
    ensures pathname.Some? && '.' in LastSegment(pathname.value) ==> f == LastSegment(pathname.value)
    ensures pathname.None? ==> f == fallback
  {
    if pathname.Some? && '.' in LastSegment(pathname.value) then LastSegment(pathname.value) else fallback
  }

  /** A path ending in a dotted segment yields exactly that segment. */
  lemma FileNameOfDottedPath(dir: string, file: string, fallback: string)
    requires '/' !in file && '.' in file
    ensures FileName(Some(dir + "/" + file), fallback) == file
  {
    var p := dir + "/" + file;
    assert p[|dir|] == '/';
    assert forall j :: |dir| < j < |p| ==> p[j] == file[j - |dir| - 1];
    assert LastSlash(p) == |dir|;
    assert LastSegment(p) == file;
  }
}

=== FILE: user_service.dfy ===
/** User management inside a team: creating a user with a temporary
    password, changing a role, deleting a user (never oneself, never a
    team's last administrator) and resetting a password to a new temporary
    one. Emails are compared and stored lower-cased. */
module UserService {
  import opened Common
  import opened ServiceErrors
  import opened ReviewStore

  /** The two roles a user can have. */
  const AdminRole := "admin"
  const UserRole := "user"

  const UserNotFound := "User not found"
  const DuplicateEmail := "A user with this email already exists"
  const CannotDeleteSelf := "Cannot delete your own account"
  const CannotDeleteLastAdmin := "Cannot delete the last admin"

  /** Looking a user up by id. */
  function GetUser(db: Db, id: string): (r: Result<User, ServiceError>)
    ensures r.Err? <==> (forall i :: 0 <= i < |db.users| ==> db.users[i].id != id)
    ensures r.Err? ==> r.error == NotFound(UserNotFound)
    ensures r.Ok? ==> r.value in db.users && r.value.id == id
  {
    match FindUser(db, id)
    case None => Err(NotFound(UserNotFound))
    case Some(i) => Ok(db.users[i])
  }

  /** Creating a user: an email some user already has, ignoring case, is a
      duplicate; otherwise the user is stored with the email lower-cased,
      the hash of a fresh temporary password and a pending password reset,
      and the temporary password is handed back. */
  function CreateUser(db: Db, email: string, role: string, teamId: string, newId: string, tempPassword: string,
                      hash: string -> string): (r: Result<(Db, User, string), ServiceError>)
    ensures r.Err? <==> exists i :: 0 <= i < |db.users| && db.users[i].email == Lower(email)
    ensures r.Err? ==> r.error == Duplicate(DuplicateEmail)
    ensures r.Ok? ==>
      var (db', u, password) := r.value;
      db' == db.(users := db.users + [u]) && password == tempPassword
      && u == User(newId, Lower(email), hash(tempPassword), role, teamId, true)
  {
    match FindEmail(db, email)
    case Some(_) => Err(Duplicate(DuplicateEmail))
    case None =>
      var u := User(newId, Lower(email), hash(tempPassword), role, teamId, true);
      Ok((db.(users := db.users + [u]), u, tempPassword))
  }

  /** Once a user is created, any spelling of the same email that differs
      only in letter case is refused. */
  lemma CreateRefusesSameEmailAgain(db: Db, email: string, email2: string, role: string, teamId: string,
                                    id1: string, id2: string, p1: string, p2: string, hash: string -> string)
    requires CreateUser(db, email, role, teamId, id1, p1, hash).Ok?
    requires Lower(email2) == Lower(email)
    ensures var db' := CreateUser(db, email, role, teamId, id1, p1, hash).value.0;
      CreateUser(db', email2, role, teamId, id2, p2, hash) == Err(Duplicate(DuplicateEmail))
  {
    var db' := CreateUser(db, email, role, teamId, id1, p1, hash).value.0;
    assert db'.users[|db.users|].email == Lower(email2);
  }

  /** Changing a user's role: unknown ids are not found; a given role
      replaces the old one and nothing else about the user changes. */
  function UpdateUser(db: Db, id: string, role: Option<string>): (r: Result<(Db, User), ServiceError>)
    ensures r.Err? <==> (forall i :: 0 <= i < |db.users| ==> db.users[i].id != id)
    ensures r.Err? ==> r.error == NotFound(UserNotFound)
    ensures r.Ok? ==>
      var (db', u) := r.value;
      var i := FindUser(db, id).value;
      db' == db.(users := db.users[i := u])
      && u == db.users[i].(role := role.GetOr(db.users[i].role))
  {
    match FindUser(db, id)
    case None => Err(NotFound(UserNotFound))
    case Some(i) =>
      var u := db.users[i].(role := role.GetOr(db.users[i].role));
      Ok((db.(users := db.users[i := u]), u))
  }

  /** Deleting a user: unknown ids are not found; nobody may delete
      themselves; an administrator may only be deleted while the team has
      another one; otherwise exactly that user is removed. */
  function DeleteUser(db: Db, id: string, deletedBy: string): (r: Result<Db, ServiceError>)
    ensures (forall i :: 0 <= i < |db.users| ==> db.users[i].id != id) ==> r == Err(NotFound(UserNotFound))
    ensures FindUser(db, id).Some? && id == deletedBy ==> r == Err(Forbidden(CannotDeleteSelf))
    ensures FindUser(db, id).Some? && id != deletedBy ==>
      var u := db.users[FindUser(db, id).value];
      (u.role == AdminRole && AdminCount(db.users, u.teamId) <= 1 ==> r == Err(Forbidden(CannotDeleteLastAdmin)))
      && (!(u.role == AdminRole && AdminCount(db.users, u.teamId) <= 1) ==>
            r == Ok(db.(users := RemoveAt(db.users, FindUser(db, id).value))))
  {
    match FindUser(db, id)
    case None => Err(NotFound(UserNotFound))
    case Some(i) =>
      var u := db.users[i];
      if id == deletedBy then Err(Forbidden(CannotDeleteSelf))
      else if u.role == AdminRole && AdminCount(db.users, u.teamId) <= 1 then Err(Forbidden(CannotDeleteLastAdmin))
      else Ok(db.(users := RemoveAt(db.users, i)))
  }

  /** A team that has an administrator still has one after any successful
      deletion. */
  lemma DeleteKeepsAnAdmin(db: Db, id: string, deletedBy: string, teamId: string)
    requires AdminCount(db.users, teamId) > 0
    requires DeleteUser(db, id, deletedBy).Ok?
    ensures AdminCount(DeleteUser(db, id, deletedBy).value.users, teamId) > 0
  {
    var i := FindUser(db, id).value;
    var u := db.users[i];
    AdminCountRemove(db.users, teamId, i);
    if u.teamId == teamId && u.role == AdminRole {
      assert AdminCount(db.users, u.teamId) > 1;
    }
  }

  /** Resetting a user's password: unknown ids are not found; otherwise the
      user's password becomes a fresh temporary one that must be changed at
      the next sign-in, and the temporary password is handed back. */
  function ResetUserPassword(db: Db, id: string, tempPassword: string, hash: string -> string)
    : (r: Result<(Db, string), ServiceError>)
    ensures r.Err? <==> (forall i :: 0 <= i < |db.users| ==> db.users[i].id != id)
    ensures r.Err? ==> r.error == NotFound(UserNotFound)
    ensures r.Ok? ==>
      var i := FindUser(db, id).value;
      r.value.1 == tempPassword
      && r.value.0 == db.(users := db.users[i := db.users[i].(passwordHash := hash(tempPassword), mustResetPassword := true)])
  {
    match FindUser(db, id)
    case None => Err(NotFound(UserNotFound))
    case Some(i) =>
      Ok((db.(users := db.users[i := db.users[i].(passwordHash := hash(tempPassword), mustResetPassword := true)]),
          tempPassword))
  }
}
